=== FILE: README.md ===
# endas: a Dafny model of its discrete core

endas is a data-assimilation library: ensemble Kalman filters and smoothers in
C++, with a Python port of parts of it. This project models the bookkeeping
that drives those algorithms and proves properties of it. Numerics are left
abstract: ensemble transforms, model propagation and random sampling are
function parameters.

The model covers:

- **Fixed-lag ensemble Kalman smoother** (`EnsembleSmoother`, `EnsembleSmoothing`, `SmootherLayout`).
  - The `beginSmoother / beginAnalysis / assimilate / endAnalysis / endSmoother` protocol and its assertions.
  - Localization: the layout of local domains in the augmented ensemble, and one N by N transform slot per non-empty domain.
  - Composition of the per-batch transforms.
  - The lagged-smoother window. It decides which cached step record is multiplied, handed to the result callback, released or marked dirty.
  - The forgetting factor.
- **Full-rank Kalman smoother** (`KalmanSmoother`).
  - Its record stack: which arrays are cached and when they are released.
  - The order in which results reach the callback.
  - An invariant that every reachable state keeps its records' handles live.
- **Array caches.**
  - The C++ handle arena (`MemoryArrayCache`, including `ArrayCache::pop`).
  - The Python dictionary cache (`PyArrayCache`).
  - The Python two-tier LRU cache (`LruArrayCache`), with its memory and retired size accounting and its eviction loop.
- **Localization geometry.**
  - The default index-based subset access of domains (`Domains`).
  - Dense and mapped grids (`GridDomains`) and their block tiling (`GridPartitionings`).
  - The one-element-per-domain generic domain and its point query (`GenericDomains`).
  - The Python `Region2d` and `BBox` boxes (`Regions`, `BBoxes`).
- **Observation plumbing.**
  - The simple observation manager's fetch cursor (`ObservationManagers`).
  - Matrix, custom and strided (QG example) observation operators and their subsets (`ObservationOperators`).
  - The diagonal covariance (`DiagonalCovariances`).
- **Utilities.**
  - Ensemble anomalies and inflation (`Ensemble`).
  - `makeMatrix` (`LinAlg`).
  - Exception messages (`Exceptions`).
  - The singular-value cutoff search of second-order sampling (`SecondOrderSampling`).

Every object is an immutable datatype and every operation a function
returning a `Result`. A failed `ENDAS_ASSERT` is
`Fail(AssertionError(expr))`, as in a build with `NDEBUG` defined, where the
macro throws `AssertionError`. Python `KeyError`s, `std::invalid_argument`
and the library's own `NotImplementedError` and `NotSupportedError` each
have an error value of their own. An out-of-range Eigen index or a shape
mismatch in an Eigen product or block is undefined behaviour in that build;
the model returns an error there instead (see "## Left out"). Matrices are
sequences of rows over `real`. Step indices, sizes and handles are
unbounded integers.

Behaviour of the code that the model follows:

- A finishing lagged-smoother pass (`endSmoother`) visits only the records
  inside the lag window, newest first, not every record oldest first.
- `KalmanSmoother::endSmoother` ignores the lag's value. It smooths every
  record (a fixed-interval smoother).
- The ensemble smoother's record list never shrinks. Only the cache entries
  of records that have been handed out are removed.
- A global `fetchObservations` moves the observations out of the manager,
  so a second global fetch returns an empty batch.

## Model

| member | source | states |
|---|---|---|
| BBoxes.Broadcast | endas/localization/bbox.py:30-31 | assigning into a bound of length n accepts an array of length n or a single value repeated n times; any other length is a ValueError |
| BBoxes.InitBound | endas/localization/bbox.py:28-31 | a bound that is not given stays n zeros; a given one is broadcast into it |
| BBoxes.Build | endas/localization/bbox.py:27-31 | allocating the box succeeds exactly when both bounds can be assigned, and then holds them |
| BBoxes.New | endas/localization/bbox.py:21-31 | min and end must be given together with equal lengths (assertion otherwise); with no dimension and no bounds the call is a TypeError; the dimension is ndim or else len(min); bounds not given are zeros |
| BBoxes.CopyAsWritten | endas/localization/bbox.py:47-53 | copy as written evaluates to None for every box |
| BBoxes.Copy | endas/localization/bbox.py:47-53 | the corrected copy has the same dimension and contains exactly the points the original contains |
| BBoxes.Inflate | endas/localization/bbox.py:55-58 | inflating by d keeps the dimension, lowers every lower bound by d and raises every upper bound by d, so every extent grows by 2d |
| BBoxes.Clip | endas/localization/bbox.py:66-69 | clipping succeeds exactly when both bounds broadcast to the box's dimension; it keeps the dimension, and each lower bound becomes the larger of itself and the broadcast min, each upper bound the smaller of itself and the broadcast end |
| BBoxes.Intersect | endas/localization/bbox.py:61-63 | for boxes of equal dimension a point lies in the intersection exactly when it lies in both boxes |
| BBoxes.Size | endas/localization/bbox.py:71-72 | the size has one entry per axis and min plus size is end on every axis |
| BBoxes.ClipIdempotent | endas/localization/bbox.py:66-69 | clipping a second time to the same bounds changes nothing |
| BBoxes.InflateCompose | endas/localization/bbox.py:55-58 | inflating by zero is the identity and two inflations add up |
| BBoxes.CopyLosesBox | endas/localization/bbox.py:47-53 | the copy as written differs from the intended copy, which returns the box itself |
| Region.Copy | endas/localization/region.py:21-22 | the copy is equal to the original: same four bounds, and so exactly the same points |
| Region.Inflate | endas/localization/region.py:24-29 | inflating by (dx, dy) grows the height by 2dy and the width by 2dx and keeps the centre |
| Region.Clip | endas/localization/region.py:31-36 | each lower bound becomes the larger of the region's and the clipping bound, each upper bound the smaller; a point lies in the clipped region exactly when it lies in the region and in the clipping bounds |
| Region.Area | endas/localization/region.py:38-43 | the area is the product of the height and the width; it is non-negative when no side is reversed, and zero when a side has zero length |
| Region.InflateCompose | endas/localization/region.py:24-29 | inflating by zero is the identity and two inflations add up |
| Region.ClipIdempotent | endas/localization/region.py:31-36 | clipping a second time to the same bounds changes nothing |
| Region.ClipToSelf | endas/localization/region.py:31-36 | clipping a region to its own bounds leaves it unchanged |
| Region.ClipShrinks | endas/localization/region.py:31-36 | clipping never lengthens a side of a non-empty region |
| Region.AreaOfInflate | endas/localization/region.py:24-43 | the area of a region inflated by (dx, dy) is (height + 2dy) times (width + 2dx) |
| Region.ClipAreaShrinks | endas/localization/region.py:31-43 | clipping a region with non-reversed sides gives an area between zero and the original's when the clipped sides are not reversed, and a non-positive area when exactly one of them is |
| DiagonalCovariances.Recip | src/DA/DiagonalCovariance.cpp:38 | the element-wise reciprocal has the input's length, multiplies each non-zero entry to one, and is zero exactly where the input is zero |
| DiagonalCovariances.MakeAsWritten | src/DA/DiagonalCovariance.cpp:10-17 | the constructor as written needs a non-empty diagonal; from an inverse it keeps the size but neither array, otherwise it stands for the given diagonal |
| DiagonalCovariances.Make | src/DA/DiagonalCovariance.cpp:10-17 | the corrected constructor needs a non-empty diagonal and stands for the given diagonal, or for its reciprocal when the argument is the inverse |
| DiagonalCovariances.Diagonal | src/DA/DiagonalCovariance.cpp:34-41 | reading the diagonal returns the covariance's diagonal, caches it, and leaves the covariance it stands for unchanged |
| DiagonalCovariances.InverseDiagonal | src/DA/DiagonalCovariance.cpp:43-50 | reading the inverse diagonal returns the reciprocal of the diagonal, caches it, and leaves the covariance unchanged |
| DiagonalCovariances.DiagTimesDense | src/DA/DiagonalCovariance.cpp:67-71 | scaling by a diagonal needs one entry per row and multiplies row i by entry i |
| DiagonalCovariances.Solve | src/DA/DiagonalCovariance.cpp:67-71 | solve needs one row of b per diagonal entry and divides row i of b by the i-th diagonal entry |
| DiagonalCovariances.AddTo | src/DA/DiagonalCovariance.cpp:74-88 | addTo asserts that x is size by size (rows checked first) and adds mult times the diagonal to x's diagonal, leaving the other entries |
| DiagonalCovariances.ToMatrixView | src/DA/DiagonalCovariance.cpp:91-98 | the dense view asserts a size by size output and is the diagonal matrix of the covariance |
| DiagonalCovariances.DiagonalMemoized | src/DA/DiagonalCovariance.cpp:34-50 | reading either diagonal a second time returns the same value and state as the first read |
| DiagonalCovariances.DiagonalsReciprocal | src/DA/DiagonalCovariance.cpp:34-50 | the diagonal and the inverse diagonal are each other's reciprocal |
| DiagonalCovariances.MakeFromInverse | src/DA/DiagonalCovariance.cpp:10-50 | a covariance built from an inverse diagonal reports that array as its inverse and its reciprocal as its diagonal |
| DiagonalCovariances.MakeAsWrittenLosesDiagonal | src/DA/DiagonalCovariance.cpp:15 | built as written from the inverse [2.0], the covariance has size 1 but no diagonal at all, where the corrected one reports [0.5] |
| DiagonalCovariances.SolveInvertsScaling | src/DA/DiagonalCovariance.cpp:67-71 | multiplying the solution by the diagonal gives back b on every row whose diagonal entry is non-zero |
| DiagonalCovariances.AddsDiagonalCancels | src/DA/DiagonalCovariance.cpp:74-88 | adding minus mult times a diagonal undoes adding mult times it, so the two calls of addTo compose to the identity |
| DiagonalCovariances.AddToCancels | src/DA/DiagonalCovariance.cpp:74-88 | adding with mult and then with minus mult gives back x |
| DiagonalCovariances.MatrixViewIsAddToZeros | src/DA/DiagonalCovariance.cpp:74-98 | the dense view equals the diagonal added to a zero matrix |
| Domains.GetCoords | src/DA/Domain.cpp:17-27 | the output must be coordDim by the number of selected elements (rows checked first); column c holds the coordinates of the c-th selected element; a selected index outside the domain is a range error |
| Domains.DefaultGetSubset | src/DA/Domain.cpp:39-44 | the default subset succeeds exactly when every index lies inside X, and row t is row indices[t] of X |
| Domains.DefaultPutSubset | src/DA/Domain.cpp:46-51 | the default scatter succeeds exactly when every index lies inside the output and there is a local row for each, and keeps the output's size |
| Domains.PutOfGathered | src/DA/Domain.cpp:39-51 | scattering rows gathered from X at the same indices writes X's row at every index and leaves every other row |
| Domains.DefaultSubsetRoundTrip | src/DA/Domain.cpp:39-51 | putSubset of getSubset of X into Y equals X on the block's rows and Y everywhere else |
| GridDomains.NewDense | src/DA/GridDomain.cpp:10-19 | the dense constructor needs a shape of the coordinate system's dimension and at least one variable per cell (checked in that order); the grid is dense and its size is the product of the shape times the variables per cell |
| GridDomains.NewMapped | src/DA/GridDomain.cpp:22-31 | the mapped constructor needs a shape of the coordinate system's dimension and a non-empty cell map; the grid is not dense and its size is the map's length |
| GridDomains.BlockSize | src/DA/GridDomain.cpp:66-80 | the block must start at non-negative cells and end within the grid (assertions in that order); a block inside the grid has a size on a dense grid and is not implemented on a mapped one |
| GridDomains.RowRanges | src/DA/GridDomain.cpp:106-116 | a 2-D block gives one range per row of the block |
| GridDomains.BlockRanges | src/DA/GridDomain.cpp:93-121 | the block must have the grid's dimension; a 1-D block is the single range [min*v, max*v); 2-D blocks give row ranges; higher dimensions are not implemented |
| GridDomains.Interval | src/DA/GridDomain.cpp:130 | the range [i, iend) lists iend - i indices, the t-th being i + t |
| GridDomains.GetIndices | src/DA/GridDomain.cpp:123-137 | a mapped grid does not implement index lists; a dense grid lists them exactly when its block ranges exist |
| GridDomains.CopyRanges | src/DA/GridDomain.cpp:224-239 | packing ranges into the output keeps the output's number of rows |
| GridDomains.PutRanges | src/DA/GridDomain.cpp:251-266 | unpacking ranges into the output keeps the output's number of rows |
| GridDomains.GetSubset | src/DA/GridDomain.cpp:220-244 | getSubset asserts equal column counts; on a mapped grid it fails as not implemented; a result has the output's number of rows |
| GridDomains.PutSubset | src/DA/GridDomain.cpp:247-271 | putSubset asserts equal column counts; on a mapped grid it fails as not implemented; a result has the output's number of rows |
| GridDomains.ChainedFlatten | src/DA/GridDomain.cpp:123-137 | ranges that follow one another list strictly increasing indices inside their bounds, as many as their total length |
| GridDomains.RowRangesChained | src/DA/GridDomain.cpp:106-116 | the row ranges of a 2-D block follow one another inside rows [x, xend) and cover (xend - x) times the block's width |
| GridDomains.VolumeSides | src/DA/GridDomain.cpp:74 | the volume of a 1-D or 2-D block is the product of its side lengths |
| GridDomains.DenseBlockSize | src/DA/GridDomain.cpp:66-80 | a block inside a dense grid has volume times variables-per-cell elements |
| GridDomains.RangeChained1 | src/DA/GridDomain.cpp:100-105 | the range of a 1-D block inside a dense grid lies in [0, size] and has blockSize elements |
| GridDomains.RangesChained2 | src/DA/GridDomain.cpp:106-116 | the row ranges of a 2-D block inside a dense grid follow one another inside [0, size] and cover blockSize elements |
| GridDomains.BlockRangesChained | src/DA/GridDomain.cpp:66-121 | on a dense 1-D or 2-D grid the ranges of a block inside the grid follow one another inside [0, size] and cover blockSize elements |
| GridDomains.DenseIndices | src/DA/GridDomain.cpp:123-137 | on a dense 1-D or 2-D grid getIndices lists strictly increasing indices below the size, exactly blockSize of them |
| GridDomains.CopyRangesPacks | src/DA/GridDomain.cpp:224-239 | copying ranges inside X into an output with room succeeds, packs X's rows at the listed indices in order from the start row, and leaves every other output row |
| GridDomains.PutRangesRestores | src/DA/GridDomain.cpp:251-266 | writing back rows packed from X over ranges writes X's row at every listed index and leaves every other row |
| GridDomains.DenseSubsetRoundTrip | src/DA/GridDomain.cpp:220-271 | on a dense grid, putSubset of getSubset of X into Y equals X on the block's indices and Y everywhere else |
| GridDomains.CellOfIndexInverts | src/DA/GridDomain.cpp:108-113 | with the divisor the state layout uses, the cell index x * shape(1) + y decomposes back into cell (x, y) |
| GridDomains.CellOfIndexAsWrittenMisplaces | src/DA/GridDomain.cpp:199-200 | on a 2 by 3 grid cell index 2 is cell (0, 2), but cellCoord as written puts it at cell (1, 0) |
| GridPartitionings.AddDomain | src/DA/GridDomainPartitioning.cpp:80-91 | a tile becomes at most one local domain, on that tile and holding at least one element; empty tiles are dropped |
| GridPartitionings.AddAll | src/DA/GridDomainPartitioning.cpp:95-124 | every local domain generated from a list of tiles holds at least one element |
| GridPartitionings.New | src/DA/GridDomainPartitioning.cpp:41-54 | the grid must be given (assertion) and be one- or two-dimensional (invalid argument, with the source's message); a partitioning keeps the grid, block size and padding and only non-empty local domains |
| GridPartitionings.GetLocalSize | src/DA/GridDomainPartitioning.cpp:137-141 | the local size exists exactly for a domain number below numLocalDomains(), fails the index assertion otherwise, and is positive |
| GridPartitionings.GetLocal | src/DA/GridDomainPartitioning.cpp:150-168 | a domain number out of range fails the index assertion; an empty domain leaves the output; a domain with an index list selects those rows |
| GridPartitionings.PutLocal | src/DA/GridDomainPartitioning.cpp:170-190 | a domain number out of range fails the index assertion; an empty domain leaves the state; a result keeps the state's number of rows |
| GridPartitionings.TilesInside | src/DA/GridDomainPartitioning.cpp:95-124 | every tile the loops generate lies inside the grid and contains at least one cell |
| GridPartitionings.AddAllDense | src/DA/GridDomainPartitioning.cpp:80-91 | on a dense grid every tile inside it is kept, in order, with volume times variables-per-cell elements and no index list |
| GridPartitionings.NewDense | src/DA/GridDomainPartitioning.cpp:41-129 | a dense 1-D or 2-D grid is partitioned into exactly the generated tiles, in loop order |
| GridPartitionings.NewMappedFails | src/DA/GridDomainPartitioning.cpp:78-86 | partitioning a mapped grid uses index lists, which the grid does not implement, so it fails |
| GridPartitionings.TilesPartitionCells | src/DA/GridDomainPartitioning.cpp:95-124 | the tiles partition the grid: a cell of the grid lies in exactly one tile, a cell outside it in none |
| GridPartitionings.TilesVolume | src/DA/GridDomainPartitioning.cpp:95-124 | the tiles' volumes add up to the number of cells of the grid |
| GridPartitionings.LocalSizesSum | src/DA/GridDomainPartitioning.cpp:137-141 | on a dense grid the local sizes add up to the state size |
| GridPartitionings.LocalRoundTrip | src/DA/GridDomainPartitioning.cpp:150-190 | putLocal of getLocal of X into B gives X on the domain's elements and B elsewhere |
| GridPartitionings.ReassembleCovered | src/DA/GridDomainPartitioning.cpp:150-190 | reading and writing back every domain from d0 on gives X on the elements those domains hold and B on every other row |
| GridPartitionings.CellOf | src/DA/GridDomain.cpp:100-116 | every state element of a dense grid belongs to some cell of it, at the position the state layout gives that cell |
| GridPartitionings.PartitionReassembles | src/DA/GridDomainPartitioning.cpp:41-190 | on a dense 1-D or 2-D grid, reading every local domain of X and writing it back into any B of the same size rebuilds X exactly |
| GenericDomains.GetLocal | src/DA/GenericDomain.cpp:66-69 | local domain d is row d of the state as a one-row array; a row outside the state is a range error |
| GenericDomains.PutLocal | src/DA/GenericDomain.cpp:71-74 | the one-row local array becomes row d of the state and every other row stays; otherwise a range error |
| GenericDomains.LocalRoundTrip | src/DA/GenericDomain.cpp:66-74 | putLocal of getLocal of X into Y copies row d of X into Y |
| GenericDomains.ReassembleFrom | src/DA/GenericDomain.cpp:56-74 | reading and writing back domains d0 onwards gives B's rows before d0 and X's rows from d0 |
| GenericDomains.PartitionReassembles | src/DA/GenericDomain.cpp:56-74 | reading every local domain of X and writing it into B rebuilds X |
| GenericDomains.LocalSizesSum | src/DA/GenericDomain.cpp:56-64 | the local sizes add up to the state size, one element per domain |
| GenericDomains.IndexPointsAsWritten | src/DA/GenericDomain.cpp:15-20 | the constructor checks the row count of the argument after moving it away, so every point query fails its assertion |
| GenericDomains.IndexPointsAsWrittenRejectsOneRow | src/DA/GenericDomain.cpp:15-20 | a single row of coordinates, which the check is meant to accept, is rejected as written |
| GenericDomains.IndexPoints | src/DA/GenericDomain.cpp:77-80 | with the check on the stored coordinates a query exists exactly for one row of coordinates and keeps that row and the state size |
| GenericDomains.Trunc | src/DA/GenericDomain.cpp:27-32 | the C++ conversion of a double to int rounds toward zero: within one of x and never farther from zero |
| GenericDomains.RangeQuery | src/DA/GenericDomain.cpp:22-35 | the query appends to out, in order, the observations whose truncated coordinate lies in the truncated range around the domain |
| GenericDomains.MatchingSpec | src/DA/GenericDomain.cpp:30-34 | the matched positions are exactly those whose coordinate is in range, in strictly increasing order |
| GenericDomains.RangeQueryFinds | src/DA/GenericDomain.cpp:22-35 | out is kept as a prefix; an observation is appended if and only if it is in range; appended positions are strictly increasing |
| Ensemble.ToAnomaly | src/DA/Ensemble.cpp:21-25 | every member of a row is replaced by its deviation from that row's ensemble mean |
| Ensemble.AnomalyRowsSumToZero | src/DA/Ensemble.cpp:21-25 | every row of an anomaly matrix sums to zero |
| Ensemble.ToAnomalyIdempotent | src/DA/Ensemble.cpp:21-25 | taking anomalies of anomalies changes nothing |
| Ensemble.MeanAffine | src/DA/Ensemble.cpp:35-38 | the mean of a row commutes with the affine map of its members that inflation applies |
| Ensemble.InflateAbout | src/DA/Ensemble.cpp:35-38 | every member's distance from its row's given centre is multiplied by k |
| Ensemble.Inflate | src/DA/Ensemble.cpp:29-33 | every member's distance from its row's ensemble mean is multiplied by k |
| Ensemble.InflatePreservesMean | src/DA/Ensemble.cpp:29-33 | inflation about the mean keeps every row's mean |
| Ensemble.InflateScalesAnomalies | src/DA/Ensemble.cpp:29-38 | the anomalies of the inflated ensemble are k times the original anomalies |
| Ensemble.InflateByOne | src/DA/Ensemble.cpp:29-38 | a factor of 1 leaves the ensemble unchanged |
| Ensemble.GenerateEnsemble | src/DA/Ensemble.cpp:10-18 | the output must have one row per entry of the mean (assertion); the ensemble keeps the sample's shape |
| Ensemble.GenerateEnsembleMean | src/DA/Ensemble.cpp:10-18 | each row of a generated ensemble has exactly the requested mean and keeps the sample's anomalies |
| LinAlg.Fill | src/Core/LinAlg.cpp:53-55 | the nested loop fills a rows by cols matrix |
| LinAlg.FillRow | src/Core/LinAlg.cpp:53-55 | row i of the fill is the i-th run of cols consecutive values |
| LinAlg.FillRowMajor | src/Core/LinAlg.cpp:52-55 | entry (i, j) of the fill is value i * cols + j |
| LinAlg.MakeMatrix | src/Core/LinAlg.cpp:46-57 | makeMatrix succeeds exactly when there are at least rows * cols values (the product converted to size_t, as in the comparison) and the sizes are not negative, and gives a rows by cols matrix |
| LinAlg.FlattenLength | src/Core/LinAlg.cpp:46-57 | a rows by cols matrix has rows * cols entries in row-major order |
| LinAlg.FillOfFlatten | src/Core/LinAlg.cpp:52-55 | filling from a matrix's row-major entries rebuilds the matrix |
| LinAlg.FlattenOfFill | src/Core/LinAlg.cpp:52-55 | a fill's row-major entries are the first rows * cols values and ignore the rest |
| LinAlg.MakeMatrixRowMajor | src/Core/LinAlg.cpp:46-57 | a matrix built by makeMatrix holds value i * cols + j at (i, j) |
| LinAlg.MakeMatrixOfFlatten | src/Core/LinAlg.cpp:46-57 | makeMatrix of a matrix's row-major entries gives the matrix back |
| LinAlg.FlattenOfMakeMatrix | src/Core/LinAlg.cpp:46-57 | with enough values makeMatrix succeeds and its entries are the leading rows * cols values |
| Exceptions.NatToString | src/Core/Exception.cpp:12 | the decimal text of a natural number is all digits with no leading zero |
| Exceptions.IntToString | src/Core/Exception.cpp:12 | the text of an int is non-empty and made of digits and a minus sign |
| Exceptions.NatToStringRoundTrip | src/Core/Exception.cpp:12 | reading back the decimal text of n gives n |
| Exceptions.IntToStringRoundTrip | src/Core/Exception.cpp:12 | the text of an int starts with a minus exactly when it is negative, and reads back to the int |
| Exceptions.FormatFileLineMsg | src/Core/Exception.cpp:8-15 | the message starts with the file and a colon, ends with the body, and has room for the line and the separators |
| Exceptions.NotSupportedMessage | src/Core/Exception.cpp:18-20 | the message of NotSupportedError ends with the reason given |
| Exceptions.NotImplementedMessage | src/Core/Exception.cpp:23-25 | the message of NotImplementedError ends with "Not implemented" |
| Exceptions.AssertionMessage | src/Core/Exception.cpp:28-30 | the message of AssertionError ends with the quoted expression and "failed" |
| Exceptions.ColonIndexAfter | src/Core/Exception.cpp:12 | the first colon after a colon-free head is at the end of the head |
| Exceptions.SplitAtColon | src/Core/Exception.cpp:12 | a colon-free head followed by ": " is split from its tail uniquely |
| Exceptions.FormatInjective | src/Core/Exception.cpp:8-15 | two messages for the same file are equal only if their lines and bodies are |
| Exceptions.AssertionMessageInjective | src/Core/Exception.cpp:28-30 | the failed expression can be read back from an assertion message |
| PyArrayCache.New | python/endas/arraycache.py:26-28 | a new cache holds nothing and its counter is 0 |
| PyArrayCache.Put | python/endas/arraycache.py:31-42 | put hands out the next counter value and stores the data under it, leaving every other handle |
| PyArrayCache.Get | python/endas/arraycache.py:45-56 | get returns the stored object exactly for a stored handle and raises KeyError otherwise |
| PyArrayCache.Remove | python/endas/arraycache.py:84-93 | remove deletes exactly the given handle, keeping the other entries and the counter, and raises KeyError for an unknown handle |
| PyArrayCache.Clear | python/endas/arraycache.py:95-101 | clear empties the cache and restarts the counter |
| PyArrayCache.PutFreshKey | python/endas/arraycache.py:31-42 | while the counter only grows, put returns a positive handle that was not in use |
| PyArrayCache.FirstHandleIsOne | python/endas/arraycache.py:26-101 | the first handle after construction or clear is 1 |
| PyArrayCache.GetAfterPutAndRemove | python/endas/arraycache.py:31-93 | get after put returns the stored data; get after remove raises KeyError |
| LruArrayCache.Without | python/endas/arraycache.py:163 | removing a key from the LRU order keeps the other keys, their distinctness and order |
| LruArrayCache.SumWithout | python/endas/arraycache.py:188-201 | dropping a listed key from a distinct key list lowers the total size by that key's size |
| LruArrayCache.SumFrame | python/endas/arraycache.py:248-273 | the total size depends only on the entries of the listed keys |
| LruArrayCache.MemPopFront | python/endas/arraycache.py:255-273 | popping the least recently used item keeps the memory tier consistent, with its size subtracted |
| LruArrayCache.MemAppend | python/endas/arraycache.py:154-155 | appending a new item keeps the memory tier consistent, with its size added |
| LruArrayCache.MemRemove | python/endas/arraycache.py:189-193 | removing an item keeps the memory tier consistent, with its size subtracted |
| LruArrayCache.MemTouch | python/endas/arraycache.py:162-163 | moving an item to the most recently used end keeps the memory tier consistent |
| LruArrayCache.RetAdd | python/endas/arraycache.py:258-265 | retiring an item under a fresh uid keeps the retired tier consistent, with its size added |
| LruArrayCache.RetRemove | python/endas/arraycache.py:195-201 | dropping a retired item and its file keeps the retired tier consistent, with its size subtracted |
| LruArrayCache.New | python/endas/arraycache.py:119-127 | a new cache is consistent and no handle reads anything |
| LruArrayCache.ItemSize | python/endas/arraycache.py:226-228 | the item size exists exactly for numpy arrays; anything else raises TypeError |
| LruArrayCache.ItemSizeBounds | python/endas/arraycache.py:227 | the size is the byte count rounded down to whole megabytes |
| LruArrayCache.EvictOne | python/endas/arraycache.py:255-273 | one eviction removes the least recently used item from memory and leaves it retired |
| LruArrayCache.EvictOneInv | python/endas/arraycache.py:255-273 | one eviction keeps the cache consistent |
| LruArrayCache.EvictOneFrame | python/endas/arraycache.py:255-273 | one eviction changes what no handle reads and keeps every retired record and file |
| LruArrayCache.ReserveSpace | python/endas/arraycache.py:248-273 | the loop stops with room for the request or with memory empty, having evicted a prefix of the LRU order |
| LruArrayCache.ReserveSpaceInv | python/endas/arraycache.py:248-273 | reserving space keeps the cache consistent |
| LruArrayCache.ReserveSpaceFrame | python/endas/arraycache.py:248-273 | reserving space changes what no handle reads, keeps every retired record and file, and adds nothing to memory |
| LruArrayCache.Admit | python/endas/arraycache.py:154-174 | an admitted item becomes the most recently used one; the retired tier is untouched |
| LruArrayCache.AdmitInv | python/endas/arraycache.py:154-155 | admitting a fresh key, or a retired key with its saved array, keeps the cache consistent |
| LruArrayCache.AdmitLookup | python/endas/arraycache.py:154-174 | after admission the key reads the admitted data and every other handle reads as before |
| LruArrayCache.Put | python/endas/arraycache.py:144-157 | put increments the counter even when the size raises TypeError for a non-array; otherwise it returns the new counter value as the most recently used key |
| LruArrayCache.BumpInv | python/endas/arraycache.py:145 | advancing the counter keeps consistency and every handle's data, and the new counter value is unused |
| LruArrayCache.ReserveAdmitInv | python/endas/arraycache.py:152-155 | reserving room for a key in neither tier and then admitting it keeps the cache consistent |
| LruArrayCache.PutInv | python/endas/arraycache.py:144-157 | put keeps the cache consistent |
| LruArrayCache.PutLookup | python/endas/arraycache.py:144-157 | after put the new handle reads the stored array and every other handle reads as before |
| LruArrayCache.Get | python/endas/arraycache.py:160-178 | get succeeds exactly for a handle in memory or retired, leaves it the most recently used, and raises KeyError otherwise with nothing changed |
| LruArrayCache.GetInv | python/endas/arraycache.py:160-178 | get keeps the cache consistent |
| LruArrayCache.GetLookup | python/endas/arraycache.py:160-178 | get succeeds exactly on live handles, returns their data, keeps the retired copy, and changes what no handle reads |
| LruArrayCache.Remove | python/endas/arraycache.py:188-201 | remove keeps the cache consistent, makes the handle read nothing, leaves every other handle, and ignores an unknown handle |
| LruArrayCache.Clear | python/endas/arraycache.py:206-214 | clear keeps consistency, empties both tiers and their totals, and keeps the key counter |
| MemoryArrayCache.NewEntry | src/Caching/ArrayCache.cpp:11 | a new cache entry holds its array and is not dirty |
| MemoryArrayCache.MarkEntryDirty | src/DA/Algorithm/EnsembleKalmanSmoother.cpp:574 | marking an entry dirty keeps its array and sets the flag |
| MemoryArrayCache.Empty | src/Caching/MemoryArrayCache.cpp:19-21 | a new cache is valid and holds nothing |
| MemoryArrayCache.Put | src/Caching/MemoryArrayCache.cpp:27-34 | put returns the counter's value before the increment and stores a clean copy under it, unless that handle is already live, when insert keeps the old entry |
| MemoryArrayCache.Get | src/Caching/MemoryArrayCache.cpp:37-44 | get asserts the handle is not the null handle and is live, and returns its entry |
| MemoryArrayCache.Write | include/Endas/Caching/ArrayCache.hpp:42-54 | a change made through the pointer get returned replaces that entry and no other |
| MemoryArrayCache.Remove | src/Caching/MemoryArrayCache.cpp:46-50 | remove asserts the handle is not null, then forgets exactly that handle and keeps the counter |
| MemoryArrayCache.Clear | src/Caching/MemoryArrayCache.cpp:52-56 | clear drops every entry and restarts the handles at 0 |
| MemoryArrayCache.MarkDirty | src/Caching/MemoryArrayCache.cpp:58-61 | markDirty only asserts the handle is not null and changes nothing |
| MemoryArrayCache.Pop | src/Caching/ArrayCache.cpp:18-23 | pop succeeds exactly when get does, returns get's entry and leaves the cache without the handle; its failure is get's |
| MemoryArrayCache.PutAllHandles | src/Caching/MemoryArrayCache.cpp:27-34 | successive puts hand out consecutive handles starting at the counter |
| MemoryArrayCache.PutAllDistinct | src/Caching/MemoryArrayCache.cpp:27-34 | successive puts on a valid cache hand out distinct handles, none of them the null handle |
| MemoryArrayCache.PreservesValid | src/Caching/MemoryArrayCache.cpp:27-61 | every operation keeps each live handle below the counter |
| MemoryArrayCache.GetAfterPut | src/Caching/MemoryArrayCache.cpp:27-44 | get after put on a valid cache returns the array just stored, clean, and every other handle reads as before |
| MemoryArrayCache.GetAfterWrite | include/Endas/Caching/ArrayCache.hpp:42-54 | a change made through get's pointer is what the next get returns; other handles are unaffected |
| MemoryArrayCache.GetAfterRemoveFails | src/Caching/MemoryArrayCache.cpp:37-50 | after remove or pop, get of that handle fails its presence assertion |
| MemoryArrayCache.RemoveAbsent | src/Caching/MemoryArrayCache.cpp:46-50 | removing a handle that is not live changes nothing |
| MemoryArrayCache.ClearReusesHandles | src/Caching/MemoryArrayCache.cpp:52-56 | after clear the first handle is 0 again, so old handles come back |
| ObservationManagers.EmptyData | include/Endas/DA/ObservationManager.hpp:55-58 | the default observation data is empty and has no operators |
| ObservationManagers.New | src/DA/SimpleObservationManager.cpp:37-43 | the manager keeps the observations, coordinates and operators it was given and has not begun fetching |
| ObservationManagers.BeginFetch | src/DA/SimpleObservationManager.cpp:50-67 | beginFetch succeeds exactly when there is at least one domain and, with several, there are coordinates or no observations, a taper and a point query (assertions in the source's order); the cursor restarts at 0 and in local mode the coordinates are moved into the query |
| ObservationManagers.SelectEntries | src/DA/SimpleObservationManager.cpp:111-112 | the selected observations are the entries at the query's indices, in order; an index outside the array is a range error |
| ObservationManagers.TaperedCovAsWritten | src/DA/SimpleObservationManager.cpp:135-150 | tapering as written hands the tapered inverse diagonal to the covariance constructor as written, so the result has the right size but holds no diagonal and is not a valid covariance; a distance count other than the size fails the assertion |
| ObservationManagers.TaperedCov | src/DA/SimpleObservationManager.cpp:135-150 | with the corrected constructor the tapered covariance is diagonal and of the same size, and its inverse diagonal is entry by entry the taper of the original inverse diagonal (the reciprocal of the diagonal) at that observation's distance; a distance count other than the size fails the assertion |
| ObservationManagers.TaperedCovAsWrittenLosesTapering | src/DA/SimpleObservationManager.cpp:149 | on every valid covariance with matching distances, the as-written result has an empty inverse diagonal, where the corrected one keeps one tapered entry per observation |
| ObservationManagers.TaperEach | src/DA/SimpleObservationManager.cpp:147 | every inverse-diagonal entry is replaced by the taper of that entry at its distance |
| ObservationManagers.LocalBatch | src/DA/SimpleObservationManager.cpp:109-155 | a local batch holds the selected observations, the operator subset with one row per index, and a covariance of that size; the covariance is the subset unchanged unless tapering is on and the subset is diagonal, and then it is the tapered covariance built with the corrected inverse constructor; a distance count other than the index count fails the tapering assertion |
| ObservationManagers.LocalBatchAsWrittenLosesTapering | src/DA/SimpleObservationManager.cpp:135-154 | for every tapered batch, the covariance the source builds keeps no inverse diagonal, where the batch of the model holds one tapered entry per selected observation |
| ObservationManagers.NextStop | src/DA/SimpleObservationManager.cpp:90-107 | the loop stops at the first domain from d on whose query is not empty or whose distance count fails the assertion; every domain before it is passed over; it is the domain count when all are passed over |
| ObservationManagers.NextStopIgnoresCursor | src/DA/SimpleObservationManager.cpp:97-100 | where the loop stops depends only on the queries, not on the cursor |
| ObservationManagers.FetchLocal | src/DA/SimpleObservationManager.cpp:80-159 | a local fetch stops at the first domain from the cursor on that is not passed over: with observations it returns exactly that domain's batch (the selected observations, operator subset and possibly tapered covariance of its query) and leaves the cursor one past it; a failed distance assertion returns the error with the cursor still at that domain, because the source asserts before it advances; when every domain is passed over it returns empty data with the cursor at the end; nothing but the cursor changes |
| ObservationManagers.FetchLocalSkip | src/DA/SimpleObservationManager.cpp:90-107 | passing over a domain with an empty query leaves the outcome of the rest of the loop unchanged |
| ObservationManagers.FetchLocalStops | src/DA/SimpleObservationManager.cpp:90-158 | a non-empty batch names a domain between the cursor and the domain count whose query is not empty, every domain before it was passed over, and the cursor ends one past it; the empty batch means every domain from the cursor on was passed over and the cursor is at the end |
| ObservationManagers.Fetch | src/DA/SimpleObservationManager.cpp:70-161 | in global mode the fetch moves all observations out with the full operators under the global domain id; in local mode it is the local fetch |
| ObservationManagers.GlobalFetchMovesObservations | src/DA/SimpleObservationManager.cpp:73-76 | the first global fetch returns every observation; a second finds them moved out and is empty |
| ObservationManagers.LocalDomainsIncrease | src/DA/SimpleObservationManager.cpp:90-107 | successive local fetches return strictly increasing domains |
| ObservationManagers.ExhaustedStaysEmpty | src/DA/SimpleObservationManager.cpp:90-158 | once the cursor is at the end, fetching returns empty data and changes nothing |
| ObservationOperators.MakeMatrixOp | src/DA/ObservationOperator.cpp:47-49 | a matrix operator keeps its matrix and is well formed |
| ObservationOperators.TruncMod | examples/QGExample.cpp:64 | C++'s remainder lies strictly between -m and m, equals the Euclidean remainder for a non-negative dividend and is never positive for a negative one |
| ObservationOperators.MakeQG | examples/QGExample.cpp:61-65 | the QG operator keeps the state size and spacing, and an offset already below the spacing is kept as it is |
| ObservationOperators.ToDenseMatrix | src/DA/ObservationOperator.cpp:16-65 | only a matrix operator has a dense matrix, its own; every other operator raises not-supported with the source's message |
| ObservationOperators.Rows | examples/QGExample.cpp:80-83 | the selected rows of x, in order; a row outside x is a range error |
| ObservationOperators.QGSubsetApply | examples/QGExample.cpp:94-100 | the subset's apply asserts one output row per selected observation |
| ObservationOperators.Apply | src/DA/ObservationOperator.cpp:57-89 | a matrix operator multiplies (shapes must agree); a custom one calls its function; the QG one asserts the state rows and then the observation rows |
| ObservationOperators.Subset | src/DA/ObservationOperator.cpp:23-38 | a subset has one observation per index, the same state size and is linear; a custom operator gives none; a matrix operator selects rows (every index must be a row); the QG operator gives a custom operator |
| ObservationOperators.CeilDivBounds | examples/QGExample.cpp:69 | the rounded-up quotient is the least c with a <= c * m |
| ObservationOperators.StrideLength | examples/QGExample.cpp:82-109 | the loop from offset in steps of m below the state size visits ceil((n - offset) / m) indices |
| ObservationOperators.StrideEntries | examples/QGExample.cpp:82-109 | the t-th visited index is offset + t * m and lies in [offset, n) |
| ObservationOperators.QGNobsMatchesApply | examples/QGExample.cpp:67-113 | nobs() counts exactly the indices the coordinate loop visits, the t-th being offset + t * m |
| ObservationOperators.QGApplyRows | examples/QGExample.cpp:75-84 | with a non-negative offset, apply succeeds on a correctly shaped call and row t of its output is state row offset + t * m |
| ObservationOperators.QGSubsetAgreesWithApply | examples/QGExample.cpp:86-101 | the QG subset's output is the full operator's output restricted to the selected observations |
| ObservationOperators.MatrixSubsetAgreesWithApply | src/DA/ObservationOperator.cpp:23-38 | the matrix subset's output is the full operator's output restricted to the selected observations |
| SecondOrderSampling.NumEOFsKept | src/Utils/SecondOrderSampling.cpp:43-64 | without a cutoff every non-zero singular value is kept; with a cutoff the binary search keeps exactly the leading values whose ratio to the largest exceeds the cutoff (maxCoeff of no values is an error) |
| SecondOrderSampling.CutoffSplitUnique | src/Utils/SecondOrderSampling.cpp:50-64 | the split point the search finds is the only one, so the kept count is determined by the values and the cutoff |
| SecondOrderSampling.InitFromEOFs | src/Utils/SecondOrderSampling.cpp:71-76 | U must have one column per singular value (assertion); the sampler then holds that many EOFs and keeps U |
| SecondOrderSampling.SamplePerturbationsChecks | src/Utils/SecondOrderSampling.cpp:93-100 | sampling needs no more members than EOFs (invalid argument, checked first) and one output row per EOF row (assertion) |
| SecondOrderSampling.RandomOrthoMatrixCheck | src/Utils/SecondOrderSampling.cpp:14-16 | the random orthogonal matrix must be square (assertion) |
| SmootherLayout.ComputeLayout | src/DA/Algorithm/EnsembleKalmanSmoother.cpp:201-218 | the localize loop succeeds exactly when every local size is non-negative (assertion); each domain then starts after all earlier domains and its transform slot follows one N by N block per earlier non-empty domain |
| SmootherLayout.BlocksContiguous | src/DA/Algorithm/EnsembleKalmanSmoother.cpp:211-213 | consecutive domains occupy consecutive, non-overlapping row blocks of the augmented ensemble, the last ending at the total size |
| SmootherLayout.PrefixSumBounded | src/DA/Algorithm/EnsembleKalmanSmoother.cpp:211-213 | with non-negative sizes every domain's start lies between 0 and the total size |
| SmootherLayout.VisitsFromShape | src/DA/Algorithm/EnsembleKalmanSmoother.cpp:116-126 | each callback names a non-empty domain with its start and size, with the running index counting calls, in increasing domain order |
| SmootherLayout.VisitsFromComplete | src/DA/Algorithm/EnsembleKalmanSmoother.cpp:116-126 | every non-empty domain is visited |
| SmootherLayout.VisitsFromCounts | src/DA/Algorithm/EnsembleKalmanSmoother.cpp:116-126 | the running index of each call is the number of non-empty domains before the visited one, and there is one call per non-empty domain |
| SmootherLayout.VisitsExact | src/DA/Algorithm/EnsembleKalmanSmoother.cpp:116-126 | the walk visits exactly the non-empty domains in increasing order, and the slot the smoother addresses (i * N) is the one assimilation addresses (locXLimits(d)) |
| SmootherLayout.LayoutVisitsOrdered | src/DA/Algorithm/EnsembleKalmanSmoother.cpp:116-126 | with non-negative local sizes, the walk over the layout addresses row blocks in increasing order without overlap and transform slots in increasing order |
| SmootherLayout.ApplyForget | src/DA/Algorithm/EnsembleKalmanSmoother.cpp:482-498 | the forgetting factor scales the transform's difference from the identity by f, entry by entry |
| SmootherLayout.ForgetOneIsIdentity | src/DA/Algorithm/EnsembleKalmanSmoother.cpp:484 | a factor of one leaves the transform unchanged |
| SmootherLayout.DampIsPow | src/DA/Algorithm/EnsembleKalmanSmoother.cpp:529-543 | damping t times by f multiplies by f to the power t |
| SmootherLayout.ForgetDamps | src/DA/Algorithm/EnsembleKalmanSmoother.cpp:529-543 | t in-place applications of the factor damp each entry's difference from the identity t times |
| SmootherLayout.ForgetCompound | src/DA/Algorithm/EnsembleKalmanSmoother.cpp:529-543 | applying the factor in place t times scales the difference from the identity by f to the power t, so older records see compounded damping |
| SmootherLayout.VisitFrom | src/DA/Algorithm/EnsembleKalmanSmoother.cpp:509-511 | the downward loop only visits indices between 0 and its start |
| SmootherLayout.VisitFromDown | src/DA/Algorithm/EnsembleKalmanSmoother.cpp:509-511 | the downward loop visits start, start - 1, ... down to the larger of 0 and stop + 1 |
| SmootherLayout.VisitedRange | src/DA/Algorithm/EnsembleKalmanSmoother.cpp:508-511 | a pass over kend records visits kend - 1 down to max(0, kend - lag), newest first: record j is visited exactly when kend - lag <= j < kend |
| SmootherLayout.Emitted | src/DA/Algorithm/EnsembleKalmanSmoother.cpp:514-570 | every handed-out step was visited and is a result step |
| SmootherLayout.EmittedAll | src/DA/Algorithm/EnsembleKalmanSmoother.cpp:514 | when finishing, every visited step is a result |
| SmootherLayout.EmittedOnly | src/DA/Algorithm/EnsembleKalmanSmoother.cpp:514 | without finishing, only step kend - lag can be a result |
| SmootherLayout.NonFinishingEmitsOne | src/DA/Algorithm/EnsembleKalmanSmoother.cpp:509-514 | without finishing a pass hands out exactly step kend - lag when lag >= 1 and that step exists, and nothing otherwise |
| SmootherLayout.EmittedAppend | src/DA/Algorithm/EnsembleKalmanSmoother.cpp:509-570 | handing out over two stretches of visits is handing out over each in turn |
| SmootherLayout.FinishingEmitsWindow | src/DA/Algorithm/EnsembleKalmanSmoother.cpp:471-514 | the finishing pass hands out the last min(kend, lag) records, newest first |
| SmootherLayout.Ascending | src/DA/Algorithm/EnsembleKalmanSmoother.cpp:509-514 | the steps lo, lo + 1, ..., hi - 1 |
| SmootherLayout.AnalysesEmitAscending | src/DA/Algorithm/EnsembleKalmanSmoother.cpp:435-514 | with lag >= 1, T analyses hand out steps 0 .. T - lag in increasing order |
| SmootherLayout.AnalysesEmitStep | src/DA/Algorithm/EnsembleKalmanSmoother.cpp:435-441 | analysis T adds step T - lag, once it exists, to what the earlier analyses handed out, and nothing else |
| SmootherLayout.RunEmitsEachOnce | src/DA/Algorithm/EnsembleKalmanSmoother.cpp:273-478 | over a whole run with lag >= 1 every step 0 .. T is handed out exactly once |
| SmootherLayout.TransformsReceived | src/DA/Algorithm/EnsembleKalmanSmoother.cpp:509-546 | record j receives the transform of analysis t exactly when j < t <= j + lag |
| EnsembleSmoother.New | src/DA/Algorithm/EnsembleKalmanSmoother.cpp:144-157 | construction succeeds exactly when the lag is non-negative; the smoother starts global, inactive, with no steps, unit inflation and forgetting factors, and a fresh memory cache when none is given |
| EnsembleSmoother.SetCovInflationFactor | src/DA/Algorithm/EnsembleKalmanSmoother.cpp:164-168 | a factor of at least one is stored and nothing else changes; a smaller factor is an assertion failure |
| EnsembleSmoother.SetSmootherForgettingFactor | src/DA/Algorithm/EnsembleKalmanSmoother.cpp:173-177 | a factor of at most one is stored and nothing else changes; a larger factor is an assertion failure |
| EnsembleSmoother.Globalize | src/DA/Algorithm/EnsembleKalmanSmoother.cpp:227-238 | the smoother becomes non-localized with a single domain covering all n state elements, keeping its steps and cache |
| EnsembleSmoother.Localize | src/DA/Algorithm/EnsembleKalmanSmoother.cpp:180-224 | a missing partitioner or one with no domains is an assertion failure; one domain globalizes; more than one makes the smoother localized with the domain layout, an augmented ensemble of the total local size and one N by N transform per non-empty domain |
| EnsembleSmoother.LocalizeOrdered | src/DA/Algorithm/EnsembleKalmanSmoother.cpp:180-224 | the layout a localization builds is walked in increasing domain order, over row blocks and transform slots that follow one another without overlap |
| EnsembleSmoother.BeginSmoother | src/DA/Algorithm/EnsembleKalmanSmoother.cpp:273-295 | an active update and an initial ensemble of the wrong shape are rejected in that order; with lag 0 nothing is stored, otherwise the initial ensemble (augmented when localized) is cached as the only step record, under the cache's next handle |
| EnsembleSmoother.BeginAnalysis | src/DA/Algorithm/EnsembleKalmanSmoother.cpp:299-327 | the shape checks come first; on success the update is active for step k with no transform and no observations yet, its ensemble is inflated when the factor differs from one, every local transform is unset, and the step records and cache are kept |
| EnsembleSmoother.AssimilateOne | src/DA/Algorithm/EnsembleKalmanSmoother.cpp:394-432 | a batch is accepted exactly when its operator and covariance are present and sized like the observations; the new transform is composed after any earlier one in the same analysis, and one is kept from now on exactly when a transform existed already or the lag is positive |
| EnsembleSmoothing.TransformsCompose | src/DA/Algorithm/EnsembleKalmanSmoother.cpp:415-431 | across two batches of one analysis, with a lag the kept transform is the product of both batches' transforms, and without a lag only the last batch's transform remains |
| EnsembleSmoother.AssimilateLocal | src/DA/Algorithm/EnsembleKalmanSmoother.cpp:364-390 | batches are taken up to the first empty one; a taken batch naming the global id or a domain outside 0 .. numDomains - 1 is an assertion failure; on success every taken domain is in range, observations count as assimilated exactly when a batch was taken, each taken domain gains a kept transform when there is a lag (and only taken domains may gain one), and nothing changes but the augmented ensemble, the local transforms and these flags, never their sizes |
| EnsembleSmoother.Assimilate | src/DA/Algorithm/EnsembleKalmanSmoother.cpp:331-391 | an inactive update is an assertion failure and a missing ensemble a null dereference; globally an empty batch changes nothing, a batch not under the global domain id is an assertion failure, and otherwise upE, upX and upHaveX become what assimilateOne computes from upE and upX, with upHaveX set when a transform existed or there is a lag; localized, upE is first rebuilt from the augmented ensemble when observations were already assimilated, then the local loop runs; the step records, cache and results are untouched |
| EnsembleSmoothing.LocalSmoothBlocks | src/DA/Algorithm/EnsembleKalmanSmoother.cpp:536-546 | over calls walked in order, every domain with a transform has its block of the record multiplied by its transform damped once, and the damped transform stored in its slot; the blocks and slots of domains without one, and the rows before the first call, are kept |
| EnsembleSmoothing.MultiplyRecord | src/DA/Algorithm/EnsembleKalmanSmoother.cpp:521-548 | globally, with a transform, upX is damped once by the forgetting factor and the record becomes the record times the damped upX; without one both are unchanged; localized, the record and the local transforms become what the per-domain walk leaves; only the transforms change in the smoother |
| EnsembleSmoothing.LocalizedMultiply | src/DA/Algorithm/EnsembleKalmanSmoother.cpp:536-546 | a localized multiplication on a layout walked in order multiplies each domain block with a transform by that domain's damped transform and keeps the other blocks |
| EnsembleSmoothing.Emit | src/DA/Algorithm/EnsembleKalmanSmoother.cpp:551-566 | with a callback one result is appended after the earlier ones, carrying the record's step index and the record itself globally, or the global ensemble packed from it into upE when localized (which also becomes the new upE); without a callback nothing changes |
| EnsembleSmoothing.SmoothRecord | src/DA/Algorithm/EnsembleKalmanSmoother.cpp:513-575 | a record whose ensemble is not cached fails; otherwise its ensemble is multiplied unless finishing (globally by upX damped once, localized block by block); a result record is handed out with that smoothed ensemble (packed when localized) and its handle removed; any other is written back smoothed and marked dirty; upX is damped exactly in a global non-finishing iteration with a transform; every other cache entry is kept |
| EnsembleSmoothing.SmoothEntry | src/DA/Algorithm/EnsembleKalmanSmoother.cpp:520-575 | once the record's entry is read, the iteration multiplies it unless finishing and hands the smoothed ensemble out or writes it back dirty, keeping every other cache entry |
| EnsembleSmoothing.Dispose | src/DA/Algorithm/EnsembleKalmanSmoother.cpp:551-575 | a record at the result position is emitted with its ensemble (when a callback is installed) and its handle leaves the cache; any other record is written back with that ensemble, marked dirty; earlier results and other entries are kept |
| EnsembleSmoothing.HandOut | src/DA/Algorithm/EnsembleKalmanSmoother.cpp:551-570 | the record's ensemble, packed when localized, is emitted with the record's step index and the record's handle leaves the cache; other entries are kept |
| EnsembleSmoothing.WriteBack | src/DA/Algorithm/EnsembleKalmanSmoother.cpp:571-575 | the record's entry is replaced by the given ensemble marked dirty; every other entry and the rest of the smoother are kept |
| EnsembleSmoothing.SmoothRecords | src/DA/Algorithm/EnsembleKalmanSmoother.cpp:508-576 | a pass over a list of records appends exactly the step indices of the records it hands out, in visiting order, removes their handles, removes no handle it did not hold, damps the global transform once per visited record and keeps upE when global |
| EnsembleSmoothing.PassKeepsOthers | src/DA/Algorithm/EnsembleKalmanSmoother.cpp:508-576 | a pass leaves the cache entry of every handle none of its records has exactly as it was |
| EnsembleSmoothing.PassMarksDirty | src/DA/Algorithm/EnsembleKalmanSmoother.cpp:571-575 | with distinct handles, every visited record that is not a result is still cached after the pass, marked dirty |
| EnsembleSmoothing.LaggedSmootherMarksDirty | src/DA/Algorithm/EnsembleKalmanSmoother.cpp:502-578 | a lagged pass, global or localized, over records with distinct handles leaves every window record it does not hand out in the cache, marked dirty |
| EnsembleSmoothing.GlobalPass | src/DA/Algorithm/EnsembleKalmanSmoother.cpp:508-576 | a global pass over records with distinct handles hands the callback every result record's cached ensemble times upX damped once per iteration up to its own (unchanged when finishing or without a transform), in visiting order; writes every other record back the same way, marked dirty; and keeps every other entry |
| EnsembleSmoothing.LaggedSmootherGlobal | src/DA/Algorithm/EnsembleKalmanSmoother.cpp:502-578 | the whole global lagged pass, counted from its first iteration with upX, satisfies the pass facts above |
| EnsembleSmoothing.LaggedSmoother | src/DA/Algorithm/EnsembleKalmanSmoother.cpp:502-578 | the whole lagged pass visits the lag newest records newest first and hands out exactly the ones at the result position, in that order, removing their ensembles from the cache; globally and not finishing, upX ends damped once per visited record |
| EnsembleSmoothing.NoLagNoPass | src/DA/Algorithm/EnsembleKalmanSmoother.cpp:508-511 | with lag 0 the pass visits no record and changes nothing |
| EnsembleSmoothing.EndAnalysis | src/DA/Algorithm/EnsembleKalmanSmoother.cpp:435-467 | an inactive update is an assertion failure; on success the update ends; with a lag exactly one step record is appended, for the analysed step, under the cache's next handle, and on a valid cache that handle holds a fresh entry of the analysed ensemble (upE globally, the augmented ensemble when localized); with lag 0 no record is added and the counter is unchanged |
| EnsembleSmoothing.PackUp | src/DA/Algorithm/EnsembleKalmanSmoother.cpp:446-449 | reconstructing the global ensemble from the augmented one changes nothing but the global ensemble |
| EnsembleSmoothing.NoLagEndAnalysis | src/DA/Algorithm/EnsembleKalmanSmoother.cpp:452-456 | with lag 0 ending an analysis caches nothing, adds no step record and, with a callback installed, hands out the analysed ensemble once with its step index |
| EnsembleSmoothing.AnalysisPassEmits | src/DA/Algorithm/EnsembleKalmanSmoother.cpp:508-514 | a non-finishing pass over kend records hands out exactly record kend - lag when kend is at least the lag, and nothing otherwise, releasing that record's ensemble |
| EnsembleSmoothing.AnalysisPassValues | src/DA/Algorithm/EnsembleKalmanSmoother.cpp:508-548 | a global non-finishing pass over records with distinct handles hands out record kend - lag, once it exists, as its cached ensemble times upX damped lag times, and writes every later record j back, marked dirty, as its ensemble times upX damped kend - j times; without a transform the ensembles are unchanged |
| EnsembleSmoothing.EndSmoother | src/DA/Algorithm/EnsembleKalmanSmoother.cpp:471-478 | an active update and a missing callback (with a lag) are assertion failures; with lag 0 nothing happens; otherwise a finishing lagged pass runs |
| EnsembleSmoothing.EndSmootherEmits | src/DA/Algorithm/EnsembleKalmanSmoother.cpp:502-578 | ending the smoother hands out the step indices of the min(kend, lag) newest records, newest first, and releases every one of their ensembles |
| EnsembleSmoothing.EndSmootherValues | src/DA/Algorithm/EnsembleKalmanSmoother.cpp:471-478 | globally, with distinct handles, ending the smoother hands out the min(kend, lag) newest records newest first, each exactly as cached, with no multiplication |
| EnsembleSmoothing.BeginSmootherHandlesFresh | src/DA/Algorithm/EnsembleKalmanSmoother.cpp:273-295 | beginning the smoother on a valid cache leaves every step record with a handle of its own below the cache's counter |
| EnsembleSmoothing.EndAnalysisHandlesFresh | src/DA/Algorithm/EnsembleKalmanSmoother.cpp:457-464 | ending an analysis keeps every step record's handle distinct and below the counter, since the new record takes the counter |
| EnsembleSmoother.FixedIntervalKeepsAll | include/Endas/DA/Sequential.hpp:25 | with the fixed-interval lag, an analysis visits every earlier record and hands none out, so all of them wait for the end of the smoother |
| KalmanSmoother.New | src/Algorithm/KalmanSmoother.cpp:67-74 | construction succeeds exactly when the lag is non-negative; the smoother starts inactive with no records, using the given cache or a fresh memory cache |
| KalmanSmoother.BeginSmoother | src/Algorithm/KalmanSmoother.cpp:81-93 | an active update is an assertion failure; with lag 0 nothing happens; otherwise the record stack restarts with one record for the initial step, with null prior handles and the two handles the cache hands out next |
| KalmanSmoother.Forecast | src/Algorithm/KalmanSmoother.cpp:96-121 | an active update is an assertion failure; the state and covariance are propagated by the model, the model noise is added only when it has elements, and the model is told the step is finished exactly when the lag is 0 |
| KalmanSmoother.BeginAnalysis | src/Algorithm/KalmanSmoother.cpp:124-135 | an active update is an assertion failure; otherwise the update opens for step k and the prior state and covariance are cached under the next two handles, also without a lag |
| KalmanSmoother.Assimilate | src/Algorithm/KalmanSmoother.cpp:137-167 | an inactive update is an assertion failure, an empty batch changes nothing, and a non-empty batch succeeds exactly when its size matches the operator's rows; only the state and covariance change |
| KalmanSmoother.EndAnalysis | src/Algorithm/KalmanSmoother.cpp:170-188 | an inactive update is an assertion failure; with lag 0 the analysis goes to the callback if one is installed and nothing is cached; with a lag the posterior is cached and one record holding the prior and posterior handles is pushed |
| KalmanSmoother.Backward | src/Algorithm/KalmanSmoother.cpp:223-253 | the backward recursion empties the record stack and hands out one result per record, newest first |
| KalmanSmoother.EndSmoother | src/Algorithm/KalmanSmoother.cpp:192-254 | an active update is an assertion failure; with lag 0 or no records nothing happens; a missing callback is an assertion failure; otherwise every record is handed out newest first, starting with the newest record's cached posterior, the stack is emptied and the model is told the newest step is finished |
| KalmanSmoother.SmoothAll | src/Algorithm/KalmanSmoother.cpp:207-253 | the first result is the newest record's cached posterior mean and covariance, taken from two distinct live handles; then every older record is handed out, newest first by step index, and the stack is emptied |
| KalmanSmoother.PopAllSpec | src/Caching/ArrayCache.cpp:18-23 | popping a list of handles succeeds exactly when every handle is non-null, live and listed once, and then removes exactly those handles |
| KalmanSmoother.PopAllAppend | src/Algorithm/KalmanSmoother.cpp:223-234 | popping a list of handles and then another is popping the two lists joined; a failure in the first list is a failure of the whole |
| KalmanSmoother.PopFourIsPopAll | src/Algorithm/KalmanSmoother.cpp:223-234 | the four pops of one backward step (the successor's prior mean and covariance, then the record's posterior mean and covariance) succeed exactly when popping those four handles in order does, and leave the same cache |
| KalmanSmoother.BackwardPops | src/Algorithm/KalmanSmoother.cpp:223-234 | the backward recursion succeeds exactly when popping its handles in recursion order succeeds, and leaves the cache that popping leaves |
| KalmanSmoother.EndSmootherPops | src/Algorithm/KalmanSmoother.cpp:207-234 | past its guards, ending the smoother succeeds exactly when every handle it pops is live and distinct, and its cache is the cache with those handles popped |
| KalmanSmoother.PopOrderContents | src/Algorithm/KalmanSmoother.cpp:212-230 | ending the smoother pops 4 * records - 2 handles: every record's posterior pair and every prior pair but the initial record's |
| KalmanSmoother.PopOrderPush | src/Algorithm/KalmanSmoother.cpp:50-53 | pushing a record puts its posterior and then its prior handles in front of the pop order |
| KalmanSmoother.NewKeepsInv | src/Algorithm/KalmanSmoother.cpp:67-74 | a new smoother on a valid cache owns only live handles |
| KalmanSmoother.BeginSmootherKeepsInv | src/Algorithm/KalmanSmoother.cpp:81-93 | beginning the smoother keeps every owned handle live and owned once |
| KalmanSmoother.BeginAnalysisKeepsInv | src/Algorithm/KalmanSmoother.cpp:124-135 | beginning an analysis keeps every owned handle, now including the cached prior, live and owned once |
| KalmanSmoother.ForecastAssimilateKeepInv | src/Algorithm/KalmanSmoother.cpp:96-167 | forecasting and assimilating do not touch the cache and keep the invariant |
| KalmanSmoother.EndAnalysisKeepsInv | src/Algorithm/KalmanSmoother.cpp:170-188 | ending an analysis moves the prior into the new record and keeps every owned handle live and owned once |
| KalmanSmoother.EndSmootherReleases | src/Algorithm/KalmanSmoother.cpp:192-254 | from any state the protocol can reach, a lagged smoother with records and a callback ends successfully and releases exactly the handles of its records |
| KalmanSmoother.FilterModeKeepsPriors | src/Algorithm/KalmanSmoother.cpp:124-135 | with lag 0 the prior arrays cached by beginning an analysis stay in the cache after the analysis ends: two entries are added per analysis and never released |
| KalmanSmoother.EndSmootherNewestFirst | src/Algorithm/KalmanSmoother.cpp:217-252 | with increasing step indices the results come out one per record in strictly decreasing step order |

## Left out

- I/O, clocks, profiling and concurrency are left out. The LRU cache's files in its temporary directory become a map from key to retired item. Its `get_exclusive` and `release` are not modelled: they raise `NotImplementedError` or do nothing.
- Randomness is left out. `generateEnsemble`, `samplePerturbations` and `generateRandomOrthoMatrix` take the sampled values as parameters. Only their argument checks are modelled.
- Numerics are abstract functions: the ensemble transform, inflation and global-ensemble processing of the smoother variant, the SVD of second-order sampling, model propagation, the Kalman update, the Rauch-Tung-Striebel step and the taper.
- Floating-point arithmetic is modelled as exact `real` arithmetic. `Recip(0)` is 0, and a row mean of an empty row is 0 rather than NaN.
- C++ `int` and `index_t` overflow is not modelled. Integers are unbounded.
- Partial mutation before an exception is not modelled. A failed call returns only the error.
- `makeArray` and `emptyMatrix` are left out: the latter returns one shared empty matrix, an identity that a value model cannot express.
- `GridDomain::cellCoord`, `getBlockExtent` and `GridDomainPartitioning::getLocalBox` are left out because they are floating-point geometry. Only the cell placement arithmetic of `cellCoord` is modelled, for the finding below. The `getCoords` overrides of the concrete domains are left out for the same reason.
- The variant `EnKSVariantESTKS` and the Python ports of the algorithms are not part of this model.
- The observation manager's partitioner query and the local covariance subset are function parameters. `Assimilate` receives the fetched batches as a list rather than calling the manager.
- The ensemble smoother's per-domain "has transform" flags are a set of domain ids. Arrays that the source resizes without initialising are zeros here.
- `KalmanSmoother` represents state vectors as one-column matrices.
- ObservationOperators.MakeQG: requires `m > 0`, because `offset % m` divides by zero otherwise. `nobs` computes a floating-point ceiling, which is modelled as exact integer ceiling division.
- GridPartitionings.New: requires a positive block size, because the tiling loops never end otherwise. It also requires the grid's shape to have one entry per coordinate dimension, a condition the grid constructor establishes.
- GridPartitionings.GetLocalSize: requires every kept domain to have a positive size, which construction establishes.
- GridDomains.RowRanges: for a block with `min > max` the source's `!=` loop never ends. The model returns no ranges there instead. GridDomains.Interval does the same when `i > iend`.
- GridPartitionings.New: `padding` is stored but nothing reads it, so no operation of the model depends on it.
- GenericDomains.GetLocal: does not check the destination's column count, because the source hands the row to Eigen without a check. The same holds for GenericDomains.PutLocal.
- GenericDomains.RangeQuery: the conversion of a coordinate outside the `int` range is undefined in C++. Trunc truncates toward zero without bounds.
- PyArrayCache: the Python cache stores objects of any type; the model stores matrices, which are the only values the smoothers put in a cache. Python's `get` without `force_copy` returns the stored object itself, so a caller that mutates it changes the cached value; the model returns a value, and this aliasing is not modelled.
- LruArrayCache: every operation requires the size invariant, which `New` establishes and every operation keeps.
- EnsembleSmoothing.AnalysisPassEmits: the statement that every record is handed out exactly once over a whole run is proved pass by pass. Each non-finishing pass hands out at most the one record at distance lag, and the finishing pass hands out the rest of the window (EnsembleSmoothing.EndSmootherEmits). At the level of step indices, SmootherLayout.RunEmitsEachOnce proves that a whole run of analyses followed by the finishing pass hands out every step exactly once. Only the lift of that lemma to a sequence of smoother states is missing.
- EnsembleSmoother.AssimilateLocal: states the domain check, the frame and sizes, and which domains gain a transform. It does not state each domain's transform composition; that is AssimilateOne's contract, applied per domain.
- BBoxes.New: the `dtype` argument of the box constructor is not modelled. Only the default `np.double` is, with bounds as `real`; `dtype=None` is reached only through `copy`, covered by the finding on it.
- Undefined behaviour of the `NDEBUG` build is modelled as an error. `eigen_assert` is compiled out there, so an out-of-range `operator()` or `row()` and a size mismatch in a product or block have no defined outcome. `OutOfRange` stands for these in Domains.GetCoords, Domains.DefaultGetSubset, Domains.DefaultPutSubset, GridDomains.BlockSize, GridDomains.CopyRanges, GridDomains.PutRanges, GenericDomains.GetLocal, GenericDomains.PutLocal, ObservationOperators.Rows, ObservationOperators.Apply, ObservationOperators.Subset, ObservationManagers.SelectEntries, DiagonalCovariances.DiagTimesDense and the ensemble blocks of EnsembleSmoother.AssimilateLocal. Two Eigen assertions are modelled as an `AssertionError`, although that build compiles them out too. SecondOrderSampling.NumEOFsKept returns Eigen's `rows()>0 && cols()>0` on an empty singular-value array. LinAlg.MakeMatrix returns `rows >= 0 && cols >= 0` for a negative dimension, the check of Eigen's `Matrix mat(rows, cols)`. No Eigen shape mismatch is modelled as `InvalidArgument`, which stands only for the source's own `std::invalid_argument`.
- ObservationManagers.LocalBatch: builds the tapered covariance with the corrected inverse constructor (ObservationManagers.TaperedCov), not the constructor as written, so the tapered batches that ObservationManagers.FetchLocal and ObservationManagers.Fetch hand out keep their inverse diagonal. The as-written behaviour is stated by ObservationManagers.LocalBatchAsWrittenLosesTapering; see Findings.
- Builds without `NDEBUG` are left out. There `ENDAS_ASSERT` is the C `assert`, which aborts the process instead of throwing. Every `ENDAS_ASSERT` failure in the model is the behaviour of a build with `NDEBUG` defined; the two Eigen assertions the line above names have no defined outcome in that build.
- EnsembleSmoothing.LaggedSmoother: the ensemble values of a localized pass are stated per record (SmoothRecord, MultiplyRecord, LocalizedMultiply) and per domain, but not lifted across a whole localized pass. The pass-level values (GlobalPass, AnalysisPassValues, EndSmootherValues) are proved for global analysis only.
- EnsembleSmoothing.GlobalPass: the pass-level values and the dirty marking (PassMarksDirty) require the visited records to have distinct handles. BeginSmootherHandlesFresh and EndAnalysisHandlesFresh show that beginSmoother and endAnalysis keep this on a valid cache, but no lemma follows a whole run.

## Findings

| source | as written | input that shows it | evidently intended | confidence | as-written member | corrected member |
|---|---|---|---|---|---|---|
| endas/localization/bbox.py:47-53 | `copy` builds the copy but has no `return`, so it returns `None` | any box | return the copied box | high, not executed | BBoxes.CopyAsWritten | BBoxes.Copy |
| src/DA/DiagonalCovariance.cpp:15 | with `isInverse` the constructor assigns the still-empty `mDiag` to `mInvDiag`, so no diagonal is stored | `diag = [2.0]`, `isInverse = true` | store `diag` as the inverse diagonal | high, not executed | DiagonalCovariances.MakeAsWritten | DiagonalCovariances.Make |
| src/DA/SimpleObservationManager.cpp:149 | the tapered inverse diagonal goes through the inverse constructor as written, so every tapered local covariance keeps its size but loses its diagonal and its tapering | any diagonal covariance with tapering on, e.g. inverse diagonal [2.0] at distance 0 | a covariance whose inverse diagonal is the tapered one | high, not executed | ObservationManagers.TaperedCovAsWrittenLosesTapering, ObservationManagers.LocalBatchAsWrittenLosesTapering | ObservationManagers.TaperedCov, ObservationManagers.LocalBatch, ObservationManagers.FetchLocal, ObservationManagers.Fetch |
| src/DA/GenericDomain.cpp:15-20 | the point query moves `coords` into its member and then asserts on the moved-from argument, which has no rows | one row of coordinates `[[0.0]]` | check the stored coordinates | medium (a moved-from Eigen array is empty in practice), not executed | GenericDomains.IndexPointsAsWrittenRejectsOneRow | GenericDomains.IndexPoints |
| src/DA/GridDomain.cpp:199-200 | `cellCoord` on a 2-D grid divides the cell index by `shape(0)`, the number of rows, but the state is laid out row-major with `shape(1)` cells per row | shape (2, 3), cell index 2: placed at cell (1, 0) instead of (0, 2) | divide by `shape(1)` | high, not executed | GridDomains.CellOfIndexAsWrittenMisplaces | GridDomains.CellOfIndexInverts |

=== FILE: bbox.dfy ===
/** `BBox` (endas/localization/bbox.py): the axis-aligned box `[min, end)` in
    `N` dimensions, with the bounds held in numpy arrays of doubles.

    Assigning a sequence into a numpy array of length `N` (`a[:] = v`, or the
    bound of `np.clip`) broadcasts a single value and rejects any other length
    with a ValueError; `Broadcast` models that rule.
 */
module BBoxes {
  import opened Wrappers

  datatype BBox = BBox(n: int, lo: seq<real>, hi: seq<real>)

  /** The box as the constructor leaves it: both bounds have `n` entries. */
  predicate Valid(b: BBox) {
    b.n >= 0 && |b.lo| == b.n && |b.hi| == b.n
  }

  /** `p` lies in the half-open box. */
  predicate Contains(b: BBox, p: seq<real>)
    requires Valid(b)
  {
    |p| == b.n && forall i :: 0 <= i < b.n ==> b.lo[i] <= p[i] < b.hi[i]
  }

  /** numpy's assignment of `v` into an array of length `n`. */
  function Broadcast(v: seq<real>, n: nat): (r: Result<seq<real>>)
    ensures r.Ok? <==> |v| == n || |v| == 1
    ensures r.Ok? ==> |r.value| == n && forall i :: 0 <= i < n ==> r.value[i] == (if |v| == n then v[i] else v[0])
  {
    if |v| == n then Ok(v)
    else if |v| == 1 then Ok(seq(n, i => v[0]))
    else Fail(ValueError("could not broadcast input array"))
  }

  /** `np.zeros(n)` followed by `a[:] = v` when `v` is given. */
  function InitBound(v: Option<seq<real>>, n: nat): (r: Result<seq<real>>)
    ensures v.None? ==> r.Ok? && |r.value| == n && forall i :: 0 <= i < n ==> r.value[i] == 0.0
    ensures v.Some? ==> r == Broadcast(v.value, n)
  {
    if v.Some? then Broadcast(v.value, n) else Ok(seq(n, i => 0.0))
  }

  /** Allocation of both bounds for a dimension `n` that numpy accepts. */
  function Build(n: nat, min: Option<seq<real>>, end: Option<seq<real>>): (r: Result<BBox>)
    ensures r.Ok? <==> InitBound(min, n).Ok? && InitBound(end, n).Ok?
    ensures r.Ok? ==> r.value == BBox(n, InitBound(min, n).value, InitBound(end, n).value)
  {
    var lo :- InitBound(min, n);
    var hi :- InitBound(end, n);
    Ok(BBox(n, lo, hi))
  }

  /** `BBox(ndim, min, end)`: `min` and `end` must be given together and have
      equal lengths; the dimension is `ndim` or else `len(min)`. */
  function New(ndim: Option<int>, min: Option<seq<real>>, end: Option<seq<real>>): (r: Result<BBox>)
    ensures (min.Some? || end.Some?) && !(min.Some? && end.Some?) ==>
      r == Fail(AssertionError("min is not None and end is not None"))
    ensures min.Some? && end.Some? && |min.value| != |end.value| ==> r == Fail(AssertionError("len(min) == len(end)"))
    ensures min.None? && end.None? && ndim.None? ==> r == Fail(TypeError)
    ensures r.Ok? ==> Valid(r.value) && r.value.n == (if ndim.Some? then ndim.value else |min.value|)
    ensures r.Ok? && min.None? ==> forall i :: 0 <= i < r.value.n ==> r.value.lo[i] == 0.0 && r.value.hi[i] == 0.0
    ensures ndim.None? && min.Some? && end.Some? && |min.value| == |end.value| ==>
      r == Ok(BBox(|min.value|, min.value, end.value))
  {
    if (min.Some? || end.Some?) && !(min.Some? && end.Some?) then
      Fail(AssertionError("min is not None and end is not None"))
    else if min.Some? && |min.value| != |end.value| then
      Fail(AssertionError("len(min) == len(end)"))
    else if ndim.None? && min.None? then
      Fail(TypeError)
    else
      var n := if ndim.Some? then ndim.value else |min.value|;
      if n < 0 then Fail(ValueError("negative dimensions are not allowed"))
      else
        Build(n, min, end)
  }

  /** `copy` as written: the copy is built but never returned, so the call
      evaluates to None. */
  function CopyAsWritten(b: BBox): (r: Option<BBox>)
    ensures r == None
  {
    var bb := BBox(b.n, b.lo, b.hi);
    None
  }

  /** `copy` with the evidently intended `return bb`. */
  function Copy(b: BBox): (r: Option<BBox>)
    ensures r.Some? && r.value.n == b.n
    ensures Valid(b) ==> Valid(r.value) && forall p :: Contains(r.value, p) <==> Contains(b, p)
  {
    Some(BBox(b.n, b.lo, b.hi))
  }

  /** `inflate(d)`: every lower bound moves down and every upper bound up by `d`. */
  function Inflate(b: BBox, d: real): (r: BBox)
    requires Valid(b)
    ensures Valid(r) && r.n == b.n
    ensures forall i :: 0 <= i < b.n ==> r.lo[i] == b.lo[i] - d && r.hi[i] == b.hi[i] + d
    ensures forall i :: 0 <= i < b.n ==> Size(r)[i] == Size(b)[i] + 2.0 * d
  {
    BBox(b.n, seq(b.n, i requires 0 <= i < b.n => b.lo[i] - d), seq(b.n, i requires 0 <= i < b.n => b.hi[i] + d))
  }

  /** numpy's element-wise `maximum` and `minimum` on one pair of entries. */
  function Max(a: real, b: real): (m: real)
    ensures m >= a && m >= b && (m == a || m == b)
  {
    if a >= b then a else b
  }

  function Min(a: real, b: real): (m: real)
    ensures m <= a && m <= b && (m == a || m == b)
  {
    if a <= b then a else b
  }

  /** `clip(min, end)`: lower bounds raised to `min`, upper bounds lowered to
      `end`, each broadcast to the box's dimension. */
  function Clip(b: BBox, min: seq<real>, end: seq<real>): (r: Result<BBox>)
    requires Valid(b)
    ensures r.Ok? <==> (|min| == b.n || |min| == 1) && (|end| == b.n || |end| == 1)
    ensures r.Ok? ==> Valid(r.value) && r.value.n == b.n
    ensures r.Ok? ==> forall i :: 0 <= i < b.n ==>
      r.value.lo[i] == Max(b.lo[i], if |min| == b.n then min[i] else min[0]) &&
      r.value.hi[i] == Min(b.hi[i], if |end| == b.n then end[i] else end[0])
  {
    var m :- Broadcast(min, b.n);
    var e :- Broadcast(end, b.n);
    Ok(BBox(b.n, seq(b.n, i requires 0 <= i < b.n => Max(b.lo[i], m[i])),
                 seq(b.n, i requires 0 <= i < b.n => Min(b.hi[i], e[i]))))
  }

  /** `intersect(other)`: clips to the other box's bounds. */
  function Intersect(b: BBox, other: BBox): (r: Result<BBox>)
    requires Valid(b) && Valid(other)
    ensures r.Ok? <==> other.n == b.n || other.n == 1
    ensures r.Ok? ==> Valid(r.value)
    ensures r.Ok? && other.n == b.n ==> forall p :: Contains(r.value, p) <==> Contains(b, p) && Contains(other, p)
  {
    Clip(b, other.lo, other.hi)
  }

  /** `size`: the extent `end - min` along every axis. */
  function Size(b: BBox): (s: seq<real>)
    requires Valid(b)
    ensures |s| == b.n
    ensures forall i :: 0 <= i < b.n ==> b.lo[i] + s[i] == b.hi[i]
  {
    seq(b.n, i requires 0 <= i < b.n => b.hi[i] - b.lo[i])
  }

  // ---------------------------------------------------------------------------
  // Properties

  /** Clipping twice to the same bounds is clipping once. */
  lemma ClipIdempotent(b: BBox, min: seq<real>, end: seq<real>)
    requires Valid(b) && Clip(b, min, end).Ok?
    ensures Clip(Clip(b, min, end).value, min, end) == Clip(b, min, end)
  {
    var c := Clip(b, min, end).value;
    var m := Broadcast(min, b.n).value;
    var e := Broadcast(end, b.n).value;
    var c2 := Clip(c, min, end).value;
    assert c2.lo == c.lo;
    assert c2.hi == c.hi;
  }

  /** Inflating by zero changes nothing; two inflations add up. */
  lemma InflateCompose(b: BBox, d1: real, d2: real)
    requires Valid(b)
    ensures Inflate(b, 0.0) == b
    ensures Inflate(Inflate(b, d1), d2) == Inflate(b, d1 + d2)
  {
    assert Inflate(b, 0.0).lo == b.lo;
    assert Inflate(b, 0.0).hi == b.hi;
  }

  /** `copy` as written loses the box, where the intended copy keeps it. */
  lemma CopyLosesBox(b: BBox)
    ensures CopyAsWritten(b) != Copy(b)
    ensures Copy(b) == Some(b)
  {
  }
}

=== FILE: diagonal_covariance.dfy ===
/** `DiagonalCovariance` (src/DA/DiagonalCovariance.cpp): a covariance operator
    stored as its diagonal `d`, its element-wise reciprocal, or both; whichever
    is missing is computed on first use and kept.

    The reciprocal of `0` is `inf` in floating point; over the reals it is
    written as `0` here (`Recip`), which keeps `Recip` an involution exactly as
    `1/inf == 0` does in IEEE arithmetic.
 */
module DiagonalCovariances {
  import opened Wrappers
  import opened Matrices

  /** `mSize`, `mDiag` and `mInvDiag`; an empty array means "not computed". */
  datatype DiagCov = DiagCov(size: nat, diag: Vector, invDiag: Vector)

  function RecipOf(x: real): real {
    if x != 0.0 then 1.0 / x else 0.0
  }

  /** Eigen's `Array::inverse()`: the element-wise reciprocal. */
  function Recip(v: Vector): (r: Vector)
    ensures |r| == |v|
    ensures forall i :: 0 <= i < |v| && v[i] != 0.0 ==> r[i] * v[i] == 1.0
    ensures forall i :: 0 <= i < |v| ==> (r[i] == 0.0 <==> v[i] == 0.0)
  {
    seq(|v|, i requires 0 <= i < |v| => RecipOf(v[i]))
  }

  lemma RecipInvolutive(v: Vector)
    ensures Recip(Recip(v)) == v
  {
    var w := Recip(Recip(v));
    forall i | 0 <= i < |v|
      ensures w[i] == v[i]
    {
      if v[i] != 0.0 {
        assert RecipOf(v[i]) * v[i] == 1.0;
        assert RecipOf(RecipOf(v[i])) * RecipOf(v[i]) == 1.0;
      }
    }
  }

  /** What the stored state describes: a diagonal of `size` entries, given
      directly or through its reciprocal, and the two agree when both are
      present. */
  predicate Valid(c: DiagCov) {
    && c.size > 0
    && (|c.diag| == 0 || |c.diag| == c.size)
    && (|c.invDiag| == 0 || |c.invDiag| == c.size)
    && (|c.diag| > 0 || |c.invDiag| > 0)
    && (|c.diag| > 0 && |c.invDiag| > 0 ==> c.invDiag == Recip(c.diag))
  }

  /** The diagonal the operator stands for. */
  function Value(c: DiagCov): Vector {
    if |c.diag| > 0 then c.diag else Recip(c.invDiag)
  }

  /** The constructor as written: with `isInverse` it copies the still-empty
      `mDiag` into `mInvDiag`, so neither array holds the argument. */
  function MakeAsWritten(d: Vector, isInverse: bool): (r: Result<DiagCov>)
    ensures r.Ok? <==> |d| > 0
    ensures r.Fail? ==> r.error == AssertionError("diag.size() > 0")
    ensures r.Ok? ==> r.value.size == |d|
    ensures r.Ok? && isInverse ==> r.value.diag == [] && r.value.invDiag == []
    ensures r.Ok? && !isInverse ==> Valid(r.value) && Value(r.value) == d
  {
    if |d| == 0 then Fail(AssertionError("diag.size() > 0")) else
    if isInverse then Ok(DiagCov(|d|, [], [])) else Ok(DiagCov(|d|, d, []))
  }

  /** The constructor with the evidently intended `mInvDiag = diag`: the
      argument is the diagonal or, with `isInverse`, its reciprocal. */
  function Make(d: Vector, isInverse: bool): (r: Result<DiagCov>)
    ensures r.Ok? <==> |d| > 0
    ensures r.Fail? ==> r.error == AssertionError("diag.size() > 0")
    ensures r.Ok? ==> Valid(r.value) && r.value.size == |d|
    ensures r.Ok? ==> Value(r.value) == (if isInverse then Recip(d) else d)
  {
    if |d| == 0 then Fail(AssertionError("diag.size() > 0")) else
    if isInverse then Ok(DiagCov(|d|, [], d)) else Ok(DiagCov(|d|, d, []))
  }

  /** `isDiagonal()` and `mcOnly()`. */
  const IsDiagonal: bool := true
  const McOnly: bool := false

  /** `diagonal()`: fills `mDiag` from `mInvDiag` when it is empty and returns
      it, together with the updated operator. */
  function Diagonal(c: DiagCov): (r: (DiagCov, Vector))
    requires Valid(c)
    ensures Valid(r.0) && r.0.size == c.size && |r.0.diag| == c.size
    ensures r.1 == Value(c) && Value(r.0) == Value(c)
  {
    if |c.diag| == 0 then
      var d := Recip(c.invDiag);
      RecipInvolutive(c.invDiag);
      (c.(diag := d), d)
    else (c, c.diag)
  }

  /** `inverseDiagonal()`: the same with the roles of the two arrays swapped. */
  function InverseDiagonal(c: DiagCov): (r: (DiagCov, Vector))
    requires Valid(c)
    ensures Valid(r.0) && r.0.size == c.size && |r.0.invDiag| == c.size
    ensures r.1 == Recip(Value(c)) && Value(r.0) == Value(c)
  {
    if |c.invDiag| == 0 then
      var inv := Recip(c.diag);
      (c.(invDiag := inv), inv)
    else
      RecipInvolutive(c.invDiag);
      (c, c.invDiag)
  }

  /** Row `i` of `B` scaled by `a[i]` (`diagXdense`, whose body is not part of
      this model; Eigen's own size check rejects a row count other than
      `|a|`). */
  function DiagTimesDense(a: Vector, B: Matrix): (r: Result<Matrix>)
    ensures r.Ok? <==> |B| == |a|
    ensures r.Ok? ==> |r.value| == |B| && forall i :: 0 <= i < |B| ==> |r.value[i]| == |B[i]|
    ensures r.Ok? ==> forall i, j :: 0 <= i < |B| && 0 <= j < |B[i]| ==> r.value[i][j] == a[i] * B[i][j]
  {
    if |B| != |a| then Fail(OutOfRange)
    else Ok(seq(|B|, i requires 0 <= i < |B| => seq(|B[i]|, j requires 0 <= j < |B[i]| => a[i] * B[i][j])))
  }

  /** `solve(b, out)`: `D^-1 b`, row `i` of `b` divided by `d[i]`. */
  function Solve(c: DiagCov, b: Matrix): (r: (DiagCov, Result<Matrix>))
    requires Valid(c)
    ensures Valid(r.0) && Value(r.0) == Value(c)
    ensures r.1.Ok? <==> |b| == c.size
    ensures r.1.Ok? ==> |r.1.value| == |b| && forall i :: 0 <= i < |b| ==> |r.1.value[i]| == |b[i]|
    ensures r.1.Ok? ==> forall i, j :: 0 <= i < |b| && 0 <= j < |b[i]| ==> r.1.value[i][j] == RecipOf(Value(c)[i]) * b[i][j]
  {
    var (c1, inv) := InverseDiagonal(c);
    (c1, DiagTimesDense(inv, b))
  }

  /** `x` with `a[i]` added to entry `(i, i)`. */
  function AddDiagonal(x: Matrix, a: Vector): (y: Matrix)
    requires |a| == |x|
    ensures |y| == |x| && forall i :: 0 <= i < |x| ==> |y[i]| == |x[i]|
    ensures forall i, j :: 0 <= i < |x| && 0 <= j < |x[i]| ==> y[i][j] == x[i][j] + (if i == j then a[i] else 0.0)
  {
    seq(|x|, i requires 0 <= i < |x| =>
      seq(|x[i]|, j requires 0 <= j < |x[i]| => if i == j then x[i][j] + a[i] else x[i][j]))
  }

  function Scale(a: Vector, m: real): (r: Vector)
    ensures |r| == |a| && forall i :: 0 <= i < |a| ==> r[i] == m * a[i]
  {
    seq(|a|, i requires 0 <= i < |a| => m * a[i])
  }

  /** `y` is the square matrix `x` with `mult * d[i]` added to entry `(i, i)`
      for every `i`, and every other entry as in `x`. */
  predicate AddsDiagonal(x: Matrix, y: Matrix, d: Vector, mult: real) {
    && IsMatrix(x, |d|, |d|) && IsMatrix(y, |d|, |d|)
    && forall i, j :: 0 <= i < |d| && 0 <= j < |d| ==>
      y[i][j] == x[i][j] + (if i == j then mult * d[i] else 0.0)
  }

  /** `addTo(x, mult)`: asserts `x` is `size x size` and adds `mult * d` to its
      diagonal. */
  function AddTo(c: DiagCov, x: Matrix, mult: real): (r: (DiagCov, Result<Matrix>))
    requires Valid(c)
    requires IsMatrix(x, |x|, Cols(x))
    ensures Valid(r.0) && Value(r.0) == Value(c)
    ensures r.1.Ok? <==> |x| == c.size && Cols(x) == c.size
    ensures |x| != c.size ==> r.1 == Fail(AssertionError("x.rows() == this->mSize"))
    ensures |x| == c.size && Cols(x) != c.size ==> r.1 == Fail(AssertionError("x.cols() == this->mSize"))
    ensures r.1.Ok? ==> AddsDiagonal(x, r.1.value, Value(c), mult)
  {
    if |x| != c.size then (c, Fail(AssertionError("x.rows() == this->mSize")))
    else if Cols(x) != c.size then (c, Fail(AssertionError("x.cols() == this->mSize")))
    else
      var (c1, d) := Diagonal(c);
      if mult == 1.0 then (c1, Ok(AddDiagonal(x, d)))
      else (c1, Ok(AddDiagonal(x, Scale(d, mult))))
  }

  /** `toMatrixView(out)`: asserts the output is `size x size`, then writes the
      dense matrix `diag(d)` into it. */
  function ToMatrixView(c: DiagCov, rows: nat, cols: nat): (r: (DiagCov, Result<Matrix>))
    requires Valid(c)
    ensures Valid(r.0) && Value(r.0) == Value(c)
    ensures r.1.Ok? <==> rows == c.size && cols == c.size
    ensures rows != c.size ==> r.1 == Fail(AssertionError("out.rows() == mSize"))
    ensures rows == c.size && cols != c.size ==> r.1 == Fail(AssertionError("out.cols() == mSize"))
    ensures r.1.Ok? ==> IsMatrix(r.1.value, c.size, c.size)
    ensures r.1.Ok? ==> forall i, j :: 0 <= i < c.size && 0 <= j < c.size ==>
      r.1.value[i][j] == (if i == j then Value(c)[i] else 0.0)
  {
    if rows != c.size then (c, Fail(AssertionError("out.rows() == mSize")))
    else if cols != c.size then (c, Fail(AssertionError("out.cols() == mSize")))
    else
      var (c1, d) := Diagonal(c);
      (c1, Ok(AddDiagonal(Zeros(rows, cols), d)))
  }

  // ---------------------------------------------------------------------------
  // Properties

  /** Reading the diagonal a second time finds it cached and changes nothing. */
  lemma DiagonalMemoized(c: DiagCov)
    requires Valid(c)
    ensures Diagonal(Diagonal(c).0) == Diagonal(c)
    ensures InverseDiagonal(InverseDiagonal(c).0) == InverseDiagonal(c)
  {
  }

  /** The two accessors are reciprocal whichever array was given. */
  lemma DiagonalsReciprocal(c: DiagCov)
    requires Valid(c)
    ensures InverseDiagonal(c).1 == Recip(Diagonal(c).1)
    ensures Diagonal(c).1 == Recip(InverseDiagonal(c).1)
  {
    RecipInvolutive(Value(c));
  }

  /** A covariance built from its inverse diagonal reports that array as its
      inverse and the reciprocal as its diagonal. */
  lemma MakeFromInverse(d: Vector)
    requires |d| > 0
    ensures InverseDiagonal(Make(d, true).value).1 == d
    ensures Diagonal(Make(d, true).value).1 == Recip(d)
  {
    RecipInvolutive(d);
  }

  /** As written, the inverse constructor leaves an operator of size `|d|`
      whose diagonal is empty; `Make` returns the reciprocal instead. */
  lemma MakeAsWrittenLosesDiagonal()
    ensures MakeAsWritten([2.0], true).value.size == 1
    ensures MakeAsWritten([2.0], true).value.diag == [] && MakeAsWritten([2.0], true).value.invDiag == []
    ensures !Valid(MakeAsWritten([2.0], true).value)
    ensures Diagonal(Make([2.0], true).value).1 == [0.5]
  {
    assert Recip([2.0])[0] == 0.5;
  }

  /** `solve` undoes multiplication by the diagonal on rows whose entry is
      non-zero. */
  lemma SolveInvertsScaling(c: DiagCov, b: Matrix, i: nat, j: nat)
    requires Valid(c) && |b| == c.size && i < |b| && j < |b[i]|
    requires Value(c)[i] != 0.0
    ensures Value(c)[i] * Solve(c, b).1.value[i][j] == b[i][j]
  {
    var d := Value(c)[i];
    assert RecipOf(d) * d == 1.0;
  }

  /** Adding `-mult` times a diagonal undoes adding `mult` times it. */
  lemma AddsDiagonalCancels(x: Matrix, y: Matrix, z: Matrix, d: Vector, mult: real)
    requires AddsDiagonal(x, y, d, mult) && AddsDiagonal(y, z, d, -mult)
    ensures z == x
  {
    forall i | 0 <= i < |d|
      ensures z[i] == x[i]
    {
      forall j | 0 <= j < |d|
        ensures z[i][j] == x[i][j]
      {
        Cancel(x[i][j], if i == j then mult * d[i] else 0.0, if i == j then -mult * d[i] else 0.0);
      }
    }
  }

  lemma Cancel(e: real, a: real, b: real)
    requires a + b == 0.0
    ensures e + a + b == e
  {
  }

  /** Adding with `mult` and then with `-mult` gives back the matrix. */
  lemma AddToCancels(c: DiagCov, x: Matrix, mult: real)
    requires Valid(c) && IsMatrix(x, c.size, c.size)
    ensures var (c1, r1) := AddTo(c, x, mult);
      AddTo(c1, r1.value, -mult).1 == Ok(x)
  {
    var (c1, r1) := AddTo(c, x, mult);
    var r2 := AddTo(c1, r1.value, -mult).1;
    AddsDiagonalCancels(x, r1.value, r2.value, Value(c), mult);
  }

  /** The dense view is the diagonal added to a zero matrix. */
  lemma MatrixViewIsAddToZeros(c: DiagCov)
    requires Valid(c)
    ensures ToMatrixView(c, c.size, c.size).1 == AddTo(c, Zeros(c.size, c.size), 1.0).1
  {
  }
}

=== FILE: domain.dfy ===
/** The default behaviour of the abstract domain classes: a spatial domain's
    coordinate dimension and selected coordinates (`DiscreteSpatialDomain`),
    and the index-based subset access every gridded domain falls back on
    (`GriddedDomain`).

    A domain's own `getCoords(out)` is abstract; here it is the function
    `coord(i, j)`, coordinate `i` of state element `j`. Index arrays hold
    C++ `int`s, so an index outside the array is an Eigen range error.
 */
module Domains {
  import opened Wrappers
  import opened Matrices

  datatype SpatialDomain = SpatialDomain(size: int, crsDim: int, coord: (int, int) -> real)

  /** `coordDim()`: the dimension of the domain's coordinate system. */
  function CoordDim(d: SpatialDomain): int {
    d.crsDim
  }

  /** `GriddedDomain::hasEfficientSubset()` unless a domain overrides it. */
  const DefaultHasEfficientSubset := false

  predicate InRange(indices: seq<int>, n: int) {
    forall t :: 0 <= t < |indices| ==> 0 <= indices[t] < n
  }

  /** `getCoords(selected, out)`: `out` must be `coordDim() x |selected|`;
      column `c` holds the coordinates of element `selected[c]`. */
  function GetCoords(d: SpatialDomain, selected: seq<int>, outRows: nat, outCols: nat): (r: Result<Matrix>)
    ensures outRows != CoordDim(d) ==> r == Fail(AssertionError("out.rows() == dim"))
    ensures outRows == CoordDim(d) && outCols != |selected| ==> r == Fail(AssertionError("out.cols() == selected.size()"))
    ensures outRows == CoordDim(d) && outCols == |selected| ==> (r.Ok? <==> InRange(selected, d.size))
    ensures r.Ok? ==> |r.value| == CoordDim(d)
    ensures r.Ok? ==> forall i :: 0 <= i < |r.value| ==> |r.value[i]| == |selected|
    ensures r.Ok? ==> forall i, c :: 0 <= i < |r.value| && 0 <= c < |selected| ==> r.value[i][c] == d.coord(i, selected[c])
  {
    var dim := CoordDim(d);
    :- Check(outRows == dim, "out.rows() == dim");
    :- Check(outCols == |selected|, "out.cols() == selected.size()");
    :- Need(InRange(selected, d.size), OutOfRange);
    Ok(seq(outRows, i => seq(|selected|, c requires 0 <= c < |selected| => d.coord(i, selected[c]))))
  }

  /** The default `getSubset`: the rows of `X` at the block's indices, in
      index order (`selectRows`). */
  function DefaultGetSubset(indices: seq<int>, X: Matrix): (r: Result<Matrix>)
    ensures r.Ok? <==> InRange(indices, |X|)
    ensures r.Ok? ==> |r.value| == |indices| && forall t :: 0 <= t < |indices| ==> r.value[t] == X[indices[t]]
  {
    if !InRange(indices, |X|) then Fail(OutOfRange) else
    Ok(seq(|indices|, t requires 0 <= t < |indices| => X[indices[t]]))
  }

  /** The default `putSubset`: row `t` of `Xl` goes to row `indices[t]` of
      `out` (`distributeRows`); a repeated index keeps the last row. */
  function DefaultPutSubset(indices: seq<int>, Xl: Matrix, out: Matrix): (r: Result<Matrix>)
    ensures r.Ok? <==> InRange(indices, |out|) && |indices| <= |Xl|
    ensures r.Ok? ==> |r.value| == |out|
    decreases |indices|
  {
    if |indices| == 0 then Ok(out)
    else
      :- Need(0 <= indices[0] < |out| && |Xl| > 0, OutOfRange);
      var rest := DefaultPutSubset(indices[1..], Xl[1..], out[indices[0] := Xl[0]]);
      assert rest.Ok? <==> InRange(indices, |out|) && |indices| <= |Xl| by {
        if InRange(indices[1..], |out|) {
          forall t | 0 <= t < |indices| ensures 0 <= indices[t] < |out| {
            if t > 0 { assert indices[t] == indices[1..][t - 1]; }
          }
        }
      }
      rest
  }

  /** Scattering rows that were gathered from `X` at the same indices puts
      `X`'s row back at every index and leaves every other row of `out`. */
  lemma {:induction false} PutOfGathered(indices: seq<int>, Xl: Matrix, X: Matrix, out: Matrix)
    requires InRange(indices, |out|) && |indices| <= |Xl| && |X| == |out|
    requires forall t :: 0 <= t < |indices| ==> Xl[t] == X[indices[t]]
    ensures forall i :: 0 <= i < |out| ==>
      DefaultPutSubset(indices, Xl, out).value[i] == (if i in indices then X[i] else out[i])
    decreases |indices|
  {
    if |indices| > 0 {
      var out1 := out[indices[0] := Xl[0]];
      forall t | 0 <= t < |indices[1..]| ensures Xl[1..][t] == X[indices[1..][t]] {
        assert Xl[1..][t] == Xl[t + 1];
      }
      assert InRange(indices[1..], |out1|) by {
        forall t | 0 <= t < |indices[1..]| ensures 0 <= indices[1..][t] < |out1| {
          assert indices[1..][t] == indices[t + 1];
        }
      }
      PutOfGathered(indices[1..], Xl[1..], X, out1);
      forall i | 0 <= i < |out|
        ensures DefaultPutSubset(indices, Xl, out).value[i] == (if i in indices then X[i] else out[i])
      {
        assert i in indices <==> i == indices[0] || i in indices[1..] by {
          assert indices == [indices[0]] + indices[1..];
        }
      }
    }
  }

  /** The default round trip: `putSubset(block, getSubset(block, X), Y)`
      equals `X` on the block's rows and `Y` elsewhere. */
  lemma DefaultSubsetRoundTrip(indices: seq<int>, X: Matrix, Y: Matrix)
    requires InRange(indices, |X|) && |X| == |Y|
    ensures DefaultPutSubset(indices, DefaultGetSubset(indices, X).value, Y).Ok?
    ensures forall i :: 0 <= i < |Y| ==>
      DefaultPutSubset(indices, DefaultGetSubset(indices, X).value, Y).value[i] == (if i in indices then X[i] else Y[i])
  {
    PutOfGathered(indices, DefaultGetSubset(indices, X).value, X, Y);
  }
}

=== FILE: ensemble.dfy ===
/** Ensemble helpers (`generateEnsemble`, `toAnomaly`, `inflateInPlace`).

    An ensemble is an `n x N` matrix: one row per state variable, one column per
    member. The mean of a row is the ensemble mean of that variable.
 */
module Ensemble {
  import opened Wrappers
  import opened Matrices

  function Sum(v: Vector): real
    decreases |v|
  {
    if |v| == 0 then 0.0 else v[0] + Sum(v[1..])
  }

  /** Arithmetic mean of a row. A row without members has mean 0 here (Eigen
      yields NaN, which the exact-real model does not have). */
  function Mean(v: Vector): real {
    if |v| == 0 then 0.0 else Sum(v) / (|v| as real)
  }

  /** Every entry of `v` mapped through `x |-> a * x + c`. */
  function Affine(v: Vector, a: real, c: real): (w: Vector)
    ensures |w| == |v|
  {
    seq(|v|, j requires 0 <= j < |v| => a * v[j] + c)
  }

  lemma AffineArith(a: real, x: real, s: real, c: real, m: real)
    ensures a * (x + s) + (m + 1.0) * c == (a * x + c) + (a * s + m * c)
  {
  }

  /** The first member and the rest of an affine map. */
  lemma AffineSplit(v: Vector, a: real, c: real)
    requires |v| > 0
    ensures Affine(v, a, c)[0] == a * v[0] + c
    ensures Affine(v, a, c)[1..] == Affine(v[1..], a, c)
  {
    var w := Affine(v, a, c);
    forall j | 0 <= j < |v| - 1
      ensures w[1..][j] == Affine(v[1..], a, c)[j]
    {
    }
  }

  lemma {:induction false} SumAffine(v: Vector, a: real, c: real)
    ensures Sum(Affine(v, a, c)) == a * Sum(v) + (|v| as real) * c
    decreases |v|
  {
    if |v| > 0 {
      var w := Affine(v, a, c);
      var t := v[1..];
      AffineSplit(v, a, c);
      SumAffine(t, a, c);
      var x, s, m := v[0], Sum(t), (|v| - 1) as real;
      assert Sum(v) == x + s;
      assert Sum(w) == (a * x + c) + (a * s + m * c);
      AffineArith(a, x, s, c, m);
      assert |v| as real == m + 1.0;
    }
  }

  /** The mean commutes with an affine map of the members. */
  lemma MeanAffine(v: Vector, a: real, c: real)
    requires |v| > 0
    ensures Mean(Affine(v, a, c)) == a * Mean(v) + c
  {
    SumAffine(v, a, c);
    var n := |v| as real;
    calc {
      Mean(Affine(v, a, c));
      (a * Sum(v) + n * c) / n;
      a * (Sum(v) / n) + c;
    }
  }

  /** `toAnomaly`: every row minus its own mean. */
  function ToAnomaly(E: Matrix): (A: Matrix)
    ensures |A| == |E|
    ensures forall i :: 0 <= i < |E| ==> |A[i]| == |E[i]|
    ensures forall i, j :: 0 <= i < |E| && 0 <= j < |E[i]| ==> A[i][j] == E[i][j] - Mean(E[i])
  {
    seq(|E|, i requires 0 <= i < |E| => Affine(E[i], 1.0, -Mean(E[i])))
  }

  /** `inflateInPlace(E, k, Eu)`: members pushed away from (or towards) the given
      row centres `Eu` by the factor `k`. */
  function InflateAbout(E: Matrix, k: real, Eu: Vector): (F: Matrix)
    requires |Eu| == |E|
    ensures |F| == |E|
    ensures forall i :: 0 <= i < |E| ==> |F[i]| == |E[i]|
    ensures forall i, j :: 0 <= i < |E| && 0 <= j < |E[i]| ==> F[i][j] - Eu[i] == k * (E[i][j] - Eu[i])
  {
    seq(|E|, i requires 0 <= i < |E| => InflateRow(E[i], k, Eu[i]))
  }

  /** One row of `InflateAbout`: `x |-> (x - c) * k + c`. */
  function InflateRow(v: Vector, k: real, c: real): (w: Vector)
    ensures |w| == |v|
  {
    Affine(v, k, (1.0 - k) * c)
  }

  /** Row means of `E`. */
  function RowMeans(E: Matrix): (m: Vector)
    ensures |m| == |E|
  {
    seq(|E|, i requires 0 <= i < |E| => Mean(E[i]))
  }

  /** `inflateInPlace(E, k)`: covariance inflation about the ensemble mean. */
  function Inflate(E: Matrix, k: real): (F: Matrix)
    ensures |F| == |E|
    ensures forall i :: 0 <= i < |E| ==> |F[i]| == |E[i]|
    ensures forall i, j :: 0 <= i < |E| && 0 <= j < |E[i]| ==> F[i][j] - Mean(E[i]) == k * (E[i][j] - Mean(E[i]))
  {
    InflateAbout(E, k, RowMeans(E))
  }

  /** `generateEnsemble`: the draw `sample` (the caller's random source) is
      re-centred so that each row has exactly the mean `u`. */
  function GenerateEnsemble(u: Vector, sample: Matrix): (r: Result<Matrix>)
    ensures r.Ok? <==> |sample| == |u|
    ensures r.Ok? ==> |r.value| == |u| && forall i :: 0 <= i < |u| ==> |r.value[i]| == |sample[i]|
  {
    if |sample| != |u| then Fail(AssertionError("out.rows() == u.size()")) else
    var A := ToAnomaly(sample);
    Ok(seq(|u|, i requires 0 <= i < |u| => Affine(A[i], 1.0, u[i])))
  }

  // ---------------------------------------------------------------------------
  // Properties

  /** Each row of an anomaly matrix sums to zero. */
  lemma AnomalyRowsSumToZero(E: Matrix, i: nat)
    requires i < |E|
    ensures Sum(ToAnomaly(E)[i]) == 0.0
  {
    var n := |E[i]| as real;
    SumAffine(E[i], 1.0, -Mean(E[i]));
    if |E[i]| > 0 {
      calc {
        Sum(ToAnomaly(E)[i]);
        Sum(E[i]) + n * -(Sum(E[i]) / n);
        0.0;
      }
    }
  }

  /** Taking anomalies twice is the same as taking them once. */
  lemma ToAnomalyIdempotent(E: Matrix)
    ensures ToAnomaly(ToAnomaly(E)) == ToAnomaly(E)
  {
    var A := ToAnomaly(E);
    forall i | 0 <= i < |E|
      ensures ToAnomaly(A)[i] == A[i]
    {
      AnomalyRowsSumToZero(E, i);
      assert Mean(A[i]) == 0.0;
    }
  }

  /** Inflation keeps every row mean. */
  lemma InflatePreservesMean(E: Matrix, k: real, i: nat)
    requires i < |E| && |E[i]| > 0
    ensures Mean(Inflate(E, k)[i]) == Mean(E[i])
  {
    var m := Mean(E[i]);
    assert RowMeans(E)[i] == m;
    var Eu := RowMeans(E);
    assert Eu[i] == m;
    assert Inflate(E, k) == InflateAbout(E, k, Eu);
    assert InflateAbout(E, k, Eu)[i] == InflateRow(E[i], k, m);
    assert InflateRow(E[i], k, m) == Affine(E[i], k, (1.0 - k) * m);
    MeanAffine(E[i], k, (1.0 - k) * m);
    Blend(k, m);
  }

  lemma Blend(k: real, m: real)
    ensures k * m + (1.0 - k) * m == m
  {
  }

  /** Inflation scales the anomalies by exactly `k`. */
  lemma InflateScalesAnomalies(E: Matrix, k: real)
    ensures forall i, j :: 0 <= i < |E| && 0 <= j < |E[i]| ==>
      ToAnomaly(Inflate(E, k))[i][j] == k * ToAnomaly(E)[i][j]
  {
    forall i | 0 <= i < |E| && |E[i]| > 0 {
      InflatePreservesMean(E, k, i);
    }
  }

  /** A factor of 1 leaves the ensemble unchanged. */
  lemma InflateByOne(E: Matrix)
    ensures Inflate(E, 1.0) == E
  {
    var F := Inflate(E, 1.0);
    forall i | 0 <= i < |E|
      ensures F[i] == E[i]
    {
    }
  }

  /** A generated ensemble has mean `u` and the sample's anomalies. */
  lemma GenerateEnsembleMean(u: Vector, sample: Matrix, i: nat)
    requires |sample| == |u| && i < |u| && |sample[i]| > 0
    ensures GenerateEnsemble(u, sample).Ok?
    ensures Mean(GenerateEnsemble(u, sample).value[i]) == u[i]
    ensures ToAnomaly(GenerateEnsemble(u, sample).value)[i] == ToAnomaly(sample)[i]
  {
    var A := ToAnomaly(sample);
    var G := GenerateEnsemble(u, sample).value;
    AnomalyRowsSumToZero(sample, i);
    MeanAffine(A[i], 1.0, u[i]);
    assert Mean(A[i]) == 0.0;
    assert Mean(G[i]) == u[i];
  }
}

=== FILE: ensemble_smoother.dfy ===
/** `EnsembleKalmanSmoother` (src/DA/Algorithm/EnsembleKalmanSmoother.cpp):
    the fixed-lag ensemble smoother's state, its configuration, its
    localization bookkeeping, and the first half of its protocol:
    `beginSmoother`, `beginAnalysis` and `assimilate`. The lagged-smoother
    pass, `endAnalysis` and `endSmoother` are in the `EnsembleSmoothing`
    module.

    The object is a value: every operation returns the next state or the
    error the source raises. The variant's numerics
    (`applyCovInflation`, `processGlobalEnsemble` with `ensembleTransform`)
    and the partitioner's `getLocal`/`putLocal` are function-valued fields;
    the observation manager enters as the batches it hands out, and the
    result callback as the trace `results` of what it was called with.
 */
module EnsembleSmoother {
  import opened Wrappers
  import opened Matrices
  import opened SmootherLayout
  import MC = MemoryArrayCache
  import OM = ObservationManagers
  import Ops = ObservationOperators

  /** `LAG_FIKS` (include/Endas/DA/Sequential.hpp): `INT_MAX`, a lag that
      turns the fixed-lag smoother into a fixed-interval one. */
  const LagFiks: int := 0x7fff_ffff

  /** An entry of `ksSteps`: a time index and the cache handle of its
      ensemble. */
  datatype Step = Step(k: int, handle: MC.Handle)

  /** The variant (`EnKSVariant`): inflation, and the analysis transform of a
      local ensemble `E` given the global ensemble `Eg`, one batch of
      observations and the time index. The transform returns the updated
      `E` together with the `N x N` transform `X`. */
  datatype Variant = Variant(
    applyCovInflation: (Matrix, real, int) -> Matrix,
    transform: (Matrix, Matrix, OM.ObservationData, int) -> (Matrix, Matrix))

  /** The partitioner the smoother localizes with (`DomainPartitioning`). */
  datatype Partitioning = Partitioning(
    numLocalDomains: int,
    localSize: int -> int,
    getLocal: (int, Matrix) -> Matrix,
    putLocal: (int, Matrix, Matrix) -> Matrix)

  /** What the smoother calls out to: the variant it was built with and the
      partitioner it was localized with. */
  datatype Env = Env(variant: Variant, part: Option<Partitioning>)

  /** The smoother's own state (`EnsembleKalmanSmoother::Data`). */
  datatype Smoother = Smoother(
    n: nat, N: nat, lag: int, covInflation: real, forget: real,
    cache: MC.Cache, steps: seq<Step>,
    // the analysis in progress
    active: bool, upK: int, upE: Option<Matrix>, upX: Matrix, upHaveX: bool, upHaveObs: bool,
    // localization
    numDomains: int, layout: Layout,
    Eaug: Matrix, locX: Matrix, locHaveX: set<int>,
    // the result callback
    hasOnResult: bool, results: seq<(Matrix, int)>)

  /** `isLocalized()`. */
  predicate IsLocalized(s: Smoother) {
    s.numDomains > 1
  }

  /** The time indices of a trace of results. */
  function ResultKs(results: seq<(Matrix, int)>): (ks: seq<int>)
    ensures |ks| == |results| && forall t :: 0 <= t < |ks| ==> ks[t] == results[t].1
  {
    seq(|results|, t requires 0 <= t < |results| => results[t].1)
  }

  /** The time indices of the given step records. */
  function StepKs(steps: seq<Step>, js: seq<int>): (ks: seq<int>)
    requires forall t :: 0 <= t < |js| ==> 0 <= js[t] < |steps|
    ensures |ks| == |js| && forall t :: 0 <= t < |ks| ==> ks[t] == steps[js[t]].k
  {
    seq(|js|, t requires 0 <= t < |js| => steps[js[t]].k)
  }

  /** Dereferencing a pointer that may be null. */
  function Deref(p: Option<Matrix>): (r: Result<Matrix>)
    ensures r.Ok? <==> p.Some?
    ensures r.Ok? ==> r.value == p.value
  {
    if p.None? then Fail(NullDereference) else Ok(p.value)
  }

  // ---------------------------------------------------------------------------
  // Row blocks

  /** `M.block(start, 0, len, cols)`; Eigen rejects a block outside `M`. */
  function Block(M: Matrix, start: int, len: int): (r: Result<Matrix>)
    ensures r.Ok? <==> 0 <= start && 0 <= len && start + len <= |M|
    ensures r.Ok? ==> |r.value| == len && forall t :: 0 <= t < len ==> r.value[t] == M[start + t]
  {
    if 0 <= start && 0 <= len && start + len <= |M| then Ok(M[start..start + len]) else Fail(OutOfRange)
  }

  /** `M` with the rows from `start` on replaced by `B`. */
  function Splice(M: Matrix, start: nat, B: Matrix): (R: Matrix)
    requires start + |B| <= |M|
    ensures |R| == |M|
    ensures forall t :: 0 <= t < |M| ==> R[t] == (if start <= t < start + |B| then B[t - start] else M[t])
  {
    M[..start] + B + M[start + |B|..]
  }

  /** Assigning `B` to a `len`-row block of `M`; Eigen rejects a block
      outside `M` and a right-hand side of another size. */
  function SetBlock(M: Matrix, start: int, len: int, B: Matrix): (r: Result<Matrix>)
    ensures r.Ok? <==> 0 <= start && |B| == len && start + len <= |M|
    ensures r.Ok? ==> r.value == Splice(M, start, B)
  {
    if 0 <= start && |B| == len && start + len <= |M| then Ok(Splice(M, start, B)) else Fail(OutOfRange)
  }

  /** Writing a block and reading it back gives the block. */
  lemma BlockOfSetBlock(M: Matrix, start: int, B: Matrix)
    requires SetBlock(M, start, |B|, B).Ok?
    ensures Block(SetBlock(M, start, |B|, B).value, start, |B|) == Ok(B)
  {
    var R := SetBlock(M, start, |B|, B).value;
    assert R[start..start + |B|] == B;
  }

  // ---------------------------------------------------------------------------
  // Construction and configuration

  /** The constructor: the lag must be non-negative; without a cache a
      fresh `MemoryArrayCache` is used. */
  function New(n: nat, N: nat, lag: int, cache: Option<MC.Cache>): (r: Result<Smoother>)
    ensures r.Ok? <==> lag >= 0
    ensures r.Fail? ==> r.error == AssertionError("lag >= 0")
    ensures r.Ok? ==> var s := r.value;
      && s.n == n && s.N == N && s.lag == lag && s.covInflation == 1.0 && s.forget == 1.0
      && !s.active && !IsLocalized(s) && s.steps == [] && s.results == [] && !s.hasOnResult
      && s.cache == (if cache.Some? then cache.value else MC.Empty())
  {
    if lag < 0 then Fail(AssertionError("lag >= 0")) else
    Ok(Smoother(n, N, lag, 1.0, 1.0,
                if cache.Some? then cache.value else MC.Empty(), [],
                false, 0, None, [], false, false,
                0, Layout([], [], [], 0, 0), [], [], {},
                false, []))
  }

  /** `onResult(fn)`: whether a result callback is installed. */
  function OnResult(s: Smoother, installed: bool): (r: Smoother)
    ensures r.hasOnResult == installed && r.results == s.results
  {
    s.(hasOnResult := installed)
  }

  /** `setCovInflationFactor`: a factor below one is rejected. */
  function SetCovInflationFactor(s: Smoother, factor: real): (r: Result<Smoother>)
    ensures r.Ok? <==> factor >= 1.0
    ensures r.Ok? ==> r.value == s.(covInflation := factor)
    ensures r.Fail? ==> r.error == AssertionError("factor >= 1.0")
  {
    if factor < 1.0 then Fail(AssertionError("factor >= 1.0")) else
    Ok(s.(covInflation := factor))
  }

  /** `setSmootherForgettingFactor`: a factor above one is rejected. */
  function SetSmootherForgettingFactor(s: Smoother, factor: real): (r: Result<Smoother>)
    ensures r.Ok? <==> factor <= 1.0
    ensures r.Ok? ==> r.value == s.(forget := factor)
    ensures r.Fail? ==> r.error == AssertionError("factor <= 1.0")
  {
    if factor > 1.0 then Fail(AssertionError("factor <= 1.0")) else
    Ok(s.(forget := factor))
  }

  // ---------------------------------------------------------------------------
  // Localization

  /** The local sizes the partitioner reports, domain by domain. */
  function LocalSizes(p: Partitioning): (sizes: seq<int>)
    requires p.numLocalDomains >= 0
    ensures |sizes| == p.numLocalDomains
  {
    seq(p.numLocalDomains, d requires 0 <= d < p.numLocalDomains => p.localSize(d))
  }

  /** `globalize()`: a single domain covering the whole state. */
  function Globalize(s: Smoother): (r: Smoother)
    ensures !IsLocalized(r) && r.numDomains == 1 && r.layout.total == s.n
    ensures r.steps == s.steps && r.cache == s.cache && r.active == s.active && r.lag == s.lag
  {
    s.(numDomains := 1, layout := Layout([], [], [], 0, s.n), Eaug := [], locX := [], locHaveX := {})
  }

  /** `localize(partitioner, taper)`: a null partitioner or one without
      domains is rejected, a single domain reverts to global analysis, and
      otherwise every local size must be non-negative and the layout of the
      augmented ensemble is laid out domain after domain. */
  function Localize(s: Smoother, part: Option<Partitioning>): (r: Result<Smoother>)
    ensures r.Ok? <==> (part.Some? && part.value.numLocalDomains > 0 &&
      (part.value.numLocalDomains == 1 || forall d :: 0 <= d < part.value.numLocalDomains ==> LocalSizes(part.value)[d] >= 0))
    ensures part.None? ==> r == Fail(AssertionError("partitioner"))
    ensures part.Some? && part.value.numLocalDomains <= 0 ==> r == Fail(AssertionError("mData->locNumDomains > 0"))
    ensures r.Ok? ==> (IsLocalized(r.value) <==> part.value.numLocalDomains > 1)
    ensures r.Ok? && part.value.numLocalDomains == 1 ==> r.value == Globalize(s)
    ensures r.Ok? && IsLocalized(r.value) ==>
      var L := LayoutOf(LocalSizes(part.value), s.N);
      && r.value.layout == L && r.value.numDomains == part.value.numLocalDomains
      && |r.value.Eaug| == L.total && |r.value.locX| == L.numNonempty * s.N
    ensures r.Ok? ==> r.value.steps == s.steps && r.value.cache == s.cache && r.value.active == s.active
  {
    if part.None? then Fail(AssertionError("partitioner"))
    else
      var p := part.value;
      if p.numLocalDomains <= 0 then Fail(AssertionError("mData->locNumDomains > 0"))
      else if p.numLocalDomains == 1 then Ok(Globalize(s))
      else
        var sizes := LocalSizes(p);
        if !(forall d :: 0 <= d < |sizes| ==> sizes[d] >= 0) then Fail(AssertionError("nloc >= 0"))
        else
          var L := LayoutOf(sizes, s.N);
          assert L.total >= 0 by {
            PrefixSumBounded(sizes, 0);
          }
          Ok(s.(numDomains := p.numLocalDomains, layout := L,
                Eaug := Zeros(L.total, s.N), locX := Zeros(L.numNonempty * s.N, s.N), locHaveX := {}))
  }

  /** The layout `localize` builds is walked in order, without overlap. */
  lemma LocalizeOrdered(s: Smoother, part: Option<Partitioning>)
    requires Localize(s, part).Ok? && IsLocalized(Localize(s, part).value)
    ensures Ordered(Visits(Localize(s, part).value.layout))
  {
    LayoutVisitsOrdered(LocalSizes(part.value), s.N);
  }

  /** `unpackEnsemble` over the given calls: each non-empty domain's
      `getLocal` fills its block of the augmented ensemble. */
  function UnpackOver(vs: seq<Visit>, p: Partitioning, E: Matrix, Eaug: Matrix): (r: Result<Matrix>)
    ensures r.Ok? ==> |r.value| == |Eaug|
    decreases |vs|
  {
    if |vs| == 0 then Ok(Eaug)
    else
      var v := vs[0];
      var Eaug' :- SetBlock(Eaug, v.start, v.nloc, p.getLocal(v.d, E));
      UnpackOver(vs[1..], p, E, Eaug')
  }

  /** `packEnsemble` over the given calls: each non-empty domain's block is
      handed to `putLocal`. */
  function PackOver(vs: seq<Visit>, p: Partitioning, Eaug: Matrix, E: Matrix): (r: Result<Matrix>)
    decreases |vs|
  {
    if |vs| == 0 then Ok(E)
    else
      var v := vs[0];
      var Ed :- Block(Eaug, v.start, v.nloc);
      PackOver(vs[1..], p, Eaug, p.putLocal(v.d, Ed, E))
  }

  function Unpack(env: Env, s: Smoother, E: Matrix): Result<Matrix> {
    if env.part.None? then Fail(NullDereference) else UnpackOver(Visits(s.layout), env.part.value, E, s.Eaug)
  }

  function Pack(env: Env, s: Smoother, Eaug: Matrix, E: Matrix): Result<Matrix> {
    if env.part.None? then Fail(NullDereference) else PackOver(Visits(s.layout), env.part.value, Eaug, E)
  }

  // ---------------------------------------------------------------------------
  // The protocol

  /** `beginSmoother(E0, k0)`: with a lag it restarts the step records with
      the cached initial ensemble (the augmented one when localized); with
      lag 0 it only checks its arguments. */
  function BeginSmoother(env: Env, s: Smoother, E0: Matrix, k0: int): (r: Result<Smoother>)
    ensures s.active ==> r == Fail(AssertionError("!mData->updateActive"))
    ensures !s.active && |E0| != s.n ==> r == Fail(AssertionError("E0.rows() == mData->n"))
    ensures !s.active && |E0| == s.n && !IsMatrix(E0, s.n, s.N) ==> r == Fail(AssertionError("E0.cols() == mData->N"))
    ensures r.Ok? ==> !s.active && IsMatrix(E0, s.n, s.N)
    ensures r.Ok? && s.lag == 0 ==> r.value == s
    ensures r.Ok? && s.lag != 0 ==>
      && r.value.steps == [Step(k0, s.cache.counter)] && r.value.upE == None
      && r.value.cache == MC.Put(s.cache, if IsLocalized(s) then r.value.Eaug else E0).0
      && !r.value.active && r.value.results == s.results
  {
    if s.active then Fail(AssertionError("!mData->updateActive")) else
    :- Check(|E0| == s.n, "E0.rows() == mData->n");
    :- Check(IsMatrix(E0, s.n, s.N), "E0.cols() == mData->N");
    if s.lag == 0 then Ok(s)
    else
      var stored :- if IsLocalized(s) then Unpack(env, s, E0) else Ok(E0);
      var (cache, h) := MC.Put(s.cache, stored);
      Ok(s.(steps := [Step(k0, h)], upE := None, cache := cache,
            Eaug := if IsLocalized(s) then stored else s.Eaug))
  }

  /** `beginAnalysis(E, k)`: starts the analysis of step `k` on `E`,
      inflated unless the factor is one, with no transform and no
      observations yet, and (localized) every domain's transform unset. */
  function BeginAnalysis(env: Env, s: Smoother, E: Matrix, k: int): (r: Result<Smoother>)
    ensures s.active ==> r == Fail(AssertionError("!mData->updateActive"))
    ensures !s.active && |E| != s.n ==> r == Fail(AssertionError("E.rows() == mData->n"))
    ensures !s.active && |E| == s.n && !IsMatrix(E, s.n, s.N) ==> r == Fail(AssertionError("E.cols() == mData->N"))
    ensures r.Ok? ==> !s.active && IsMatrix(E, s.n, s.N)
    ensures r.Ok? ==> var t := r.value;
      && t.active && t.upK == k && !t.upHaveX && !t.upHaveObs
      && t.upE == Some(if s.covInflation != 1.0 then env.variant.applyCovInflation(E, s.covInflation, k) else E)
      && (IsLocalized(s) ==> t.locHaveX == {})
      && t.steps == s.steps && t.cache == s.cache && t.results == s.results
      && t.lag == s.lag && t.numDomains == s.numDomains
  {
    if s.active then Fail(AssertionError("!mData->updateActive")) else
    :- Check(|E| == s.n, "E.rows() == mData->n");
    :- Check(IsMatrix(E, s.n, s.N), "E.cols() == mData->N");
    var E1 := if s.covInflation != 1.0 then env.variant.applyCovInflation(E, s.covInflation, k) else E;
    var s1 := s.(upK := k, upE := Some(E1), upX := Zeros(s.N, s.N), upHaveX := false, upHaveObs := false);
    if IsLocalized(s) then
      var Eaug :- Unpack(env, s1, E1);
      Ok(s1.(Eaug := Eaug, locHaveX := {}, active := true))
    else
      Ok(s1.(active := true))
  }

  /** The argument checks of `assimilateOne`: both operators present and
      sized like the observations. */
  predicate BatchValid(od: OM.ObservationData) {
    && od.H.Some? && od.R.Some?
    && Ops.Valid(od.H.value) && Ops.Nobs(od.H.value) == |od.obs|
    && OM.CovSize(od.R.value) == |od.obs|
  }

  /** `assimilateOne`: one batch updates `E` through the variant; the first
      batch writes the transform, a later one composes `X := X * Xnew`, and
      the transform is kept only when there is a lag. The result is the new
      `E`, `X` and `haveX`. */
  function AssimilateOne(env: Env, s: Smoother, od: OM.ObservationData, Eg: Matrix, E: Matrix, X: Matrix, haveX: bool): (r: Result<(Matrix, Matrix, bool)>)
    ensures r.Ok? <==> BatchValid(od)
    ensures od.H.None? ==> r == Fail(AssertionError("odata.H"))
    ensures od.H.Some? && od.R.None? ==> r == Fail(AssertionError("odata.R"))
    ensures r.Ok? ==> var T := env.variant.transform(Eg, E, od, s.upK);
      && r.value.0 == T.0
      && r.value.1 == (if haveX then Mul(X, T.1) else T.1)
      && r.value.2 == (haveX || s.lag > 0)
  {
    if od.H.None? then Fail(AssertionError("odata.H"))
    else if od.R.None? then Fail(AssertionError("odata.R"))
    else if !(Ops.Valid(od.H.value) && Ops.Nobs(od.H.value) == |od.obs|) then
      Fail(AssertionError("odata.H->nobs() == odata.obs.size()"))
    else if OM.CovSize(od.R.value) != |od.obs| then
      Fail(AssertionError("odata.R->size() == odata.obs.size()"))
    else
      var T := env.variant.transform(Eg, E, od, s.upK);
      Ok((T.0, if haveX then Mul(X, T.1) else T.1, haveX || s.lag > 0))
  }

  const LocalDomainMessage := "d != GlobalAnalysisDomainId && d >= 0 && d < mData->locNumDomains"

  /** The domains of the batches the local loop takes: every batch up to
      the first empty one. */
  function TakenDomains(fetched: seq<OM.ObservationData>): set<int>
    decreases |fetched|
  {
    if |fetched| == 0 || OM.IsEmpty(fetched[0]) then {}
    else {fetched[0].domain} + TakenDomains(fetched[1..])
  }

  /** The local branch of `assimilate`: batches are taken until the first
      empty one (or the end); each must name a domain `0 <= d <
      numDomains`, and updates that domain's block of the augmented ensemble
      and its transform at `locXLimits(d)`. A domain's transform counts as
      present from its first batch on when there is a lag. */
  function AssimilateLocal(env: Env, s: Smoother, Eg: Matrix, fetched: seq<OM.ObservationData>): (r: Result<Smoother>)
    ensures (|fetched| > 0 && !OM.IsEmpty(fetched[0]) &&
             !(fetched[0].domain != OM.GlobalAnalysisDomainId && 0 <= fetched[0].domain < s.numDomains)) ==>
      r == Fail(AssertionError(LocalDomainMessage))
    ensures r.Ok? ==> r.value == s.(Eaug := r.value.Eaug, locX := r.value.locX, upHaveObs := r.value.upHaveObs, locHaveX := r.value.locHaveX)
    ensures r.Ok? ==> r.value.active == s.active && r.value.steps == s.steps && r.value.cache == s.cache
    ensures r.Ok? ==> r.value.results == s.results && r.value.numDomains == s.numDomains && r.value.lag == s.lag
    ensures r.Ok? ==> r.value.layout == s.layout && |r.value.Eaug| == |s.Eaug| && |r.value.locX| == |s.locX|
    ensures r.Ok? ==> forall d :: d in TakenDomains(fetched) ==> d != OM.GlobalAnalysisDomainId && 0 <= d < s.numDomains
    ensures r.Ok? ==> r.value.upHaveObs == (s.upHaveObs || TakenDomains(fetched) != {})
    ensures r.Ok? ==> s.locHaveX <= r.value.locHaveX <= s.locHaveX + TakenDomains(fetched)
    ensures r.Ok? && s.lag > 0 ==> r.value.locHaveX == s.locHaveX + TakenDomains(fetched)
    decreases |fetched|
  {
    if |fetched| == 0 || OM.IsEmpty(fetched[0]) then Ok(s)
    else
      var od := fetched[0];
      var d := od.domain;
      if !(d != OM.GlobalAnalysisDomainId && 0 <= d < s.numDomains) then
        Fail(AssertionError(LocalDomainMessage))
      else if d >= |s.layout.starts| || d >= |s.layout.nlocs| || d >= |s.layout.xLimits| then
        Fail(OutOfRange)
      else
        var start := s.layout.starts[d];
        var nloc := s.layout.nlocs[d];
        var xs := s.layout.xLimits[d];
        var Ed :- Block(s.Eaug, start, nloc);
        var Xd :- Block(s.locX, xs, s.N);
        var res :- AssimilateOne(env, s, od, Eg, Ed, Xd, d in s.locHaveX);
        var Eaug :- SetBlock(s.Eaug, start, nloc, res.0);
        var locX :- SetBlock(s.locX, xs, s.N, res.1);
        var s1 := s.(Eaug := Eaug, locX := locX, upHaveObs := true,
                     locHaveX := if res.2 then s.locHaveX + {d} else s.locHaveX);
        AssimilateLocal(env, s1, Eg, fetched[1..])
  }

  /** `assimilate(omgr)`, given the batches the observation manager hands
      out after `beginFetch`. Global analysis takes the first batch, which
      must carry `GlobalAnalysisDomainId`, and updates `upE`, `upX` and
      `upHaveX` by `assimilateOne`; localized analysis first rebuilds the
      global ensemble if observations were already assimilated. */
  function Assimilate(env: Env, s: Smoother, fetched: seq<OM.ObservationData>): (r: Result<Smoother>)
    ensures !s.active ==> r == Fail(AssertionError("mData->updateActive"))
    ensures s.active && s.upE.None? ==> r == Fail(NullDereference)
    ensures r.Ok? ==> r.value.active && r.value.steps == s.steps && r.value.cache == s.cache && s.upE.Some?
    ensures r.Ok? ==> r.value.results == s.results && r.value.lag == s.lag && r.value.numDomains == s.numDomains
    ensures r.Ok? && !IsLocalized(s) && (|fetched| == 0 || OM.IsEmpty(fetched[0])) ==> r.value == s
    ensures (s.active && s.upE.Some? && !IsLocalized(s) && |fetched| > 0 && !OM.IsEmpty(fetched[0]) &&
             fetched[0].domain != OM.GlobalAnalysisDomainId) ==> r == Fail(AssertionError("odata.domain == GlobalAnalysisDomainId"))
    ensures r.Ok? && !IsLocalized(s) && |fetched| > 0 && !OM.IsEmpty(fetched[0]) ==>
      var res := AssimilateOne(env, s, fetched[0], s.upE.value, s.upE.value, s.upX, s.upHaveX);
      && res.Ok? && fetched[0].domain == OM.GlobalAnalysisDomainId
      && r.value == s.(upE := Some(res.value.0), upX := res.value.1, upHaveX := res.value.2, upHaveObs := true)
      && r.value.upHaveX == (s.upHaveX || s.lag > 0)
    ensures r.Ok? && IsLocalized(s) ==>
      && (s.upHaveObs ==> Pack(env, s, s.Eaug, s.upE.value).Ok? && r.value.upE == Some(Pack(env, s, s.Eaug, s.upE.value).value))
      && (!s.upHaveObs ==> r.value.upE == s.upE)
      && r.value.upHaveObs == (s.upHaveObs || TakenDomains(fetched) != {})
      && s.locHaveX <= r.value.locHaveX <= s.locHaveX + TakenDomains(fetched)
      && (s.lag > 0 ==> r.value.locHaveX == s.locHaveX + TakenDomains(fetched))
  {
    if !s.active then Fail(AssertionError("mData->updateActive")) else
    var Eg :- Deref(s.upE);
    if !IsLocalized(s) then
      var od := if |fetched| == 0 then OM.EmptyData() else fetched[0];
      if OM.IsEmpty(od) then Ok(s)
      else if od.domain != OM.GlobalAnalysisDomainId then
        Fail(AssertionError("odata.domain == GlobalAnalysisDomainId"))
      else
        var res :- AssimilateOne(env, s, od, Eg, Eg, s.upX, s.upHaveX);
        Ok(s.(upE := Some(res.0), upX := res.1, upHaveX := res.2, upHaveObs := true))
    else
      var Eg' :- if s.upHaveObs then Pack(env, s, s.Eaug, Eg) else Ok(Eg);
      AssimilateLocal(env, s.(upE := Some(Eg')), Eg', fetched)
  }

  // ---------------------------------------------------------------------------
  // Properties

  /** With the lag `LAG_FIKS` the smoother runs over a fixed interval: each
      analysis visits every earlier record and hands none of them out, so
      all of them wait for `endSmoother`. */
  lemma FixedIntervalKeepsAll(kend: int)
    requires 0 <= kend < LagFiks
    ensures forall j :: j in Visited(kend, LagFiks) <==> 0 <= j < kend
    ensures Emitted(Visited(kend, LagFiks), kend, LagFiks, false) == []
  {
    VisitedRange(kend, LagFiks);
    NonFinishingEmitsOne(kend, LagFiks);
  }
}

=== FILE: ensemble_smoothing.dfy ===
/** The lagged-smoother pass of `EnsembleKalmanSmoother`
    (src/DA/Algorithm/EnsembleKalmanSmoother.cpp): `laggedSmoother` over the
    cached step records, `endAnalysis` and `endSmoother`, and the
    properties of the protocol as a whole. The state and the configuration
    are those of the `EnsembleSmoother` module.
 */
module EnsembleSmoothing {
  import opened Wrappers
  import opened Matrices
  import opened SmootherLayout
  import opened EnsembleSmoother
  import MC = MemoryArrayCache
  import OM = ObservationManagers
  import Ops = ObservationOperators

  /** The per-domain part of a non-finishing pass: every non-empty domain
      with a transform damps it by the forgetting factor in place and
      multiplies its block of the record by it. */
  function LocalSmooth(vs: seq<Visit>, Ej: Matrix, locX: Matrix, haveX: set<int>, f: real, N: nat): (r: Result<(Matrix, Matrix)>)
    ensures r.Ok? ==> |r.value.0| == |Ej| && |r.value.1| == |locX|
    decreases |vs|
  {
    if |vs| == 0 then Ok((Ej, locX))
    else
      var v := vs[0];
      if v.d !in haveX then LocalSmooth(vs[1..], Ej, locX, haveX, f, N)
      else
        var Ed :- Block(Ej, v.start, v.nloc);
        var Xd :- Block(locX, v.i * N, N);
        var Xd' := ApplyForget(Xd, f);
        LocalSmooth(vs[1..], Splice(Ej, v.start, Mul(Ed, Xd')), Splice(locX, v.i * N, Xd'), haveX, f, N)
  }

  /** Block `v` of `E1` is block `v` of `E` times the transform in slot
      `v.i` of `X` damped by `f`, and that slot of `X1` holds the damped
      transform. */
  predicate BlockSmoothed(v: Visit, E: Matrix, X: Matrix, E1: Matrix, X1: Matrix, f: real, N: nat) {
    && 0 <= v.start && 0 <= v.nloc && v.start + v.nloc <= |E| == |E1|
    && 0 <= v.i * N && v.i * N + N <= |X| == |X1|
    && E1[v.start..v.start + v.nloc] == Mul(E[v.start..v.start + v.nloc], ApplyForget(X[v.i * N..v.i * N + N], f))
    && X1[v.i * N..v.i * N + N] == ApplyForget(X[v.i * N..v.i * N + N], f)
  }

  /** The rows of block `v` of `E1` and of slot `v.i` of `X1` that lie
      inside are those of `E` and `X`. */
  predicate BlockKept(v: Visit, E: Matrix, X: Matrix, E1: Matrix, X1: Matrix, N: nat)
    requires |E1| == |E| && |X1| == |X|
  {
    && (forall t :: v.start <= t < v.start + v.nloc && 0 <= t < |E| ==> E1[t] == E[t])
    && (forall t :: v.i * N <= t < v.i * N + N && 0 <= t < |X| ==> X1[t] == X[t])
  }

  /** One call on a domain with a transform smooths its block and slot and
      leaves every other row alone; `E1` and `X1` are what it leaves for
      the remaining calls. */
  lemma LocalSmoothHead(vs: seq<Visit>, Ej: Matrix, locX: Matrix, haveX: set<int>, f: real, N: nat) returns (E1: Matrix, X1: Matrix)
    requires |vs| > 0 && vs[0].d in haveX && LocalSmooth(vs, Ej, locX, haveX, f, N).Ok?
    ensures LocalSmooth(vs, Ej, locX, haveX, f, N) == LocalSmooth(vs[1..], E1, X1, haveX, f, N)
    ensures BlockSmoothed(vs[0], Ej, locX, E1, X1, f, N)
    ensures forall t :: 0 <= t < |Ej| && !(vs[0].start <= t < vs[0].start + vs[0].nloc) ==> E1[t] == Ej[t]
    ensures forall t :: 0 <= t < |locX| && !(vs[0].i * N <= t < vs[0].i * N + N) ==> X1[t] == locX[t]
  {
    var v := vs[0];
    var Ed := Block(Ej, v.start, v.nloc).value;
    var Xd := Block(locX, v.i * N, N).value;
    assert Ed == Ej[v.start..v.start + v.nloc] && Xd == locX[v.i * N..v.i * N + N];
    E1, X1 := SmoothBlock(v, Ej, locX, f, N);
  }

  /** Smoothing block `v` of `E` by slot `v.i` of `X`, damped by `f`, in
      place: the block and slot change as `BlockSmoothed` says, nothing
      else does. */
  lemma SmoothBlock(v: Visit, E: Matrix, X: Matrix, f: real, N: nat) returns (E1: Matrix, X1: Matrix)
    requires 0 <= v.start && 0 <= v.nloc && v.start + v.nloc <= |E|
    requires 0 <= v.i * N && v.i * N + N <= |X|
    ensures var Xd' := ApplyForget(X[v.i * N..v.i * N + N], f);
      && E1 == Splice(E, v.start, Mul(E[v.start..v.start + v.nloc], Xd'))
      && X1 == Splice(X, v.i * N, Xd')
    ensures BlockSmoothed(v, E, X, E1, X1, f, N)
    ensures forall t :: 0 <= t < |E| && !(v.start <= t < v.start + v.nloc) ==> E1[t] == E[t]
    ensures forall t :: 0 <= t < |X| && !(v.i * N <= t < v.i * N + N) ==> X1[t] == X[t]
  {
    var Ed := E[v.start..v.start + v.nloc];
    var Xd' := ApplyForget(X[v.i * N..v.i * N + N], f);
    E1 := Splice(E, v.start, Mul(Ed, Xd'));
    X1 := Splice(X, v.i * N, Xd');
    SpliceSlice(E, v.start, Mul(Ed, Xd'));
    SpliceSlice(X, v.i * N, Xd');
  }

  /** The rows `Splice` replaces read back as the block put there. */
  lemma SpliceSlice(M: Matrix, start: nat, B: Matrix)
    requires start + |B| <= |M|
    ensures Splice(M, start, B)[start..start + |B|] == B
  {
  }

  /** `BlockSmoothed` only looks at the rows of the block and the slot. */
  lemma BlockSmoothedRows(v: Visit, E: Matrix, X: Matrix, E1: Matrix, X1: Matrix, E2: Matrix, X2: Matrix, f: real, N: nat)
    requires BlockSmoothed(v, E, X, E1, X1, f, N) && |E2| == |E1| && |X2| == |X1|
    requires forall t :: v.start <= t < v.start + v.nloc ==> E2[t] == E1[t]
    requires forall t :: v.i * N <= t < v.i * N + N ==> X2[t] == X1[t]
    ensures BlockSmoothed(v, E, X, E2, X2, f, N)
  {
    assert E2[v.start..v.start + v.nloc] == E1[v.start..v.start + v.nloc];
    assert X2[v.i * N..v.i * N + N] == X1[v.i * N..v.i * N + N];
  }

  /** `BlockSmoothed` only looks at the rows of the block and the slot of
      the input either. */
  lemma BlockSmoothedBase(v: Visit, E: Matrix, X: Matrix, E0: Matrix, X0: Matrix, E1: Matrix, X1: Matrix, f: real, N: nat)
    requires BlockSmoothed(v, E0, X0, E1, X1, f, N) && |E| == |E0| && |X| == |X0|
    requires forall t :: v.start <= t < v.start + v.nloc ==> E0[t] == E[t]
    requires forall t :: v.i * N <= t < v.i * N + N ==> X0[t] == X[t]
    ensures BlockSmoothed(v, E, X, E1, X1, f, N)
  {
    assert E0[v.start..v.start + v.nloc] == E[v.start..v.start + v.nloc];
    assert X0[v.i * N..v.i * N + N] == X[v.i * N..v.i * N + N];
  }

  /** `E1` and `X1` are `Ej` and `locX` after the calls `vs`: the block of
      every domain with a transform is multiplied by that domain's damped
      transform, which is stored in its slot; the blocks and slots of the
      other domains, and everything before the first call, are kept. */
  predicate SmoothedBlocks(vs: seq<Visit>, Ej: Matrix, locX: Matrix, haveX: set<int>, f: real, N: nat, E1: Matrix, X1: Matrix) {
    && |E1| == |Ej| && |X1| == |locX|
    && (forall t :: 0 <= t < |Ej| && (|vs| == 0 || t < vs[0].start) ==> E1[t] == Ej[t])
    && (forall t :: 0 <= t < |locX| && (|vs| == 0 || t < vs[0].i * N) ==> X1[t] == locX[t])
    && (forall k :: 0 <= k < |vs| && vs[k].d in haveX ==> BlockSmoothed(vs[k], Ej, locX, E1, X1, f, N))
    && (forall k :: 0 <= k < |vs| && vs[k].d !in haveX ==> BlockKept(vs[k], Ej, locX, E1, X1, N))
  }

  /** Smoothing the first block and slot, then the rest, smooths them all. */
  lemma SmoothedBlocksCons(vs: seq<Visit>, Ej: Matrix, locX: Matrix, haveX: set<int>, f: real, N: nat,
                           E1: Matrix, X1: Matrix, E2: Matrix, X2: Matrix)
    requires Ordered(vs) && |vs| > 0 && vs[0].d in haveX
    requires BlockSmoothed(vs[0], Ej, locX, E1, X1, f, N)
    requires forall t :: 0 <= t < |Ej| && !(vs[0].start <= t < vs[0].start + vs[0].nloc) ==> E1[t] == Ej[t]
    requires forall t :: 0 <= t < |locX| && !(vs[0].i * N <= t < vs[0].i * N + N) ==> X1[t] == locX[t]
    requires SmoothedBlocks(vs[1..], E1, X1, haveX, f, N, E2, X2)
    ensures SmoothedBlocks(vs, Ej, locX, haveX, f, N, E2, X2)
  {
    var v := vs[0];
    var rest := vs[1..];
    if |rest| > 0 {
      SlotBefore(v.i, rest[0].i, N);
    }
    BlockSmoothedRows(v, Ej, locX, E1, X1, E2, X2, f, N);
    forall k | 1 <= k < |vs|
      ensures vs[k].d in haveX ==> BlockSmoothed(vs[k], Ej, locX, E2, X2, f, N)
      ensures vs[k].d !in haveX ==> BlockKept(vs[k], Ej, locX, E2, X2, N)
    {
      var w := vs[k];
      assert w == rest[k - 1];
      SlotBefore(v.i, w.i, N);
      if w.d in haveX {
        BlockSmoothedBase(w, Ej, locX, E1, X1, E2, X2, f, N);
      }
    }
  }

  /** Skipping the first call, a domain without a transform, and smoothing
      the rest smooths them all. */
  lemma SmoothedBlocksSkip(vs: seq<Visit>, Ej: Matrix, locX: Matrix, haveX: set<int>, f: real, N: nat, E2: Matrix, X2: Matrix)
    requires Ordered(vs) && |vs| > 0 && vs[0].d !in haveX
    requires SmoothedBlocks(vs[1..], Ej, locX, haveX, f, N, E2, X2)
    ensures SmoothedBlocks(vs, Ej, locX, haveX, f, N, E2, X2)
  {
    var v := vs[0];
    var rest := vs[1..];
    if |rest| > 0 {
      SlotBefore(v.i, rest[0].i, N);
    }
    forall k | 1 <= k < |vs|
      ensures vs[k].d in haveX ==> BlockSmoothed(vs[k], Ej, locX, E2, X2, f, N)
      ensures vs[k].d !in haveX ==> BlockKept(vs[k], Ej, locX, E2, X2, N)
    {
      assert vs[k] == rest[k - 1];
    }
  }

  /** Over calls in order, `LocalSmooth` smooths the blocks and slots of
      the domains with a transform and keeps everything else. */
  lemma {:induction false} LocalSmoothBlocks(vs: seq<Visit>, Ej: Matrix, locX: Matrix, haveX: set<int>, f: real, N: nat)
    requires Ordered(vs) && LocalSmooth(vs, Ej, locX, haveX, f, N).Ok?
    ensures var p := LocalSmooth(vs, Ej, locX, haveX, f, N).value;
      SmoothedBlocks(vs, Ej, locX, haveX, f, N, p.0, p.1)
    decreases |vs|
  {
    if |vs| > 0 {
      var v := vs[0];
      var rest := vs[1..];
      OrderedTail(vs);
      if v.d !in haveX {
        LocalSmoothBlocks(rest, Ej, locX, haveX, f, N);
        var p := LocalSmooth(rest, Ej, locX, haveX, f, N).value;
        SmoothedBlocksSkip(vs, Ej, locX, haveX, f, N, p.0, p.1);
      } else {
        var E1, X1 := LocalSmoothHead(vs, Ej, locX, haveX, f, N);
        LocalSmoothBlocks(rest, E1, X1, haveX, f, N);
        var p := LocalSmooth(rest, E1, X1, haveX, f, N).value;
        SmoothedBlocksCons(vs, Ej, locX, haveX, f, N, E1, X1, p.0, p.1);
      }
    }
  }

  /** The multiplication of one record in a non-finishing pass: globally by
      `upX` (damped in place first), locally domain by domain. */
  function MultiplyRecord(s: Smoother, Ej: Matrix): (r: Result<(Smoother, Matrix)>)
    ensures r.Ok? ==> var t := r.value.0;
      && t == s.(upX := t.upX, locX := t.locX)
    ensures (r.Ok? <==> Smoothed(s, Ej, false).Ok?) && (r.Ok? ==> r.value.1 == Smoothed(s, Ej, false).value)
    ensures !IsLocalized(s) ==> r.Ok?
    ensures !IsLocalized(s) ==> r.value.0.upX == (if s.upHaveX then ApplyForget(s.upX, s.forget) else s.upX)
    ensures !IsLocalized(s) ==> r.value.1 == (if s.upHaveX then Mul(Ej, ApplyForget(s.upX, s.forget)) else Ej)
    ensures r.Ok? && IsLocalized(s) ==>
      r.value.0.locX == LocalSmooth(Visits(s.layout), Ej, s.locX, s.locHaveX, s.forget, s.N).value.1
  {
    if !IsLocalized(s) then
      if s.upHaveX then
        var X := ApplyForget(s.upX, s.forget);
        Ok((s.(upX := X), Mul(Ej, X)))
      else Ok((s, Ej))
    else
      var res :- LocalSmooth(Visits(s.layout), Ej, s.locX, s.locHaveX, s.forget, s.N);
      Ok((s.(locX := res.1), res.0))
  }

  /** The record ensemble `E` after one iteration's multiplication:
      unchanged when finishing; globally times `upX` damped once; localized,
      each block with a transform times that domain's damped transform. */
  function Smoothed(s: Smoother, E: Matrix, finishing: bool): Result<Matrix> {
    if finishing then Ok(E)
    else if !IsLocalized(s) then Ok(if s.upHaveX then Mul(E, ApplyForget(s.upX, s.forget)) else E)
    else
      match LocalSmooth(Visits(s.layout), E, s.locX, s.locHaveX, s.forget, s.N)
      case Ok(p) => Ok(p.0)
      case Fail(e) => Fail(e)
  }

  /** Localized, one iteration's multiplication on a layout walked in order
      smooths the block and the transform slot of every domain with a
      transform and keeps the rest. */
  lemma LocalizedMultiply(s: Smoother, Ej: Matrix)
    requires IsLocalized(s) && Ordered(Visits(s.layout)) && MultiplyRecord(s, Ej).Ok?
    ensures SmoothedBlocks(Visits(s.layout), Ej, s.locX, s.locHaveX, s.forget, s.N,
                           MultiplyRecord(s, Ej).value.1, MultiplyRecord(s, Ej).value.0.locX)
  {
    LocalSmoothBlocks(Visits(s.layout), Ej, s.locX, s.locHaveX, s.forget, s.N);
  }

  /** What the result callback receives for the record ensemble `Ej`: `Ej`
      itself, or when localized the global ensemble `packEnsemble` rebuilds
      from it inside `upE`. */
  function Delivered(env: Env, s: Smoother, Ej: Matrix): Result<Matrix> {
    if !IsLocalized(s) then Ok(Ej)
    else
      match s.upE
      case None => Fail(NullDereference)
      case Some(E) => Pack(env, s, Ej, E)
  }

  /** Handing a record to the result callback, if one is installed; a
      localized record is packed into `upE` first. */
  function Emit(env: Env, s: Smoother, Ej: Matrix, k: int): (r: Result<Smoother>)
    ensures r.Ok? ==> r.value == s.(upE := r.value.upE, results := r.value.results)
    ensures r.Ok? ==> |r.value.results| == |s.results| + (if s.hasOnResult then 1 else 0)
    ensures r.Ok? ==> r.value.results[..|s.results|] == s.results
    ensures r.Ok? && s.hasOnResult ==> r.value.results[|s.results|].1 == k
    ensures !s.hasOnResult ==> r == Ok(s)
    ensures s.hasOnResult ==> (r.Ok? <==> Delivered(env, s, Ej).Ok?)
    ensures r.Ok? && s.hasOnResult ==> r.value.results == s.results + [(Delivered(env, s, Ej).value, k)]
    ensures r.Ok? && s.hasOnResult && IsLocalized(s) ==> r.value.upE == Some(Delivered(env, s, Ej).value)
    ensures r.Ok? && !IsLocalized(s) ==> r.value.upE == s.upE
  {
    if !s.hasOnResult then Ok(s)
    else if IsLocalized(s) then
      var E :- Deref(s.upE);
      var E' :- Pack(env, s, Ej, E);
      Ok(s.(upE := Some(E'), results := s.results + [(E', k)]))
    else
      Ok(s.(results := s.results + [(Ej, k)]))
  }

  /** Every handle of `c` other than `h` is still in `c1`, with the same
      entry. */
  predicate CacheKept(c: MC.Cache, c1: MC.Cache, h: MC.Handle) {
    forall g :: g in c.entries && g != h ==> g in c1.entries && c1.entries[g] == c.entries[g]
  }

  /** One iteration of the `laggedSmoother` loop, for record `j` of `kend`:
      the record is multiplied unless finishing, then either handed out and
      removed from the cache, or written back and marked dirty. */
  function SmoothRecord(env: Env, s: Smoother, j: int, kend: int, finishing: bool): (r: Result<Smoother>)
    requires 0 <= j < |s.steps|
    ensures r.Ok? ==> Frame(s, r.value)
    ensures r.Ok? ==> s.steps[j].handle in s.cache.entries
    ensures r.Ok? ==> var e := IsResult(j, kend, s.lag, finishing) && s.hasOnResult;
      && |r.value.results| == |s.results| + (if e then 1 else 0)
      && r.value.results[..|s.results|] == s.results
      && (e ==> r.value.results[|s.results|].1 == s.steps[j].k)
    ensures r.Ok? && IsResult(j, kend, s.lag, finishing) ==> s.steps[j].handle !in r.value.cache.entries
    ensures r.Ok? && !IsResult(j, kend, s.lag, finishing) ==>
      && s.steps[j].handle in r.value.cache.entries && r.value.cache.entries[s.steps[j].handle].isDirty
    ensures r.Ok? ==> r.value.upX == (if !finishing && !IsLocalized(s) && s.upHaveX then ApplyForget(s.upX, s.forget) else s.upX)
    ensures r.Ok? ==> CacheKept(s.cache, r.value.cache, s.steps[j].handle)
    ensures r.Ok? && !IsLocalized(s) ==> r.value.upE == s.upE
    ensures r.Ok? ==> var E := s.cache.entries[s.steps[j].handle].data;
      && Smoothed(s, E, finishing).Ok?
      && (IsResult(j, kend, s.lag, finishing) && s.hasOnResult ==>
            && Delivered(env, s, Smoothed(s, E, finishing).value).Ok?
            && r.value.results == s.results + [(Delivered(env, s, Smoothed(s, E, finishing).value).value, s.steps[j].k)])
      && (!IsResult(j, kend, s.lag, finishing) ==>
            r.value.cache.entries[s.steps[j].handle] == MC.Entry(Smoothed(s, E, finishing).value, true))
  {
    var step := s.steps[j];
    var entry :- MC.Get(s.cache, step.handle);
    SmoothEntry(env, s, entry, step, finishing, IsResult(j, kend, s.lag, finishing))
  }

  /** The iteration on a record once its cache entry `entry` is read: the
      ensemble is multiplied unless finishing, then handed out when `emit`,
      otherwise written back. */
  function SmoothEntry(env: Env, s: Smoother, entry: MC.Entry, step: Step, finishing: bool, emit: bool): (r: Result<Smoother>)
    requires step.handle in s.cache.entries
    ensures r.Ok? ==> Frame(s, r.value)
    ensures r.Ok? ==> var e := emit && s.hasOnResult;
      && |r.value.results| == |s.results| + (if e then 1 else 0)
      && r.value.results[..|s.results|] == s.results
      && (e ==> r.value.results[|s.results|].1 == step.k)
    ensures r.Ok? && emit ==> step.handle !in r.value.cache.entries
    ensures r.Ok? && !emit ==> step.handle in r.value.cache.entries && r.value.cache.entries[step.handle].isDirty
    ensures r.Ok? ==> r.value.upX == (if !finishing && !IsLocalized(s) && s.upHaveX then ApplyForget(s.upX, s.forget) else s.upX)
    ensures r.Ok? ==> CacheKept(s.cache, r.value.cache, step.handle)
    ensures r.Ok? && !IsLocalized(s) ==> r.value.upE == s.upE
    ensures r.Ok? ==>
      && Smoothed(s, entry.data, finishing).Ok?
      && (emit && s.hasOnResult ==>
            && Delivered(env, s, Smoothed(s, entry.data, finishing).value).Ok?
            && r.value.results == s.results + [(Delivered(env, s, Smoothed(s, entry.data, finishing).value).value, step.k)])
      && (!emit ==> r.value.cache.entries[step.handle] == MC.Entry(Smoothed(s, entry.data, finishing).value, true))
  {
    var mr :- if finishing then Ok((s, entry.data)) else MultiplyRecord(s, entry.data);
    assert Delivered(env, mr.0, mr.1) == Delivered(env, s, mr.1);
    Dispose(env, mr.0, mr.1, step, entry.isDirty, emit)
  }

  /** The end of one iteration: a record in the result position is handed
      out, any other is written back to its cache entry, marked dirty. */
  function Dispose(env: Env, s: Smoother, Ej: Matrix, step: Step, wasDirty: bool, emit: bool): (r: Result<Smoother>)
    requires step.handle in s.cache.entries
    ensures r.Ok? ==> Frame(s, r.value) && r.value.upX == s.upX
    ensures r.Ok? ==> var e := emit && s.hasOnResult;
      && |r.value.results| == |s.results| + (if e then 1 else 0)
      && r.value.results[..|s.results|] == s.results
      && (e ==> r.value.results[|s.results|].1 == step.k)
    ensures r.Ok? && emit ==> step.handle !in r.value.cache.entries
    ensures r.Ok? && !emit ==> step.handle in r.value.cache.entries && r.value.cache.entries[step.handle].isDirty
    ensures r.Ok? && emit && s.hasOnResult ==>
      Delivered(env, s, Ej).Ok? && r.value.results == s.results + [(Delivered(env, s, Ej).value, step.k)]
    ensures r.Ok? && !emit ==> r.value.cache.entries[step.handle] == MC.Entry(Ej, true)
    ensures r.Ok? ==> CacheKept(s.cache, r.value.cache, step.handle)
    ensures r.Ok? && !IsLocalized(s) ==> r.value.upE == s.upE
  {
    if emit then HandOut(env, s, Ej, step)
    else Ok(WriteBack(s, step.handle, MC.Entry(Ej, wasDirty)))
  }

  /** A record inside the window's result position is handed out and its
      ensemble released from the cache. */
  function HandOut(env: Env, s: Smoother, Ej: Matrix, step: Step): (r: Result<Smoother>)
    ensures r.Ok? ==> Frame(s, r.value) && r.value.upX == s.upX && step.handle !in r.value.cache.entries
    ensures r.Ok? ==>
      && |r.value.results| == |s.results| + (if s.hasOnResult then 1 else 0)
      && r.value.results[..|s.results|] == s.results
      && (s.hasOnResult ==> r.value.results[|s.results|].1 == step.k)
    ensures r.Ok? && s.hasOnResult ==>
      Delivered(env, s, Ej).Ok? && r.value.results == s.results + [(Delivered(env, s, Ej).value, step.k)]
    ensures r.Ok? ==> CacheKept(s.cache, r.value.cache, step.handle)
    ensures r.Ok? && !IsLocalized(s) ==> r.value.upE == s.upE
  {
    var s2 :- Emit(env, s, Ej, step.k);
    match MC.Remove(s2.cache, step.handle)
    case Ok(cache) => Ok(s2.(cache := cache))
    case Fail(e) => Fail(e)
  }

  /** Any other record is written back to its cache entry, marked dirty. */
  function WriteBack(s: Smoother, h: MC.Handle, e: MC.Entry): (t: Smoother)
    requires h in s.cache.entries
    ensures Frame(s, t) && t.upX == s.upX && t.results == s.results && t.upE == s.upE
    ensures h in t.cache.entries && t.cache.entries[h] == MC.MarkEntryDirty(e) && t.cache.entries[h].isDirty
    ensures CacheKept(s.cache, t.cache, h)
  {
    s.(cache := MC.Write(s.cache, h, MC.MarkEntryDirty(e)))
  }

  /** What a lagged pass may change: the transforms, `upE`, the results and
      the entries of the cache, whose handles it only removes. */
  predicate Frame(s: Smoother, t: Smoother) {
    && t == s.(upX := t.upX, locX := t.locX, upE := t.upE, results := t.results, cache := t.cache)
    && t.cache.entries.Keys <= s.cache.entries.Keys
    && t.cache.counter == s.cache.counter
  }

  /** What a pass over the records `js` promises about its result. */
  predicate RecordsFacts(s: Smoother, js: seq<int>, kend: int, finishing: bool, t: Smoother)
    requires forall u :: 0 <= u < |js| ==> 0 <= js[u] < |s.steps|
  {
    && Frame(s, t)
    && |t.results| >= |s.results|
    && t.results[..|s.results|] == s.results
    && ResultKs(t.results[|s.results|..]) ==
         (if s.hasOnResult then StepKs(s.steps, Emitted(js, kend, s.lag, finishing)) else [])
    && (forall j :: j in Emitted(js, kend, s.lag, finishing) ==> s.steps[j].handle !in t.cache.entries)
    && (!finishing && !IsLocalized(s) && s.upHaveX ==> t.upX == ForgetPow(s.upX, s.forget, |js|))
    && (finishing || IsLocalized(s) || !s.upHaveX ==> t.upX == s.upX)
    && (!IsLocalized(s) ==> t.upE == s.upE)
  }

  /** The `laggedSmoother` loop over the records `js`, in order. */
  function SmoothRecords(env: Env, s: Smoother, js: seq<int>, kend: int, finishing: bool): (r: Result<Smoother>)
    requires forall t :: 0 <= t < |js| ==> 0 <= js[t] < |s.steps|
    ensures r.Ok? ==> RecordsFacts(s, js, kend, finishing, r.value)
    decreases |js|
  {
    if |js| == 0 then
      assert ResultKs(s.results[|s.results|..]) == [];
      Ok(s)
    else
      var s1 :- SmoothRecord(env, s, js[0], kend, finishing);
      var r := SmoothRecords(env, s1, js[1..], kend, finishing);
      assert r.Ok? ==> RecordsFacts(s, js, kend, finishing, r.value) by {
        if r.Ok? {
          SmoothRecordsStep(env, s, js, kend, finishing, s1, r.value);
        }
      }
      r
  }

  /** The inductive step of `SmoothRecords`: the first record's iteration
      followed by the rest. */
  lemma SmoothRecordsStep(env: Env, s: Smoother, js: seq<int>, kend: int, finishing: bool, s1: Smoother, t: Smoother)
    requires |js| > 0 && forall u :: 0 <= u < |js| ==> 0 <= js[u] < |s.steps|
    requires SmoothRecord(env, s, js[0], kend, finishing) == Ok(s1)
    requires RecordsFacts(s1, js[1..], kend, finishing, t)
    ensures RecordsFacts(s, js, kend, finishing, t)
  {
    var head := if IsResult(js[0], kend, s.lag, finishing) then [js[0]] else [];
    assert Emitted(js, kend, s.lag, finishing) == head + Emitted(js[1..], kend, s.lag, finishing);
    StepResults(s.steps, s.lag, s.hasOnResult, js, kend, finishing, s.results, s1.results, t.results);
    StepRemovals(s, js, kend, finishing, s1, t);
    if !finishing && !IsLocalized(s) && s.upHaveX {
      ForgetPowShift(s.upX, s.forget, |js| - 1);
    }
  }

  /** The results of one iteration followed by those of the rest. */
  lemma StepResults(steps: seq<Step>, lag: int, hasOnResult: bool, js: seq<int>, kend: int, finishing: bool, r0: seq<(Matrix, int)>, r1: seq<(Matrix, int)>, r2: seq<(Matrix, int)>)
    requires |js| > 0 && forall u :: 0 <= u < |js| ==> 0 <= js[u] < |steps|
    requires var e := IsResult(js[0], kend, lag, finishing) && hasOnResult;
      && |r1| == |r0| + (if e then 1 else 0)
      && r1[..|r0|] == r0
      && (e ==> r1[|r0|].1 == steps[js[0]].k)
    requires |r2| >= |r1| && r2[..|r1|] == r1
    requires ResultKs(r2[|r1|..]) ==
      (if hasOnResult then StepKs(steps, Emitted(js[1..], kend, lag, finishing)) else [])
    ensures |r2| >= |r0| && r2[..|r0|] == r0
    ensures ResultKs(r2[|r0|..]) ==
      (if hasOnResult then StepKs(steps, Emitted(js, kend, lag, finishing)) else [])
  {
    var head := if IsResult(js[0], kend, lag, finishing) then [js[0]] else [];
    var rest := Emitted(js[1..], kend, lag, finishing);
    assert Emitted(js, kend, lag, finishing) == head + rest;
    var headKs := if hasOnResult then StepKs(steps, head) else [];
    var restKs := if hasOnResult then StepKs(steps, rest) else [];
    assert ResultKs(r1[|r0|..]) == headKs;
    ResultsStep(r0, r1, r2, headKs, restKs);
    if hasOnResult {
      StepKsConcat(steps, head, rest);
    }
  }

  /** Results appended in two rounds: the step indices of everything
      appended are those of the first round followed by the second's. */
  lemma ResultsStep(r0: seq<(Matrix, int)>, r1: seq<(Matrix, int)>, r2: seq<(Matrix, int)>, ks1: seq<int>, ks2: seq<int>)
    requires |r1| >= |r0| && r1[..|r0|] == r0 && ResultKs(r1[|r0|..]) == ks1
    requires |r2| >= |r1| && r2[..|r1|] == r1 && ResultKs(r2[|r1|..]) == ks2
    ensures |r2| >= |r0| && r2[..|r0|] == r0
    ensures ResultKs(r2[|r0|..]) == ks1 + ks2
  {
    var x := r2[|r0|..];
    var d := |r1| - |r0|;
    assert x[..d] == r1[|r0|..];
    assert x[d..] == r2[|r1|..];
    ResultKsConcat(x, d);
  }

  /** The step indices of a split list of results, part by part. */
  lemma ResultKsConcat(x: seq<(Matrix, int)>, d: nat)
    requires d <= |x|
    ensures ResultKs(x) == ResultKs(x[..d]) + ResultKs(x[d..])
  {
    assert x == x[..d] + x[d..];
  }

  /** The step indices of two lists of positions, one after the other. */
  lemma StepKsConcat(steps: seq<Step>, a: seq<int>, b: seq<int>)
    requires forall t :: 0 <= t < |a| ==> 0 <= a[t] < |steps|
    requires forall t :: 0 <= t < |b| ==> 0 <= b[t] < |steps|
    ensures forall t :: 0 <= t < |a + b| ==> 0 <= (a + b)[t] < |steps|
    ensures StepKs(steps, a + b) == StepKs(steps, a) + StepKs(steps, b)
  {
  }

  /** The handles removed by one iteration stay removed by the rest. */
  lemma StepRemovals(s: Smoother, js: seq<int>, kend: int, finishing: bool, s1: Smoother, t: Smoother)
    requires |js| > 0 && forall u :: 0 <= u < |js| ==> 0 <= js[u] < |s.steps|
    requires s1.steps == s.steps && s1.lag == s.lag
    requires IsResult(js[0], kend, s.lag, finishing) ==> s.steps[js[0]].handle !in s1.cache.entries
    requires t.cache.entries.Keys <= s1.cache.entries.Keys
    requires forall j :: j in Emitted(js[1..], kend, s.lag, finishing) ==> s.steps[j].handle !in t.cache.entries
    ensures forall j :: j in Emitted(js, kend, s.lag, finishing) ==> s.steps[j].handle !in t.cache.entries
  {
    var head := if IsResult(js[0], kend, s.lag, finishing) then [js[0]] else [];
    var rest := Emitted(js[1..], kend, s.lag, finishing);
    assert Emitted(js, kend, s.lag, finishing) == head + rest;
    forall jj | jj in head + rest
      ensures s.steps[jj].handle !in t.cache.entries
    {
      if jj !in rest {
        assert jj == js[0];
      }
    }
  }

  /** Damping once and then `t` times is damping `t + 1` times. */
  lemma {:induction false} ForgetPowShift(X: Matrix, f: real, t: nat)
    ensures ForgetPow(ApplyForget(X, f), f, t) == ForgetPow(X, f, t + 1)
  {
    if t > 0 {
      ForgetPowShift(X, f, t - 1);
    }
  }

  // ---------------------------------------------------------------------------
  // The values a global pass produces

  /** No two of the records `js` share a cache handle. */
  predicate HandlesDistinct(steps: seq<Step>, js: seq<int>)
    requires forall t :: 0 <= t < |js| ==> 0 <= js[t] < |steps|
  {
    forall t1, t2 :: 0 <= t1 < t2 < |js| ==> steps[js[t1]].handle != steps[js[t2]].handle
  }

  /** Every step record has a handle of its own. */
  predicate StepHandlesDistinct(steps: seq<Step>) {
    forall j1, j2 :: 0 <= j1 < j2 < |steps| ==> steps[j1].handle != steps[j2].handle
  }

  /** The records `js`, each cached in `entries`. */
  predicate Cached(steps: seq<Step>, js: seq<int>, entries: map<MC.Handle, MC.Entry>) {
    forall t :: 0 <= t < |js| ==> 0 <= js[t] < |steps| && steps[js[t]].handle in entries
  }

  /** The cached ensemble `E` after iteration `u` (counting from 0) of a
      global pass that began with transform `X`: unchanged when finishing
      or when no transform was computed, otherwise times `X` damped once
      per iteration so far. */
  function GlobalSmoothed(s: Smoother, E: Matrix, X: Matrix, u: nat, finishing: bool): Matrix {
    if finishing || !s.upHaveX then E else Mul(E, ForgetPow(X, s.forget, u + 1))
  }

  /** What a global pass over `js`, from iteration `u` on, hands to the
      callback: every result record's ensemble, smoothed as far as its
      iteration, with its step index. */
  function PassResults(s: Smoother, entries: map<MC.Handle, MC.Entry>, js: seq<int>, X: Matrix, u: nat, kend: int, finishing: bool): seq<(Matrix, int)>
    requires Cached(s.steps, js, entries)
    decreases |js|
  {
    if |js| == 0 then []
    else PassHead(s, entries, js[0], X, u, kend, finishing) + PassResults(s, entries, js[1..], X, u + 1, kend, finishing)
  }

  /** What iteration `u` of a global pass, on record `j`, hands to the
      callback: nothing unless it is a result. */
  function PassHead(s: Smoother, entries: map<MC.Handle, MC.Entry>, j: int, X: Matrix, u: nat, kend: int, finishing: bool): seq<(Matrix, int)>
    requires 0 <= j < |s.steps| && s.steps[j].handle in entries
  {
    if IsResult(j, kend, s.lag, finishing) && s.hasOnResult
    then [(GlobalSmoothed(s, entries[s.steps[j].handle].data, X, u, finishing), s.steps[j].k)] else []
  }

  /** Every record of `js` that is not a result is in `entries1`, marked
      dirty, holding its ensemble from `entries` smoothed as far as its
      iteration. */
  predicate WrittenBack(s: Smoother, entries: map<MC.Handle, MC.Entry>, js: seq<int>, X: Matrix, u: nat, kend: int, finishing: bool,
                        entries1: map<MC.Handle, MC.Entry>)
    requires Cached(s.steps, js, entries)
  {
    forall v :: 0 <= v < |js| && !IsResult(js[v], kend, s.lag, finishing) ==>
      && s.steps[js[v]].handle in entries1
      && entries1[s.steps[js[v]].handle] == MC.Entry(GlobalSmoothed(s, entries[s.steps[js[v]].handle].data, X, u + v, finishing), true)
  }

  /** `g` is none of the records' handles. */
  predicate NotAmong(steps: seq<Step>, js: seq<int>, g: MC.Handle)
    requires forall t :: 0 <= t < |js| ==> 0 <= js[t] < |steps|
  {
    forall t :: 0 <= t < |js| ==> steps[js[t]].handle != g
  }

  /** `PassResults` only reads the entries of the records' own handles. */
  lemma {:induction false} PassResultsAgree(s: Smoother, e1: map<MC.Handle, MC.Entry>, e2: map<MC.Handle, MC.Entry>, js: seq<int>, X: Matrix, u: nat, kend: int, finishing: bool)
    requires Cached(s.steps, js, e1) && Cached(s.steps, js, e2)
    requires forall t :: 0 <= t < |js| ==> e1[s.steps[js[t]].handle] == e2[s.steps[js[t]].handle]
    ensures PassResults(s, e1, js, X, u, kend, finishing) == PassResults(s, e2, js, X, u, kend, finishing)
    decreases |js|
  {
    if |js| > 0 {
      PassResultsAgree(s, e1, e2, js[1..], X, u + 1, kend, finishing);
    }
  }

  /** The facts one global iteration on record `j` contributes, from state
      `s` to state `s1`, with the pass's unchanging fields those of `s0`. */
  predicate StepFacts(s0: Smoother, s: Smoother, j: int, X: Matrix, u: nat, kend: int, finishing: bool, s1: Smoother)
    requires 0 <= j < |s0.steps|
  {
    var h := s0.steps[j].handle;
    && h in s.cache.entries
    && Frame(s0, s1)
    && (!finishing && s0.upHaveX ==> s1.upX == ForgetPow(X, s0.forget, u + 1))
    && s1.results == s.results + PassHead(s0, s.cache.entries, j, X, u, kend, finishing)
    && (!IsResult(j, kend, s0.lag, finishing) ==>
          h in s1.cache.entries && s1.cache.entries[h] == MC.Entry(GlobalSmoothed(s0, s.cache.entries[h].data, X, u, finishing), true))
    && CacheKept(s.cache, s1.cache, h)
    && s1.cache.entries.Keys <= s.cache.entries.Keys
  }

  /** One global iteration, and the rest of the pass from the state it
      leaves. */
  lemma GlobalRecordStep(env: Env, s0: Smoother, s: Smoother, js: seq<int>, X: Matrix, u: nat, kend: int, finishing: bool) returns (s1: Smoother)
    requires !IsLocalized(s0) && Frame(s0, s) && |js| > 0 && forall t :: 0 <= t < |js| ==> 0 <= js[t] < |s0.steps|
    requires !finishing && s0.upHaveX ==> s.upX == ForgetPow(X, s0.forget, u)
    requires SmoothRecords(env, s, js, kend, finishing).Ok?
    ensures StepFacts(s0, s, js[0], X, u, kend, finishing, s1)
    ensures SmoothRecords(env, s1, js[1..], kend, finishing) == SmoothRecords(env, s, js, kend, finishing)
  {
    SmoothRecordsCons(env, s, js, kend, finishing);
    s1 := SmoothRecord(env, s, js[0], kend, finishing).value;
    if !(IsResult(js[0], kend, s0.lag, finishing) && s0.hasOnResult) {
      assert s1.results == s1.results[..|s.results|];
    }
  }


  /** What a global pass over `js` from state `s`, iteration `u` on,
      leaves in `t`: the callback has received every result record's cached
      ensemble smoothed as far as its iteration, every other record is
      written back smoothed and marked dirty, and every other handle keeps
      its entry. */
  predicate GlobalPassFacts(s0: Smoother, s: Smoother, js: seq<int>, X: Matrix, u: nat, kend: int, finishing: bool, t: Smoother)
    requires Cached(s0.steps, js, s.cache.entries)
  {
    && t.results == s.results + PassResults(s0, s.cache.entries, js, X, u, kend, finishing)
    && WrittenBack(s0, s.cache.entries, js, X, u, kend, finishing, t.cache.entries)
    && (forall g :: g in s.cache.entries && NotAmong(s0.steps, js, g) ==>
          g in t.cache.entries && t.cache.entries[g] == s.cache.entries[g])
  }

  /** The first record's handle is none of the later records' handles. */
  lemma HeadNotAmong(steps: seq<Step>, js: seq<int>)
    requires |js| > 0 && (forall t :: 0 <= t < |js| ==> 0 <= js[t] < |steps|) && HandlesDistinct(steps, js)
    ensures NotAmong(steps, js[1..], steps[js[0]].handle)
  {
    var rest := js[1..];
    forall v | 0 <= v < |rest|
      ensures steps[rest[v]].handle != steps[js[0]].handle
    {
      assert rest[v] == js[v + 1];
    }
  }

  /** A handle none of the records has is none of the later records' either. */
  lemma TailNotAmong(steps: seq<Step>, js: seq<int>, g: MC.Handle)
    requires |js| > 0 && (forall t :: 0 <= t < |js| ==> 0 <= js[t] < |steps|) && NotAmong(steps, js, g)
    ensures NotAmong(steps, js[1..], g) && steps[js[0]].handle != g
  {
    var rest := js[1..];
    forall v | 0 <= v < |rest|
      ensures steps[rest[v]].handle != g
    {
      assert rest[v] == js[v + 1];
    }
  }

  /** The first iteration leaves the entries of the later records alone, so
      what the rest of the pass hands out is the same read from before. */
  lemma RestAgree(s0: Smoother, s: Smoother, s1: Smoother, js: seq<int>, X: Matrix, u: nat, kend: int, finishing: bool)
    requires |js| > 0 && (forall t :: 0 <= t < |js| ==> 0 <= js[t] < |s0.steps|) && HandlesDistinct(s0.steps, js)
    requires CacheKept(s.cache, s1.cache, s0.steps[js[0]].handle)
    requires Cached(s0.steps, js[1..], s1.cache.entries) && Cached(s0.steps, js[1..], s.cache.entries)
    ensures PassResults(s0, s1.cache.entries, js[1..], X, u + 1, kend, finishing) ==
            PassResults(s0, s.cache.entries, js[1..], X, u + 1, kend, finishing)
  {
    var rest := js[1..];
    HeadNotAmong(s0.steps, js);
    forall v | 0 <= v < |rest|
      ensures s1.cache.entries[s0.steps[rest[v]].handle] == s.cache.entries[s0.steps[rest[v]].handle]
    {
      assert s0.steps[rest[v]].handle != s0.steps[js[0]].handle;
    }
    PassResultsAgree(s0, s1.cache.entries, s.cache.entries, rest, X, u + 1, kend, finishing);
  }

  /** The results of the first iteration followed by the rest's. */
  lemma GlobalPassConsResults(s0: Smoother, js: seq<int>, entries: map<MC.Handle, MC.Entry>, X: Matrix, u: nat, kend: int, finishing: bool,
                              r0: seq<(Matrix, int)>, r1: seq<(Matrix, int)>, r2: seq<(Matrix, int)>)
    requires |js| > 0 && Cached(s0.steps, js, entries)
    requires r1 == r0 + PassHead(s0, entries, js[0], X, u, kend, finishing)
    requires r2 == r1 + PassResults(s0, entries, js[1..], X, u + 1, kend, finishing)
    ensures r2 == r0 + PassResults(s0, entries, js, X, u, kend, finishing)
  {
  }

  /** The write-back of the first iteration followed by the rest's. */
  lemma GlobalPassConsWritten(s0: Smoother, s: Smoother, s1: Smoother, js: seq<int>, X: Matrix, u: nat, kend: int, finishing: bool, t: Smoother)
    requires |js| > 0 && (forall t :: 0 <= t < |js| ==> 0 <= js[t] < |s0.steps|) && HandlesDistinct(s0.steps, js)
    requires Cached(s0.steps, js[1..], s1.cache.entries) && Cached(s0.steps, js, s.cache.entries)
    requires var h := s0.steps[js[0]].handle;
      && (!IsResult(js[0], kend, s0.lag, finishing) ==>
            h in s1.cache.entries && s1.cache.entries[h] == MC.Entry(GlobalSmoothed(s0, s.cache.entries[h].data, X, u, finishing), true))
      && CacheKept(s.cache, s1.cache, h)
    requires WrittenBack(s0, s1.cache.entries, js[1..], X, u + 1, kend, finishing, t.cache.entries)
    requires forall g :: g in s1.cache.entries && NotAmong(s0.steps, js[1..], g) ==>
               g in t.cache.entries && t.cache.entries[g] == s1.cache.entries[g]
    ensures WrittenBack(s0, s.cache.entries, js, X, u, kend, finishing, t.cache.entries)
  {
    var rest := js[1..];
    HeadNotAmong(s0.steps, js);
    forall v | 0 <= v < |js| && !IsResult(js[v], kend, s0.lag, finishing)
      ensures s0.steps[js[v]].handle in t.cache.entries
      ensures t.cache.entries[s0.steps[js[v]].handle] ==
              MC.Entry(GlobalSmoothed(s0, s.cache.entries[s0.steps[js[v]].handle].data, X, u + v, finishing), true)
    {
      if v > 0 {
        assert js[v] == rest[v - 1];
        assert s0.steps[rest[v - 1]].handle != s0.steps[js[0]].handle;
      }
    }
  }

  /** The handles outside the pass keep their entries through the first
      iteration and the rest. */
  lemma GlobalPassConsKept(s0: Smoother, s: Smoother, s1: Smoother, js: seq<int>, t: Smoother)
    requires |js| > 0 && (forall t :: 0 <= t < |js| ==> 0 <= js[t] < |s0.steps|)
    requires CacheKept(s.cache, s1.cache, s0.steps[js[0]].handle)
    requires forall g :: g in s1.cache.entries && NotAmong(s0.steps, js[1..], g) ==>
               g in t.cache.entries && t.cache.entries[g] == s1.cache.entries[g]
    ensures forall g :: g in s.cache.entries && NotAmong(s0.steps, js, g) ==>
              g in t.cache.entries && t.cache.entries[g] == s.cache.entries[g]
  {
    forall g | g in s.cache.entries && NotAmong(s0.steps, js, g)
      ensures g in t.cache.entries && t.cache.entries[g] == s.cache.entries[g]
    {
      TailNotAmong(s0.steps, js, g);
    }
  }

  /** The first record is cached if it and the later ones were. */
  lemma CachedCons(steps: seq<Step>, js: seq<int>, e: map<MC.Handle, MC.Entry>, e1: map<MC.Handle, MC.Entry>)
    requires |js| > 0 && 0 <= js[0] < |steps| && steps[js[0]].handle in e
    requires Cached(steps, js[1..], e1) && e1.Keys <= e.Keys
    ensures Cached(steps, js, e)
  {
    forall v | 0 <= v < |js| ensures 0 <= js[v] < |steps| && steps[js[v]].handle in e {
      if v > 0 { assert js[v] == js[1..][v - 1]; }
    }
  }

  /** `SmoothRecords` over a non-empty list is one iteration, then the rest. */
  lemma SmoothRecordsCons(env: Env, s: Smoother, js: seq<int>, kend: int, finishing: bool)
    requires |js| > 0 && forall t :: 0 <= t < |js| ==> 0 <= js[t] < |s.steps|
    requires SmoothRecords(env, s, js, kend, finishing).Ok?
    ensures SmoothRecord(env, s, js[0], kend, finishing).Ok?
    ensures var s1 := SmoothRecord(env, s, js[0], kend, finishing).value;
      SmoothRecords(env, s, js, kend, finishing) == SmoothRecords(env, s1, js[1..], kend, finishing)
  {
  }

  /** A global pass over records with distinct handles, from iteration `u`
      on, establishes `GlobalPassFacts`. */
  lemma GlobalPass(env: Env, s0: Smoother, s: Smoother, js: seq<int>, X: Matrix, u: nat, kend: int, finishing: bool)
    requires !IsLocalized(s0) && Frame(s0, s)
    requires forall t :: 0 <= t < |js| ==> 0 <= js[t] < |s0.steps|
    requires HandlesDistinct(s0.steps, js)
    requires !finishing && s0.upHaveX ==> s.upX == ForgetPow(X, s0.forget, u)
    requires SmoothRecords(env, s, js, kend, finishing).Ok?
    ensures Cached(s0.steps, js, s.cache.entries)
    ensures GlobalPassFacts(s0, s, js, X, u, kend, finishing, SmoothRecords(env, s, js, kend, finishing).value)
  {
    var ss := GlobalPassStates(env, s0, s, js, X, u, kend, finishing);
    GlobalPassChain(s0, ss, js, X, u, kend, finishing);
  }

  /** `ss` are the states of a run of global iterations over `js`, from
      iteration `u` on, one iteration apart. */
  ghost predicate Chained(s0: Smoother, ss: seq<Smoother>, js: seq<int>, X: Matrix, u: nat, kend: int, finishing: bool)
    decreases |js|
  {
    && |ss| == |js| + 1
    && (|js| > 0 ==>
          && 0 <= js[0] < |s0.steps|
          && StepFacts(s0, ss[0], js[0], X, u, kend, finishing, ss[1])
          && Chained(s0, ss[1..], js[1..], X, u + 1, kend, finishing))
  }

  /** The states a global pass goes through. */
  lemma {:induction false} GlobalPassStates(env: Env, s0: Smoother, s: Smoother, js: seq<int>, X: Matrix, u: nat, kend: int, finishing: bool)
    returns (ss: seq<Smoother>)
    requires !IsLocalized(s0) && Frame(s0, s)
    requires forall t :: 0 <= t < |js| ==> 0 <= js[t] < |s0.steps|
    requires !finishing && s0.upHaveX ==> s.upX == ForgetPow(X, s0.forget, u)
    requires SmoothRecords(env, s, js, kend, finishing).Ok?
    ensures Chained(s0, ss, js, X, u, kend, finishing)
    ensures ss[0] == s && ss[|js|] == SmoothRecords(env, s, js, kend, finishing).value
    decreases |js|
  {
    if |js| == 0 {
      ss := [s];
    } else {
      var s1 := GlobalRecordStep(env, s0, s, js, X, u, kend, finishing);
      var rest := GlobalPassStates(env, s0, s1, js[1..], X, u + 1, kend, finishing);
      ss := [s] + rest;
      assert ss[1..] == rest;
    }
  }

  /** The facts of a run of iterations, chained, are the pass's. */
  lemma {:induction false} GlobalPassChain(s0: Smoother, ss: seq<Smoother>, js: seq<int>, X: Matrix, u: nat, kend: int, finishing: bool)
    requires forall t :: 0 <= t < |js| ==> 0 <= js[t] < |s0.steps|
    requires HandlesDistinct(s0.steps, js)
    requires Chained(s0, ss, js, X, u, kend, finishing)
    ensures Cached(s0.steps, js, ss[0].cache.entries)
    ensures GlobalPassFacts(s0, ss[0], js, X, u, kend, finishing, ss[|js|])
    decreases |js|
  {
    if |js| > 0 {
      var rest := ss[1..];
      HandlesDistinctTail(s0.steps, js);
      GlobalPassChain(s0, rest, js[1..], X, u + 1, kend, finishing);
      assert rest[|js[1..]|] == ss[|js|];
      GlobalPassCons(s0, ss[0], ss[1], js, X, u, kend, finishing, ss[|js|]);
    }
  }

  /** The later records' handles are distinct too. */
  lemma HandlesDistinctTail(steps: seq<Step>, js: seq<int>)
    requires |js| > 0 && (forall t :: 0 <= t < |js| ==> 0 <= js[t] < |steps|) && HandlesDistinct(steps, js)
    ensures HandlesDistinct(steps, js[1..])
  {
    var rest := js[1..];
    forall t1, t2 | 0 <= t1 < t2 < |rest|
      ensures steps[rest[t1]].handle != steps[rest[t2]].handle
    {
      assert rest[t1] == js[t1 + 1] && rest[t2] == js[t2 + 1];
    }
  }

  /** The first iteration's facts followed by the rest's are the whole
      pass's. */
  lemma GlobalPassCons(s0: Smoother, s: Smoother, s1: Smoother, js: seq<int>, X: Matrix, u: nat, kend: int, finishing: bool, t: Smoother)
    requires |js| > 0 && (forall t :: 0 <= t < |js| ==> 0 <= js[t] < |s0.steps|) && HandlesDistinct(s0.steps, js)
    requires StepFacts(s0, s, js[0], X, u, kend, finishing, s1)
    requires Cached(s0.steps, js[1..], s1.cache.entries)
    requires GlobalPassFacts(s0, s1, js[1..], X, u + 1, kend, finishing, t)
    ensures Cached(s0.steps, js, s.cache.entries)
    ensures GlobalPassFacts(s0, s, js, X, u, kend, finishing, t)
  {
    CachedCons(s0.steps, js, s.cache.entries, s1.cache.entries);
    assert Cached(s0.steps, js[1..], s.cache.entries) by {
      forall v | 0 <= v < |js| - 1 ensures js[1..][v] == js[v + 1] { }
    }
    RestAgree(s0, s, s1, js, X, u, kend, finishing);
    GlobalPassConsResults(s0, js, s.cache.entries, X, u, kend, finishing, s.results, s1.results, t.results);
    GlobalPassConsWritten(s0, s, s1, js, X, u, kend, finishing, t);
    GlobalPassConsKept(s0, s, s1, js, t);
  }


  /** `laggedSmoother(onresult, finishing)`: a pass over the records the
      window selects, among all `kend` records. */
  function LaggedSmoother(env: Env, s: Smoother, finishing: bool): (r: Result<Smoother>)
    ensures r.Ok? ==> Frame(s, r.value)
    ensures r.Ok? ==> var es := Emitted(Visited(|s.steps|, s.lag), |s.steps|, s.lag, finishing);
      && |r.value.results| >= |s.results|
      && r.value.results[..|s.results|] == s.results
      && ResultKs(r.value.results[|s.results|..]) == (if s.hasOnResult then StepKs(s.steps, es) else [])
      && forall j :: j in es ==> s.steps[j].handle !in r.value.cache.entries
    ensures r.Ok? && !finishing && !IsLocalized(s) && s.upHaveX ==>
      r.value.upX == ForgetPow(s.upX, s.forget, |Visited(|s.steps|, s.lag)|)
    ensures r.Ok? && !IsLocalized(s) ==> r.value.upE == s.upE
  {
    if |s.steps| == 0 then
      assert ResultKs(s.results[|s.results|..]) == [];
      Ok(s)
    else SmoothRecords(env, s, Visited(|s.steps|, s.lag), |s.steps|, finishing)
  }

  /** `endAnalysis()`: a non-finishing lagged pass, then (localized, when
      needed) the ensemble is packed back; with lag 0 the result goes to
      the callback, otherwise the ensemble is cached as a new step record. */
  function EndAnalysis(env: Env, s: Smoother): (r: Result<Smoother>)
    ensures !s.active ==> r == Fail(AssertionError("mData->updateActive"))
    ensures r.Ok? ==> !r.value.active && s.active
    ensures r.Ok? && s.lag != 0 ==>
      && |r.value.steps| == |s.steps| + 1
      && r.value.steps[..|s.steps|] == s.steps
      && r.value.steps[|s.steps|].k == s.upK
    ensures r.Ok? && s.lag != 0 ==>
      && r.value.steps == s.steps + [Step(s.upK, s.cache.counter)]
      && r.value.cache.counter == s.cache.counter + 1
      && (!IsLocalized(s) ==> s.upE.Some?)
    ensures r.Ok? && s.lag == 0 ==> r.value.steps == s.steps && r.value.cache.counter == s.cache.counter
    ensures r.Ok? ==> r.value.cache.entries.Keys <= s.cache.entries.Keys + {s.cache.counter}
    ensures r.Ok? && s.lag != 0 && MC.Valid(s.cache) ==>
      && s.cache.counter in r.value.cache.entries
      && r.value.cache.entries[s.cache.counter] == MC.NewEntry(if IsLocalized(s) then s.Eaug else s.upE.value)
  {
    if !s.active then Fail(AssertionError("mData->updateActive")) else
    var s1 :- LaggedSmoother(env, s, false);
    var s2 :- if IsLocalized(s1) && (s1.upHaveObs || s1.lag > 0) then PackUp(env, s1) else Ok(s1);
    if s2.lag == 0 then
      if s2.hasOnResult then
        var E :- Deref(s2.upE);
        Ok(s2.(results := s2.results + [(E, s2.upK)], active := false))
      else Ok(s2.(active := false))
    else
      var stored :- if IsLocalized(s2) then Ok(s2.Eaug) else Deref(s2.upE);
      var (cache, h) := MC.Put(s2.cache, stored);
      Ok(s2.(cache := cache, steps := s2.steps + [Step(s2.upK, h)], active := false))
  }

  /** Packing the augmented ensemble into `upE`. */
  function PackUp(env: Env, s: Smoother): (r: Result<Smoother>)
    ensures r.Ok? ==> r.value == s.(upE := r.value.upE)
  {
    var E :- Deref(s.upE);
    var E' :- Pack(env, s, s.Eaug, E);
    Ok(s.(upE := Some(E')))
  }

  /** `endSmoother()`: with a lag, requires a result callback and hands out
      every record still in the window, newest first. */
  function EndSmoother(env: Env, s: Smoother): (r: Result<Smoother>)
    ensures s.active ==> r == Fail(AssertionError("!mData->updateActive"))
    ensures !s.active && s.lag == 0 ==> r == Ok(s)
    ensures !s.active && s.lag != 0 && !s.hasOnResult ==> r == Fail(AssertionError("mOnResultFn"))
    ensures r.Ok? && s.lag != 0 ==> r == LaggedSmoother(env, s, true)
  {
    if s.active then Fail(AssertionError("!mData->updateActive")) else
    if s.lag == 0 then Ok(s)
    else
      :- Check(s.hasOnResult, "mOnResultFn");
      LaggedSmoother(env, s, true)
  }

  // ---------------------------------------------------------------------------
  // Properties

  /** Within one analysis, with a lag the first batch's transform is kept
      and the second composes onto it; without a lag nothing is kept, so each
      batch's transform replaces the last. */
  lemma TransformsCompose(env: Env, s: Smoother, od1: OM.ObservationData, od2: OM.ObservationData, Eg: Matrix, E: Matrix, X: Matrix)
    requires BatchValid(od1) && BatchValid(od2)
    ensures var r1 := AssimilateOne(env, s, od1, Eg, E, X, false).value;
      var r2 := AssimilateOne(env, s, od2, Eg, r1.0, r1.1, r1.2).value;
      var T1 := env.variant.transform(Eg, E, od1, s.upK);
      var T2 := env.variant.transform(Eg, T1.0, od2, s.upK);
      && (s.lag > 0 ==> r2.1 == Mul(T1.1, T2.1) && r2.2)
      && (s.lag <= 0 ==> r2.1 == T2.1 && !r2.2)
  {
  }

  /** With lag 0 a pass visits nothing: the cache, the records and the
      results are untouched. */
  lemma NoLagNoPass(env: Env, s: Smoother, finishing: bool)
    requires s.lag == 0
    ensures LaggedSmoother(env, s, finishing) == Ok(s)
  {
    if |s.steps| > 0 {
      assert Visited(|s.steps|, 0) == [];
    }
  }

  /** With lag 0, `endAnalysis` caches nothing and calls the callback (if
      installed) exactly once, with the analysed step's index. */
  lemma NoLagEndAnalysis(env: Env, s: Smoother)
    requires s.lag == 0 && EndAnalysis(env, s).Ok?
    ensures var t := EndAnalysis(env, s).value;
      && t.cache == s.cache && t.steps == s.steps
      && |t.results| == |s.results| + (if s.hasOnResult then 1 else 0)
      && t.results[..|s.results|] == s.results
      && (s.hasOnResult ==> t.results[|s.results|].1 == s.upK)
  {
    NoLagNoPass(env, s, false);
  }

  /** `out` lists only step `kend - lag`, and only once `kend >= lag >= 1`;
      that step's ensemble is no longer in `entries`. */
  predicate OneHandedOut(steps: seq<Step>, lag: int, out: seq<int>, entries: map<MC.Handle, MC.Entry>) {
    && out == (if lag >= 1 && |steps| >= lag then [steps[|steps| - lag].k] else [])
    && (lag >= 1 && |steps| >= lag ==> steps[|steps| - lag].handle !in entries)
  }

  /** A non-finishing pass over `kend` records hands out exactly record
      `kend - lag` once `kend >= lag >= 1`, and nothing otherwise; it removes
      that record's ensemble from the cache. */
  lemma AnalysisPassEmits(env: Env, s: Smoother)
    requires s.lag >= 0 && LaggedSmoother(env, s, false).Ok? && s.hasOnResult
    ensures var t := LaggedSmoother(env, s, false).value;
      OneHandedOut(s.steps, s.lag, ResultKs(t.results[|s.results|..]), t.cache.entries)
  {
    var r := LaggedSmoother(env, s, false);
    var t := r.value;
    VisitedRange(|s.steps|, s.lag);
    AnalysisWindow(s.steps, s.lag, ResultKs(t.results[|s.results|..]), t.cache.entries);
  }

  /** What the window of a non-finishing pass hands out and releases, given
      the pass's own postcondition. */
  lemma AnalysisWindow(steps: seq<Step>, lag: int, out: seq<int>, entries: map<MC.Handle, MC.Entry>)
    requires lag >= 0
    requires var es := Emitted(Visited(|steps|, lag), |steps|, lag, false);
      && (forall t :: 0 <= t < |es| ==> 0 <= es[t] < |steps|)
      && out == StepKs(steps, es)
      && forall j :: j in es ==> steps[j].handle !in entries
    ensures OneHandedOut(steps, lag, out, entries)
  {
    var kend := |steps|;
    var es := Emitted(Visited(kend, lag), kend, lag, false);
    NonFinishingEmitsOne(kend, lag);
    if lag >= 1 && kend >= lag {
      assert es == [kend - lag];
      assert kend - lag in es;
    } else {
      assert es == [];
    }
  }

  /** `out` lists the step indices of the `min(kend, lag)` newest records,
      newest first, and none of their ensembles is left in `entries`. */
  predicate WindowHandedOut(steps: seq<Step>, lag: int, out: seq<int>, entries: map<MC.Handle, MC.Entry>) {
    && |out| == Min(|steps|, lag)
    && (forall u :: 0 <= u < |out| && 0 <= |steps| - 1 - u < |steps| ==> out[u] == steps[|steps| - 1 - u].k)
    && (forall j :: 0 <= j < |steps| && |steps| - lag <= j ==> steps[j].handle !in entries)
  }

  /** `endSmoother` hands out the `min(kend, lag)` newest records, newest
      first, and removes their ensembles from the cache. */
  lemma EndSmootherEmits(env: Env, s: Smoother)
    requires s.lag >= 1 && EndSmoother(env, s).Ok?
    ensures var t := EndSmoother(env, s).value;
      WindowHandedOut(s.steps, s.lag, ResultKs(t.results[|s.results|..]), t.cache.entries)
  {
    var r := EndSmoother(env, s);
    assert s.hasOnResult;
    assert r == LaggedSmoother(env, s, true);
    var t := r.value;
    VisitedRange(|s.steps|, s.lag);
    FinishingWindow(s.steps, s.lag, ResultKs(t.results[|s.results|..]), t.cache.entries);
  }

  /** What the window of a finishing pass hands out and releases, given the
      pass's own postcondition. */
  lemma FinishingWindow(steps: seq<Step>, lag: int, out: seq<int>, entries: map<MC.Handle, MC.Entry>)
    requires lag >= 1
    requires var es := Emitted(Visited(|steps|, lag), |steps|, lag, true);
      && (forall t :: 0 <= t < |es| ==> 0 <= es[t] < |steps|)
      && out == StepKs(steps, es)
      && forall j :: j in es ==> steps[j].handle !in entries
    ensures WindowHandedOut(steps, lag, out, entries)
  {
    var kend := |steps|;
    var es := Emitted(Visited(kend, lag), kend, lag, true);
    FinishingEmitsWindow(kend, lag);
    NewestFirstKs(steps, es, out);
    FinishingWindowReleased(steps, lag, entries);
  }

  /** Step indices listed for the records `kend - 1, kend - 2, ...` are
      the newest first. */
  lemma NewestFirstKs(steps: seq<Step>, es: seq<int>, out: seq<int>)
    requires forall t :: 0 <= t < |es| ==> 0 <= es[t] < |steps| && es[t] == |steps| - 1 - t
    requires out == StepKs(steps, es)
    ensures |out| == |es|
    ensures forall u :: 0 <= u < |out| && 0 <= |steps| - 1 - u < |steps| ==> out[u] == steps[|steps| - 1 - u].k
  {
    forall u | 0 <= u < |out| && 0 <= |steps| - 1 - u < |steps| ensures out[u] == steps[|steps| - 1 - u].k {
      assert es[u] == |steps| - 1 - u;
    }
  }

  /** When a finishing pass has released every record it hands out, no
      record of the window is left in `entries`. */
  lemma FinishingWindowReleased(steps: seq<Step>, lag: int, entries: map<MC.Handle, MC.Entry>)
    requires lag >= 1
    requires var es := Emitted(Visited(|steps|, lag), |steps|, lag, true);
      && (forall t :: 0 <= t < |es| ==> 0 <= es[t] < |steps|)
      && forall j :: j in es ==> steps[j].handle !in entries
    ensures forall j :: 0 <= j < |steps| && |steps| - lag <= j ==> steps[j].handle !in entries
  {
    var kend := |steps|;
    var js := Visited(kend, lag);
    VisitedRange(kend, lag);
    EmittedAll(js, kend, lag);
    forall j | 0 <= j < kend && kend - lag <= j
      ensures steps[j].handle !in entries
    {
      assert j in js;
    }
  }


  // ---------------------------------------------------------------------------
  // Values handed out and written back by a global pass

  /** Every step record has a handle of its own, below the cache's counter,
      and the cache is valid: what `beginSmoother` sets up and
      `endAnalysis` keeps, since `put` hands out the counter and then
      increments it. */
  predicate HandlesFresh(s: Smoother) {
    && MC.Valid(s.cache)
    && StepHandlesDistinct(s.steps)
    && forall j :: 0 <= j < |s.steps| ==> 0 <= s.steps[j].handle < s.cache.counter
  }

  /** `beginSmoother` on a valid cache sets up fresh handles. */
  lemma BeginSmootherHandlesFresh(env: Env, s: Smoother, E0: Matrix, k0: int)
    requires MC.Valid(s.cache) && (s.lag == 0 ==> HandlesFresh(s))
    requires BeginSmoother(env, s, E0, k0).Ok?
    ensures HandlesFresh(BeginSmoother(env, s, E0, k0).value)
  {
    var t := BeginSmoother(env, s, E0, k0).value;
    if s.lag != 0 {
      assert forall h :: h in t.cache.entries ==> h in s.cache.entries || h == s.cache.counter;
    }
  }

  /** Appending a record whose handle is the counter, then incrementing the
      counter, keeps the handles fresh. */
  lemma AppendKeepsFresh(s: Smoother, t: Smoother, k: int)
    requires HandlesFresh(s)
    requires t.steps == s.steps + [Step(k, s.cache.counter)] && t.cache.counter == s.cache.counter + 1
    requires t.cache.entries.Keys <= s.cache.entries.Keys + {s.cache.counter}
    ensures HandlesFresh(t)
  {
    forall j | 0 <= j < |s.steps| ensures t.steps[j] == s.steps[j] { }
  }

  /** `endAnalysis` keeps the handles fresh: the new record takes the
      counter, which no earlier record has. */
  lemma EndAnalysisHandlesFresh(env: Env, s: Smoother)
    requires HandlesFresh(s) && EndAnalysis(env, s).Ok?
    ensures HandlesFresh(EndAnalysis(env, s).value)
  {
    if s.lag != 0 {
      AppendKeepsFresh(s, EndAnalysis(env, s).value, s.upK);
    }
  }

  /** The records a pass visits are distinct, so with fresh handles their
      handles are distinct. */
  lemma VisitedHandlesDistinct(steps: seq<Step>, lag: int)
    requires lag >= 0 && StepHandlesDistinct(steps)
    ensures forall t :: 0 <= t < |Visited(|steps|, lag)| ==> 0 <= Visited(|steps|, lag)[t] < |steps|
    ensures HandlesDistinct(steps, Visited(|steps|, lag))
  {
    VisitedRange(|steps|, lag);
  }

  /** A global lagged pass over records with distinct handles establishes
      `GlobalPassFacts`, counting iterations from the pass's first with
      the transform `upX`. */
  lemma LaggedSmootherGlobal(env: Env, s: Smoother, finishing: bool)
    requires !IsLocalized(s) && s.lag >= 0 && StepHandlesDistinct(s.steps)
    requires LaggedSmoother(env, s, finishing).Ok?
    ensures Cached(s.steps, Visited(|s.steps|, s.lag), s.cache.entries)
    ensures GlobalPassFacts(s, s, Visited(|s.steps|, s.lag), s.upX, 0, |s.steps|, finishing, LaggedSmoother(env, s, finishing).value)
  {
    VisitedHandlesDistinct(s.steps, s.lag);
    VisitedRange(|s.steps|, s.lag);
    var js := Visited(|s.steps|, s.lag);
    if |s.steps| == 0 {
      assert js == [];
      assert LaggedSmoother(env, s, finishing).value == s;
    } else {
      GlobalPass(env, s, s, js, s.upX, 0, |s.steps|, finishing);
    }
  }

  // ---------------------------------------------------------------------------
  // Records written back by a pass, global or localized

  /** A pass leaves the entry of every handle none of its records has as it
      was. */
  lemma {:induction false} PassKeepsOthers(env: Env, s: Smoother, js: seq<int>, kend: int, finishing: bool)
    requires forall t :: 0 <= t < |js| ==> 0 <= js[t] < |s.steps|
    requires SmoothRecords(env, s, js, kend, finishing).Ok?
    ensures var t := SmoothRecords(env, s, js, kend, finishing).value;
      forall g :: g in s.cache.entries && NotAmong(s.steps, js, g) ==>
        g in t.cache.entries && t.cache.entries[g] == s.cache.entries[g]
    decreases |js|
  {
    if |js| > 0 {
      SmoothRecordsCons(env, s, js, kend, finishing);
      var s1 := SmoothRecord(env, s, js[0], kend, finishing).value;
      PassKeepsOthers(env, s1, js[1..], kend, finishing);
      forall g | g in s.cache.entries && NotAmong(s.steps, js, g)
        ensures g in s1.cache.entries && s1.cache.entries[g] == s.cache.entries[g] && NotAmong(s1.steps, js[1..], g)
      {
        TailNotAmong(s.steps, js, g);
      }
    }
  }

  /** With distinct handles, every record a pass visits and does not hand
      out is still cached at the end, marked dirty. */
  lemma {:induction false} PassMarksDirty(env: Env, s: Smoother, js: seq<int>, kend: int, finishing: bool)
    requires forall t :: 0 <= t < |js| ==> 0 <= js[t] < |s.steps|
    requires HandlesDistinct(s.steps, js)
    requires SmoothRecords(env, s, js, kend, finishing).Ok?
    ensures var t := SmoothRecords(env, s, js, kend, finishing).value;
      forall v :: 0 <= v < |js| && !IsResult(js[v], kend, s.lag, finishing) ==>
        s.steps[js[v]].handle in t.cache.entries && t.cache.entries[s.steps[js[v]].handle].isDirty
    decreases |js|
  {
    if |js| > 0 {
      SmoothRecordsCons(env, s, js, kend, finishing);
      var s1 := SmoothRecord(env, s, js[0], kend, finishing).value;
      var rest := js[1..];
      HandlesDistinctTail(s.steps, js);
      PassMarksDirty(env, s1, rest, kend, finishing);
      if !IsResult(js[0], kend, s.lag, finishing) {
        HeadNotAmong(s.steps, js);
        PassKeepsOthers(env, s1, rest, kend, finishing);
      }
      forall v | 0 < v < |js| ensures js[v] == rest[v - 1] { }
    }
  }

  /** A lagged pass over records with distinct handles, global or
      localized, leaves every record of the window that it does not hand
      out in the cache, marked dirty. */
  lemma LaggedSmootherMarksDirty(env: Env, s: Smoother, finishing: bool)
    requires s.lag >= 0 && StepHandlesDistinct(s.steps)
    requires LaggedSmoother(env, s, finishing).Ok?
    ensures var kend := |s.steps|; var t := LaggedSmoother(env, s, finishing).value;
      forall j :: 0 <= j < kend && kend - s.lag <= j && !IsResult(j, kend, s.lag, finishing) ==>
        s.steps[j].handle in t.cache.entries && t.cache.entries[s.steps[j].handle].isDirty
  {
    var kend := |s.steps|;
    VisitedHandlesDistinct(s.steps, s.lag);
    VisitedDown(kend, s.lag);
    if kend > 0 {
      var js := Visited(kend, s.lag);
      var t := LaggedSmoother(env, s, finishing).value;
      PassMarksDirty(env, s, js, kend, finishing);
      forall j | 0 <= j < kend && kend - s.lag <= j && !IsResult(j, kend, s.lag, finishing)
        ensures s.steps[j].handle in t.cache.entries && t.cache.entries[s.steps[j].handle].isDirty
      {
        assert js[kend - 1 - j] == j;
      }
    }
  }

  /** A pass over records none of which is a result hands out nothing. */
  lemma {:induction false} PassResultsNone(s: Smoother, e: map<MC.Handle, MC.Entry>, js: seq<int>, X: Matrix, u: nat, kend: int, finishing: bool)
    requires Cached(s.steps, js, e)
    requires forall t :: 0 <= t < |js| ==> !IsResult(js[t], kend, s.lag, finishing)
    ensures PassResults(s, e, js, X, u, kend, finishing) == []
    decreases |js|
  {
    if |js| > 0 {
      PassResultsNone(s, e, js[1..], X, u + 1, kend, finishing);
    }
  }

  /** The later records are cached too. */
  lemma CachedTail(steps: seq<Step>, js: seq<int>, e: map<MC.Handle, MC.Entry>)
    requires |js| > 0 && Cached(steps, js, e)
    ensures 0 <= js[0] < |steps| && steps[js[0]].handle in e && Cached(steps, js[1..], e)
  {
    forall v | 0 <= v < |js| - 1 ensures 0 <= js[1..][v] < |steps| && steps[js[1..][v]].handle in e {
      assert js[1..][v] == js[v + 1];
    }
  }

  /** A pass over records of which exactly the `p`-th is a result hands out
      that record, smoothed as far as iteration `u + p`. */
  lemma {:induction false} PassResultsOne(s: Smoother, e: map<MC.Handle, MC.Entry>, js: seq<int>, X: Matrix, u: nat, kend: int, finishing: bool, p: nat)
    requires Cached(s.steps, js, e) && p < |js|
    requires forall t :: 0 <= t < |js| ==> (IsResult(js[t], kend, s.lag, finishing) <==> t == p)
    ensures PassResults(s, e, js, X, u, kend, finishing) ==
      (if s.hasOnResult then [(GlobalSmoothed(s, e[s.steps[js[p]].handle].data, X, u + p, finishing), s.steps[js[p]].k)] else [])
    decreases |js|
  {
    var rest := js[1..];
    CachedTail(s.steps, js, e);
    if p == 0 {
      forall t | 0 <= t < |rest| ensures !IsResult(rest[t], kend, s.lag, finishing) {
        assert rest[t] == js[t + 1];
      }
      PassResultsNone(s, e, rest, X, u + 1, kend, finishing);
      PassResultsHead(s, e, js, X, u, kend, finishing);
    } else {
      forall t | 0 <= t < |rest| ensures IsResult(rest[t], kend, s.lag, finishing) <==> t == p - 1 {
        assert rest[t] == js[t + 1];
      }
      PassResultsSkip(s, e, js, X, u, kend, finishing);
      PassResultsOne(s, e, rest, X, u + 1, kend, finishing, p - 1);
      assert rest[p - 1] == js[p] && u + 1 + (p - 1) == u + p;
    }
  }

  /** A pass whose first record is a result and the rest hand out nothing
      hands out that record, smoothed as far as iteration `u`. */
  lemma PassResultsHead(s: Smoother, e: map<MC.Handle, MC.Entry>, js: seq<int>, X: Matrix, u: nat, kend: int, finishing: bool)
    requires |js| > 0 && Cached(s.steps, js, e) && Cached(s.steps, js[1..], e)
    requires IsResult(js[0], kend, s.lag, finishing)
    requires PassResults(s, e, js[1..], X, u + 1, kend, finishing) == []
    ensures PassResults(s, e, js, X, u, kend, finishing) ==
      (if s.hasOnResult then [(GlobalSmoothed(s, e[s.steps[js[0]].handle].data, X, u + 0, finishing), s.steps[js[0]].k)] else [])
  {
    var head := PassHead(s, e, js[0], X, u, kend, finishing);
    assert PassResults(s, e, js, X, u, kend, finishing) == head + [];
  }

  /** A pass whose first record is not a result hands out what the rest
      of it does. */
  lemma PassResultsSkip(s: Smoother, e: map<MC.Handle, MC.Entry>, js: seq<int>, X: Matrix, u: nat, kend: int, finishing: bool)
    requires |js| > 0 && Cached(s.steps, js, e) && Cached(s.steps, js[1..], e)
    requires !IsResult(js[0], kend, s.lag, finishing)
    ensures PassResults(s, e, js, X, u, kend, finishing) == PassResults(s, e, js[1..], X, u + 1, kend, finishing)
  {
    assert PassHead(s, e, js[0], X, u, kend, finishing) == [];
  }

  /** A finishing pass over records that are all results hands out every
      one of them, in order, exactly as cached. */
  lemma {:induction false} PassResultsAll(s: Smoother, e: map<MC.Handle, MC.Entry>, js: seq<int>, X: Matrix, u: nat, kend: int)
    requires Cached(s.steps, js, e)
    requires forall t :: 0 <= t < |js| ==> IsResult(js[t], kend, s.lag, true)
    ensures var out := PassResults(s, e, js, X, u, kend, true);
      && |out| == (if s.hasOnResult then |js| else 0)
      && forall t :: 0 <= t < |out| ==> out[t] == (e[s.steps[js[t]].handle].data, s.steps[js[t]].k)
    decreases |js|
  {
    if |js| > 0 {
      var rest := js[1..];
      CachedTail(s.steps, js, e);
      forall t | 0 <= t < |rest| ensures IsResult(rest[t], kend, s.lag, true) {
        assert rest[t] == js[t + 1];
      }
      PassResultsAll(s, e, rest, X, u + 1, kend);
      var tail := PassResults(s, e, rest, X, u + 1, kend, true);
      var out := PassResults(s, e, js, X, u, kend, true);
      assert out == PassHead(s, e, js[0], X, u, kend, true) + tail;
      if s.hasOnResult {
        forall t | 0 < t < |out|
          ensures out[t] == (e[s.steps[js[t]].handle].data, s.steps[js[t]].k)
        {
          assert out[t] == tail[t - 1] && rest[t - 1] == js[t];
        }
      }
    }
  }

  /** The two parts of a concatenation, read back. */
  lemma AppendParts<T>(a: seq<T>, b: seq<T>)
    ensures (a + b)[..|a|] == a && (a + b)[|a|..] == b
  {
  }

  /** The window's records, newest first. */
  lemma VisitedDown(kend: int, lag: int)
    requires kend >= 0 && lag >= 0
    ensures |Visited(kend, lag)| == Min(kend, lag)
    ensures forall t :: 0 <= t < |Visited(kend, lag)| ==> Visited(kend, lag)[t] == kend - 1 - t
  {
    VisitedRange(kend, lag);
  }

  /** Every record in the window of a pass whose records were all cached
      was cached. */
  lemma WindowCached(steps: seq<Step>, lag: int, e: map<MC.Handle, MC.Entry>)
    requires lag >= 0 && Cached(steps, Visited(|steps|, lag), e)
    ensures forall j :: 0 <= j < |steps| && |steps| - lag <= j ==> steps[j].handle in e
  {
    var kend := |steps|;
    var js := Visited(kend, lag);
    VisitedDown(kend, lag);
    forall j | 0 <= j < kend && kend - lag <= j
      ensures steps[j].handle in e
    {
      assert js[kend - 1 - j] == j;
    }
  }

  /** In a non-finishing pass with `kend >= lag >= 1`, the one result is
      the window's oldest record, `kend - lag`, visited last. */
  lemma VisitedOneResult(kend: int, lag: int)
    requires lag >= 1 && kend >= lag
    ensures |Visited(kend, lag)| == lag && Visited(kend, lag)[lag - 1] == kend - lag
    ensures forall t :: 0 <= t < |Visited(kend, lag)| ==> (IsResult(Visited(kend, lag)[t], kend, lag, false) <==> t == lag - 1)
  {
    VisitedDown(kend, lag);
  }

  /** Otherwise a non-finishing pass has no result. */
  lemma VisitedNoResult(kend: int, lag: int)
    requires kend >= 0 && lag >= 0 && (lag == 0 || kend < lag)
    ensures forall t :: 0 <= t < |Visited(kend, lag)| ==> !IsResult(Visited(kend, lag)[t], kend, lag, false)
  {
    VisitedDown(kend, lag);
  }

  /** The results of a non-finishing global pass over the window: see
      `AnalysisPassValues`. */
  lemma AnalysisWindowResults(s: Smoother, t: Smoother)
    requires s.lag >= 0
    requires forall t :: 0 <= t < |Visited(|s.steps|, s.lag)| ==> 0 <= Visited(|s.steps|, s.lag)[t] < |s.steps|
    requires Cached(s.steps, Visited(|s.steps|, s.lag), s.cache.entries)
    requires t.results == s.results + PassResults(s, s.cache.entries, Visited(|s.steps|, s.lag), s.upX, 0, |s.steps|, false)
    ensures var kend := |s.steps|;
      forall j :: 0 <= j < kend && kend - s.lag <= j ==> s.steps[j].handle in s.cache.entries
    ensures var kend := |s.steps|;
      && (s.lag >= 1 && kend >= s.lag ==>
            var E := s.cache.entries[s.steps[kend - s.lag].handle].data;
            t.results == s.results +
              (if s.hasOnResult then [(if s.upHaveX then Mul(E, ForgetPow(s.upX, s.forget, s.lag)) else E, s.steps[kend - s.lag].k)] else []))
      && (s.lag == 0 || kend < s.lag ==> t.results == s.results)
  {
    var kend := |s.steps|;
    WindowCached(s.steps, s.lag, s.cache.entries);
    if s.lag >= 1 && kend >= s.lag {
      AnalysisWindowOne(s, t);
    } else {
      VisitedNoResult(kend, s.lag);
      PassResultsNone(s, s.cache.entries, Visited(kend, s.lag), s.upX, 0, kend, false);
    }
  }

  /** Once record `kend - lag` exists, it is the one result of the pass. */
  lemma AnalysisWindowOne(s: Smoother, t: Smoother)
    requires s.lag >= 1 && |s.steps| >= s.lag
    requires Cached(s.steps, Visited(|s.steps|, s.lag), s.cache.entries)
    requires t.results == s.results + PassResults(s, s.cache.entries, Visited(|s.steps|, s.lag), s.upX, 0, |s.steps|, false)
    ensures s.steps[|s.steps| - s.lag].handle in s.cache.entries
    ensures var E := s.cache.entries[s.steps[|s.steps| - s.lag].handle].data;
      t.results == s.results +
        (if s.hasOnResult then [(if s.upHaveX then Mul(E, ForgetPow(s.upX, s.forget, s.lag)) else E, s.steps[|s.steps| - s.lag].k)] else [])
  {
    var kend := |s.steps|;
    VisitedOneResult(kend, s.lag);
    PassResultsOne(s, s.cache.entries, Visited(kend, s.lag), s.upX, 0, kend, false, s.lag - 1);
  }

  /** The records a non-finishing global pass over the window writes back:
      see `AnalysisPassValues`. */
  lemma AnalysisWindowWritten(s: Smoother, t: Smoother)
    requires s.lag >= 0
    requires forall t :: 0 <= t < |Visited(|s.steps|, s.lag)| ==> 0 <= Visited(|s.steps|, s.lag)[t] < |s.steps|
    requires Cached(s.steps, Visited(|s.steps|, s.lag), s.cache.entries)
    requires WrittenBack(s, s.cache.entries, Visited(|s.steps|, s.lag), s.upX, 0, |s.steps|, false, t.cache.entries)
    ensures var kend := |s.steps|;
      forall j :: 0 <= j < kend && kend - s.lag < j ==>
        var h := s.steps[j].handle;
        && h in s.cache.entries
        && h in t.cache.entries
        && t.cache.entries[h] == MC.Entry(if s.upHaveX then Mul(s.cache.entries[h].data, ForgetPow(s.upX, s.forget, kend - j)) else s.cache.entries[h].data, true)
  {
    var kend := |s.steps|;
    var js := Visited(kend, s.lag);
    VisitedDown(kend, s.lag);
    forall j | 0 <= j < kend && kend - s.lag < j
      ensures s.steps[j].handle in s.cache.entries
      ensures s.steps[j].handle in t.cache.entries
      ensures t.cache.entries[s.steps[j].handle] ==
        MC.Entry(if s.upHaveX then Mul(s.cache.entries[s.steps[j].handle].data, ForgetPow(s.upX, s.forget, kend - j)) else s.cache.entries[s.steps[j].handle].data, true)
    {
      assert js[kend - 1 - j] == j;
    }
  }

  /** A global non-finishing pass over records with distinct handles: record
      `kend - lag`, once it exists, is handed out multiplied by `upX` damped
      `lag` times; every later record `j` is written back, marked dirty,
      multiplied by `upX` damped `kend - j` times (once per iteration up to
      its own); without a transform the ensembles are unchanged. */
  lemma AnalysisPassValues(env: Env, s: Smoother)
    requires !IsLocalized(s) && s.lag >= 0 && StepHandlesDistinct(s.steps)
    requires LaggedSmoother(env, s, false).Ok?
    ensures var kend := |s.steps|;
      forall j :: 0 <= j < kend && kend - s.lag <= j ==> s.steps[j].handle in s.cache.entries
    ensures var kend := |s.steps|; var t := LaggedSmoother(env, s, false).value;
      && (s.lag >= 1 && kend >= s.lag ==>
            var E := s.cache.entries[s.steps[kend - s.lag].handle].data;
            t.results == s.results +
              (if s.hasOnResult then [(if s.upHaveX then Mul(E, ForgetPow(s.upX, s.forget, s.lag)) else E, s.steps[kend - s.lag].k)] else []))
      && (s.lag == 0 || kend < s.lag ==> t.results == s.results)
      && forall j :: 0 <= j < kend && kend - s.lag < j ==>
           var h := s.steps[j].handle;
           var E := s.cache.entries[h].data;
           && h in t.cache.entries
           && t.cache.entries[h] == MC.Entry(if s.upHaveX then Mul(E, ForgetPow(s.upX, s.forget, kend - j)) else E, true)
  {
    LaggedSmootherGlobal(env, s, false);
    VisitedHandlesDistinct(s.steps, s.lag);
    AnalysisWindowResults(s, LaggedSmoother(env, s, false).value);
    AnalysisWindowWritten(s, LaggedSmoother(env, s, false).value);
  }

  /** What the results of a finishing global pass over the window are:
      see `EndSmootherValues`. */
  lemma FinishingWindowValues(s: Smoother, t: Smoother)
    requires s.lag >= 0
    requires forall t :: 0 <= t < |Visited(|s.steps|, s.lag)| ==> 0 <= Visited(|s.steps|, s.lag)[t] < |s.steps|
    requires Cached(s.steps, Visited(|s.steps|, s.lag), s.cache.entries)
    requires t.results == s.results + PassResults(s, s.cache.entries, Visited(|s.steps|, s.lag), s.upX, 0, |s.steps|, true)
    ensures var kend := |s.steps|;
      forall j :: 0 <= j < kend && kend - s.lag <= j ==> s.steps[j].handle in s.cache.entries
    ensures var kend := |s.steps|;
      && |t.results| == |s.results| + (if s.hasOnResult then Min(kend, s.lag) else 0)
      && t.results[..|s.results|] == s.results
      && var out := t.results[|s.results|..];
         forall u :: 0 <= u < |out| ==>
           0 <= kend - 1 - u < kend && out[u] == (s.cache.entries[s.steps[kend - 1 - u].handle].data, s.steps[kend - 1 - u].k)
  {
    WindowCached(s.steps, s.lag, s.cache.entries);
    var pr := FinishingPassResults(s, s.cache.entries);
    NewestFirst(s.results, t.results, pr, s.steps, s.cache.entries);
  }

  /** A finishing pass over the window hands out its records newest first,
      each exactly as cached. */
  lemma FinishingPassResults(s: Smoother, e: map<MC.Handle, MC.Entry>) returns (pr: seq<(Matrix, int)>)
    requires s.lag >= 0 && Cached(s.steps, Visited(|s.steps|, s.lag), e)
    ensures pr == PassResults(s, e, Visited(|s.steps|, s.lag), s.upX, 0, |s.steps|, true)
    ensures |pr| == (if s.hasOnResult then Min(|s.steps|, s.lag) else 0)
    ensures forall j :: 0 <= j < |s.steps| && |s.steps| - |pr| <= j ==> s.steps[j].handle in e
    ensures forall u :: 0 <= u < |pr| ==>
      0 <= |s.steps| - 1 - u && pr[u] == (e[s.steps[|s.steps| - 1 - u].handle].data, s.steps[|s.steps| - 1 - u].k)
  {
    var kend := |s.steps|;
    var js := Visited(kend, s.lag);
    VisitedDown(kend, s.lag);
    PassResultsAll(s, e, js, s.upX, 0, kend);
    pr := PassResults(s, e, js, s.upX, 0, kend, true);
    Reindex(pr, js, s.steps, e);
  }

  /** Results listed for the records `js = [kend - 1, kend - 2, ...]`, read
      by position. */
  lemma Reindex(pr: seq<(Matrix, int)>, js: seq<int>, steps: seq<Step>, e: map<MC.Handle, MC.Entry>)
    requires |pr| <= |js|
    requires forall t :: 0 <= t < |js| ==> js[t] == |steps| - 1 - t
    requires forall t :: 0 <= t < |js| ==> 0 <= js[t] < |steps| && steps[js[t]].handle in e
    requires forall t :: 0 <= t < |pr| ==> pr[t] == (e[steps[js[t]].handle].data, steps[js[t]].k)
    ensures |pr| <= |steps|
    ensures forall j :: 0 <= j < |steps| && |steps| - |pr| <= j ==> steps[j].handle in e
    ensures forall u :: 0 <= u < |pr| ==>
      0 <= |steps| - 1 - u && pr[u] == (e[steps[|steps| - 1 - u].handle].data, steps[|steps| - 1 - u].k)
  {
    if |js| > 0 {
      assert js[|js| - 1] >= 0;
    }
    forall j | 0 <= j < |steps| && |steps| - |pr| <= j ensures steps[j].handle in e {
      assert js[|steps| - 1 - j] == j;
    }
    forall u | 0 <= u < |pr|
      ensures pr[u] == (e[steps[|steps| - 1 - u].handle].data, steps[|steps| - 1 - u].k)
    {
      assert js[u] == |steps| - 1 - u;
    }
  }

  /** Results appended for the records `kend - 1, kend - 2, ...`, each its
      cached ensemble, read back by position. */
  lemma NewestFirst(r0: seq<(Matrix, int)>, r: seq<(Matrix, int)>, pr: seq<(Matrix, int)>, steps: seq<Step>,
                    e: map<MC.Handle, MC.Entry>)
    requires r == r0 + pr && |pr| <= |steps|
    requires forall j :: 0 <= j < |steps| && |steps| - |pr| <= j ==> steps[j].handle in e
    requires forall u :: 0 <= u < |pr| ==>
      0 <= |steps| - 1 - u && pr[u] == (e[steps[|steps| - 1 - u].handle].data, steps[|steps| - 1 - u].k)
    ensures |r| == |r0| + |pr| && r[..|r0|] == r0
    ensures var kend := |steps|; var out := r[|r0|..];
      forall u :: 0 <= u < |out| ==>
        0 <= kend - 1 - u < kend && out[u] == (e[steps[kend - 1 - u].handle].data, steps[kend - 1 - u].k)
  {
    AppendParts(r0, pr);
    var out := r[|r0|..];
    forall u | 0 <= u < |out|
      ensures out[u] == (e[steps[|steps| - 1 - u].handle].data, steps[|steps| - 1 - u].k)
    {
      assert out[u] == pr[u];
    }
  }

  /** A global `endSmoother` over records with distinct handles hands out
      the `min(kend, lag)` newest records, newest first, each exactly as
      cached: the finishing pass multiplies nothing. */
  lemma EndSmootherValues(env: Env, s: Smoother)
    requires !IsLocalized(s) && s.lag >= 1 && StepHandlesDistinct(s.steps)
    requires EndSmoother(env, s).Ok?
    ensures var kend := |s.steps|;
      forall j :: 0 <= j < kend && kend - s.lag <= j ==> s.steps[j].handle in s.cache.entries
    ensures var kend := |s.steps|; var t := EndSmoother(env, s).value;
      && |t.results| == |s.results| + Min(kend, s.lag)
      && t.results[..|s.results|] == s.results
      && var out := t.results[|s.results|..];
         forall u :: 0 <= u < |out| ==>
           0 <= kend - 1 - u < kend && out[u] == (s.cache.entries[s.steps[kend - 1 - u].handle].data, s.steps[kend - 1 - u].k)
  {
    assert s.hasOnResult;
    assert EndSmoother(env, s) == LaggedSmoother(env, s, true);
    LaggedSmootherGlobal(env, s, true);
    VisitedHandlesDistinct(s.steps, s.lag);
    FinishingWindowValues(s, EndSmoother(env, s).value);
  }

}

=== FILE: exceptions.dfy ===
/** Messages of the library's exception types (src/Core/Exception.cpp).

    Every message starts with `<file>:<line>: `; the line number is written in
    decimal by the stream, with a leading `-` for a negative value.
 */
module Exceptions {

  function DigitChar(d: nat): char
    requires d < 10
  {
    "0123456789"[d]
  }

  function DigitValue(ch: char): nat
    requires '0' <= ch <= '9'
  {
    ch as int - '0' as int
  }

  predicate IsDigits(s: string) {
    |s| > 0 && forall i :: 0 <= i < |s| ==> '0' <= s[i] <= '9'
  }

  /** Decimal digits of `n`, most significant first, no leading zeros. */
  function NatToString(n: nat): (s: string)
    ensures IsDigits(s)
    ensures |s| > 1 ==> s[0] != '0'
    decreases n
  {
    if n < 10 then [DigitChar(n)] else NatToString(n / 10) + [DigitChar(n % 10)]
  }

  /** What `ss << line` writes for an `int`. */
  function IntToString(n: int): (s: string)
    ensures |s| > 0
    ensures forall i :: 0 <= i < |s| ==> s[i] == '-' || '0' <= s[i] <= '9'
  {
    if n < 0 then "-" + NatToString(-n) else NatToString(n)
  }

  /** Reads a string of decimal digits. */
  function ParseNat(s: string): (n: nat)
    requires IsDigits(s)
    decreases |s|
  {
    if |s| == 1 then DigitValue(s[0])
    else ParseNat(s[..|s| - 1]) * 10 + DigitValue(s[|s| - 1])
  }

  function ParseInt(s: string): int
    requires |s| > 0
    requires s[0] == '-' ==> IsDigits(s[1..])
    requires s[0] != '-' ==> IsDigits(s)
  {
    if s[0] == '-' then -(ParseNat(s[1..]) as int) else ParseNat(s)
  }

  /** Reading back the decimal text of `n` gives `n`. */
  lemma {:induction false} NatToStringRoundTrip(n: nat)
    ensures ParseNat(NatToString(n)) == n
    decreases n
  {
    if n >= 10 {
      NatToStringRoundTrip(n / 10);
      var s := NatToString(n);
      assert s[..|s| - 1] == NatToString(n / 10);
    }
  }

  lemma IntToStringRoundTrip(n: int)
    ensures IntToString(n)[0] == '-' <==> n < 0
    ensures ParseInt(IntToString(n)) == n
  {
    var s := IntToString(n);
    if n < 0 {
      var t := NatToString(-n);
      NatToStringRoundTrip(-n);
      assert s == "-" + t && s[1..] == t;
    } else {
      NatToStringRoundTrip(n);
      assert s[0] != '-';
    }
  }

  /** `formatFileLineMsg`: the `<file>:<line>: ` prefix followed by the body. */
  function FormatFileLineMsg(file: string, line: int, msg: string): (s: string)
    ensures |s| == |file| + |IntToString(line)| + 3 + |msg|
    ensures s[..|file|] == file && s[|file|] == ':'
    ensures s[|s| - |msg|..] == msg
  {
    file + ":" + IntToString(line) + ": " + msg
  }

  /** `NotSupportedError(msg, file, line)`. */
  function NotSupportedMessage(why: string, file: string, line: int): (s: string)
    ensures |s| > |why| && s[|s| - |why|..] == why
  {
    FormatFileLineMsg(file, line, why)
  }

  /** `NotImplementedError(file, line)`. */
  function NotImplementedMessage(file: string, line: int): (s: string)
    ensures |s| > 15 && s[|s| - 15..] == "Not implemented"
  {
    FormatFileLineMsg(file, line, "Not implemented")
  }

  /** `AssertionError(expr, file, line)`. */
  function AssertionMessage(expr: string, file: string, line: int): (s: string)
    ensures |s| > |expr| + 19 && s[|s| - |expr| - 19..] == "Assertion '" + expr + "' failed"
  {
    FormatFileLineMsg(file, line, "Assertion '" + expr + "' failed")
  }

  /** Position of the first ':' in `u`, or `|u|` when there is none. */
  function ColonIndex(u: string): (k: nat)
    ensures k <= |u|
    decreases |u|
  {
    if |u| == 0 || u[0] == ':' then 0 else 1 + ColonIndex(u[1..])
  }

  lemma {:induction false} ColonIndexAfter(t: string, rest: string)
    requires forall i :: 0 <= i < |t| ==> t[i] != ':'
    ensures ColonIndex(t + ":" + rest) == |t|
    decreases |t|
  {
    if |t| > 0 {
      assert (t + ":" + rest)[1..] == t[1..] + ":" + rest;
      ColonIndexAfter(t[1..], rest);
    }
  }

  /** A colon-free head followed by ": " splits uniquely. */
  lemma SplitAtColon(t1: string, m1: string, t2: string, m2: string)
    requires forall i :: 0 <= i < |t1| ==> t1[i] != ':'
    requires forall i :: 0 <= i < |t2| ==> t2[i] != ':'
    requires t1 + ": " + m1 == t2 + ": " + m2
    ensures t1 == t2 && m1 == m2
  {
    var u := t1 + ": " + m1;
    assert u == t1 + ":" + (" " + m1);
    assert u == t2 + ":" + (" " + m2);
    ColonIndexAfter(t1, " " + m1);
    ColonIndexAfter(t2, " " + m2);
    assert t1 == u[..|t1|];
    assert t2 == u[..|t2|];
    assert m1 == u[|t1| + 2..];
  }

  /** The location and the message can be read back from a formatted message:
      different line numbers or bodies give different texts. */
  lemma FormatInjective(file: string, l1: int, m1: string, l2: int, m2: string)
    ensures FormatFileLineMsg(file, l1, m1) == FormatFileLineMsg(file, l2, m2) ==> l1 == l2 && m1 == m2
  {
    var t1 := IntToString(l1);
    var t2 := IntToString(l2);
    assert FormatFileLineMsg(file, l1, m1) == (file + ":") + (t1 + ": " + m1);
    assert FormatFileLineMsg(file, l2, m2) == (file + ":") + (t2 + ": " + m2);
    IntToStringRoundTrip(l1);
    IntToStringRoundTrip(l2);
    BodiesEqual(file, t1, m1, t2, m2);
  }

  /** Behind the same `<file>:` prefix, equal texts have equal line
      numbers and bodies. */
  lemma BodiesEqual(file: string, t1: string, m1: string, t2: string, m2: string)
    requires forall i :: 0 <= i < |t1| ==> t1[i] != ':'
    requires forall i :: 0 <= i < |t2| ==> t2[i] != ':'
    ensures (file + ":") + (t1 + ": " + m1) == (file + ":") + (t2 + ": " + m2) ==> t1 == t2 && m1 == m2
  {
    var u1 := t1 + ": " + m1;
    var u2 := t2 + ": " + m2;
    if (file + ":") + u1 == (file + ":") + u2 {
      assert u1 == ((file + ":") + u1)[|file| + 1..];
      SplitAtColon(t1, m1, t2, m2);
    }
  }

  /** The failed expression can be recovered from an assertion message. */
  lemma AssertionMessageInjective(e1: string, e2: string, file: string, line: int)
    requires AssertionMessage(e1, file, line) == AssertionMessage(e2, file, line)
    ensures e1 == e2
  {
    FormatInjective(file, line, "Assertion '" + e1 + "' failed", line, "Assertion '" + e2 + "' failed");
    var m1 := "Assertion '" + e1 + "' failed";
    assert e1 == m1[11..|m1| - 8];
  }
}

=== FILE: generic_domain.dfy ===
/** The generic state space (`GenericDomain`): a one-dimensional domain in
    which every state element is its own local analysis domain and its own
    coordinate, together with the point query for observations placed on
    those coordinates (`GenericSSPointQuery`).
 */
module GenericDomains {
  import opened Wrappers
  import opened Matrices

  datatype GenericDomain = GenericDomain(size: int)

  /** `GenericSSPointQuery`: the state size and the single row of
      observation coordinates. */
  datatype PointQuery = PointQuery(size: int, coords: seq<real>)

  /** `partitionCoordDim()`: the domain is one-dimensional. */
  const PartitionCoordDim := 1

  /** `numLocalDomains()`: one local domain per state element. */
  function NumLocalDomains(g: GenericDomain): int {
    g.size
  }

  /** `getLocalSize(d)`: every local domain holds one element, whatever `d`. */
  function GetLocalSize(g: GenericDomain, d: int): int {
    1
  }

  /** `getLocal(d, Xg, out)`: row `d` of `Xg` as a one-row array; a row
      outside `Xg` is an Eigen range error. */
  function GetLocal(g: GenericDomain, d: int, Xg: Matrix): (r: Result<Matrix>)
    ensures r.Ok? <==> 0 <= d < |Xg|
    ensures r.Fail? ==> r.error == OutOfRange
    ensures r.Ok? ==> |r.value| == 1 && r.value[0] == Xg[d]
  {
    if !(0 <= d < |Xg|) then Fail(OutOfRange) else
    Ok([Xg[d]])
  }

  /** `putLocal(d, Xl, Xg)`: `Xl`, a single row, becomes row `d` of `Xg`;
      every other row stays. */
  function PutLocal(g: GenericDomain, d: int, Xl: Matrix, Xg: Matrix): (r: Result<Matrix>)
    ensures r.Ok? <==> 0 <= d < |Xg| && |Xl| == 1
    ensures r.Fail? ==> r.error == OutOfRange
    ensures r.Ok? ==> |r.value| == |Xg| && r.value[d] == Xl[0]
    ensures r.Ok? ==> forall j :: 0 <= j < |Xg| && j != d ==> r.value[j] == Xg[j]
  {
    if !(0 <= d < |Xg| && |Xl| == 1) then Fail(OutOfRange) else
    Ok(Xg[d := Xl[0]])
  }

  /** Writing back what `GetLocal` read from `X` copies one row of `X`. */
  lemma LocalRoundTrip(g: GenericDomain, d: int, X: Matrix, Y: Matrix)
    requires 0 <= d < |X| && d < |Y|
    ensures GetLocal(g, d, X).Ok?
    ensures PutLocal(g, d, GetLocal(g, d, X).value, Y) == Ok(Y[d := X[d]])
  {
  }

  /** Reads local domain `d` of `X` and writes it into `B`, for
      `d = d0, d0 + 1, ..., numLocalDomains() - 1` in turn. */
  function Reassemble(g: GenericDomain, d0: nat, X: Matrix, B: Matrix): Result<Matrix>
    decreases NumLocalDomains(g) - d0
  {
    if d0 >= NumLocalDomains(g) then Ok(B)
    else
      var L :- GetLocal(g, d0, X);
      var B1 :- PutLocal(g, d0, L, B);
      Reassemble(g, d0 + 1, X, B1)
  }

  /** From `d0` on, every local domain is read and written back: rows
      `d0 ..` come from `X`, the rows before stay as in `B`. */
  lemma {:induction false} ReassembleFrom(g: GenericDomain, d0: nat, X: Matrix, B: Matrix)
    requires |X| == g.size && |B| == g.size && d0 <= g.size
    ensures Reassemble(g, d0, X, B).Ok?
    ensures Reassemble(g, d0, X, B).value == B[..d0] + X[d0..]
    decreases g.size - d0
  {
    if d0 < g.size {
      var B1 := B[d0 := X[d0]];
      ReassembleFrom(g, d0 + 1, X, B1);
      assert B1[..d0 + 1] + X[d0 + 1..] == B[..d0] + X[d0..];
    } else {
      assert B[..d0] + X[d0..] == B;
    }
  }

  /** Reading every local domain of `X` and writing it into `B` rebuilds `X`. */
  lemma PartitionReassembles(g: GenericDomain, X: Matrix, B: Matrix)
    requires |X| == g.size && |B| == g.size
    ensures Reassemble(g, 0, X, B) == Ok(X)
  {
    ReassembleFrom(g, 0, X, B);
    assert B[..0] + X[0..] == X;
  }

  /** The local sizes of domains `d0 ..` added up. */
  function SumLocalSizes(g: GenericDomain, d0: nat): int
    decreases NumLocalDomains(g) - d0
  {
    if d0 >= NumLocalDomains(g) then 0 else GetLocalSize(g, d0) + SumLocalSizes(g, d0 + 1)
  }

  /** The local domains hold every state element once between them. */
  lemma {:induction false} LocalSizesSum(g: GenericDomain, d0: nat)
    requires d0 <= g.size
    ensures SumLocalSizes(g, d0) == g.size - d0
    decreases g.size - d0
  {
    if d0 < g.size {
      LocalSizesSum(g, d0 + 1);
    }
  }

  // ---------------------------------------------------------------------------
  // Observation point query

  const CoordsMessage := "coords.rows() == 1 && \"Observation coordinate array does not match the dimension of the domain partitioner\""

  /** The first row of an array, or nothing. */
  function FirstRow(A: Matrix): Vector {
    if |A| > 0 then A[0] else []
  }

  /** `indexPoints(coords)` as written: the query takes its coordinates by
      move and only then checks the row count of the moved-from argument,
      which is left with no rows, so the check never passes. */
  function IndexPointsAsWritten(g: GenericDomain, coords: Matrix): (r: Result<PointQuery>)
    ensures r == Fail(AssertionError(CoordsMessage))
  {
    var stored := coords;
    var movedFrom: Matrix := [];
    :- Check(|movedFrom| == 1, CoordsMessage);
    Ok(PointQuery(g.size, FirstRow(stored)))
  }

  /** One row of coordinates, which the check is meant to accept, is
      rejected by `indexPoints` as written. */
  lemma IndexPointsAsWrittenRejectsOneRow(g: GenericDomain)
    ensures IndexPoints(g, [[0.0]]).Ok?
    ensures IndexPointsAsWritten(g, [[0.0]]) == Fail(AssertionError(CoordsMessage))
  {
  }

  /** `indexPoints(coords)` with the row count checked on the stored
      coordinates: one row of coordinates is accepted and kept. */
  function IndexPoints(g: GenericDomain, coords: Matrix): (r: Result<PointQuery>)
    ensures r.Ok? <==> |coords| == 1
    ensures r.Fail? ==> r.error == AssertionError(CoordsMessage)
    ensures r.Ok? ==> r.value.size == g.size && r.value.coords == coords[0]
  {
    if |coords| != 1 then Fail(AssertionError(CoordsMessage)) else
    Ok(PointQuery(g.size, coords[0]))
  }

  /** C++'s conversion of a `double` to `int`: truncation toward zero. */
  function Trunc(x: real): (r: int)
    ensures x >= 0.0 ==> 0 <= r && r as real <= x < r as real + 1.0
    ensures x < 0.0 ==> r <= 0 && r as real - 1.0 < x <= r as real
  {
    if x >= 0.0 then x.Floor else -((-x).Floor)
  }

  /** The positions from `i` on whose truncated coordinate lies in
      `[start, end]`, in increasing order. */
  function Matching(coords: seq<real>, start: int, end: int, i: nat): seq<nat>
    decreases |coords| - i
  {
    if i >= |coords| then []
    else (if start <= Trunc(coords[i]) <= end then [i] else []) + Matching(coords, start, end, i + 1)
  }

  /** `rangeQuery(domain, range, out)`: appends to `out` the position of
      every observation whose truncated coordinate is within the truncated
      range of `domain`, in order; `out` is not cleared. */
  method RangeQuery(q: PointQuery, domain: int, range: real, out: seq<nat>) returns (r: seq<nat>)
    ensures r == out + Matching(q.coords, domain - Trunc(range), domain + Trunc(range), 0)
  {
    var start := domain - Trunc(range);
    var end := domain + Trunc(range);
    r := out;
    var i := 0;
    while i != |q.coords|
      invariant 0 <= i <= |q.coords|
      invariant r + Matching(q.coords, start, end, i) == out + Matching(q.coords, start, end, 0)
      decreases |q.coords| - i
    {
      var coord := Trunc(q.coords[i]);
      if coord >= start && coord <= end {
        r := r + [i];
      }
      i := i + 1;
    }
  }

  /** `Matching` lists exactly the matching positions from `i` on, each
      once and in increasing order. */
  lemma {:induction false} MatchingSpec(coords: seq<real>, start: int, end: int, i: nat)
    ensures forall k :: k in Matching(coords, start, end, i) <==> i <= k < |coords| && start <= Trunc(coords[k]) <= end
    ensures forall p, q :: 0 <= p < q < |Matching(coords, start, end, i)| ==>
      Matching(coords, start, end, i)[p] < Matching(coords, start, end, i)[q]
    decreases |coords| - i
  {
    if i < |coords| {
      MatchingSpec(coords, start, end, i + 1);
      var head: seq<nat> := if start <= Trunc(coords[i]) <= end then [i] else [];
      var tail := Matching(coords, start, end, i + 1);
      assert Matching(coords, start, end, i) == head + tail;
      forall p, q | 0 <= p < q < |head + tail| ensures (head + tail)[p] < (head + tail)[q] {
        if p >= |head| {
          assert (head + tail)[p] == tail[p - |head|];
        } else {
          assert tail[q - |head|] in tail;
        }
      }
    }
  }

  /** What `rangeQuery` appends: every position whose truncated coordinate
      is within the range, and nothing else; positions come out strictly
      increasing. */
  lemma RangeQueryFinds(q: PointQuery, domain: int, range: real, out: seq<nat>, r: seq<nat>)
    requires r == out + Matching(q.coords, domain - Trunc(range), domain + Trunc(range), 0)
    ensures r[..|out|] == out
    ensures forall k: nat :: k in r[|out|..] <==>
      k < |q.coords| && domain - Trunc(range) <= Trunc(q.coords[k]) <= domain + Trunc(range)
    ensures forall p, t :: |out| <= p < t < |r| ==> r[p] < r[t]
  {
    var m := Matching(q.coords, domain - Trunc(range), domain + Trunc(range), 0);
    MatchingSpec(q.coords, domain - Trunc(range), domain + Trunc(range), 0);
    assert r[|out|..] == m;
    forall p, t | |out| <= p < t < |r| ensures r[p] < r[t] {
      assert r[p] == m[p - |out|] && r[t] == m[t - |out|];
    }
  }
}

=== FILE: grid_domain.dfy ===
/** A state space laid out on a regular grid (`GridDomain`): a dense grid
    stores `numVarsPerCell` variables per cell in row-major cell order; a
    mapped grid lists the state elements through a cell map.

    A block is an axis-aligned box of cells `[lo, hi)`. On a dense grid each
    block is a list of contiguous index ranges (one for a 1-D grid, one per
    row for a 2-D grid), and subset access copies whole ranges. A mapped
    grid implements none of the block operations.
 */
module GridDomains {
  import opened Wrappers
  import opened Matrices
  import D = Domains

  datatype RawBlock = Block(lo: seq<int>, hi: seq<int>)

  /** `GriddedDomain::Block`, an integer box whose corners share its dimension. */
  type Block = b: RawBlock | |b.lo| == |b.hi| witness Block([], [])

  datatype Grid = Grid(shape: seq<int>, crsDim: int, numVars: int, cellMap: seq<int>, size: int)

  /** `ArrayShape::prod()`. */
  function Prod(s: seq<int>): int {
    if |s| == 0 then 1 else s[0] * Prod(s[1..])
  }

  predicate IsDense(g: Grid) {
    |g.cellMap| == 0
  }

  /** The dense constructor: the shape has the coordinate system's dimension
      and every cell at least one variable. */
  function NewDense(shape: seq<int>, crsDim: int, numVarsPerCell: int): (r: Result<Grid>)
    ensures r.Ok? <==> |shape| == crsDim && numVarsPerCell > 0
    ensures |shape| != crsDim ==> r == Fail(AssertionError("shape.size() == crs->dim()"))
    ensures |shape| == crsDim && numVarsPerCell <= 0 ==> r == Fail(AssertionError("numVarsPerCell > 0"))
    ensures r.Ok? ==> IsDense(r.value) && r.value.shape == shape && r.value.numVars == numVarsPerCell
    ensures r.Ok? ==> r.value.size == Prod(shape) * numVarsPerCell
  {
    if |shape| != crsDim then Fail(AssertionError("shape.size() == crs->dim()")) else
    :- Check(numVarsPerCell > 0, "numVarsPerCell > 0");
    Ok(Grid(shape, crsDim, numVarsPerCell, [], Prod(shape) * numVarsPerCell))
  }

  /** The mapped constructor: the cell map must be non-empty and gives the
      size; no per-cell variable count is stored. */
  function NewMapped(shape: seq<int>, crsDim: int, cellMap: seq<int>): (r: Result<Grid>)
    ensures r.Ok? <==> |shape| == crsDim && |cellMap| > 0
    ensures |shape| != crsDim ==> r == Fail(AssertionError("shape.size() == crs->dim()"))
    ensures |shape| == crsDim && |cellMap| == 0 ==> r == Fail(AssertionError("mCellMap.size() > 0"))
    ensures r.Ok? ==> !IsDense(r.value) && r.value.size == |cellMap| && r.value.numVars == 0
  {
    if |shape| != crsDim then Fail(AssertionError("shape.size() == crs->dim()")) else
    :- Check(|cellMap| > 0, "mCellMap.size() > 0");
    Ok(Grid(shape, crsDim, 0, cellMap, |cellMap|))
  }

  /** `hasEfficientSubset()`: only a dense grid copies ranges directly. */
  function HasEfficientSubset(g: Grid): bool {
    IsDense(g)
  }

  /** `AlignedBox::volume()`: the product of the box's side lengths. */
  function Volume(b: Block): int {
    Prod(seq(|b.lo|, i requires 0 <= i < |b.lo| => b.hi[i] - b.lo[i]))
  }

  predicate NonNegative(s: seq<int>) {
    forall i :: 0 <= i < |s| ==> s[i] >= 0
  }

  predicate Below(b: Block, shape: seq<int>) {
    |b.hi| == |shape| && forall i :: 0 <= i < |shape| ==> b.hi[i] <= shape[i]
  }

  /** `blockSize(block)`: the block must start at non-negative cells and end
      within the grid; a dense grid has `numVarsPerCell` elements per cell,
      a mapped grid does not implement it. */
  function BlockSize(g: Grid, b: Block): (r: Result<int>)
    ensures !NonNegative(b.lo) ==> r == Fail(AssertionError("block.min().minCoeff() >= 0"))
    ensures NonNegative(b.lo) && |b.hi| == |g.shape| && !Below(b, g.shape) ==>
      r == Fail(AssertionError("(block.max().array() <= mShape).all()"))
    ensures NonNegative(b.lo) && Below(b, g.shape) ==> (r.Ok? <==> IsDense(g))
    ensures NonNegative(b.lo) && Below(b, g.shape) && !IsDense(g) ==> r == Fail(NotImplementedError)
  {
    if !NonNegative(b.lo) then Fail(AssertionError("block.min().minCoeff() >= 0")) else
    :- Need(|b.hi| == |g.shape|, OutOfRange);
    :- Check(Below(b, g.shape), "(block.max().array() <= mShape).all()");
    if IsDense(g) then Ok(Volume(b) * g.numVars) else Fail(NotImplementedError)
  }

  // ---------------------------------------------------------------------------
  // Block ranges

  /** One range per row `x` in `[x, xend)` of a 2-D block: row `x` starts
      `x * ys` elements in, and the block covers `[a, e)` of it. */
  function RowRanges(x: int, xend: int, ys: int, a: int, e: int): (rs: seq<(int, int)>)
    ensures |rs| == if x < xend then xend - x else 0
    decreases xend - x
  {
    if x >= xend then [] else [(x * ys + a, x * ys + e)] + RowRanges(x + 1, xend, ys, a, e)
  }

  /** `forEachBlockStateRange`: the contiguous index ranges of a block. */
  function BlockRanges(b: Block, v: int, shape: seq<int>): (r: Result<seq<(int, int)>>)
    ensures |shape| != |b.lo| ==> r == Fail(AssertionError("dim == block.dim()"))
    ensures |shape| == |b.lo| ==> (r.Ok? <==> |shape| == 1 || |shape| == 2)
    ensures |shape| == |b.lo| && |shape| != 1 && |shape| != 2 ==> r == Fail(NotImplementedError)
    ensures r.Ok? && |shape| == 1 ==> r.value == [(b.lo[0] * v, b.hi[0] * v)]
  {
    if |shape| != |b.lo| then Fail(AssertionError("dim == block.dim()")) else
    if |shape| == 1 then Ok([(b.lo[0] * v, b.hi[0] * v)])
    else if |shape| == 2 then Ok(RowRanges(b.lo[0], b.hi[0], shape[1] * v, b.lo[1] * v, b.hi[1] * v))
    else Fail(NotImplementedError)
  }

  /** The indices `i, i + 1, ..., iend - 1`. */
  function Interval(i: int, iend: int): (s: seq<int>)
    ensures |s| == if i < iend then iend - i else 0
    ensures forall t :: 0 <= t < |s| ==> s[t] == i + t
    decreases iend - i
  {
    if i >= iend then [] else [i] + Interval(i + 1, iend)
  }

  /** Every index of every range, range by range. */
  function Flatten(rs: seq<(int, int)>): seq<int>
    decreases |rs|
  {
    if |rs| == 0 then [] else Interval(rs[0].0, rs[0].1) + Flatten(rs[1..])
  }

  /** `getIndices(block)` on a dense grid; a mapped grid does not implement it. */
  function GetIndices(g: Grid, b: Block): (r: Result<seq<int>>)
    ensures !IsDense(g) ==> r == Fail(NotImplementedError)
    ensures IsDense(g) ==> (r.Ok? <==> BlockRanges(b, g.numVars, g.shape).Ok?)
  {
    if !IsDense(g) then Fail(NotImplementedError)
    else
      var rs :- BlockRanges(b, g.numVars, g.shape);
      Ok(Flatten(rs))
  }

  // ---------------------------------------------------------------------------
  // Subset access

  /** Copies each range of `X` to the next free rows of `out`, starting at
      row `il` (`out.block(ilocal, ...) = X.block(i, ...)`). */
  function CopyRanges(X: Matrix, rs: seq<(int, int)>, out: Matrix, il: int): (r: Result<Matrix>)
    ensures r.Ok? ==> |r.value| == |out|
    decreases |rs|
  {
    if |rs| == 0 then Ok(out)
    else
      var i := rs[0].0;
      var iend := rs[0].1;
      :- Need(0 <= i <= iend <= |X| && 0 <= il && il + (iend - i) <= |out|, OutOfRange);
      CopyRanges(X, rs[1..], out[..il] + X[i..iend] + out[il + (iend - i)..], il + (iend - i))
  }

  /** Copies the next rows of `Xl`, from row `il`, onto each range of `out`
      (`out.block(i, ...) = X.block(ilocal, ...)`). */
  function PutRanges(Xl: Matrix, rs: seq<(int, int)>, out: Matrix, il: int): (r: Result<Matrix>)
    ensures r.Ok? ==> |r.value| == |out|
    decreases |rs|
  {
    if |rs| == 0 then Ok(out)
    else
      var i := rs[0].0;
      var iend := rs[0].1;
      :- Need(0 <= i <= iend <= |out| && 0 <= il && il + (iend - i) <= |Xl|, OutOfRange);
      PutRanges(Xl, rs[1..], out[..i] + Xl[il..il + (iend - i)] + out[iend..], il + (iend - i))
  }

  /** `getSubset(block, X, out)`: a dense grid packs the block's ranges into
      the leading rows of `out`; a mapped grid falls back on the default,
      which needs `getIndices` and so is not implemented either. */
  function GetSubset(g: Grid, b: Block, X: Matrix, out: Matrix): (r: Result<Matrix>)
    ensures Cols(X) != Cols(out) ==> r == Fail(AssertionError("X.cols() == out.cols()"))
    ensures Cols(X) == Cols(out) && !IsDense(g) ==> r == Fail(NotImplementedError)
    ensures r.Ok? ==> |r.value| == |out|
  {
    if Cols(X) != Cols(out) then Fail(AssertionError("X.cols() == out.cols()")) else
    if IsDense(g) then
      var rs :- BlockRanges(b, g.numVars, g.shape);
      CopyRanges(X, rs, out, 0)
    else
      match GetIndices(g, b)
      case Fail(e) => Fail(e)
      case Ok(idx) => D.DefaultGetSubset(idx, X)
  }

  /** `putSubset(block, X, out)`: the mirror image of `GetSubset`. */
  function PutSubset(g: Grid, b: Block, Xl: Matrix, out: Matrix): (r: Result<Matrix>)
    ensures Cols(Xl) != Cols(out) ==> r == Fail(AssertionError("X.cols() == out.cols()"))
    ensures Cols(Xl) == Cols(out) && !IsDense(g) ==> r == Fail(NotImplementedError)
    ensures r.Ok? ==> |r.value| == |out|
  {
    if Cols(Xl) != Cols(out) then Fail(AssertionError("X.cols() == out.cols()")) else
    if IsDense(g) then
      var rs :- BlockRanges(b, g.numVars, g.shape);
      PutRanges(Xl, rs, out, 0)
    else
      match GetIndices(g, b)
      case Fail(e) => Fail(e)
      case Ok(idx) => D.DefaultPutSubset(idx, Xl, out)
  }

  // ---------------------------------------------------------------------------
  // Properties of ranges

  /** The ranges lie in `[lo, hi]`, each one ends where or before the next
      one starts, and none is reversed. */
  predicate Chained(rs: seq<(int, int)>, lo: int, hi: int)
    decreases |rs|
  {
    |rs| == 0 || (lo <= rs[0].0 <= rs[0].1 <= hi && Chained(rs[1..], rs[0].1, hi))
  }

  /** The number of indices in the ranges. */
  function Total(rs: seq<(int, int)>): int
    decreases |rs|
  {
    if |rs| == 0 then 0 else (rs[0].1 - rs[0].0) + Total(rs[1..])
  }

  predicate StrictlyIncreasing(s: seq<int>) {
    forall p, q :: 0 <= p < q < |s| ==> s[p] < s[q]
  }

  /** Chained ranges list strictly increasing indices inside `[lo, hi)`,
      as many as the ranges' total length. */
  lemma {:induction false} ChainedFlatten(rs: seq<(int, int)>, lo: int, hi: int)
    requires Chained(rs, lo, hi)
    ensures |Flatten(rs)| == Total(rs)
    ensures StrictlyIncreasing(Flatten(rs))
    ensures forall t :: 0 <= t < |Flatten(rs)| ==> lo <= Flatten(rs)[t] < hi
    decreases |rs|
  {
    if |rs| > 0 {
      var head := Interval(rs[0].0, rs[0].1);
      var tail := Flatten(rs[1..]);
      ChainedFlatten(rs[1..], rs[0].1, hi);
      assert Flatten(rs) == head + tail;
      forall p, q | 0 <= p < q < |head + tail| ensures (head + tail)[p] < (head + tail)[q] {
        if q < |head| {
        } else if p >= |head| {
          assert (head + tail)[p] == tail[p - |head|];
          assert (head + tail)[q] == tail[q - |head|];
        } else {
          assert (head + tail)[q] == tail[q - |head|];
        }
      }
      forall t | 0 <= t < |head + tail| ensures lo <= (head + tail)[t] < hi {
        if t >= |head| {
          assert (head + tail)[t] == tail[t - |head|];
        }
      }
    }
  }

  /** A range list that is chained inside `[lo2, hi1]` is chained inside
      any wider `[lo1, hi2]`. */
  lemma {:induction false} ChainedWiden(rs: seq<(int, int)>, lo1: int, lo2: int, hi1: int, hi2: int)
    requires Chained(rs, lo2, hi1) && lo1 <= lo2 && hi1 <= hi2
    ensures Chained(rs, lo1, hi2)
    decreases |rs|
  {
    if |rs| > 0 {
      ChainedWiden(rs[1..], rs[0].1, rs[0].1, hi1, hi2);
    }
  }

  lemma MulMono(a: int, b: int, c: int)
    requires a <= b && c >= 0
    ensures a * c <= b * c
  {
  }

  /** The rows of a 2-D block are chained inside rows `[x, xend)` of the
      grid, and cover `(xend - x) * (e - a)` elements. */
  lemma {:induction false} RowRangesChained(x: int, xend: int, ys: int, a: int, e: int)
    requires x <= xend && 0 <= a <= e <= ys
    ensures Chained(RowRanges(x, xend, ys, a, e), x * ys, xend * ys)
    ensures Total(RowRanges(x, xend, ys, a, e)) == (xend - x) * (e - a)
    decreases xend - x
  {
    if x < xend {
      RowRangesChained(x + 1, xend, ys, a, e);
      var rs := RowRanges(x, xend, ys, a, e);
      assert rs[1..] == RowRanges(x + 1, xend, ys, a, e);
      assert (x + 1) * ys == x * ys + ys;
      MulMono(x + 1, xend, ys);
      ChainedWiden(rs[1..], x * ys + e, (x + 1) * ys, xend * ys, xend * ys);
      assert (xend - x) * (e - a) == (e - a) + (xend - (x + 1)) * (e - a);
    }
  }

  /** A dense grid built by `NewDense`. */
  predicate DenseGrid(g: Grid) {
    IsDense(g) && g.numVars > 0 && g.size == Prod(g.shape) * g.numVars
  }

  /** The block lies inside the grid and is not reversed. */
  predicate Inside(b: Block, shape: seq<int>) {
    |b.lo| == |shape| && forall i :: 0 <= i < |shape| ==> 0 <= b.lo[i] <= b.hi[i] <= shape[i]
  }

  lemma ProdOne(s: seq<int>)
    requires |s| == 1
    ensures Prod(s) == s[0]
  {
    assert s[1..] == [];
  }

  lemma ProdTwo(s: seq<int>)
    requires |s| == 2
    ensures Prod(s) == s[0] * s[1]
  {
    assert s[1..][0] == s[1];
    ProdOne(s[1..]);
  }

  lemma MulSub(a: int, b: int, c: int)
    ensures a * c - b * c == (a - b) * c
  {
  }

  lemma MulAssoc3(a: int, b: int, c: int)
    ensures a * (b * c) == (a * b) * c
  {
  }

  /** The volume of a 1-D or 2-D block is the product of its sides. */
  lemma VolumeSides(b: Block)
    requires |b.lo| == 1 || |b.lo| == 2
    ensures |b.lo| == 1 ==> Volume(b) == b.hi[0] - b.lo[0]
    ensures |b.lo| == 2 ==> Volume(b) == (b.hi[0] - b.lo[0]) * (b.hi[1] - b.lo[1])
  {
    var sides := seq(|b.lo|, i requires 0 <= i < |b.lo| => b.hi[i] - b.lo[i]);
    if |b.lo| == 1 {
      ProdOne(sides);
    } else {
      ProdTwo(sides);
    }
  }

  /** A block inside a dense grid has `volume * numVarsPerCell` elements. */
  lemma DenseBlockSize(g: Grid, b: Block)
    requires DenseGrid(g) && Inside(b, g.shape)
    ensures BlockSize(g, b) == Ok(Volume(b) * g.numVars)
  {
    assert NonNegative(b.lo);
    assert Below(b, g.shape);
  }

  /** The single range of a 1-D block inside a dense grid. */
  lemma RangeChained1(g: Grid, b: Block)
    requires DenseGrid(g) && Inside(b, g.shape) && |g.shape| == 1
    ensures Chained([(b.lo[0] * g.numVars, b.hi[0] * g.numVars)], 0, g.size)
    ensures Total([(b.lo[0] * g.numVars, b.hi[0] * g.numVars)]) == Volume(b) * g.numVars
  {
    var v := g.numVars;
    ProdOne(g.shape);
    VolumeSides(b);
    MulMono(0, b.lo[0], v);
    MulMono(b.lo[0], b.hi[0], v);
    MulMono(b.hi[0], g.shape[0], v);
    assert b.hi[0] * v - b.lo[0] * v == (b.hi[0] - b.lo[0]) * v;
  }

  /** The row ranges of a 2-D block inside a dense grid. */
  lemma RangesChained2(g: Grid, b: Block)
    requires DenseGrid(g) && Inside(b, g.shape) && |g.shape| == 2
    ensures var rs := RowRanges(b.lo[0], b.hi[0], g.shape[1] * g.numVars, b.lo[1] * g.numVars, b.hi[1] * g.numVars);
      Chained(rs, 0, g.size) && Total(rs) == Volume(b) * g.numVars
  {
    var v := g.numVars;
    var ys := g.shape[1] * v;
    var rs := RowRanges(b.lo[0], b.hi[0], ys, b.lo[1] * v, b.hi[1] * v);
    MulMono(0, b.lo[1], v);
    MulMono(b.lo[1], b.hi[1], v);
    MulMono(b.hi[1], g.shape[1], v);
    RowRangesChained(b.lo[0], b.hi[0], ys, b.lo[1] * v, b.hi[1] * v);
    MulMono(0, b.lo[0], ys);
    MulMono(b.hi[0], g.shape[0], ys);
    ProdTwo(g.shape);
    MulAssoc3(g.shape[0], g.shape[1], v);
    ChainedWiden(rs, 0, b.lo[0] * ys, b.hi[0] * ys, g.size);
    VolumeSides(b);
    MulSub(b.hi[1], b.lo[1], v);
    MulAssoc3(b.hi[0] - b.lo[0], b.hi[1] - b.lo[1], v);
  }

  /** On a dense 1-D or 2-D grid, the ranges of a block inside the grid are
      chained inside `[0, size]` and cover `blockSize` elements. */
  lemma BlockRangesChained(g: Grid, b: Block)
    requires DenseGrid(g) && Inside(b, g.shape) && (|g.shape| == 1 || |g.shape| == 2)
    ensures BlockRanges(b, g.numVars, g.shape).Ok? && BlockSize(g, b).Ok?
    ensures Chained(BlockRanges(b, g.numVars, g.shape).value, 0, g.size)
    ensures Total(BlockRanges(b, g.numVars, g.shape).value) == BlockSize(g, b).value
  {
    DenseBlockSize(g, b);
    if |g.shape| == 1 {
      RangeChained1(g, b);
    } else {
      RangesChained2(g, b);
    }
  }

  /** `getIndices` on a dense 1-D or 2-D grid lists strictly increasing
      state indices below `size`, exactly `blockSize` of them. */
  lemma DenseIndices(g: Grid, b: Block)
    requires DenseGrid(g) && Inside(b, g.shape) && (|g.shape| == 1 || |g.shape| == 2)
    ensures GetIndices(g, b).Ok? && BlockSize(g, b).Ok?
    ensures var idx := GetIndices(g, b).value;
      && |idx| == BlockSize(g, b).value
      && StrictlyIncreasing(idx)
      && forall t :: 0 <= t < |idx| ==> 0 <= idx[t] < g.size
  {
    BlockRangesChained(g, b);
    ChainedFlatten(BlockRanges(b, g.numVars, g.shape).value, 0, g.size);
  }

  // ---------------------------------------------------------------------------
  // Properties of subset access

  /** Rows `il, il + 1, ...` of `L` are the rows of `X` at `idx`, in order. */
  predicate Packed(L: Matrix, il: int, X: Matrix, idx: seq<int>) {
    forall t :: 0 <= t < |idx| ==> PackedAt(L, il, X, idx, t)
  }

  /** Row `il + t` of `L` is the row of `X` at `idx[t]`. */
  predicate PackedAt(L: Matrix, il: int, X: Matrix, idx: seq<int>, t: int)
    requires 0 <= t < |idx|
  {
    0 <= il + t < |L| && 0 <= idx[t] < |X| && L[il + t] == X[idx[t]]
  }

  /** Copying chained ranges succeeds when they lie inside `X` and fit in
      `out` from `il`, packs the indices' rows of `X` in order, and leaves
      every other row of `out`. */
  lemma {:induction false} CopyRangesPacks(X: Matrix, rs: seq<(int, int)>, out: Matrix, il: int, lo: int)
    requires Chained(rs, lo, |X|) && lo >= 0 && 0 <= il && il + Total(rs) <= |out|
    ensures CopyRanges(X, rs, out, il).Ok?
    ensures Packed(CopyRanges(X, rs, out, il).value, il, X, Flatten(rs))
    ensures forall j :: 0 <= j < |out| && !(il <= j < il + |Flatten(rs)|) ==>
      CopyRanges(X, rs, out, il).value[j] == out[j]
    decreases |rs|
  {
    ChainedFlatten(rs, lo, |X|);
    if |rs| > 0 {
      var i := rs[0].0;
      var iend := rs[0].1;
      var n := iend - i;
      ChainedFlatten(rs[1..], iend, |X|);
      var out1 := out[..il] + X[i..iend] + out[il + n..];
      CopyRangesPacks(X, rs[1..], out1, il + n, iend);
      var r := CopyRanges(X, rs, out, il).value;
      var head := Interval(i, iend);
      var tail := Flatten(rs[1..]);
      assert Flatten(rs) == head + tail;
      forall t | 0 <= t < |Flatten(rs)| ensures PackedAt(r, il, X, Flatten(rs), t) {
        if t < n {
          assert out1[il + t] == X[i + t];
          assert Flatten(rs)[t] == head[t] == i + t;
        } else {
          assert PackedAt(r, il + n, X, tail, t - n);
          assert Flatten(rs)[t] == tail[t - n];
        }
      }
    }
  }

  /** Putting rows that were packed from `X` over chained ranges writes
      `X`'s row at every index of the ranges and leaves every other row. */
  lemma {:induction false} PutRangesRestores(Xl: Matrix, X: Matrix, rs: seq<(int, int)>, out: Matrix, il: int, lo: int)
    requires Chained(rs, lo, |out|) && lo >= 0 && |X| == |out| && 0 <= il && il + Total(rs) <= |Xl|
    requires Packed(Xl, il, X, Flatten(rs))
    ensures PutRanges(Xl, rs, out, il).Ok?
    ensures forall j :: 0 <= j < |out| ==>
      PutRanges(Xl, rs, out, il).value[j] == (if j in Flatten(rs) then X[j] else out[j])
    decreases |rs|
  {
    ChainedFlatten(rs, lo, |out|);
    if |rs| > 0 {
      var i := rs[0].0;
      var iend := rs[0].1;
      var n := iend - i;
      var head := Interval(i, iend);
      var tail := Flatten(rs[1..]);
      assert Flatten(rs) == head + tail;
      PackedSplit(Xl, il, X, head, tail, il + n);
      var out1 := out[..i] + Xl[il..il + n] + out[iend..];
      SpliceRows(Xl, X, out, il, i, iend);
      ChainedFlatten(rs[1..], iend, |out|);
      PutRangesRestores(Xl, X, rs[1..], out1, il + n, iend);
      var r := PutRanges(Xl, rs, out, il);
      assert r == PutRanges(Xl, rs[1..], out1, il + n);
      CombineRanges(r.value, out, out1, X, head, tail, i, iend);
    }
  }

  /** Writing `X` over `[i, iend)` and then over the indices `tail` writes
      it over all the indices `head + tail`, when `head` lists `[i, iend)`. */
  lemma CombineRanges(r: Matrix, out: Matrix, out1: Matrix, X: Matrix, head: seq<int>, tail: seq<int>, i: int, iend: int)
    requires |head| == iend - i && forall t :: 0 <= t < |head| ==> head[t] == i + t
    requires |r| == |out| && |out1| == |out| && |X| == |out|
    requires forall j :: 0 <= j < |out| ==> out1[j] == (if i <= j < iend then X[j] else out[j])
    requires forall j :: 0 <= j < |out1| ==> r[j] == (if j in tail then X[j] else out1[j])
    ensures forall j :: 0 <= j < |out| ==> r[j] == (if j in head + tail then X[j] else out[j])
  {
    forall j | 0 <= j < |out| ensures r[j] == (if j in head + tail then X[j] else out[j]) {
      assert (j in head + tail) == (j in head || j in tail);
      assert j in head <==> i <= j < iend by {
        if i <= j < iend { assert head[j - i] == j; }
      }
    }
  }

  /** Rows packed over `head + tail` are packed over `head` from `il`, and
      over `tail` right after. */
  lemma PackedSplit(Xl: Matrix, il: int, X: Matrix, head: seq<int>, tail: seq<int>, il2: int)
    requires Packed(Xl, il, X, head + tail) && il2 == il + |head|
    ensures Packed(Xl, il, X, head)
    ensures Packed(Xl, il2, X, tail)
  {
    var ht := head + tail;
    forall t | 0 <= t < |head|
      ensures PackedAt(Xl, il, X, head, t)
    {
      assert PackedAt(Xl, il, X, ht, t);
      assert ht[t] == head[t];
    }
    forall t | 0 <= t < |tail|
      ensures PackedAt(Xl, il2, X, tail, t)
    {
      assert PackedAt(Xl, il, X, ht, |head| + t);
      assert ht[|head| + t] == tail[t];
    }
  }

  /** Writing the rows `il ..` of `Xl` over `[i, iend)` of `out`, when they
      are `X`'s rows there, gives `X` on the range and `out` elsewhere. */
  lemma SpliceRows(Xl: Matrix, X: Matrix, out: Matrix, il: int, i: int, iend: int)
    requires 0 <= i <= iend <= |out| && |X| == |out| && 0 <= il && il + (iend - i) <= |Xl|
    requires Packed(Xl, il, X, Interval(i, iend))
    ensures var out1 := out[..i] + Xl[il..il + (iend - i)] + out[iend..];
      |out1| == |out| && forall j :: 0 <= j < |out| ==> out1[j] == (if i <= j < iend then X[j] else out[j])
  {
    var out1 := out[..i] + Xl[il..il + (iend - i)] + out[iend..];
    forall j | 0 <= j < |out| ensures out1[j] == (if i <= j < iend then X[j] else out[j]) {
      if i <= j < iend {
        assert PackedAt(Xl, il, X, Interval(i, iend), j - i);
        assert Interval(i, iend)[j - i] == j;
        assert out1[j] == Xl[il + (j - i)];
      }
    }
  }

  /** The subset round trip on a dense 1-D or 2-D grid: `getSubset` of a
      block into a buffer with room for it, then `putSubset` of that buffer
      into `Y`, gives `X` on the block's indices and `Y` everywhere else. */
  lemma DenseSubsetRoundTrip(g: Grid, b: Block, X: Matrix, buf: Matrix, Y: Matrix)
    requires DenseGrid(g) && Inside(b, g.shape) && (|g.shape| == 1 || |g.shape| == 2)
    requires |X| == g.size && |Y| == g.size
    requires Cols(X) == Cols(buf) && Cols(Y) == Cols(buf) && IsMatrix(X, |X|, Cols(X))
    requires BlockSize(g, b).Ok? && BlockSize(g, b).value <= |buf|
    ensures GetSubset(g, b, X, buf).Ok?
    ensures PutSubset(g, b, GetSubset(g, b, X, buf).value, Y).Ok?
    ensures var idx := GetIndices(g, b).value;
      var R := PutSubset(g, b, GetSubset(g, b, X, buf).value, Y).value;
      forall j :: 0 <= j < |Y| ==> R[j] == (if j in idx then X[j] else Y[j])
  {
    BlockRangesChained(g, b);
    var rs := BlockRanges(b, g.numVars, g.shape).value;
    CopyRangesPacks(X, rs, buf, 0, 0);
    assert GetSubset(g, b, X, buf) == CopyRanges(X, rs, buf, 0);
    var L := GetSubset(g, b, X, buf).value;
    assert Cols(L) == Cols(Y) by {
      if |buf| > 0 && |Flatten(rs)| > 0 {
        assert PackedAt(L, 0, X, Flatten(rs), 0);
        assert L[0] == X[Flatten(rs)[0]];
      } else if |buf| > 0 {
        assert L[0] == buf[0];
      }
    }
    PutRangesRestores(L, X, rs, Y, 0, 0);
    assert PutSubset(g, b, L, Y) == PutRanges(L, rs, Y, 0);
  }
  // ---------------------------------------------------------------------------
  // Cell of a cell index

  /** C++ integer division, truncating toward zero, by a positive divisor. */
  function DivT(a: int, b: int): int
    requires b > 0
  {
    if a >= 0 then a / b else -((-a) / b)
  }

  /** The remainder that goes with `DivT`. */
  function ModT(a: int, b: int): int
    requires b > 0
  {
    a - DivT(a, b) * b
  }

  /** The cell `(xi, yi)` that `cellCoord` places cell index `c` of a 2-D
      grid at, as written: it divides by the number of rows `shape(0)`. */
  function CellOfIndexAsWritten(shape: seq<int>, c: int): (int, int)
    requires |shape| == 2 && shape[0] > 0
  {
    (DivT(c, shape[0]), ModT(c, shape[0]))
  }

  /** The same with the divisor the row-major layout of the state uses, the
      number of columns `shape(1)`. */
  function CellOfIndex(shape: seq<int>, c: int): (int, int)
    requires |shape| == 2 && shape[1] > 0
  {
    (DivT(c, shape[1]), ModT(c, shape[1]))
  }

  /** Euclidean division is unique. */
  lemma DivUnique(k: int, n: int, x: int, y: int)
    requires n > 0 && k == x * n + y && 0 <= y < n
    ensures k / n == x && k % n == y
  {
    var q := k / n;
    var r := k % n;
    assert k == q * n + r && 0 <= r < n;
    if q < x {
      MulMono(q + 1, x, n);
      assert false;
    } else if q > x {
      MulMono(x + 1, q, n);
      assert false;
    }
  }

  /** Cell `(x, y)` of a 2-D grid has cell index `x * shape(1) + y` in the
      layout of `forEachBlockStateRange`, and `CellOfIndex` recovers it. */
  lemma CellOfIndexInverts(shape: seq<int>, x: int, y: int)
    requires |shape| == 2 && shape[1] > 0 && 0 <= x && 0 <= y < shape[1]
    ensures CellOfIndex(shape, x * shape[1] + y) == (x, y)
  {
    MulMono(0, x, shape[1]);
    DivUnique(x * shape[1] + y, shape[1], x, y);
  }

  /** On a grid of 2 rows and 3 columns cell index 2 is cell `(0, 2)`, but
      `cellCoord` as written places it at cell `(1, 0)`. */
  lemma CellOfIndexAsWrittenMisplaces()
    ensures CellOfIndex([2, 3], 2) == (0, 2)
    ensures CellOfIndexAsWritten([2, 3], 2) == (1, 0)
  {
    CellOfIndexInverts([2, 3], 0, 2);
    DivUnique(2, 2, 1, 0);
  }
}

=== FILE: grid_partitioning.dfy ===
/** The partitioning of a 1-D or 2-D grid into square tiles of
    `blockSize` cells (`GridDomainPartitioning`), each tile one local
    analysis domain.

    Tiles are laid out from cell 0 along every axis and clipped to the grid.
    A tile is kept only when it holds at least one state element; its size
    is `blockSize(block)` on a grid with efficient subsets and the length of
    its index list otherwise. Local access copies the tile's rows through
    the grid's subset operations or, when an index list was stored, through
    `selectRows` / `distributeRows`.
 */
module GridPartitionings {
  import opened Wrappers
  import opened Matrices
  import D = Domains
  import G = GridDomains

  datatype LocalDomain = LocalDomain(block: G.Block, indices: seq<int>, size: nat)

  datatype Partitioning = Partitioning(grid: G.Grid, blockSize: int, padding: int, domains: seq<LocalDomain>)

  function Min(a: int, b: int): (m: int)
    ensures m <= a && m <= b && (m == a || m == b)
  {
    if a <= b then a else b
  }

  // ---------------------------------------------------------------------------
  // Tiling

  /** The 1-D tiles `[i, min(i + bs, n))` for `i = i0, i0 + bs, ... < n`. */
  function Tiles1(i: int, n: int, bs: int): seq<G.Block>
    requires bs > 0
    decreases n - i
  {
    if i >= n then [] else [G.Block([i], [Min(i + bs, n)])] + Tiles1(i + bs, n, bs)
  }

  /** The tiles of the 2-D strip of rows `[i, iend)`, from column `j` on. */
  function TileRow(i: int, iend: int, j: int, nc: int, bs: int): seq<G.Block>
    requires bs > 0
    decreases nc - j
  {
    if j >= nc then [] else [G.Block([i, j], [iend, Min(j + bs, nc)])] + TileRow(i, iend, j + bs, nc, bs)
  }

  /** The 2-D tiles, strip by strip from row `i` on, row-major. */
  function Tiles2(i: int, nr: int, nc: int, bs: int): seq<G.Block>
    requires bs > 0
    decreases nr - i
  {
    if i >= nr then [] else TileRow(i, Min(i + bs, nr), 0, nc, bs) + Tiles2(i + bs, nr, nc, bs)
  }

  /** Every tile of a 1-D or 2-D grid in the order `generateDomains` visits them. */
  function Tiles(g: G.Grid, bs: int): seq<G.Block>
    requires bs > 0 && (|g.shape| == 1 || |g.shape| == 2)
  {
    if |g.shape| == 1 then Tiles1(0, g.shape[0], bs) else Tiles2(0, g.shape[0], g.shape[1], bs)
  }

  /** The local domain of a tile listed by its indices, if there are any. */
  function IndexedDomain(b: G.Block, idx: seq<int>): (r: seq<LocalDomain>)
    ensures |r| <= 1 && forall t :: 0 <= t < |r| ==> r[t].size > 0 && r[t].block == b
  {
    if |idx| > 0 then [LocalDomain(b, idx, |idx|)] else []
  }

  /** `addDomainFn`: the local domain of one tile, if it is not empty. */
  function AddDomain(g: G.Grid, b: G.Block): (r: Result<seq<LocalDomain>>)
    ensures r.Ok? ==> |r.value| <= 1 && forall t :: 0 <= t < |r.value| ==> r.value[t].size > 0 && r.value[t].block == b
  {
    if !G.HasEfficientSubset(g) then
      match G.GetIndices(g, b)
      case Fail(e) => Fail(e)
      case Ok(idx) => Ok(IndexedDomain(b, idx))
    else
      var n :- G.BlockSize(g, b);
      Ok(if n > 0 then [LocalDomain(b, [], n)] else [])
  }

  /** `addDomainFn` over a list of tiles; the first failure is thrown. */
  function AddAll(g: G.Grid, ts: seq<G.Block>): (r: Result<seq<LocalDomain>>)
    ensures r.Ok? ==> forall t :: 0 <= t < |r.value| ==> r.value[t].size > 0
    decreases |ts|
  {
    if |ts| == 0 then Ok([])
    else
      var first :- AddDomain(g, ts[0]);
      var rest :- AddAll(g, ts[1..]);
      Ok(first + rest)
  }

  /** The constructor: the grid must be present and one- or two-dimensional;
      the local domains are generated at once. */
  function New(domain: Option<G.Grid>, blockSize: int, padding: int): (r: Result<Partitioning>)
    requires blockSize > 0
    requires domain.Some? ==> |domain.value.shape| == domain.value.crsDim
    ensures domain.None? ==> r == Fail(AssertionError("domain"))
    ensures domain.Some? && domain.value.crsDim != 1 && domain.value.crsDim != 2 ==>
      r == Fail(InvalidArgument("Only one or two-dimensional grids can currently be partitioned"))
    ensures r.Ok? ==> r.value.grid == domain.value && r.value.blockSize == blockSize && r.value.padding == padding
    ensures r.Ok? ==> forall d :: 0 <= d < |r.value.domains| ==> r.value.domains[d].size > 0
  {
    if domain.None? then Fail(AssertionError("domain")) else
    var g := domain.value;
    :- Need(0 < g.crsDim <= 2, InvalidArgument("Only one or two-dimensional grids can currently be partitioned"));
    var ds :- AddAll(g, Tiles(g, blockSize));
    Ok(Partitioning(g, blockSize, padding, ds))
  }

  // ---------------------------------------------------------------------------
  // Local access

  /** `numLocalDomains()`. */
  function NumLocalDomains(p: Partitioning): nat {
    |p.domains|
  }

  const DomainIndexCheck := "d >= 0 && d < mData->domains.size()"

  /** `getLocalSize(d)`: the size of a kept domain, never zero. */
  function GetLocalSize(p: Partitioning, d: int): (r: Result<int>)
    requires forall e :: 0 <= e < |p.domains| ==> p.domains[e].size > 0
    ensures r.Ok? <==> 0 <= d < NumLocalDomains(p)
    ensures r.Fail? ==> r.error == AssertionError(DomainIndexCheck)
    ensures r.Ok? ==> r.value > 0
  {
    if !(0 <= d < |p.domains|) then Fail(AssertionError(DomainIndexCheck)) else
    Ok(p.domains[d].size)
  }

  /** `getLocal(d, Xg, out)`: the rows of domain `d`, through its index list
      when one was stored and through `getSubset` otherwise; an empty domain
      leaves `out` as it is. */
  function GetLocal(p: Partitioning, d: int, Xg: Matrix, out: Matrix): (r: Result<Matrix>)
    ensures !(0 <= d < NumLocalDomains(p)) ==> r == Fail(AssertionError(DomainIndexCheck))
    ensures 0 <= d < NumLocalDomains(p) && p.domains[d].size == 0 ==> r == Ok(out)
    ensures r.Ok? && p.domains[d].size > 0 && |p.domains[d].indices| > 0 ==>
      var idx := p.domains[d].indices;
      |r.value| == |idx| && forall t :: 0 <= t < |idx| ==> 0 <= idx[t] < |Xg| && r.value[t] == Xg[idx[t]]
  {
    if !(0 <= d < |p.domains|) then Fail(AssertionError(DomainIndexCheck)) else
    var dom := p.domains[d];
    if dom.size == 0 then Ok(out)
    else if |dom.indices| > 0 then D.DefaultGetSubset(dom.indices, Xg)
    else G.GetSubset(p.grid, dom.block, Xg, out)
  }

  /** `putLocal(d, Xl, Xg)`: the mirror image of `GetLocal`. */
  function PutLocal(p: Partitioning, d: int, Xl: Matrix, Xg: Matrix): (r: Result<Matrix>)
    ensures !(0 <= d < NumLocalDomains(p)) ==> r == Fail(AssertionError(DomainIndexCheck))
    ensures 0 <= d < NumLocalDomains(p) && p.domains[d].size == 0 ==> r == Ok(Xg)
    ensures r.Ok? ==> |r.value| == |Xg|
  {
    if !(0 <= d < |p.domains|) then Fail(AssertionError(DomainIndexCheck)) else
    var dom := p.domains[d];
    if dom.size == 0 then Ok(Xg)
    else if |dom.indices| > 0 then D.DefaultPutSubset(dom.indices, Xl, Xg)
    else G.PutSubset(p.grid, dom.block, Xl, Xg)
  }

  // ---------------------------------------------------------------------------
  // Which tiles are kept

  /** The local domain of a tile of a dense grid. */
  predicate DenseDomain(g: G.Grid, dom: LocalDomain, b: G.Block) {
    dom.block == b && dom.indices == [] && dom.size == G.Volume(b) * g.numVars
  }

  /** Every tile lies inside the grid and holds at least one cell. */
  predicate AllInside(ts: seq<G.Block>, shape: seq<int>) {
    forall t :: 0 <= t < |ts| ==> G.Inside(ts[t], shape) && G.Volume(ts[t]) > 0
  }

  lemma {:induction false} Tiles1Inside(i: int, n: int, bs: int, shape: seq<int>)
    requires bs > 0 && i >= 0 && |shape| == 1 && shape[0] == n
    ensures AllInside(Tiles1(i, n, bs), shape)
    decreases n - i
  {
    if i < n {
      var b := G.Block([i], [Min(i + bs, n)]);
      G.VolumeSides(b);
      Tiles1Inside(i + bs, n, bs, shape);
    }
  }

  lemma {:induction false} TileRowInside(i: int, iend: int, j: int, nc: int, bs: int, shape: seq<int>)
    requires bs > 0 && |shape| == 2 && 0 <= i < iend <= shape[0] && j >= 0 && shape[1] == nc
    ensures AllInside(TileRow(i, iend, j, nc, bs), shape)
    decreases nc - j
  {
    if j < nc {
      var b := G.Block([i, j], [iend, Min(j + bs, nc)]);
      G.VolumeSides(b);
      G.MulMono(1, iend - i, Min(j + bs, nc) - j);
      TileRowInside(i, iend, j + bs, nc, bs, shape);
    }
  }

  lemma {:induction false} Tiles2Inside(i: int, nr: int, nc: int, bs: int, shape: seq<int>)
    requires bs > 0 && i >= 0 && |shape| == 2 && shape[0] == nr && shape[1] == nc
    ensures AllInside(Tiles2(i, nr, nc, bs), shape)
    decreases nr - i
  {
    if i < nr {
      TileRowInside(i, Min(i + bs, nr), 0, nc, bs, shape);
      Tiles2Inside(i + bs, nr, nc, bs, shape);
    }
  }

  /** Every tile of a 1-D or 2-D grid lies inside it and is not empty. */
  lemma TilesInside(g: G.Grid, bs: int)
    requires bs > 0 && (|g.shape| == 1 || |g.shape| == 2)
    ensures AllInside(Tiles(g, bs), g.shape)
  {
    if |g.shape| == 1 {
      Tiles1Inside(0, g.shape[0], bs, g.shape);
    } else {
      Tiles2Inside(0, g.shape[0], g.shape[1], bs, g.shape);
    }
  }

  /** On a dense grid every tile inside it is kept, in order, as a domain of
      `volume * numVarsPerCell` elements with no index list. */
  lemma {:induction false} AddAllDense(g: G.Grid, ts: seq<G.Block>)
    requires G.DenseGrid(g) && AllInside(ts, g.shape)
    ensures AddAll(g, ts).Ok? && |AddAll(g, ts).value| == |ts|
    ensures forall t :: 0 <= t < |ts| ==> DenseDomain(g, AddAll(g, ts).value[t], ts[t])
    decreases |ts|
  {
    if |ts| > 0 {
      G.DenseBlockSize(g, ts[0]);
      G.MulMono(1, G.Volume(ts[0]), g.numVars);
      AddAllDense(g, ts[1..]);
      var first := AddDomain(g, ts[0]).value;
      assert first == [LocalDomain(ts[0], [], G.Volume(ts[0]) * g.numVars)];
      var rest := AddAll(g, ts[1..]).value;
      assert AddAll(g, ts).value == first + rest;
      forall t | 0 <= t < |ts| ensures DenseDomain(g, AddAll(g, ts).value[t], ts[t]) {
        if t > 0 {
          assert AddAll(g, ts).value[t] == rest[t - 1];
        }
      }
    }
  }

  /** A dense 1-D or 2-D grid is partitioned into exactly its tiles. */
  lemma NewDense(g: G.Grid, bs: int, padding: int)
    requires bs > 0 && G.DenseGrid(g) && |g.shape| == g.crsDim && (g.crsDim == 1 || g.crsDim == 2)
    ensures New(Some(g), bs, padding).Ok?
    ensures var p := New(Some(g), bs, padding).value;
      && |p.domains| == |Tiles(g, bs)|
      && forall d :: 0 <= d < |p.domains| ==> DenseDomain(g, p.domains[d], Tiles(g, bs)[d])
  {
    var ts := Tiles(g, bs);
    TilesInside(g, bs);
    AddAllDense(g, ts);
    assert New(Some(g), bs, padding) == Ok(Partitioning(g, bs, padding, AddAll(g, ts).value));
  }

  /** A mapped grid cannot be partitioned once it has a tile: its index
      lists are not implemented. */
  lemma NewMappedFails(g: G.Grid, bs: int, padding: int)
    requires bs > 0 && !G.IsDense(g) && |g.shape| == g.crsDim && (g.crsDim == 1 || g.crsDim == 2)
    requires |Tiles(g, bs)| > 0
    ensures New(Some(g), bs, padding) == Fail(NotImplementedError)
  {
    var ts := Tiles(g, bs);
    assert AddDomain(g, ts[0]) == Fail(NotImplementedError);
  }

  // ---------------------------------------------------------------------------
  // The tiles cover every cell exactly once

  predicate Contains(b: G.Block, cell: seq<int>) {
    |cell| == |b.lo| && forall a :: 0 <= a < |cell| ==> b.lo[a] <= cell[a] < b.hi[a]
  }

  /** How many of the tiles contain the cell. */
  function Count(ts: seq<G.Block>, cell: seq<int>): nat
    decreases |ts|
  {
    if |ts| == 0 then 0 else (if Contains(ts[0], cell) then 1 else 0) + Count(ts[1..], cell)
  }

  lemma {:induction false} CountAppend(a: seq<G.Block>, b: seq<G.Block>, cell: seq<int>)
    ensures Count(a + b, cell) == Count(a, cell) + Count(b, cell)
    decreases |a|
  {
    if |a| > 0 {
      assert (a + b)[0] == a[0];
      assert (a + b)[1..] == a[1..] + b;
      CountAppend(a[1..], b, cell);
    } else {
      assert a + b == b;
    }
  }

  lemma {:induction false} Tiles1Count(i: int, n: int, bs: int, x: int)
    requires bs > 0
    ensures Count(Tiles1(i, n, bs), [x]) == if i <= x < n then 1 else 0
    decreases n - i
  {
    if i < n {
      var ts := Tiles1(i, n, bs);
      assert ts[1..] == Tiles1(i + bs, n, bs);
      assert Contains(ts[0], [x]) <==> i <= x < Min(i + bs, n) by {
        assert [x][0] == x;
      }
      Tiles1Count(i + bs, n, bs, x);
    }
  }

  lemma {:induction false} TileRowCount(i: int, iend: int, j: int, nc: int, bs: int, x: int, y: int)
    requires bs > 0
    ensures Count(TileRow(i, iend, j, nc, bs), [x, y]) == if i <= x < iend && j <= y < nc then 1 else 0
    decreases nc - j
  {
    if j < nc {
      var ts := TileRow(i, iend, j, nc, bs);
      assert ts[1..] == TileRow(i, iend, j + bs, nc, bs);
      assert Contains(ts[0], [x, y]) <==> i <= x < iend && j <= y < Min(j + bs, nc) by {
        assert [x, y][0] == x && [x, y][1] == y;
      }
      TileRowCount(i, iend, j + bs, nc, bs, x, y);
    }
  }

  lemma {:induction false} Tiles2Count(i: int, nr: int, nc: int, bs: int, x: int, y: int)
    requires bs > 0
    ensures Count(Tiles2(i, nr, nc, bs), [x, y]) == if i <= x < nr && 0 <= y < nc then 1 else 0
    decreases nr - i
  {
    if i < nr {
      var iend := Min(i + bs, nr);
      CountAppend(TileRow(i, iend, 0, nc, bs), Tiles2(i + bs, nr, nc, bs), [x, y]);
      TileRowCount(i, iend, 0, nc, bs, x, y);
      Tiles2Count(i + bs, nr, nc, bs, x, y);
    }
  }

  predicate InGrid(cell: seq<int>, shape: seq<int>) {
    |cell| == |shape| && forall a :: 0 <= a < |cell| ==> 0 <= cell[a] < shape[a]
  }

  /** The tiling is a partition of the grid's cells: a cell of the grid lies
      in exactly one tile, and a cell outside it in none. */
  lemma TilesPartitionCells(g: G.Grid, bs: int, cell: seq<int>)
    requires bs > 0 && (|g.shape| == 1 || |g.shape| == 2) && |cell| == |g.shape|
    ensures Count(Tiles(g, bs), cell) == if InGrid(cell, g.shape) then 1 else 0
  {
    if |g.shape| == 1 {
      Tiles1Count(0, g.shape[0], bs, cell[0]);
      assert cell == [cell[0]];
    } else {
      Tiles2Count(0, g.shape[0], g.shape[1], bs, cell[0], cell[1]);
      assert cell == [cell[0], cell[1]];
    }
  }

  // ---------------------------------------------------------------------------
  // Local sizes add up to the grid's size

  function SumVolumes(ts: seq<G.Block>): int
    decreases |ts|
  {
    if |ts| == 0 then 0 else G.Volume(ts[0]) + SumVolumes(ts[1..])
  }

  function SumSizes(ds: seq<LocalDomain>): int
    decreases |ds|
  {
    if |ds| == 0 then 0 else ds[0].size + SumSizes(ds[1..])
  }

  lemma {:induction false} SumVolumesAppend(a: seq<G.Block>, b: seq<G.Block>)
    ensures SumVolumes(a + b) == SumVolumes(a) + SumVolumes(b)
    decreases |a|
  {
    if |a| > 0 {
      assert (a + b)[0] == a[0];
      assert (a + b)[1..] == a[1..] + b;
      SumVolumesAppend(a[1..], b);
    } else {
      assert a + b == b;
    }
  }

  lemma {:induction false} Tiles1Volume(i: int, n: int, bs: int)
    requires bs > 0 && i <= n
    ensures SumVolumes(Tiles1(i, n, bs)) == n - i
    decreases n - i
  {
    if i < n {
      G.VolumeSides(G.Block([i], [Min(i + bs, n)]));
      if i + bs <= n {
        Tiles1Volume(i + bs, n, bs);
      }
    }
  }

  lemma {:induction false} TileRowVolume(i: int, iend: int, j: int, nc: int, bs: int)
    requires bs > 0 && j <= nc
    ensures SumVolumes(TileRow(i, iend, j, nc, bs)) == (iend - i) * (nc - j)
    decreases nc - j
  {
    if j < nc {
      var je := Min(j + bs, nc);
      G.VolumeSides(G.Block([i, j], [iend, je]));
      if j + bs <= nc {
        TileRowVolume(i, iend, j + bs, nc, bs);
      }
      assert (iend - i) * (je - j) + (iend - i) * (nc - je) == (iend - i) * (nc - j);
    }
  }

  lemma {:induction false} Tiles2Volume(i: int, nr: int, nc: int, bs: int)
    requires bs > 0 && i <= nr && nc >= 0
    ensures SumVolumes(Tiles2(i, nr, nc, bs)) == (nr - i) * nc
    decreases nr - i
  {
    if i < nr {
      var iend := Min(i + bs, nr);
      SumVolumesAppend(TileRow(i, iend, 0, nc, bs), Tiles2(i + bs, nr, nc, bs));
      TileRowVolume(i, iend, 0, nc, bs);
      if i + bs <= nr {
        Tiles2Volume(i + bs, nr, nc, bs);
      }
      assert (iend - i) * nc + (nr - iend) * nc == (nr - i) * nc;
    }
  }

  /** The tiles' volumes add up to the number of cells. */
  lemma TilesVolume(g: G.Grid, bs: int)
    requires bs > 0 && (|g.shape| == 1 || |g.shape| == 2) && G.NonNegative(g.shape)
    ensures SumVolumes(Tiles(g, bs)) == G.Prod(g.shape)
  {
    if |g.shape| == 1 {
      Tiles1Volume(0, g.shape[0], bs);
      G.ProdOne(g.shape);
    } else {
      Tiles2Volume(0, g.shape[0], g.shape[1], bs);
      G.ProdTwo(g.shape);
    }
  }

  lemma {:induction false} DenseSizes(g: G.Grid, ds: seq<LocalDomain>, ts: seq<G.Block>)
    requires |ds| == |ts| && forall t :: 0 <= t < |ts| ==> DenseDomain(g, ds[t], ts[t])
    ensures SumSizes(ds) == SumVolumes(ts) * g.numVars
    decreases |ts|
  {
    if |ts| > 0 {
      DenseSizes(g, ds[1..], ts[1..]);
      assert (G.Volume(ts[0]) + SumVolumes(ts[1..])) * g.numVars
        == G.Volume(ts[0]) * g.numVars + SumVolumes(ts[1..]) * g.numVars;
    }
  }

  /** On a dense grid the local sizes add up to the grid's size. */
  lemma LocalSizesSum(g: G.Grid, bs: int, padding: int)
    requires bs > 0 && G.DenseGrid(g) && |g.shape| == g.crsDim && (g.crsDim == 1 || g.crsDim == 2)
    requires G.NonNegative(g.shape)
    ensures New(Some(g), bs, padding).Ok?
    ensures SumSizes(New(Some(g), bs, padding).value.domains) == g.size
  {
    NewDense(g, bs, padding);
    TilesVolume(g, bs);
    DenseSizes(g, New(Some(g), bs, padding).value.domains, Tiles(g, bs));
  }

  // ---------------------------------------------------------------------------
  // Every local domain read and written back reassembles the array

  /** Reads domain `d` of `X` into a buffer of its size and writes it back
      into `B`, for `d = d0, d0 + 1, ...` in turn. */
  function Reassemble(p: Partitioning, d0: nat, X: Matrix, B: Matrix): Result<Matrix>
    decreases |p.domains| - d0
  {
    if d0 >= |p.domains| then Ok(B)
    else
      var L :- GetLocal(p, d0, X, Zeros(p.domains[d0].size, Cols(X)));
      var B1 :- PutLocal(p, d0, L, B);
      Reassemble(p, d0 + 1, X, B1)
  }

  /** State element `k` belongs to the tile `b` of the grid. */
  predicate InTile(g: G.Grid, b: G.Block, k: int) {
    G.GetIndices(g, b).Ok? && k in G.GetIndices(g, b).value
  }

  /** Some domain from `d0` on holds state element `k`. */
  predicate Covered(p: Partitioning, d0: nat, k: int)
    decreases |p.domains| - d0
  {
    d0 < |p.domains| && (InTile(p.grid, p.domains[d0].block, k) || Covered(p, d0 + 1, k))
  }

  /** The domains of a dense grid: tiles inside the grid with no index list. */
  predicate DenseTiles(p: Partitioning) {
    && G.DenseGrid(p.grid) && (|p.grid.shape| == 1 || |p.grid.shape| == 2)
    && forall d :: 0 <= d < |p.domains| ==> DenseDomain(p.grid, p.domains[d], p.domains[d].block) && G.Inside(p.domains[d].block, p.grid.shape)
  }

  /** One domain read and written back: `X` on its elements, `B` elsewhere. */
  lemma LocalRoundTrip(p: Partitioning, d: nat, X: Matrix, B: Matrix)
    requires DenseTiles(p) && d < |p.domains| && p.domains[d].size > 0
    requires |X| == p.grid.size && |B| == p.grid.size && Cols(B) == Cols(X) && IsMatrix(X, |X|, Cols(X))
    ensures GetLocal(p, d, X, Zeros(p.domains[d].size, Cols(X))).Ok?
    ensures var L := GetLocal(p, d, X, Zeros(p.domains[d].size, Cols(X))).value;
      && PutLocal(p, d, L, B).Ok?
      && forall j :: 0 <= j < |B| ==>
        PutLocal(p, d, L, B).value[j] == if InTile(p.grid, p.domains[d].block, j) then X[j] else B[j]
  {
    var g := p.grid;
    var b := p.domains[d].block;
    var buf := Zeros(p.domains[d].size, Cols(X));
    G.DenseBlockSize(g, b);
    G.DenseIndices(g, b);
    G.DenseSubsetRoundTrip(g, b, X, buf, B);
  }

  /** Reading and writing back every domain from `d0` on gives `X` on the
      elements those domains hold and leaves every other row of `B`. */
  lemma {:induction false} ReassembleCovered(p: Partitioning, d0: nat, X: Matrix, B: Matrix)
    requires DenseTiles(p) && forall d :: 0 <= d < |p.domains| ==> p.domains[d].size > 0
    requires |X| == p.grid.size && |B| == p.grid.size && Cols(B) == Cols(X) && IsMatrix(X, |X|, Cols(X))
    ensures Reassemble(p, d0, X, B).Ok? && |Reassemble(p, d0, X, B).value| == |B|
    ensures forall j :: 0 <= j < |B| ==> Reassemble(p, d0, X, B).value[j] == if Covered(p, d0, j) then X[j] else B[j]
    decreases |p.domains| - d0
  {
    if d0 < |p.domains| {
      LocalRoundTrip(p, d0, X, B);
      var L := GetLocal(p, d0, X, Zeros(p.domains[d0].size, Cols(X))).value;
      var B1 := PutLocal(p, d0, L, B).value;
      assert Cols(B1) == Cols(X) by {
        if |B1| > 0 {
          assert B1[0] == X[0] || B1[0] == B[0];
        }
      }
      ReassembleCovered(p, d0 + 1, X, B1);
      assert Reassemble(p, d0, X, B) == Reassemble(p, d0 + 1, X, B1);
    }
  }

  /** A tile that holds `k` at position `t >= d0` covers it from `d0` on. */
  lemma {:induction false} CoveredAt(p: Partitioning, d0: nat, t: nat, k: int)
    requires d0 <= t < |p.domains| && InTile(p.grid, p.domains[t].block, k)
    ensures Covered(p, d0, k)
    decreases t - d0
  {
    if d0 < t {
      CoveredAt(p, d0 + 1, t, k);
    }
  }

  /** Some tile contains a cell that one of them counts. */
  lemma {:induction false} FindTile(ts: seq<G.Block>, cell: seq<int>) returns (t: nat)
    requires Count(ts, cell) > 0
    ensures t < |ts| && Contains(ts[t], cell)
    decreases |ts|
  {
    if Contains(ts[0], cell) {
      t := 0;
    } else {
      var u := FindTile(ts[1..], cell);
      t := u + 1;
    }
  }

  /** An index inside one of the ranges is listed by `Flatten`. */
  lemma {:induction false} FlattenHas(rs: seq<(int, int)>, u: nat, k: int)
    requires u < |rs| && rs[u].0 <= k < rs[u].1
    ensures k in G.Flatten(rs)
    decreases u
  {
    assert G.Flatten(rs) == G.Interval(rs[0].0, rs[0].1) + G.Flatten(rs[1..]);
    if u == 0 {
      assert G.Interval(rs[0].0, rs[0].1)[k - rs[0].0] == k;
    } else {
      FlattenHas(rs[1..], u - 1, k);
    }
  }

  lemma {:induction false} RowRangeAt(x: int, xend: int, ys: int, a: int, e: int, u: nat)
    requires u < xend - x
    ensures G.RowRanges(x, xend, ys, a, e)[u] == ((x + u) * ys + a, (x + u) * ys + e)
    decreases u
  {
    if u > 0 {
      RowRangeAt(x + 1, xend, ys, a, e, u - 1);
    }
  }

  lemma Linearize(x: int, nc: int, y: int, v: int)
    ensures (x * nc + y) * v == x * (nc * v) + y * v
  {
    assert (x * nc + y) * v == (x * nc) * v + y * v;
    G.MulAssoc3(x, nc, v);
  }

  lemma DivMod(k: int, m: int)
    requires k >= 0 && m > 0
    ensures k == (k / m) * m + k % m && 0 <= k % m < m && k / m >= 0
  {
  }

  /** `k` lies in the `v`-wide slot of cell `y` exactly when `y = k / v`. */
  lemma SlotBounds(lo: int, y: int, hi: int, v: int, s: int)
    requires lo <= y < hi && 0 <= s < v
    ensures lo * v <= y * v + s < hi * v
  {
    G.MulMono(lo, y, v);
    G.MulMono(y + 1, hi, v);
  }

  /** State element `(x * shape1 + y) * v + s` of a 2-D grid lies in the
      tile that holds cell `(x, y)`; element `x * v + s` of a 1-D grid in the
      tile that holds cell `x`. */
  lemma ElementInTile(g: G.Grid, b: G.Block, cell: seq<int>, s: int, k: int)
    requires G.DenseGrid(g) && G.Inside(b, g.shape) && Contains(b, cell) && 0 <= s < g.numVars
    requires |g.shape| == 1 ==> k == cell[0] * g.numVars + s
    requires |g.shape| == 2 ==> k == (cell[0] * g.shape[1] + cell[1]) * g.numVars + s
    requires |g.shape| == 1 || |g.shape| == 2
    ensures InTile(g, b, k)
  {
    var v := g.numVars;
    G.BlockRangesChained(g, b);
    var rs := G.BlockRanges(b, v, g.shape).value;
    if |g.shape| == 1 {
      SlotBounds(b.lo[0], cell[0], b.hi[0], v, s);
      FlattenHas(rs, 0, k);
    } else {
      var ys := g.shape[1] * v;
      var u := cell[0] - b.lo[0];
      RowRangeAt(b.lo[0], b.hi[0], ys, b.lo[1] * v, b.hi[1] * v, u);
      assert rs[u] == (cell[0] * ys + b.lo[1] * v, cell[0] * ys + b.hi[1] * v);
      SlotBounds(b.lo[1], cell[1], b.hi[1], v, s);
      Linearize(cell[0], g.shape[1], cell[1], v);
      FlattenHas(rs, u, k);
    }
  }

  /** Every state element of a dense grid sits in some cell: element `k` is
      `(x * shape1 + y) * v + s` (2-D) or `x * v + s` (1-D). */
  lemma CellOf(g: G.Grid, k: int) returns (cell: seq<int>, s: int)
    requires G.DenseGrid(g) && (|g.shape| == 1 || |g.shape| == 2) && G.NonNegative(g.shape) && 0 <= k < g.size
    ensures InGrid(cell, g.shape) && 0 <= s < g.numVars
    ensures |g.shape| == 1 ==> k == cell[0] * g.numVars + s
    ensures |g.shape| == 2 ==> k == (cell[0] * g.shape[1] + cell[1]) * g.numVars + s
  {
    var v := g.numVars;
    if |g.shape| == 1 {
      G.ProdOne(g.shape);
      DivMod(k, v);
      var x := k / v;
      s := k % v;
      if x >= g.shape[0] {
        G.MulMono(g.shape[0], x, v);
      }
      cell := [x];
    } else {
      G.ProdTwo(g.shape);
      G.MulAssoc3(g.shape[0], g.shape[1], v);
      var ys := g.shape[1] * v;
      G.MulMono(0, g.shape[1], v);
      G.MulMono(0, g.shape[0], ys);
      assert g.size == g.shape[0] * ys;
      if ys == 0 {
        assert false;
      }
      DivMod(k, ys);
      var x := k / ys;
      var o := k % ys;
      DivMod(o, v);
      var y := o / v;
      s := o % v;
      if x >= g.shape[0] {
        G.MulMono(g.shape[0], x, ys);
      }
      if y >= g.shape[1] {
        G.MulMono(g.shape[1], y, v);
      }
      cell := [x, y];
      Linearize(x, g.shape[1], y, v);
    }
  }

  /** On a dense 1-D or 2-D grid, reading every local domain of `X` and
      writing it back into `B` in turn rebuilds `X`. */
  lemma PartitionReassembles(g: G.Grid, bs: int, padding: int, X: Matrix, B: Matrix)
    requires bs > 0 && G.DenseGrid(g) && |g.shape| == g.crsDim && (g.crsDim == 1 || g.crsDim == 2)
    requires G.NonNegative(g.shape)
    requires |X| == g.size && |B| == g.size && Cols(B) == Cols(X) && IsMatrix(X, |X|, Cols(X))
    ensures New(Some(g), bs, padding).Ok?
    ensures Reassemble(New(Some(g), bs, padding).value, 0, X, B) == Ok(X)
  {
    NewDense(g, bs, padding);
    TilesInside(g, bs);
    var p := New(Some(g), bs, padding).value;
    var ts := Tiles(g, bs);
    assert DenseTiles(p) by {
      forall d | 0 <= d < |p.domains|
        ensures DenseDomain(g, p.domains[d], p.domains[d].block) && G.Inside(p.domains[d].block, g.shape)
      {
        assert DenseDomain(g, p.domains[d], ts[d]);
      }
    }
    ReassembleCovered(p, 0, X, B);
    var R := Reassemble(p, 0, X, B).value;
    forall k | 0 <= k < |B| ensures R[k] == X[k] {
      var cell, s := CellOf(g, k);
      TilesPartitionCells(g, bs, cell);
      var t := FindTile(ts, cell);
      assert p.domains[t].block == ts[t];
      ElementInTile(g, ts[t], cell, s, k);
      CoveredAt(p, 0, t, k);
    }
    assert R == X;
  }
}

=== FILE: kalman_smoother.dfy ===
/** The full-rank Kalman smoother (`KalmanSmoother`): its protocol guards and
    the stack of per-step records whose arrays live in the cache.

    The numerics (model propagation, the Kalman update, the Rauch-Tung-Striebel
    backward step) are functions of an `Env`; the model here is about which
    arrays are cached, when they are released, and in which order results are
    handed to the callback. Vectors are `n x 1` matrices.
 */
module KalmanSmoother {
  import opened Wrappers
  import opened Matrices
  import MC = MemoryArrayCache

  /** The numerics the smoother calls out to. */
  datatype Env = Env(
    propagate: (Matrix, Matrix, int, real) -> (Matrix, Matrix),
    update: (Matrix, Matrix, seq<real>, Matrix, Matrix) -> (Matrix, Matrix),
    rts: (Matrix, Matrix, Matrix, Matrix, Matrix, Matrix, int) -> (Matrix, Matrix))

  /** `KSData`: the step index and the handles of the prior and posterior
      state and covariance. */
  datatype Record = Record(k: int, xf: MC.Handle, Pf: MC.Handle, xa: MC.Handle, Pa: MC.Handle)

  /** `KalmanSmoother::Data`, plus what the result callback and the model's
      `stepFinished` have received so far. */
  datatype Smoother = Smoother(
    lag: int, cache: MC.Cache, active: bool,
    upX: Matrix, upP: Matrix, upK: int, smXf: MC.Handle, smPf: MC.Handle,
    steps: seq<Record>, hasOnResult: bool,
    results: seq<(Matrix, Matrix, int)>, finished: seq<int>)

  /** The time indices of the results, in callback order. */
  function ResultKs(results: seq<(Matrix, Matrix, int)>): (ks: seq<int>)
    ensures |ks| == |results| && forall t :: 0 <= t < |ks| ==> ks[t] == results[t].2
  {
    seq(|results|, t requires 0 <= t < |results| => results[t].2)
  }

  /** The constructor: the lag must be non-negative; without a cache a fresh
      in-memory cache is used. */
  function New(lag: int, cache: Option<MC.Cache>): (r: Result<Smoother>)
    ensures r.Ok? <==> lag >= 0
    ensures r.Fail? ==> r.error == AssertionError("lag >= 0")
    ensures r.Ok? ==> r.value.lag == lag && !r.value.active && r.value.steps == []
    ensures r.Ok? ==> r.value.cache == (if cache.Some? then cache.value else MC.Empty())
  {
    if lag < 0 then Fail(AssertionError("lag >= 0")) else
    Ok(Smoother(lag, if cache.Some? then cache.value else MC.Empty(), false,
                [], [], 0, MC.NullHandle, MC.NullHandle, [], false, [], []))
  }

  /** `setOnResultFn`. */
  function OnResult(s: Smoother): (t: Smoother)
    ensures t.hasOnResult && t == s.(hasOnResult := true)
  {
    s.(hasOnResult := true)
  }

  /** `beginSmoother(x0, P0, k0)`: with a lag the record stack restarts with
      the initial state, whose prior handles are null. */
  function BeginSmoother(s: Smoother, x0: Matrix, P0: Matrix, k0: int): (r: Result<Smoother>)
    ensures s.active ==> r == Fail(AssertionError("!mData->updateActive"))
    ensures !s.active && s.lag == 0 ==> r == Ok(s)
    ensures !s.active && s.lag != 0 ==>
      && r.Ok?
      && |r.value.steps| == 1
      && r.value.steps[0] == Record(k0, MC.NullHandle, MC.NullHandle, s.cache.counter, s.cache.counter + 1)
      && r.value.cache.counter == s.cache.counter + 2
  {
    if s.active then Fail(AssertionError("!mData->updateActive")) else
    if s.lag == 0 then Ok(s)
    else
      var (c1, hx) := MC.Put(s.cache, x0);
      var (c2, hP) := MC.Put(c1, P0);
      Ok(s.(cache := c2, steps := [Record(k0, MC.NullHandle, MC.NullHandle, hx, hP)]))
  }

  /** Whether an Eigen array has any elements (`size() > 0`). */
  predicate NonEmpty(A: Matrix) {
    |A| > 0 && Cols(A) > 0
  }

  /** `forecast(x, P, Q, k, dt)`: propagates the state, adds `Q` only when it
      has elements, and tells the model step `k` is finished when there is no
      lag. */
  function Forecast(env: Env, s: Smoother, x: Matrix, P: Matrix, Q: Matrix, k: int, dt: real): (r: Result<(Smoother, Matrix, Matrix)>)
    ensures s.active ==> r == Fail(AssertionError("!mData->updateActive"))
    ensures r.Ok? ==> r.value.0 == s.(finished := r.value.0.finished)
    ensures r.Ok? ==> r.value.0.finished == s.finished + (if s.lag == 0 then [k] else [])
    ensures r.Ok? ==> r.value.1 == env.propagate(x, P, k, dt).0
    ensures r.Ok? && !NonEmpty(Q) ==> r.value.2 == env.propagate(x, P, k, dt).1
    ensures r.Ok? && NonEmpty(Q) ==> var P1 := env.propagate(x, P, k, dt).1;
      && |r.value.2| == |P1|
      && (forall i :: 0 <= i < |P1| ==> |r.value.2[i]| == |P1[i]|)
      && forall i, j :: 0 <= i < |P1| && 0 <= j < |P1[i]| && i < |Q| && j < |Q[i]| ==>
        r.value.2[i][j] == P1[i][j] + Q[i][j]
  {
    if s.active then Fail(AssertionError("!mData->updateActive")) else
    var (x1, P1) := env.propagate(x, P, k, dt);
    var P2 := if NonEmpty(Q) then Combine(1.0, P1, 1.0, Q) else P1;
    Ok((s.(finished := if s.lag == 0 then s.finished + [k] else s.finished), x1, P2))
  }

  /** `beginAnalysis(x, P, k)`: caches the prior state and covariance (also
      without a lag) and opens the analysis. */
  function BeginAnalysis(s: Smoother, x: Matrix, P: Matrix, k: int): (r: Result<Smoother>)
    ensures s.active ==> r == Fail(AssertionError("!mData->updateActive"))
    ensures !s.active ==>
      && r.Ok? && r.value.active && r.value.upK == k
      && r.value.upX == x && r.value.upP == P
      && r.value.smXf == s.cache.counter && r.value.smPf == s.cache.counter + 1
      && r.value.steps == s.steps
  {
    if s.active then Fail(AssertionError("!mData->updateActive")) else
    var (c1, hx) := MC.Put(s.cache, x);
    var (c2, hP) := MC.Put(c1, P);
    Ok(s.(upX := x, upP := P, upK := k, smXf := hx, smPf := hP, cache := c2, active := true))
  }

  /** `assimilate(z, H, R)`: an empty batch is a no-op; otherwise `z` must
      have one entry per row of `H`. */
  function Assimilate(env: Env, s: Smoother, z: seq<real>, H: Matrix, R: Matrix): (r: Result<Smoother>)
    ensures !s.active ==> r == Fail(AssertionError("mData->updateActive"))
    ensures s.active && |z| == 0 ==> r == Ok(s)
    ensures s.active && |z| != 0 ==> (r.Ok? <==> |z| == |H|)
    ensures s.active && |z| != 0 && |z| != |H| ==> r == Fail(AssertionError("z.size() == H.rows()"))
    ensures r.Ok? ==> r.value == s.(upX := r.value.upX, upP := r.value.upP)
  {
    if !s.active then Fail(AssertionError("mData->updateActive")) else
    if |z| == 0 then Ok(s)
    else
      :- Check(|z| == |H|, "z.size() == H.rows()");
      var (x1, P1) := env.update(s.upX, s.upP, z, H, R);
      Ok(s.(upX := x1, upP := P1))
  }

  /** `endAnalysis()`: without a lag the analysis goes to the callback;
      with one the posterior is cached and a record is pushed. */
  function EndAnalysis(s: Smoother): (r: Result<Smoother>)
    ensures !s.active ==> r == Fail(AssertionError("mData->updateActive"))
    ensures s.active ==> r.Ok? && !r.value.active
    ensures s.active && s.lag == 0 ==>
      && r.value.cache == s.cache && r.value.steps == s.steps
      && r.value.results == s.results + (if s.hasOnResult then [(s.upX, s.upP, s.upK)] else [])
    ensures s.active && s.lag != 0 ==>
      && r.value.results == s.results
      && r.value.steps == s.steps + [Record(s.upK, s.smXf, s.smPf, s.cache.counter, s.cache.counter + 1)]
      && r.value.cache.counter == s.cache.counter + 2
  {
    if !s.active then Fail(AssertionError("mData->updateActive")) else
    if s.lag == 0 then
      Ok(s.(results := if s.hasOnResult then s.results + [(s.upX, s.upP, s.upK)] else s.results, active := false))
    else
      var (c1, hx) := MC.Put(s.cache, s.upX);
      var (c2, hP) := MC.Put(c1, s.upP);
      Ok(s.(cache := c2, steps := s.steps + [Record(s.upK, s.smXf, s.smPf, hx, hP)], active := false))
  }

  /** The step indices of the records, oldest first. */
  function RecordKs(steps: seq<Record>): (ks: seq<int>)
    ensures |ks| == |steps| && forall t :: 0 <= t < |ks| ==> ks[t] == steps[t].k
  {
    seq(|steps|, t requires 0 <= t < |steps| => steps[t].k)
  }

  function Reverse(xs: seq<int>): (ys: seq<int>)
    ensures |ys| == |xs| && forall t :: 0 <= t < |ys| ==> ys[t] == xs[|xs| - 1 - t]
  {
    seq(|xs|, t requires 0 <= t < |xs| => xs[|xs| - 1 - t])
  }

  /** `t`'s results extend `s`'s with one result per record of `steps`,
      newest first. */
  predicate HandsOut(s: Smoother, t: Smoother, steps: seq<Record>) {
    && |t.results| == |s.results| + |steps|
    && t.results[..|s.results|] == s.results
    && ResultKs(t.results[|s.results|..]) == Reverse(RecordKs(steps))
  }

  /** Handing out the newest record and then the older ones, newest first,
      hands out all of them newest first. */
  lemma HandsOutStep(s: Smoother, s1: Smoother, t: Smoother, steps: seq<Record>, res: (Matrix, Matrix, int))
    requires |steps| > 0 && res.2 == steps[|steps| - 1].k
    requires s1.results == s.results + [res]
    requires HandsOut(s1, t, steps[..|steps| - 1])
    ensures HandsOut(s, t, steps)
  {
    var n0 := |s.results|;
    var tr := t.results;
    var init := steps[..|steps| - 1];
    assert tr[..n0 + 1] == s.results + [res];
    assert tr[..n0] == tr[..n0 + 1][..n0];
    var x := tr[n0..];
    assert x[..1] == [res] by {
      assert x[0] == tr[..n0 + 1][n0];
    }
    assert x[1..] == tr[n0 + 1..];
    ResultKsConcat(x, 1);
    ReverseSnoc(steps);
  }

  /** The step indices of a split list of results, part by part. */
  lemma ResultKsConcat(x: seq<(Matrix, Matrix, int)>, d: nat)
    requires d <= |x|
    ensures ResultKs(x) == ResultKs(x[..d]) + ResultKs(x[d..])
  {
    assert x == x[..d] + x[d..];
  }

  /** Newest first, the last record comes before all the others. */
  lemma ReverseSnoc(steps: seq<Record>)
    requires |steps| > 0
    ensures Reverse(RecordKs(steps)) == [steps[|steps| - 1].k] + Reverse(RecordKs(steps[..|steps| - 1]))
  {
  }

  /** Pops four handles one after the other: the successor's prior mean
      and covariance, then the record's posterior mean and covariance. */
  function PopFour(c: MC.Cache, a: MC.Handle, b: MC.Handle, x: MC.Handle, y: MC.Handle)
    : Result<(MC.Cache, MC.Entry, MC.Entry, MC.Entry, MC.Entry)>
  {
    var p1 :- MC.Pop(c, a);
    var p2 :- MC.Pop(p1.0, b);
    var p3 :- MC.Pop(p2.0, x);
    var p4 :- MC.Pop(p3.0, y);
    Ok((p4.0, p1.1, p2.1, p3.1, p4.1))
  }

  /** The backward recursion of `endSmoother`: pops the newest remaining
      record, releases its successor's prior and its own posterior, and hands
      the smoothed estimate to the callback. */
  function Backward(env: Env, s: Smoother, next: Record, xs: Matrix, Ps: Matrix): (r: Result<Smoother>)
    ensures r.Ok? ==> r.value.steps == [] && r.value.finished == s.finished
    ensures r.Ok? ==> HandsOut(s, r.value, s.steps)
    decreases |s.steps|
  {
    if |s.steps| == 0 then
      assert ResultKs(s.results[|s.results|..]) == [];
      Ok(s)
    else
      var cur := s.steps[|s.steps| - 1];
      var q :- PopFour(s.cache, next.xf, next.Pf, cur.xa, cur.Pa);
      var (c4, xf, Pf, xa, Pa) := q;
      var (xs1, Ps1) := env.rts(xa.data, Pa.data, xf.data, Pf.data, xs, Ps, cur.k);
      var s1 := s.(cache := c4, steps := s.steps[..|s.steps| - 1], results := s.results + [(xs1, Ps1, cur.k)]);
      var r := Backward(env, s1, cur, xs1, Ps1);
      assert r.Ok? ==> HandsOut(s, r.value, s.steps) by {
        if r.Ok? {
          HandsOutStep(s, s1, r.value, s.steps, (xs1, Ps1, cur.k));
        }
      }
      r
  }

  /** `endSmoother()`: with a lag and at least one record, requires a result
      callback, then hands out the newest record's posterior and runs the
      backward recursion over the rest. The lag's value plays no further
      part: every record is smoothed (a fixed-interval smoother). */
  function EndSmoother(env: Env, s: Smoother): (r: Result<Smoother>)
    ensures s.active ==> r == Fail(AssertionError("!mData->updateActive"))
    ensures !s.active && (s.lag == 0 || |s.steps| == 0) ==> r == Ok(s)
    ensures !s.active && s.lag != 0 && |s.steps| > 0 && !s.hasOnResult ==> r == Fail(AssertionError("mOnResultFn"))
    ensures r.Ok? && s.lag != 0 && |s.steps| > 0 ==>
      && r.value.steps == []
      && r.value.finished == s.finished + [s.steps[|s.steps| - 1].k]
      && HandsOut(s, r.value, s.steps)
      && NewestHandedOutFirst(s, r.value)
  {
    if s.active then Fail(AssertionError("!mData->updateActive")) else
    if s.lag == 0 || |s.steps| == 0 then Ok(s)
    else
      :- Check(s.hasOnResult, "mOnResultFn");
      SmoothAll(env, s)
  }

  /** The part of `endSmoother` past its guards. */
  function SmoothAll(env: Env, s: Smoother): (r: Result<Smoother>)
    requires |s.steps| > 0
    ensures r.Ok? ==>
      && r.value.steps == []
      && r.value.finished == s.finished + [s.steps[|s.steps| - 1].k]
      && HandsOut(s, r.value, s.steps)
    ensures r.Ok? ==> NewestHandedOutFirst(s, r.value)
  {
    var last := s.steps[|s.steps| - 1];
    var xs :- MC.Pop(s.cache, last.xa);
    var Ps :- MC.Pop(xs.0, last.Pa);
    var s1 := s.(cache := Ps.0, steps := s.steps[..|s.steps| - 1], finished := s.finished + [last.k],
                 results := s.results + [(xs.1.data, Ps.1.data, last.k)]);
    var r := Backward(env, s1, last, xs.1.data, Ps.1.data);
    assert r.Ok? ==> HandsOut(s, r.value, s.steps) by {
      if r.Ok? {
        HandsOutStep(s, s1, r.value, s.steps, (xs.1.data, Ps.1.data, last.k));
      }
    }
    r
  }

  /** The first result `t` adds to `s`'s is the newest record's cached
      posterior mean and covariance, held under two distinct live handles. */
  predicate NewestHandedOutFirst(s: Smoother, t: Smoother)
    requires |s.steps| > 0
  {
    var last := s.steps[|s.steps| - 1];
    && last.xa in s.cache.entries && last.Pa in s.cache.entries && last.xa != last.Pa
    && |t.results| > |s.results|
    && t.results[|s.results|] == (s.cache.entries[last.xa].data, s.cache.entries[last.Pa].data, last.k)
  }

  // ---------------------------------------------------------------------------
  // Which handles `endSmoother` releases

  /** The handles the backward recursion pops, in order, starting below the
      record `next`. */
  function BackOrder(rest: seq<Record>, next: Record): (hs: seq<MC.Handle>)
    ensures |hs| == 4 * |rest|
    decreases |rest|
  {
    if |rest| == 0 then []
    else
      var cur := rest[|rest| - 1];
      [next.xf, next.Pf, cur.xa, cur.Pa] + BackOrder(rest[..|rest| - 1], cur)
  }

  /** Every handle `endSmoother` pops, in order. */
  function PopOrder(steps: seq<Record>): (hs: seq<MC.Handle>)
    ensures |steps| > 0 ==> |hs| == 4 * |steps| - 2
  {
    if |steps| == 0 then []
    else
      var last := steps[|steps| - 1];
      [last.xa, last.Pa] + BackOrder(steps[..|steps| - 1], last)
  }

  /** Pops the handles one after the other. */
  function PopAll(c: MC.Cache, hs: seq<MC.Handle>): (r: Result<MC.Cache>)
    decreases |hs|
  {
    if |hs| == 0 then Ok(c)
    else
      match MC.Pop(c, hs[0])
      case Ok(p) => PopAll(p.0, hs[1..])
      case Fail(e) => Fail(e)
  }

  predicate Distinct(hs: seq<MC.Handle>) {
    forall a, b :: 0 <= a < b < |hs| ==> hs[a] != hs[b]
  }

  /** Every handle is non-null, live, and appears once. */
  predicate AllLive(c: MC.Cache, hs: seq<MC.Handle>) {
    && Distinct(hs)
    && forall t :: 0 <= t < |hs| ==> hs[t] != MC.NullHandle && hs[t] in c.entries
  }

  /** Popping a list succeeds exactly when its handles are live and pairwise
      distinct (popping one twice fails the second time); it removes exactly
      those handles and keeps every other entry. */
  lemma {:induction false} PopAllSpec(c: MC.Cache, hs: seq<MC.Handle>)
    ensures PopAll(c, hs).Ok? <==> AllLive(c, hs)
    ensures PopAll(c, hs).Ok? ==>
      && PopAll(c, hs).value.counter == c.counter
      && (forall h :: h in PopAll(c, hs).value.entries <==> h in c.entries && h !in hs)
      && (forall h :: h in PopAll(c, hs).value.entries ==> PopAll(c, hs).value.entries[h] == c.entries[h])
    decreases |hs|
  {
    if |hs| > 0 {
      var h := hs[0];
      if MC.Pop(c, h).Ok? {
        var c1 := MC.Pop(c, h).value.0;
        PopAllSpec(c1, hs[1..]);
        assert hs == [h] + hs[1..];
        if AllLive(c, hs) {
          assert AllLive(c1, hs[1..]) by {
            forall a, b | 0 <= a < b < |hs[1..]| ensures hs[1..][a] != hs[1..][b] {
              assert hs[1..][a] == hs[a + 1] && hs[1..][b] == hs[b + 1];
            }
            forall t | 0 <= t < |hs[1..]| ensures hs[1..][t] in c1.entries {
              assert hs[1..][t] == hs[t + 1];
            }
          }
        }
        if AllLive(c1, hs[1..]) {
          assert AllLive(c, hs) by {
            forall a, b | 0 <= a < b < |hs| ensures hs[a] != hs[b] {
              if a > 0 {
                assert hs[a] == hs[1..][a - 1] && hs[b] == hs[1..][b - 1];
              } else {
                assert hs[b] == hs[1..][b - 1];
              }
            }
            forall t | 0 < t < |hs| ensures hs[t] != MC.NullHandle && hs[t] in c.entries {
              assert hs[t] == hs[1..][t - 1];
            }
          }
        }
      } else {
        assert !AllLive(c, hs) by {
          assert MC.Get(c, h).Fail?;
        }
      }
    }
  }

  /** Popping `hs` and then `rest` is popping `hs + rest`; a failure in
      `hs` is a failure of the whole. */
  lemma {:induction false} PopAllAppend(c: MC.Cache, hs: seq<MC.Handle>, rest: seq<MC.Handle>)
    ensures PopAll(c, hs + rest) ==
      (if PopAll(c, hs).Ok? then PopAll(PopAll(c, hs).value, rest) else Fail(PopAll(c, hs).error))
    decreases |hs|
  {
    if |hs| == 0 {
      assert hs + rest == rest;
    } else {
      assert (hs + rest)[0] == hs[0] && (hs + rest)[1..] == hs[1..] + rest;
      var p := MC.Pop(c, hs[0]);
      if p.Ok? {
        PopAllAppend(p.value.0, hs[1..], rest);
      }
    }
  }

  /** `PopFour` pops what `PopAll` pops on the same four handles. */
  lemma PopFourIsPopAll(c: MC.Cache, a: MC.Handle, b: MC.Handle, x: MC.Handle, y: MC.Handle)
    ensures PopFour(c, a, b, x, y).Ok? <==> PopAll(c, [a, b, x, y]).Ok?
    ensures PopFour(c, a, b, x, y).Ok? ==> PopFour(c, a, b, x, y).value.0 == PopAll(c, [a, b, x, y]).value
  {
    PopAllCons(c, a, [b, x, y]);
    var p1 := MC.Pop(c, a);
    if p1.Ok? {
      PopAllCons(p1.value.0, b, [x, y]);
      var p2 := MC.Pop(p1.value.0, b);
      if p2.Ok? {
        PopAllCons(p2.value.0, x, [y]);
        var p3 := MC.Pop(p2.value.0, x);
        if p3.Ok? {
          PopAllCons(p3.value.0, y, []);
        }
      }
    }
  }

  /** One step of `PopAll`. */
  lemma PopAllCons(c: MC.Cache, h: MC.Handle, rest: seq<MC.Handle>)
    ensures PopAll(c, [h] + rest) ==
      (if MC.Pop(c, h).Ok? then PopAll(MC.Pop(c, h).value.0, rest) else Fail(MC.Pop(c, h).error))
  {
    assert ([h] + rest)[0] == h && ([h] + rest)[1..] == rest;
  }

  /** The cache effect of the backward recursion is popping `BackOrder`. */
  lemma {:induction false} BackwardPops(env: Env, s: Smoother, next: Record, xs: Matrix, Ps: Matrix)
    ensures Backward(env, s, next, xs, Ps).Ok? <==> PopAll(s.cache, BackOrder(s.steps, next)).Ok?
    ensures Backward(env, s, next, xs, Ps).Ok? ==>
      Backward(env, s, next, xs, Ps).value.cache == PopAll(s.cache, BackOrder(s.steps, next)).value
    decreases |s.steps|
  {
    if |s.steps| > 0 {
      var cur := s.steps[|s.steps| - 1];
      var hs := BackOrder(s.steps, next);
      var four := [next.xf, next.Pf, cur.xa, cur.Pa];
      var rest := BackOrder(s.steps[..|s.steps| - 1], cur);
      assert hs == four + rest;
      PopAllAppend(s.cache, four, rest);
      PopFourIsPopAll(s.cache, next.xf, next.Pf, cur.xa, cur.Pa);
      var B := Backward(env, s, next, xs, Ps);
      var q := PopFour(s.cache, next.xf, next.Pf, cur.xa, cur.Pa);
      if q.Ok? {
        var (c4, xf, Pf, xa, Pa) := q.value;
        var T := env.rts(xa.data, Pa.data, xf.data, Pf.data, xs, Ps, cur.k);
        var s1 := s.(cache := c4, steps := s.steps[..|s.steps| - 1],
                     results := s.results + [(T.0, T.1, cur.k)]);
        assert B == Backward(env, s1, cur, T.0, T.1);
        BackwardPops(env, s1, cur, T.0, T.1);
      } else {
        assert B.Fail?;
      }
    }
  }

  /** Under the guards that let it reach the records, `endSmoother` succeeds
      exactly when popping `PopOrder` does, and leaves the same cache. */
  lemma EndSmootherPops(env: Env, s: Smoother)
    requires !s.active && s.lag != 0 && |s.steps| > 0 && s.hasOnResult
    ensures EndSmoother(env, s).Ok? <==> PopAll(s.cache, PopOrder(s.steps)).Ok?
    ensures EndSmoother(env, s).Ok? ==> EndSmoother(env, s).value.cache == PopAll(s.cache, PopOrder(s.steps)).value
  {
    var E := EndSmoother(env, s);
    assert E == SmoothAll(env, s);
    var last := s.steps[|s.steps| - 1];
    var hs := PopOrder(s.steps);
    var rest := BackOrder(s.steps[..|s.steps| - 1], last);
    assert hs == [last.xa] + ([last.Pa] + rest);
    PopAllCons(s.cache, last.xa, [last.Pa] + rest);
    var p1 := MC.Pop(s.cache, last.xa);
    if p1.Ok? {
      PopAllCons(p1.value.0, last.Pa, rest);
      var p2 := MC.Pop(p1.value.0, last.Pa);
      if p2.Ok? {
        var s1 := s.(cache := p2.value.0, steps := s.steps[..|s.steps| - 1], finished := s.finished + [last.k],
                     results := s.results + [(p1.value.1.data, p2.value.1.data, last.k)]);
        assert E == Backward(env, s1, last, p1.value.1.data, p2.value.1.data);
        BackwardPops(env, s1, last, p1.value.1.data, p2.value.1.data);
      } else {
        assert E.Fail?;
      }
    } else {
      assert E.Fail?;
    }
  }

  /** What the later part of a list holds, the whole list holds. */
  lemma InTail<T>(x: T, a: seq<T>, b: seq<T>)
    requires x in b
    ensures x in a + b
  {
    var i :| 0 <= i < |b| && b[i] == x;
    assert (a + b)[|a| + i] == x;
  }

  /** `BackOrder` lists the prior handles of `next`, the posterior handles
      of every record in `rest` and the prior handles of every record of
      `rest` but the oldest. */
  lemma {:induction false} BackOrderContents(rest: seq<Record>, next: Record)
    ensures |rest| > 0 ==> next.xf in BackOrder(rest, next) && next.Pf in BackOrder(rest, next)
    ensures forall u :: 0 <= u < |rest| ==> rest[u].xa in BackOrder(rest, next) && rest[u].Pa in BackOrder(rest, next)
    ensures forall u :: 1 <= u < |rest| ==> rest[u].xf in BackOrder(rest, next) && rest[u].Pf in BackOrder(rest, next)
    decreases |rest|
  {
    if |rest| > 0 {
      var cur := rest[|rest| - 1];
      var init := rest[..|rest| - 1];
      var hs := BackOrder(rest, next);
      var tail := BackOrder(init, cur);
      BackOrderContents(init, cur);
      var head := [next.xf, next.Pf, cur.xa, cur.Pa];
      assert hs == head + tail;
      forall u | 0 <= u < |rest| ensures rest[u].xa in hs && rest[u].Pa in hs {
        if u < |init| {
          assert rest[u] == init[u];
          InTail(rest[u].xa, head, tail);
          InTail(rest[u].Pa, head, tail);
        } else {
          assert rest[u] == cur && head[2] == cur.xa && head[3] == cur.Pa;
        }
      }
      forall u | 1 <= u < |rest| ensures rest[u].xf in hs && rest[u].Pf in hs {
        if u < |init| {
          assert rest[u] == init[u];
          InTail(rest[u].xf, head, tail);
          InTail(rest[u].Pf, head, tail);
        } else {
          assert rest[u] == cur;
        }
      }
    }
  }

  /** `endSmoother` pops `4 * |steps| - 2` handles: the posterior handles of
      every record and the prior handles of every record except the oldest,
      whose prior handles `beginSmoother` set to null. */
  lemma PopOrderContents(steps: seq<Record>)
    requires |steps| > 0
    ensures |PopOrder(steps)| == 4 * |steps| - 2
    ensures forall u :: 0 <= u < |steps| ==> steps[u].xa in PopOrder(steps) && steps[u].Pa in PopOrder(steps)
    ensures forall u :: 1 <= u < |steps| ==> steps[u].xf in PopOrder(steps) && steps[u].Pf in PopOrder(steps)
  {
    var last := steps[|steps| - 1];
    var init := steps[..|steps| - 1];
    BackOrderContents(init, last);
    var hs := PopOrder(steps);
    forall u | 0 <= u < |steps| ensures steps[u].xa in hs && steps[u].Pa in hs {
      if u < |init| {
        assert steps[u] == init[u];
      }
    }
    forall u | 1 <= u < |steps| ensures steps[u].xf in hs && steps[u].Pf in hs {
      if u < |init| {
        assert steps[u] == init[u];
      }
    }
  }

  /** Pushing a record puts its posterior and then its prior handles in
      front of the pop order. */
  lemma PopOrderPush(steps: seq<Record>, r: Record)
    requires |steps| > 0
    ensures PopOrder(steps + [r]) == [r.xa, r.Pa, r.xf, r.Pf] + PopOrder(steps)
  {
    assert (steps + [r])[..|steps|] == steps;
  }

  // ---------------------------------------------------------------------------
  // The protocol keeps every record's arrays live

  /** The handles the smoother still owns: those `endSmoother` will pop, and
      during an analysis the cached prior. */
  function Owned(s: Smoother): seq<MC.Handle> {
    (if s.active then [s.smXf, s.smPf] else []) + PopOrder(s.steps)
  }

  /** The cache is valid and, with a lag, every owned handle is live and
      owned once. */
  predicate Inv(s: Smoother) {
    MC.Valid(s.cache) && (s.lag != 0 ==> AllLive(s.cache, Owned(s)))
  }

  /** Two puts on a valid cache keep it valid and keep every live handle,
      adding two fresh ones. */
  lemma PutTwo(c: MC.Cache, a: Matrix, b: Matrix, hs: seq<MC.Handle>)
    requires MC.Valid(c) && AllLive(c, hs)
    ensures var c2 := MC.Put(MC.Put(c, a).0, b).0;
      && MC.Valid(c2) && c2.counter == c.counter + 2
      && AllLive(c2, [c.counter, c.counter + 1] + hs)
  {
    var c2 := MC.Put(MC.Put(c, a).0, b).0;
    assert forall t :: 0 <= t < |hs| ==> hs[t] < c.counter;
  }

  lemma NewKeepsInv(lag: int, cache: Option<MC.Cache>)
    requires cache.Some? ==> MC.Valid(cache.value)
    ensures New(lag, cache).Ok? ==> Inv(New(lag, cache).value)
  {
  }

  lemma BeginSmootherKeepsInv(s: Smoother, x0: Matrix, P0: Matrix, k0: int)
    requires Inv(s)
    ensures BeginSmoother(s, x0, P0, k0).Ok? ==> Inv(BeginSmoother(s, x0, P0, k0).value)
  {
    if !s.active && s.lag != 0 {
      PutTwo(s.cache, x0, P0, []);
    }
  }

  lemma BeginAnalysisKeepsInv(s: Smoother, x: Matrix, P: Matrix, k: int)
    requires Inv(s)
    ensures BeginAnalysis(s, x, P, k).Ok? ==> Inv(BeginAnalysis(s, x, P, k).value)
  {
    if !s.active {
      if s.lag != 0 {
        assert Owned(s) == PopOrder(s.steps);
        PutTwo(s.cache, x, P, PopOrder(s.steps));
      } else {
        PutTwo(s.cache, x, P, []);
      }
    }
  }

  lemma ForecastAssimilateKeepInv(env: Env, s: Smoother, x: Matrix, P: Matrix, Q: Matrix, k: int, dt: real, z: seq<real>, H: Matrix, R: Matrix)
    requires Inv(s)
    ensures Forecast(env, s, x, P, Q, k, dt).Ok? ==> Inv(Forecast(env, s, x, P, Q, k, dt).value.0)
    ensures Assimilate(env, s, z, H, R).Ok? ==> Inv(Assimilate(env, s, z, H, R).value)
  {
  }

  lemma EndAnalysisKeepsInv(s: Smoother)
    requires Inv(s)
    ensures EndAnalysis(s).Ok? ==> Inv(EndAnalysis(s).value)
  {
    if s.active && s.lag != 0 {
      var r := Record(s.upK, s.smXf, s.smPf, s.cache.counter, s.cache.counter + 1);
      PutTwo(s.cache, s.upX, s.upP, Owned(s));
      var c2 := EndAnalysis(s).value.cache;
      assert AllLive(c2, [r.xa, r.Pa] + Owned(s));
      if |s.steps| > 0 {
        PopOrderPush(s.steps, r);
        assert [r.xa, r.Pa] + Owned(s) == [r.xa, r.Pa, r.xf, r.Pf] + PopOrder(s.steps);
      } else {
        assert PopOrder(s.steps + [r]) == [r.xa, r.Pa];
        PrefixLive(c2, [r.xa, r.Pa], Owned(s));
      }
    }
  }

  lemma PrefixLive(c: MC.Cache, a: seq<MC.Handle>, b: seq<MC.Handle>)
    requires AllLive(c, a + b)
    ensures AllLive(c, a)
  {
    forall p, q | 0 <= p < q < |a| ensures a[p] != a[q] {
      assert a[p] == (a + b)[p] && a[q] == (a + b)[q];
    }
    forall t | 0 <= t < |a| ensures a[t] != MC.NullHandle && a[t] in c.entries {
      assert a[t] == (a + b)[t];
    }
  }

  /** Whatever sequence of protocol calls led to `s`, a lagged smoother
      outside an analysis with a callback finishes: `endSmoother` succeeds,
      hands out one result per record newest first, and releases exactly
      the handles it owns. */
  lemma EndSmootherReleases(env: Env, s: Smoother)
    requires Inv(s) && !s.active && s.lag != 0 && |s.steps| > 0 && s.hasOnResult
    ensures EndSmoother(env, s).Ok?
    ensures var c := EndSmoother(env, s).value.cache;
      forall h :: h in c.entries <==> h in s.cache.entries && h !in PopOrder(s.steps)
  {
    assert Owned(s) == PopOrder(s.steps);
    EndSmootherPops(env, s);
    PopAllSpec(s.cache, PopOrder(s.steps));
  }

  /** Without a lag, the prior arrays `beginAnalysis` caches are never
      released: after a full analysis they are still live. */
  lemma FilterModeKeepsPriors(s: Smoother, x: Matrix, P: Matrix, k: int)
    requires MC.Valid(s.cache) && s.lag == 0 && !s.active
    ensures var a := BeginAnalysis(s, x, P, k).value;
      var e := EndAnalysis(a).value;
      && a.smXf in e.cache.entries && a.smPf in e.cache.entries
      && |e.cache.entries| == |s.cache.entries| + 2
  {
    var a := BeginAnalysis(s, x, P, k).value;
    var c1 := MC.Put(s.cache, x).0;
    assert c1.entries == s.cache.entries[s.cache.counter := MC.NewEntry(x)];
    assert s.cache.counter !in s.cache.entries;
    assert c1.counter !in c1.entries;
  }

  /** With strictly increasing step indices, `endSmoother` reports them in
      strictly decreasing order. */
  lemma EndSmootherNewestFirst(env: Env, s: Smoother)
    requires s.lag != 0 && |s.steps| > 0 && EndSmoother(env, s).Ok?
    requires forall a, b :: 0 <= a < b < |s.steps| ==> s.steps[a].k < s.steps[b].k
    ensures var ks := ResultKs(EndSmoother(env, s).value.results[|s.results|..]);
      |ks| == |s.steps| && forall a, b :: 0 <= a < b < |ks| ==> ks[a] > ks[b]
  {
    var r := EndSmoother(env, s).value;
    assert HandsOut(s, r, s.steps);
  }
}

=== FILE: linalg.dfy ===
/** Matrix construction helpers of src/Core/LinAlg.cpp. */
module LinAlg {
  import opened Wrappers
  import opened Matrices

  /** `values.size() >= rows*cols`: the `int` product is converted to the
      unsigned 64-bit `size_t`, so a negative product becomes a huge bound. */
  function SizeT(x: int): int {
    if x >= 0 then x else x + 0x1_0000_0000_0000_0000
  }

  /** `A` is `rows x cols` and entry `(i, j)` is `values[i * cols + j]`. */
  predicate RowMajor(A: Matrix, rows: nat, cols: nat, values: seq<real>) {
    && IsMatrix(A, rows, cols)
    && forall i, j :: 0 <= i < rows && 0 <= j < cols ==> i * cols + j < |values| && A[i][j] == values[i * cols + j]
  }

  /** The nested fill loop of `makeMatrix`: each row takes the next `cols`
      values. */
  function Fill(rows: nat, cols: nat, values: seq<real>): (A: Matrix)
    requires rows * cols <= |values|
    ensures IsMatrix(A, rows, cols)
    decreases rows
  {
    if rows == 0 then []
    else
      assert (rows - 1) * cols + cols == rows * cols;
      [values[..cols]] + Fill(rows - 1, cols, values[cols..])
  }

  lemma MulSucc(a: nat, c: nat)
    ensures (a + 1) * c == a * c + c
  {
  }

  /** Row `i` of the fill is the `i`-th block of `cols` values. */
  lemma {:induction false} FillRow(rows: nat, cols: nat, values: seq<real>, i: nat)
    requires rows * cols <= |values| && i < rows
    ensures i * cols + cols <= |values|
    ensures Fill(rows, cols, values)[i] == values[i * cols .. i * cols + cols]
    decreases i
  {
    MulSucc(rows - 1, cols);
    if i > 0 {
      var rest := values[cols..];
      FillRow(rows - 1, cols, rest, i - 1);
      MulSucc(i - 1, cols);
      var p := (i - 1) * cols;
      assert i * cols == p + cols;
      assert Fill(rows, cols, values)[i] == Fill(rows - 1, cols, rest)[i - 1];
      assert rest[p .. p + cols] == values[p + cols .. p + cols + cols];
    }
  }

  lemma {:induction false} FillRowMajor(rows: nat, cols: nat, values: seq<real>)
    requires rows * cols <= |values|
    ensures RowMajor(Fill(rows, cols, values), rows, cols, values)
  {
    var A := Fill(rows, cols, values);
    assert IsMatrix(A, rows, cols);
    forall i, j | 0 <= i < rows && 0 <= j < cols
      ensures i * cols + j < |values| && A[i][j] == values[i * cols + j]
    {
      FillAt(rows, cols, values, i, j);
    }
    assert RowMajor(A, rows, cols, values);
  }

  /** Entry `(i, j)` of the fill is value `i * cols + j`. */
  lemma FillAt(rows: nat, cols: nat, values: seq<real>, i: nat, j: nat)
    requires rows * cols <= |values| && i < rows && j < cols
    ensures i * cols + j < |values| && Fill(rows, cols, values)[i][j] == values[i * cols + j]
  {
    FillRow(rows, cols, values, i);
    var base := i * cols;
    assert Fill(rows, cols, values)[i] == values[base .. base + cols];
  }

  /** `makeMatrix(rows, cols, values)`: asserts there are enough values, then
      fills the matrix row by row; surplus values are ignored. A negative
      dimension fails Eigen's own dimension check, an `eigen_assert` that a
      build with `NDEBUG` compiles out, so there the outcome is undefined. */
  function MakeMatrix(rows: int, cols: int, values: seq<real>): (r: Result<Matrix>)
    ensures r.Ok? <==> |values| >= SizeT(rows * cols) && rows >= 0 && cols >= 0
    ensures r.Ok? ==> IsMatrix(r.value, rows, cols)
  {
    if |values| < SizeT(rows * cols) then Fail(AssertionError("values.size() >= rows*cols")) else
    :- Check(rows >= 0 && cols >= 0, "rows >= 0 && cols >= 0");
    Ok(Fill(rows, cols, values))
  }

  /** The entries of `A` in row-major order. */
  function Flatten(A: Matrix): (v: seq<real>)
    decreases |A|
  {
    if |A| == 0 then [] else A[0] + Flatten(A[1..])
  }

  lemma {:induction false} FlattenLength(A: Matrix, rows: nat, cols: nat)
    requires IsMatrix(A, rows, cols)
    ensures |Flatten(A)| == rows * cols
    decreases rows
  {
    if rows > 0 {
      FlattenLength(A[1..], rows - 1, cols);
      assert (rows - 1) * cols + cols == rows * cols;
    }
  }

  /** Filling from a matrix's row-major entries rebuilds the matrix. */
  lemma {:induction false} FillOfFlatten(A: Matrix, rows: nat, cols: nat)
    requires IsMatrix(A, rows, cols)
    ensures |Flatten(A)| == rows * cols
    ensures Fill(rows, cols, Flatten(A)) == A
    decreases rows
  {
    FlattenLength(A, rows, cols);
    if rows > 0 {
      FillOfFlatten(A[1..], rows - 1, cols);
      assert Flatten(A)[..cols] == A[0];
      assert Flatten(A)[cols..] == Flatten(A[1..]);
    }
  }

  /** Flattening a fill gives back the values it consumed. */
  lemma {:induction false} FlattenOfFill(rows: nat, cols: nat, values: seq<real>)
    requires rows * cols <= |values|
    ensures Flatten(Fill(rows, cols, values)) == values[..rows * cols]
    decreases rows
  {
    if rows > 0 {
      assert (rows - 1) * cols + cols == rows * cols;
      FlattenOfFill(rows - 1, cols, values[cols..]);
      assert values[..cols] + values[cols..][..(rows - 1) * cols] == values[..rows * cols];
    }
  }

  /** `makeMatrix` fills row-major: entry `(i, j)` is `values[i * cols + j]`. */
  lemma MakeMatrixRowMajor(rows: int, cols: int, values: seq<real>)
    requires MakeMatrix(rows, cols, values).Ok?
    ensures RowMajor(MakeMatrix(rows, cols, values).value, rows, cols, values)
  {
    FillRowMajor(rows, cols, values);
  }

  /** `makeMatrix` reads back a matrix from its row-major entries. */
  lemma MakeMatrixOfFlatten(A: Matrix, rows: nat, cols: nat)
    requires IsMatrix(A, rows, cols)
    ensures MakeMatrix(rows, cols, Flatten(A)) == Ok(A)
  {
    FillOfFlatten(A, rows, cols);
  }

  /** And the entries of a successful `makeMatrix` are the leading
      `rows * cols` values, in order; surplus values are dropped. */
  lemma FlattenOfMakeMatrix(rows: nat, cols: nat, values: seq<real>)
    requires |values| >= rows * cols
    ensures MakeMatrix(rows, cols, values).Ok?
    ensures Flatten(MakeMatrix(rows, cols, values).value) == values[..rows * cols]
  {
    FlattenOfFill(rows, cols, values);
  }
}

=== FILE: lru_array_cache.dfy ===
/** The two-tier Python cache (`LRUArrayCache` in python/endas/arraycache.py).

    Items live in memory, ordered from least to most recently used, until their
    total size would exceed the capacity; then the least recently used ones are
    "retired" to storage. A retired item stays retired after it is reloaded, so
    later evictions of it write nothing. The storage files are modelled as a map
    from a unique id to the saved array; `uuid4()` becomes a counter `nextUid`.
 */
module LruArrayCache {
  import opened Wrappers
  import opened Matrices

  /** What `put` receives: `itemsize` accepts only numpy arrays. */
  datatype Item = NdArray(values: Matrix, nbytes: nat) | OtherObject

  datatype Stored = Stored(data: Matrix, size: nat)
  datatype RetiredRec = RetiredRec(uid: nat, size: nat)

  function StoredSize(s: Stored): nat { s.size }
  function RetiredSize(r: RetiredRec): nat { r.size }

  datatype Lru = Lru(
    memKeys: seq<int>,              // the OrderedDict's key order, least recent first
    memItems: map<int, Stored>,
    retKeys: seq<int>,              // keys of `_retireditems`
    retItems: map<int, RetiredRec>,
    keycounter: int,
    memorySize: int,                // `_memorySizeMB`
    retiredSize: int,               // `_retiredSizeMB`
    capacity: int,                  // `_capacityMB`
    storage: map<nat, Matrix>,      // saved files by uid
    nextUid: nat)

  // ---------------------------------------------------------------------------
  // Sequences of keys

  predicate Distinct(s: seq<int>) {
    forall i, j :: 0 <= i < j < |s| ==> s[i] != s[j]
  }

  /** `s` without the key `k`, order kept. */
  function Without(s: seq<int>, k: int): (r: seq<int>)
    ensures forall x :: x in r <==> x in s && x != k
    ensures Distinct(s) ==> Distinct(r)
    ensures |r| <= |s|
  {
    if |s| == 0 then []
    else if s[0] == k then Without(s[1..], k)
    else
      var rest := Without(s[1..], k);
      assert forall x :: x in [s[0]] + rest <==> x == s[0] || x in rest;
      assert Distinct(s) ==> Distinct(s[1..]) && s[0] !in s[1..];
      [s[0]] + rest
  }

  /** Total of `size` over the keys of `keys` that `m` holds. */
  function Sum<V>(keys: seq<int>, m: map<int, V>, size: V -> nat): int
    decreases |keys|
  {
    if |keys| == 0 then 0
    else (if keys[0] in m then size(m[keys[0]]) else 0) + Sum(keys[1..], m, size)
  }

  lemma {:induction false} SumAppend<V>(keys: seq<int>, k: int, m: map<int, V>, size: V -> nat)
    ensures Sum(keys + [k], m, size) == Sum(keys, m, size) + (if k in m then size(m[k]) else 0)
    decreases |keys|
  {
    if |keys| > 0 {
      assert (keys + [k])[1..] == keys[1..] + [k];
      SumAppend(keys[1..], k, m, size);
    }
  }

  lemma {:induction false} SumWithout<V>(keys: seq<int>, k: int, m: map<int, V>, size: V -> nat)
    requires Distinct(keys)
    ensures Sum(Without(keys, k), m, size) == Sum(keys, m, size) - (if k in keys && k in m then size(m[k]) else 0)
    decreases |keys|
  {
    if |keys| > 0 {
      SumWithout(keys[1..], k, m, size);
      if keys[0] == k {
        assert k !in keys[1..];
        assert Without(keys[1..], k) == keys[1..] by {
          WithoutAbsent(keys[1..], k);
        }
      } else {
        assert ([keys[0]] + Without(keys[1..], k))[1..] == Without(keys[1..], k);
      }
    }
  }

  lemma {:induction false} WithoutAbsent(s: seq<int>, k: int)
    requires k !in s
    ensures Without(s, k) == s
    decreases |s|
  {
    if |s| > 0 {
      WithoutAbsent(s[1..], k);
      assert [s[0]] + s[1..] == s;
    }
  }

  /** The total only depends on the entries for the listed keys. */
  lemma {:induction false} SumFrame<V>(keys: seq<int>, m: map<int, V>, m': map<int, V>, size: V -> nat)
    requires forall x :: x in keys ==> (x in m <==> x in m') && (x in m ==> size(m[x]) == size(m'[x]))
    ensures Sum(keys, m, size) == Sum(keys, m', size)
    decreases |keys|
  {
    if |keys| > 0 {
      var x := keys[0];
      assert x in keys;
      assert (x in m <==> x in m') && (x in m ==> size(m[x]) == size(m'[x]));
      assert forall y :: y in keys[1..] ==> y in keys;
      SumFrame(keys[1..], m, m', size);
    }
  }

  // ---------------------------------------------------------------------------
  // Invariant

  /** The memory tier: distinct keys in LRU order, one item per key, and
      `_memorySizeMB` equal to the total size of the items. */
  ghost predicate MemInv(keys: seq<int>, items: map<int, Stored>, total: int) {
    && Distinct(keys)
    && (forall k :: k in items <==> k in keys)
    && total == Sum(keys, items, StoredSize)
  }

  /** The retired tier: one record per key, `_retiredSizeMB` equal to the total
      size of the records, and every record owning its own saved file. */
  ghost predicate RetInv(keys: seq<int>, items: map<int, RetiredRec>, total: int, storage: map<nat, Matrix>, nextUid: nat) {
    && Distinct(keys)
    && (forall k :: k in items <==> k in keys)
    && total == Sum(keys, items, RetiredSize)
    && (forall k :: k in items ==> items[k].uid in storage)
    && (forall u :: u in storage ==> u < nextUid)
    && (forall k1, k2 :: k1 in items && k2 in items && k1 != k2 ==> items[k1].uid != items[k2].uid)
  }

  /** Keys come from the counter, and an item in both tiers has the same data
      and size in both. */
  ghost predicate Cross(c: Lru) {
    && c.keycounter >= 0
    && (forall k :: k in c.memItems ==> 1 <= k <= c.keycounter)
    && (forall k :: k in c.retItems ==> 1 <= k <= c.keycounter)
    && (forall k :: k in c.memItems && k in c.retItems ==>
          c.retItems[k].uid in c.storage &&
          c.memItems[k] == Stored(c.storage[c.retItems[k].uid], c.retItems[k].size))
  }

  /** What every method of the class preserves. */
  ghost predicate Inv(c: Lru) {
    && MemInv(c.memKeys, c.memItems, c.memorySize)
    && RetInv(c.retKeys, c.retItems, c.retiredSize, c.storage, c.nextUid)
    && Cross(c)
  }

  lemma MemPopFront(keys: seq<int>, items: map<int, Stored>, total: int)
    requires MemInv(keys, items, total) && |keys| > 0
    ensures keys[0] in items
    ensures MemInv(keys[1..], items - {keys[0]}, total - items[keys[0]].size)
  {
    var k := keys[0];
    assert k in keys;
    assert k !in keys[1..];
    SumFrame(keys[1..], items, items - {k}, StoredSize);
    forall x
      ensures x in items - {k} <==> x in keys[1..]
    {
      if x in keys[1..] {
        assert x in keys;
      }
      if x in keys && x != k {
        var i :| 0 <= i < |keys| && keys[i] == x;
        assert keys[1..][i - 1] == x;
      }
    }
  }

  lemma MemAppend(keys: seq<int>, items: map<int, Stored>, total: int, k: int, s: Stored)
    requires MemInv(keys, items, total) && k !in items
    ensures MemInv(keys + [k], items[k := s], total + s.size)
  {
    SumFrame(keys, items, items[k := s], StoredSize);
    SumAppend(keys, k, items[k := s], StoredSize);
    assert forall x :: x in keys + [k] <==> x in keys || x == k;
  }

  lemma MemRemove(keys: seq<int>, items: map<int, Stored>, total: int, k: int)
    requires MemInv(keys, items, total) && k in items
    ensures MemInv(Without(keys, k), items - {k}, total - items[k].size)
  {
    SumWithout(keys, k, items, StoredSize);
    SumFrame(Without(keys, k), items, items - {k}, StoredSize);
  }

  lemma MemTouch(keys: seq<int>, items: map<int, Stored>, total: int, k: int)
    requires MemInv(keys, items, total) && k in items
    ensures MemInv(Without(keys, k) + [k], items, total)
  {
    SumWithout(keys, k, items, StoredSize);
    SumAppend(Without(keys, k), k, items, StoredSize);
    assert forall x :: x in Without(keys, k) + [k] <==> x in keys;
  }

  lemma RetAdd(keys: seq<int>, items: map<int, RetiredRec>, total: int, storage: map<nat, Matrix>, nextUid: nat,
               k: int, data: Matrix, size: nat)
    requires RetInv(keys, items, total, storage, nextUid) && k !in items
    ensures RetInv(keys + [k], items[k := RetiredRec(nextUid, size)], total + size, storage[nextUid := data], nextUid + 1)
  {
    var items' := items[k := RetiredRec(nextUid, size)];
    SumFrame(keys, items, items', RetiredSize);
    SumAppend(keys, k, items', RetiredSize);
    assert forall x :: x in keys + [k] <==> x in keys || x == k;
  }

  lemma RetRemove(keys: seq<int>, items: map<int, RetiredRec>, total: int, storage: map<nat, Matrix>, nextUid: nat, k: int)
    requires RetInv(keys, items, total, storage, nextUid) && k in items
    ensures RetInv(Without(keys, k), items - {k}, total - items[k].size, storage - {items[k].uid}, nextUid)
  {
    SumWithout(keys, k, items, RetiredSize);
    SumFrame(Without(keys, k), items, items - {k}, RetiredSize);
  }

  // ---------------------------------------------------------------------------
  // Abstraction

  /** The array a handle stands for, wherever it currently lives. */
  function Lookup(c: Lru, h: int): Option<Matrix> {
    if h in c.memItems then Some(c.memItems[h].data)
    else if h in c.retItems && c.retItems[h].uid in c.storage then Some(c.storage[c.retItems[h].uid])
    else None
  }

  /** `LRUArrayCache(maxsizeMB)`: both tiers empty. */
  function New(capacity: int): (c: Lru)
    ensures Inv(c) && forall h :: Lookup(c, h) == None
  {
    Lru([], map[], [], map[], 0, 0, 0, capacity, map[], 0)
  }

  /** `itemsize`: whole megabytes (floor division twice by 1024), numpy arrays only. */
  function ItemSize(x: Item): (r: Result<nat>)
    ensures r.Ok? <==> x.NdArray?
    ensures r.Fail? ==> r.error == TypeError
  {
    if x.NdArray? then Ok(x.nbytes / 1024 / 1024) else Fail(TypeError)
  }

  /** The size is the byte count rounded down to whole megabytes. */
  lemma ItemSizeBounds(x: Item)
    requires x.NdArray?
    ensures ItemSize(x).value * 1048576 <= x.nbytes < (ItemSize(x).value + 1) * 1048576
  {
    var q := x.nbytes / 1024;
    var m := q / 1024;
    assert q * 1024 <= x.nbytes < (q + 1) * 1024;
    assert m * 1024 <= q < (m + 1) * 1024;
    assert m * 1048576 == (m * 1024) * 1024;
    assert (m + 1) * 1048576 == ((m + 1) * 1024) * 1024;
  }

  // ---------------------------------------------------------------------------
  // Eviction

  /** One iteration of the `_reservespace` loop: the least recently used item
      leaves memory and is retired unless a retired record exists already. */
  function EvictOne(c: Lru): (d: Lru)
    requires Inv(c) && |c.memKeys| > 0
    ensures d.memKeys == c.memKeys[1..]
    ensures d.keycounter == c.keycounter && d.capacity == c.capacity
    ensures c.memKeys[0] !in d.memItems
    ensures c.memKeys[0] in d.retItems
  {
    var k := c.memKeys[0];
    assert k in c.memKeys;
    var it := c.memItems[k];
    var c1 := c.(memKeys := c.memKeys[1..], memItems := c.memItems - {k}, memorySize := c.memorySize - it.size);
    if k in c.retItems then c1
    else
      c1.(retKeys := c.retKeys + [k], retItems := c.retItems[k := RetiredRec(c.nextUid, it.size)],
          retiredSize := c.retiredSize + it.size, storage := c.storage[c.nextUid := it.data], nextUid := c.nextUid + 1)
  }

  lemma EvictOneInv(c: Lru)
    requires Inv(c) && |c.memKeys| > 0
    ensures Inv(EvictOne(c))
  {
    var k := c.memKeys[0];
    MemPopFront(c.memKeys, c.memItems, c.memorySize);
    if k !in c.retItems {
      RetAdd(c.retKeys, c.retItems, c.retiredSize, c.storage, c.nextUid, k, c.memItems[k].data, c.memItems[k].size);
    }
  }

  /** Eviction moves data between tiers without changing what any handle reads. */
  lemma EvictOneFrame(c: Lru, h: int)
    requires Inv(c) && |c.memKeys| > 0
    ensures Lookup(EvictOne(c), h) == Lookup(c, h)
    ensures h in c.retItems ==> h in EvictOne(c).retItems && EvictOne(c).retItems[h] == c.retItems[h]
    ensures h in c.retItems ==> c.retItems[h].uid in EvictOne(c).storage && EvictOne(c).storage[c.retItems[h].uid] == c.storage[c.retItems[h].uid]
    ensures h !in c.memItems ==> h !in EvictOne(c).memItems
  {
    assert c.memKeys[0] in c.memKeys;
  }

  /** `_reservespace(need)`: evicts from the least recently used end while the
      memory total plus `need` exceeds the capacity and memory is non-empty. */
  function ReserveSpace(c: Lru, need: int): (d: Lru)
    requires Inv(c)
    ensures d.memorySize + need <= d.capacity || |d.memKeys| == 0
    ensures |d.memKeys| <= |c.memKeys| && d.memKeys == c.memKeys[|c.memKeys| - |d.memKeys|..]
    ensures d.keycounter == c.keycounter && d.capacity == c.capacity
    decreases |c.memKeys|
  {
    if c.memorySize + need > c.capacity && |c.memKeys| > 0 then
      EvictOneInv(c);
      var e := EvictOne(c);
      var d := ReserveSpace(e, need);
      TailSuffix(c.memKeys, |d.memKeys|);
      d
    else c
  }

  /** A suffix of the tail of `a` is a suffix of `a`. */
  lemma TailSuffix(a: seq<int>, n: nat)
    requires n < |a|
    ensures a[1..][|a| - 1 - n..] == a[|a| - n..]
  {
  }

  /** `_reservespace` keeps the invariant. */
  lemma {:induction false} ReserveSpaceInv(c: Lru, need: int)
    requires Inv(c)
    ensures Inv(ReserveSpace(c, need))
    decreases |c.memKeys|
  {
    if c.memorySize + need > c.capacity && |c.memKeys| > 0 {
      EvictOneInv(c);
      ReserveSpaceInv(EvictOne(c), need);
    }
  }

  /** `_reservespace` changes what no handle reads and keeps every retired
      record together with its stored array. */
  lemma {:induction false} ReserveSpaceFrame(c: Lru, need: int, h: int)
    requires Inv(c)
    ensures Lookup(ReserveSpace(c, need), h) == Lookup(c, h)
    ensures h in c.retItems ==> h in ReserveSpace(c, need).retItems && ReserveSpace(c, need).retItems[h] == c.retItems[h]
    ensures h in c.retItems ==>
      c.retItems[h].uid in ReserveSpace(c, need).storage &&
      ReserveSpace(c, need).storage[c.retItems[h].uid] == c.storage[c.retItems[h].uid]
    ensures h !in c.memItems ==> h !in ReserveSpace(c, need).memItems
    decreases |c.memKeys|
  {
    if c.memorySize + need > c.capacity && |c.memKeys| > 0 {
      EvictOneInv(c);
      EvictOneFrame(c, h);
      ReserveSpaceFrame(EvictOne(c), need, h);
    }
  }

  /** The item enters memory as the most recently used one. */
  function Admit(c: Lru, key: int, data: Matrix, size: nat): (d: Lru)
    ensures d.memKeys == c.memKeys + [key]
    ensures d.keycounter == c.keycounter && d.retItems == c.retItems
  {
    c.(memKeys := c.memKeys + [key], memItems := c.memItems[key := Stored(data, size)],
       memorySize := c.memorySize + size)
  }

  /** Admitting a fresh counter key, or a retired key with its saved array,
      keeps the invariant. */
  lemma AdmitInv(c: Lru, key: int, data: Matrix, size: nat)
    requires Inv(c) && key !in c.memItems && 1 <= key <= c.keycounter
    requires key in c.retItems ==> c.storage[c.retItems[key].uid] == data && c.retItems[key].size == size
    ensures Inv(Admit(c, key, data, size))
  {
    MemAppend(c.memKeys, c.memItems, c.memorySize, key, Stored(data, size));
  }

  /** Admitting `key` makes it read `data`; other handles read as before. */
  lemma AdmitLookup(c: Lru, key: int, data: Matrix, size: nat, h: int)
    ensures Lookup(Admit(c, key, data, size), key) == Some(data)
    ensures h != key ==> Lookup(Admit(c, key, data, size), h) == Lookup(c, h)
  {
  }

  // ---------------------------------------------------------------------------
  // Public operations

  /** `put`: the counter is incremented first (also when `itemsize` raises),
      space is reserved, and the item becomes the most recently used. */
  function Put(c: Lru, x: Item): (r: (Lru, Result<int>))
    requires Inv(c)
    ensures r.0.keycounter == c.keycounter + 1
    ensures r.1.Ok? <==> x.NdArray?
    ensures r.1.Fail? ==> r.1.error == TypeError
    ensures r.1.Ok? ==> r.1.value == c.keycounter + 1 && |r.0.memKeys| > 0 && r.0.memKeys[|r.0.memKeys| - 1] == r.1.value
  {
    var key := c.keycounter + 1;
    var c0 := c.(keycounter := key);
    match ItemSize(x)
    case Fail(e) => (c0, Fail(e))
    case Ok(size) => (Admit(ReserveSpace(c0, size), key, x.values, size), Ok(key))
  }

  /** Advancing the key counter keeps the invariant and every handle's data. */
  lemma BumpInv(c: Lru)
    requires Inv(c)
    ensures Inv(c.(keycounter := c.keycounter + 1))
    ensures forall h :: Lookup(c.(keycounter := c.keycounter + 1), h) == Lookup(c, h)
    ensures Lookup(c, c.keycounter + 1) == None
  {
  }

  /** Reserving room for a key that is in neither tier and then admitting it
      keeps the invariant. */
  lemma ReserveAdmitInv(c: Lru, key: int, data: Matrix, size: nat)
    requires Inv(c) && Lookup(c, key) == None && 1 <= key <= c.keycounter
    ensures Inv(Admit(ReserveSpace(c, size), key, data, size))
  {
    ReserveSpaceInv(c, size);
    ReserveSpaceFrame(c, size, key);
    var c1 := ReserveSpace(c, size);
    assert Lookup(c1, key) == None;
    AdmitInv(c1, key, data, size);
  }

  /** `put` keeps the invariant. */
  lemma PutInv(c: Lru, x: Item)
    requires Inv(c)
    ensures Inv(Put(c, x).0)
  {
    var key := c.keycounter + 1;
    var c0 := c.(keycounter := key);
    BumpInv(c);
    if x.NdArray? {
      var size := ItemSize(x).value;
      ReserveAdmitInv(c0, key, x.values, size);
      assert Put(c, x).0 == Admit(ReserveSpace(c0, size), key, x.values, size);
    } else {
      assert Put(c, x).0 == c0;
    }
  }

  /** After `put` the new handle reads the stored array and every other handle
      reads as before. */
  lemma PutLookup(c: Lru, x: Item, h: int)
    requires Inv(c)
    ensures Put(c, x).1.Ok? ==> Lookup(Put(c, x).0, Put(c, x).1.value) == Some(x.values)
    ensures h != c.keycounter + 1 ==> Lookup(Put(c, x).0, h) == Lookup(c, h)
  {
    var key := c.keycounter + 1;
    var c0 := c.(keycounter := key);
    BumpInv(c);
    if x.NdArray? {
      var size := ItemSize(x).value;
      ReserveSpaceFrame(c0, size, h);
      AdmitLookup(ReserveSpace(c0, size), key, x.values, size, h);
      assert Put(c, x) == (Admit(ReserveSpace(c0, size), key, x.values, size), Ok(key));
    } else {
      assert Put(c, x).0 == c0;
    }
  }

  /** `get`: a memory hit becomes the most recently used; a retired hit is read
      back into memory (after reserving space) and stays retired; anything else
      raises KeyError and changes nothing. */
  function Get(c: Lru, h: int): (r: (Lru, Result<Matrix>))
    requires Inv(c)
    ensures r.1.Ok? <==> h in c.memItems || h in c.retItems
    ensures r.1.Fail? ==> r.1.error == KeyError && r.0 == c
    ensures r.1.Ok? ==> |r.0.memKeys| > 0 && r.0.memKeys[|r.0.memKeys| - 1] == h
  {
    if h in c.memItems then
      (c.(memKeys := Without(c.memKeys, h) + [h]), Ok(c.memItems[h].data))
    else if h in c.retItems then
      var rec := c.retItems[h];
      ReserveSpaceFrame(c, rec.size, h);
      var c1 := ReserveSpace(c, rec.size);
      var data := c1.storage[rec.uid];
      (Admit(c1, h, data, rec.size), Ok(data))
    else (c, Fail(KeyError))
  }

  /** `get` keeps the invariant. */
  lemma GetInv(c: Lru, h: int)
    requires Inv(c)
    ensures Inv(Get(c, h).0)
  {
    if h in c.memItems {
      MemTouch(c.memKeys, c.memItems, c.memorySize, h);
    } else if h in c.retItems {
      var rec := c.retItems[h];
      ReserveSpaceInv(c, rec.size);
      ReserveSpaceFrame(c, rec.size, h);
      var c1 := ReserveSpace(c, rec.size);
      assert h !in c1.memItems by {
        assert Lookup(c1, h) == Lookup(c, h);
      }
      AdmitInv(c1, h, c1.storage[rec.uid], rec.size);
    }
  }

  /** `get` succeeds exactly on live handles, returns the handle's data, keeps a
      reloaded item's retired record, and changes what no handle reads. */
  lemma GetLookup(c: Lru, h: int, g: int)
    requires Inv(c)
    ensures Get(c, h).1.Ok? <==> Lookup(c, h).Some?
    ensures Get(c, h).1.Ok? ==> Get(c, h).1.value == Lookup(c, h).value
    ensures h in c.retItems ==> h in Get(c, h).0.retItems && Get(c, h).0.retItems[h] == c.retItems[h]
    ensures Lookup(Get(c, h).0, g) == Lookup(c, g)
  {
    if h !in c.memItems && h in c.retItems {
      var rec := c.retItems[h];
      ReserveSpaceFrame(c, rec.size, h);
      ReserveSpaceFrame(c, rec.size, g);
      var c1 := ReserveSpace(c, rec.size);
      AdmitLookup(c1, h, c1.storage[rec.uid], rec.size, g);
    }
  }

  /** `remove`: drops the key from both tiers, adjusting both totals; an
      unknown key is ignored. */
  function Remove(c: Lru, h: int): (d: Lru)
    requires Inv(c)
    ensures Inv(d)
    ensures Lookup(d, h) == None
    ensures forall g :: g != h ==> Lookup(d, g) == Lookup(c, g)
    ensures d.keycounter == c.keycounter
    ensures Lookup(c, h) == None ==> d == c
  {
    var c1 := if h in c.memItems then
      MemRemove(c.memKeys, c.memItems, c.memorySize, h);
      c.(memKeys := Without(c.memKeys, h), memItems := c.memItems - {h},
         memorySize := c.memorySize - c.memItems[h].size)
    else c;
    if h in c.retItems then
      var rec := c.retItems[h];
      RetRemove(c.retKeys, c.retItems, c.retiredSize, c.storage, c.nextUid, h);
      c1.(retKeys := Without(c.retKeys, h), retItems := c.retItems - {h},
          retiredSize := c.retiredSize - rec.size, storage := c.storage - {rec.uid})
    else c1
  }

  /** `clear`: both tiers and totals go to zero; the key counter is kept, so
      handles are not reused. */
  function Clear(c: Lru): (d: Lru)
    requires Inv(c)
    ensures Inv(d)
    ensures forall h :: Lookup(d, h) == None
    ensures d.keycounter == c.keycounter && d.memorySize == 0 && d.retiredSize == 0
  {
    var uids := set k | k in c.retItems :: c.retItems[k].uid;
    c.(memKeys := [], memItems := map[], retKeys := [], retItems := map[],
       memorySize := 0, retiredSize := 0, storage := c.storage - uids)
  }
}

=== FILE: matrices.dfy ===
/** Dense real matrices as sequences of rows.

    Eigen's `Matrix`, `Array` and `Array2d` become `Matrix` (a sequence of rows) and
    `Vector`; floating point is replaced by exact reals. The products are total
    (they never fail on mismatched sizes); the lemmas state the dimensions under
    which they agree with ordinary linear algebra. The row selections
    (`SelectRows`, `DistributeRows`) give the evident meaning of the helpers of the
    same name that the library calls; their definitions are not part of this model.
 */
module Matrices {

  type Vector = seq<real>
  type Matrix = seq<Vector>

  /** Number of columns, read from the first row (0 for a matrix without rows). */
  function Cols(A: Matrix): nat {
    if |A| == 0 then 0 else |A[0]|
  }

  predicate IsMatrix(A: Matrix, rows: nat, cols: nat) {
    |A| == rows && forall i :: 0 <= i < |A| ==> |A[i]| == cols
  }

  function Zeros(rows: nat, cols: nat): (Z: Matrix)
    ensures IsMatrix(Z, rows, cols)
    ensures forall i, j :: 0 <= i < rows && 0 <= j < cols ==> Z[i][j] == 0.0
  {
    seq(rows, i => seq(cols, j => 0.0))
  }

  function Identity(n: nat): (I: Matrix)
    ensures IsMatrix(I, n, n)
    ensures forall i, j :: 0 <= i < n && 0 <= j < n ==> I[i][j] == (if i == j then 1.0 else 0.0)
  {
    seq(n, i => seq(n, j => if i == j then 1.0 else 0.0))
  }

  /** Inner product over the common length of `u` and `v`. */
  function Dot(u: Vector, v: Vector): real
    decreases |u|
  {
    if |u| == 0 || |v| == 0 then 0.0 else u[0] * v[0] + Dot(u[1..], v[1..])
  }

  /** Column `j` of `B` (entries missing from a short row read as 0). */
  function Column(B: Matrix, j: int): (c: Vector)
    ensures |c| == |B|
  {
    seq(|B|, k requires 0 <= k < |B| => if 0 <= j < |B[k]| then B[k][j] else 0.0)
  }

  /** Row vector times matrix: `a^T B`, with `p` columns. */
  function VecMat(a: Vector, B: Matrix, p: nat): (r: Vector)
    ensures |r| == p
  {
    seq(p, j => Dot(a, Column(B, j)))
  }

  /** Matrix times column vector: `B c`. */
  function MatVec(B: Matrix, c: Vector): (r: Vector)
    ensures |r| == |B|
  {
    seq(|B|, k requires 0 <= k < |B| => Dot(B[k], c))
  }

  /** Matrix product `A * B`. */
  function Mul(A: Matrix, B: Matrix): (C: Matrix)
    ensures |C| == |A|
    ensures forall i :: 0 <= i < |C| ==> |C[i]| == Cols(B)
  {
    seq(|A|, i requires 0 <= i < |A| => VecMat(A[i], B, Cols(B)))
  }

  /** Entry-wise `a * A + b * B` over the shape of `A`. */
  function Combine(a: real, A: Matrix, b: real, B: Matrix): (C: Matrix)
    ensures |C| == |A|
    ensures forall i :: 0 <= i < |A| ==> |C[i]| == |A[i]|
  {
    seq(|A|, i requires 0 <= i < |A| =>
      seq(|A[i]|, j requires 0 <= j < |A[i]| =>
        a * A[i][j] + b * (if i < |B| && j < |B[i]| then B[i][j] else 0.0)))
  }

  /** Rows `idx[0], idx[1], ...` of `A`, in that order (`selectRows`). */
  function SelectRows(A: Matrix, idx: seq<nat>): (S: Matrix)
    requires forall t :: 0 <= t < |idx| ==> idx[t] < |A|
    ensures |S| == |idx|
    ensures forall t :: 0 <= t < |idx| ==> S[t] == A[idx[t]]
  {
    seq(|idx|, t requires 0 <= t < |idx| => A[idx[t]])
  }

  /** `A` with row `idx[t]` replaced by row `t` of `S` (`distributeRows`); later
      entries of `idx` win when an index repeats. */
  function DistributeRows(S: Matrix, idx: seq<nat>, A: Matrix): (R: Matrix)
    requires |S| == |idx|
    requires forall t :: 0 <= t < |idx| ==> idx[t] < |A|
    ensures |R| == |A|
    decreases |idx|
  {
    if |idx| == 0 then A
    else DistributeRows(S[1..], idx[1..], A[idx[0] := S[0]])
  }

  // ---------------------------------------------------------------------------
  // Properties of the product

  lemma {:induction false} DotUnit(u: Vector, j: nat)
    requires j < |u|
    ensures Dot(u, seq(|u|, k => if k == j then 1.0 else 0.0)) == u[j]
    decreases |u|
  {
    var e := seq(|u|, k => if k == j then 1.0 else 0.0);
    if j == 0 {
      DotZero(u[1..]);
      assert e[1..] == seq(|u| - 1, k => 0.0);
    } else {
      DotUnit(u[1..], j - 1);
      assert e[1..] == seq(|u| - 1, k => if k == j - 1 then 1.0 else 0.0);
    }
  }

  lemma {:induction false} DotZero(u: Vector)
    ensures Dot(u, seq(|u|, k => 0.0)) == 0.0
    decreases |u|
  {
    if |u| > 0 {
      DotZero(u[1..]);
      assert seq(|u|, k => 0.0)[1..] == seq(|u| - 1, k => 0.0);
    }
  }

  lemma {:induction false} DotZeroLeft(v: Vector, n: nat)
    ensures Dot(seq(n, k => 0.0), v) == 0.0
    decreases n
  {
    if n > 0 && |v| > 0 {
      DotZeroLeft(v[1..], n - 1);
      assert seq(n, k => 0.0)[1..] == seq(n - 1, k => 0.0);
    }
  }

  /** Multiplying on the right by the identity changes nothing. */
  lemma MulIdentityRight(A: Matrix, r: nat, c: nat)
    requires IsMatrix(A, r, c)
    ensures Mul(A, Identity(c)) == A
  {
    var P := Mul(A, Identity(c));
    forall i | 0 <= i < r
      ensures P[i] == A[i]
    {
      forall j | 0 <= j < c
        ensures P[i][j] == A[i][j]
      {
        assert Column(Identity(c), j) == seq(c, k => if k == j then 1.0 else 0.0);
        DotUnit(A[i], j);
      }
    }
  }

  lemma {:induction false} DotAddLeft(u: Vector, v: Vector, w: Vector, s: real)
    requires |u| == |v| == |w|
    ensures Dot(seq(|u|, k requires 0 <= k < |u| => s * u[k] + v[k]), w) == s * Dot(u, w) + Dot(v, w)
    decreases |u|
  {
    if |u| > 0 {
      var z := seq(|u|, k requires 0 <= k < |u| => s * u[k] + v[k]);
      var z' := seq(|u| - 1, k requires 0 <= k < |u| - 1 => s * u[1..][k] + v[1..][k]);
      DotAddLeft(u[1..], v[1..], w[1..], s);
      forall k | 0 <= k < |u| - 1
        ensures z[1..][k] == z'[k]
      {
      }
      assert z[1..] == z';
    }
  }

  lemma VecMatStep(a: Vector, B: Matrix, p: nat)
    requires |a| == |B| > 0 && forall k :: 0 <= k < |B| ==> |B[k]| == p
    ensures VecMat(a, B, p) == seq(p, j requires 0 <= j < p => a[0] * B[0][j] + VecMat(a[1..], B[1..], p)[j])
  {
    var split := seq(p, j requires 0 <= j < p => a[0] * B[0][j] + VecMat(a[1..], B[1..], p)[j]);
    forall j | 0 <= j < p
      ensures VecMat(a, B, p)[j] == split[j]
    {
      var col := Column(B, j);
      assert col[0] == B[0][j];
      assert col[1..] == Column(B[1..], j);
      assert Dot(a, col) == a[0] * col[0] + Dot(a[1..], col[1..]);
      assert VecMat(a, B, p)[j] == Dot(a, col);
      assert VecMat(a[1..], B[1..], p)[j] == Dot(a[1..], Column(B[1..], j));
    }
    assert VecMat(a, B, p) == split;
  }

  /** `(a^T B) c == a^T (B c)` for a vector `a` of length `m`, an `m x p` matrix
      `B` and a vector `c` of length `p`. */
  lemma {:induction false} RowTimesMatrixTimesColumn(a: Vector, B: Matrix, c: Vector, m: nat, p: nat)
    requires |a| == m && IsMatrix(B, m, p) && |c| == p
    ensures Dot(VecMat(a, B, p), c) == Dot(a, MatVec(B, c))
    decreases m
  {
    if m == 0 {
      DotZeroLeft(c, p);
      assert VecMat(a, B, p) == seq(p, k => 0.0);
    } else {
      RowTimesMatrixTimesColumn(a[1..], B[1..], c, m - 1, p);
      VecMatStep(a, B, p);
      DotAddLeft(B[0], VecMat(a[1..], B[1..], p), c, a[0]);
      assert MatVec(B, c)[1..] == MatVec(B[1..], c);
    }
  }

  /** The product is associative on conforming shapes. */
  lemma MulAssoc(A: Matrix, B: Matrix, C: Matrix, r: nat, m: nat, p: nat, q: nat)
    requires IsMatrix(A, r, m) && IsMatrix(B, m, p) && IsMatrix(C, p, q)
    requires m > 0 && p > 0
    ensures Mul(Mul(A, B), C) == Mul(A, Mul(B, C))
  {
    var L := Mul(Mul(A, B), C);
    var R := Mul(A, Mul(B, C));
    var BC := Mul(B, C);
    assert Cols(BC) == q;
    forall i | 0 <= i < r
      ensures L[i] == R[i]
    {
      forall l | 0 <= l < q
        ensures L[i][l] == R[i][l]
      {
        assert Column(BC, l) == MatVec(B, Column(C, l));
        RowTimesMatrixTimesColumn(A[i], B, Column(C, l), m, p);
      }
    }
  }
}

=== FILE: memory_array_cache.dfy ===
/** The in-memory array cache of the C++ library (`MemoryArrayCache`) together
    with the generic `ArrayCache::pop` and the cache entry (`ArrayCacheEntry`).

    The cache hands out integer handles `0, 1, 2, ...` from a counter and maps
    each live handle to an entry: the stored array and a dirty flag. The library
    returns entries through shared pointers, so a caller that changes an entry it
    got from `get` changes what later `get`s return; `Write` is that mutation.
 */
module MemoryArrayCache {
  import opened Wrappers
  import opened Matrices

  type Handle = int

  /** `ArrayCache::NullHandle`. */
  const NullHandle: Handle := -1

  datatype Entry = Entry(data: Matrix, isDirty: bool)

  /** `ArrayCacheEntry()`: a new entry holds `a` and is not dirty. */
  function NewEntry(a: Matrix): (e: Entry)
    ensures e.data == a && !e.isDirty
  {
    Entry(a, false)
  }

  /** The entry's own `markDirty()`: the caller tells the cache the array changed. */
  function MarkEntryDirty(e: Entry): (d: Entry)
    ensures d.data == e.data && d.isDirty
  {
    e.(isDirty := true)
  }

  datatype Cache = Cache(counter: int, entries: map<Handle, Entry>)

  /** Every live handle was handed out by the counter. */
  predicate Valid(c: Cache) {
    c.counter >= 0 && forall h :: h in c.entries ==> 0 <= h < c.counter
  }

  /** A newly constructed cache: the counter is value-initialised to 0. */
  function Empty(): (c: Cache)
    ensures Valid(c) && c.entries == map[]
  {
    Cache(0, map[])
  }

  /** `put`: stores a copy of `data` under the current counter value, then
      advances the counter. The map's `insert` never overwrites a live handle. */
  function Put(c: Cache, data: Matrix): (r: (Cache, Handle))
    ensures r.1 == c.counter && r.0.counter == c.counter + 1
    ensures c.counter !in c.entries ==> r.0.entries == c.entries[c.counter := NewEntry(data)]
    ensures c.counter in c.entries ==> r.0.entries == c.entries
  {
    var h := c.counter;
    var entries := if h in c.entries then c.entries else c.entries[h := NewEntry(data)];
    (Cache(c.counter + 1, entries), h)
  }

  /** `get`: the entry stored under `h`. */
  function Get(c: Cache, h: Handle): (r: Result<Entry>)
    ensures r.Ok? <==> h != NullHandle && h in c.entries
    ensures r.Ok? ==> r.value == c.entries[h]
    ensures h == NullHandle ==> r == Fail(AssertionError("handle != ArrayCache::NullHandle"))
  {
    if h == NullHandle then Fail(AssertionError("handle != ArrayCache::NullHandle")) else
    :- Check(h in c.entries, "it != mData->entries.end()");
    Ok(c.entries[h])
  }

  /** A change made through the pointer `get` returned for a live handle. */
  function Write(c: Cache, h: Handle, e: Entry): (d: Cache)
    requires h in c.entries
    ensures d.counter == c.counter && d.entries.Keys == c.entries.Keys
    ensures d.entries[h] == e
    ensures forall g :: g in c.entries && g != h ==> d.entries[g] == c.entries[g]
  {
    c.(entries := c.entries[h := e])
  }

  /** `remove`: forgets `h`; removing an absent handle changes nothing. */
  function Remove(c: Cache, h: Handle): (r: Result<Cache>)
    ensures r.Ok? <==> h != NullHandle
    ensures r.Ok? ==> r.value.counter == c.counter && h !in r.value.entries
    ensures r.Ok? ==> forall g :: g != h ==> (g in r.value.entries <==> g in c.entries)
    ensures r.Ok? ==> forall g :: g in r.value.entries ==> r.value.entries[g] == c.entries[g]
  {
    if h == NullHandle then Fail(AssertionError("handle != ArrayCache::NullHandle")) else
    Ok(c.(entries := c.entries - {h}))
  }

  /** `clear`: drops every entry and restarts the handle sequence at 0. */
  function Clear(c: Cache): (d: Cache)
    ensures d.entries == map[] && d.counter == 0
  {
    Empty()
  }

  /** `MemoryArrayCache::markDirty`: only the handle is checked; the memory cache
      has nothing to write back. */
  function MarkDirty(c: Cache, h: Handle): (r: Result<Cache>)
    ensures r.Ok? <==> h != NullHandle
    ensures r.Ok? ==> r.value == c
  {
    if h == NullHandle then Fail(AssertionError("handle != ArrayCache::NullHandle")) else
    Ok(c)
  }

  /** `ArrayCache::pop`: `get`, then `remove` when `get` produced an entry. */
  function Pop(c: Cache, h: Handle): (r: Result<(Cache, Entry)>)
    ensures r.Ok? <==> Get(c, h).Ok?
    ensures r.Ok? ==> r.value.1 == Get(c, h).value
    ensures r.Ok? ==> r.value.0 == Remove(c, h).value
    ensures r.Fail? ==> r.error == Get(c, h).error
  {
    var e :- Get(c, h);
    Ok((c.(entries := c.entries - {h}), e))
  }

  // ---------------------------------------------------------------------------
  // Properties

  /** Puts the arrays one after the other, collecting the handles. */
  function PutAll(c: Cache, arrays: seq<Matrix>): (r: (Cache, seq<Handle>))
    ensures |r.1| == |arrays|
    decreases |arrays|
  {
    if |arrays| == 0 then (c, [])
    else
      var (c1, h) := Put(c, arrays[0]);
      var (c2, hs) := PutAll(c1, arrays[1..]);
      (c2, [h] + hs)
  }

  /** Successive puts hand out consecutive handles starting at the counter, so
      they are pairwise distinct and never `NullHandle` on a valid cache. */
  lemma {:induction false} PutAllHandles(c: Cache, arrays: seq<Matrix>)
    ensures PutAll(c, arrays).0.counter == c.counter + |arrays|
    ensures forall t :: 0 <= t < |arrays| ==> PutAll(c, arrays).1[t] == c.counter + t
    decreases |arrays|
  {
    if |arrays| > 0 {
      PutAllHandles(Put(c, arrays[0]).0, arrays[1..]);
    }
  }

  lemma PutAllDistinct(c: Cache, arrays: seq<Matrix>)
    requires Valid(c)
    ensures var hs := PutAll(c, arrays).1;
      (forall s, t :: 0 <= s < t < |hs| ==> hs[s] != hs[t]) &&
      (forall t :: 0 <= t < |hs| ==> hs[t] != NullHandle)
  {
    PutAllHandles(c, arrays);
  }

  /** Every operation keeps the cache valid. */
  lemma PreservesValid(c: Cache, data: Matrix, h: Handle, e: Entry)
    requires Valid(c)
    ensures Valid(Put(c, data).0)
    ensures Remove(c, h).Ok? ==> Valid(Remove(c, h).value)
    ensures Valid(Clear(c))
    ensures MarkDirty(c, h).Ok? ==> Valid(MarkDirty(c, h).value)
    ensures h in c.entries ==> Valid(Write(c, h, e))
    ensures Pop(c, h).Ok? ==> Valid(Pop(c, h).value.0)
  {
  }

  /** `get` after `put` on a valid cache returns the array just stored, clean;
      every other handle reads as before. */
  lemma GetAfterPut(c: Cache, data: Matrix, g: Handle)
    requires Valid(c)
    ensures var (d, h) := Put(c, data);
      Get(d, h) == Ok(NewEntry(data)) &&
      (g != h ==> Get(d, g) == Get(c, g))
  {
  }

  /** A change made through `get`'s pointer is what the next `get` returns. */
  lemma GetAfterWrite(c: Cache, h: Handle, e: Entry, g: Handle)
    requires h in c.entries && h != NullHandle
    ensures Get(Write(c, h, e), h) == Ok(e)
    ensures g != h ==> Get(Write(c, h, e), g) == Get(c, g)
  {
  }

  /** After a successful `remove` or `pop`, `get` fails its presence check. */
  lemma GetAfterRemoveFails(c: Cache, h: Handle)
    requires h != NullHandle
    ensures Get(Remove(c, h).value, h) == Fail(AssertionError("it != mData->entries.end()"))
    ensures Pop(c, h).Ok? ==> Get(Pop(c, h).value.0, h).Fail?
  {
  }

  /** Removing a handle that is not live is a no-op. */
  lemma RemoveAbsent(c: Cache, h: Handle)
    requires h != NullHandle && h !in c.entries
    ensures Remove(c, h) == Ok(c)
  {
    assert c.entries - {h} == c.entries;
  }

  /** After `clear` the handle sequence starts over, so old handles come back. */
  lemma ClearReusesHandles(c: Cache, data: Matrix)
    ensures Put(Clear(c), data).1 == 0
  {
  }
}

=== FILE: observation_manager.dfy ===
/** `ObservationData` (include/Endas/DA/ObservationManager.hpp) and the
    `SimpleObservationManager` (src/DA/SimpleObservationManager.cpp), which
    hands out one batch of observations per analysis domain.

    The spatial query a partitioner builds over the observation coordinates,
    the covariance operator's own `subset`, and the taper function are not
    part of this model; they enter as function-valued fields. A query returns,
    for a domain and a range, the indices of the observations within range and
    their distances.
 */
module ObservationManagers {
  import opened Wrappers
  import opened Matrices
  import Ops = ObservationOperators
  import Cov = DiagonalCovariances

  /** The domain index of a global (non-localized) batch. */
  const GlobalAnalysisDomainId: int := -1

  /** An observation error covariance: diagonal, or some other operator of
      which only the size matters here. */
  datatype CovOp = DiagonalCov(c: Cov.DiagCov) | OtherCov(size: nat)

  predicate CovValid(R: CovOp) {
    R.DiagonalCov? ==> Cov.Valid(R.c)
  }

  type ValidCov = R: CovOp | CovValid(R) witness OtherCov(0)

  function CovSize(R: CovOp): nat {
    match R
    case DiagonalCov(c) => c.size
    case OtherCov(n) => n
  }

  /** One batch: its domain, the observed values, and `H` and `R` restricted
      to them (`None` is a null pointer). */
  datatype ObservationData = ObservationData(domain: int, obs: Vector, H: Option<Ops.ObsOperator>, R: Option<ValidCov>)

  /** The default constructor: no observations and null operators. It leaves
      `domain` uninitialised; `0` stands in for it here. */
  function EmptyData(): (d: ObservationData)
    ensures IsEmpty(d) && d.H.None? && d.R.None?
  {
    ObservationData(0, [], None, None)
  }

  /** `empty()`. */
  predicate IsEmpty(d: ObservationData) {
    |d.obs| == 0
  }

  type Query = (int, real) -> (seq<nat>, seq<real>)

  /** What the manager needs of a domain partitioner. */
  datatype Partitioner = Partitioner(numLocalDomains: int, indexPoints: Matrix -> Option<Query>)

  /** A taper function: whether it is `NoTaper`, its support range, and the
      tapering of one inverse variance at a given distance. */
  datatype Taper = Taper(isNoTaper: bool, supportRange: real, taper: (real, real) -> real)

  datatype Manager = Manager(
    obs: Vector,
    obsCoords: Matrix,
    H: Ops.ObsOperator,
    R: ValidCov,
    subsetR: (ValidCov, seq<nat>) -> Option<ValidCov>,
    begun: bool,
    taper: Option<Taper>,
    query: Option<Query>,
    currentDomain: int,
    numDomains: int)

  /** `SimpleObservationManager(obs, obsCoords, H, R)`; the cursor fields are
      only set by `beginFetch`. */
  function New(obs: Vector, obsCoords: Matrix, H: Ops.ObsOperator, R: ValidCov,
               subsetR: (ValidCov, seq<nat>) -> Option<ValidCov>): (m: Manager)
    requires Ops.Valid(H)
    ensures !m.begun && m.obs == obs && m.H == H && m.R == R
  {
    Manager(obs, obsCoords, H, R, subsetR, false, None, None, 0, 0)
  }

  /** The state `beginFetch` leaves behind and `fetchObservations` relies on. */
  predicate Ready(m: Manager) {
    && m.begun
    && Ops.Valid(m.H)
    && m.numDomains >= 1
    && 0 <= m.currentDomain <= m.numDomains
    && (m.numDomains > 1 ==> m.taper.Some? && m.query.Some?)
  }

  /** `obsCoords.size() > 0`: the coordinate array has at least one entry. */
  predicate HasCoords(coords: Matrix) {
    |coords| > 0 && |coords[0]| > 0
  }

  /** `beginFetch(k, partitioner, taperFn)`: resets the cursor and counts the
      domains (one without a partitioner). With more than one domain the
      coordinates are moved into the partitioner's point index. */
  function BeginFetch(m: Manager, partitioner: Option<Partitioner>, taper: Option<Taper>): (r: Result<Manager>)
    requires Ops.Valid(m.H)
    ensures var n := if partitioner.Some? then partitioner.value.numLocalDomains else 1;
      r.Ok? <==> n >= 1 && (n > 1 ==> (HasCoords(m.obsCoords) || |m.obs| == 0) && taper.Some? && partitioner.value.indexPoints(m.obsCoords).Some?)
    ensures r.Ok? ==> Ready(r.value) && r.value.currentDomain == 0 && r.value.taper == taper
    ensures r.Ok? ==> r.value.numDomains == (if partitioner.Some? then partitioner.value.numLocalDomains else 1)
    ensures r.Ok? ==> r.value.obs == m.obs && r.value.H == m.H && r.value.R == m.R
    ensures r.Ok? && r.value.numDomains > 1 ==> r.value.obsCoords == [] && r.value.query == partitioner.value.indexPoints(m.obsCoords)
  {
    var n := if partitioner.Some? then partitioner.value.numLocalDomains else 1;
    :- Check(n >= 1, "mData->numDomains >= 1");
    if n > 1 then
      :- Check(HasCoords(m.obsCoords) || |m.obs| == 0, "mData->obsCoords.size() > 0 || mData->obs.size() == 0");
      :- Check(taper.Some?, "mData->taperFn");
      var q := partitioner.value.indexPoints(m.obsCoords);
      :- Check(q.Some?, "mData->obsQuery");
      Ok(m.(begun := true, taper := taper, currentDomain := 0, numDomains := n, obsCoords := [], query := q))
    else
      Ok(m.(begun := true, taper := taper, currentDomain := 0, numDomains := n))
  }

  /** Covariance tapering is on when the taper is not `NoTaper` and has a
      positive support range. */
  predicate DoCovTapering(t: Taper) {
    !t.isNoTaper && t.supportRange > 0.0
  }

  /** `select(obs, indices)`: the selected entries, in order. */
  function SelectEntries(v: Vector, indices: seq<nat>): (r: Result<Vector>)
    ensures r.Ok? <==> forall t :: 0 <= t < |indices| ==> indices[t] < |v|
    ensures r.Ok? ==> |r.value| == |indices| && forall t :: 0 <= t < |indices| ==> r.value[t] == v[indices[t]]
  {
    if forall t :: 0 <= t < |indices| ==> indices[t] < |v| then
      Ok(seq(|indices|, t requires 0 <= t < |indices| => v[indices[t]]))
    else Fail(OutOfRange)
  }

  const InvDiagSizeMessage := "RdiagInv.size() == obsDistances.size()"

  /** The covariance tapering as written: the tapered inverse diagonal goes
      through the inverse constructor as written
      (`DiagonalCovariances.MakeAsWritten`), which keeps neither array, so
      the new covariance has the right size but no diagonal at all. */
  function TaperedCovAsWritten(c: Cov.DiagCov, distances: seq<real>, t: Taper): (r: Result<Cov.DiagCov>)
    requires Cov.Valid(c)
    ensures r.Ok? <==> |distances| == c.size
    ensures r.Fail? ==> r.error == AssertionError(InvDiagSizeMessage)
    ensures r.Ok? ==> r.value.size == c.size && r.value.diag == [] && r.value.invDiag == [] && !Cov.Valid(r.value)
  {
    var inv := Cov.InverseDiagonal(c).1;
    if |inv| != |distances| then Fail(AssertionError(InvDiagSizeMessage))
    else Ok(Cov.MakeAsWritten(TaperEach(inv, distances, t), true).value)
  }

  /** The covariance tapering with the corrected inverse constructor
      (`DiagonalCovariances.Make`): the inverse diagonal of `c`, each entry
      tapered by its distance, becomes the new covariance's inverse diagonal. */
  function TaperedCov(c: Cov.DiagCov, distances: seq<real>, t: Taper): (r: Result<ValidCov>)
    requires Cov.Valid(c)
    ensures r.Ok? <==> |distances| == c.size
    ensures r.Fail? ==> r.error == AssertionError(InvDiagSizeMessage)
    ensures r.Ok? ==> r.value.DiagonalCov? && r.value.c.size == c.size
    ensures r.Ok? ==> r.value.c.invDiag == seq(c.size, i requires 0 <= i < c.size => t.taper(Cov.Recip(Cov.Value(c))[i], distances[i]))
  {
    var inv := Cov.InverseDiagonal(c).1;
    if |inv| != |distances| then Fail(AssertionError(InvDiagSizeMessage))
    else Ok(DiagonalCov(Cov.Make(TaperEach(inv, distances, t), true).value))
  }

  /** As written, every tapered covariance loses its tapered inverse
      diagonal, where the corrected one keeps an entry per observation. */
  lemma TaperedCovAsWrittenLosesTapering(c: Cov.DiagCov, distances: seq<real>, t: Taper)
    requires Cov.Valid(c) && |distances| == c.size
    ensures TaperedCovAsWritten(c, distances, t).Ok? && TaperedCov(c, distances, t).Ok?
    ensures TaperedCovAsWritten(c, distances, t).value.invDiag == []
    ensures |TaperedCov(c, distances, t).value.c.invDiag| == c.size > 0
  {
  }

  /** `taperFn->taper(RdiagInv, distances, RdiagInv)`, entry by entry. */
  function TaperEach(inv: Vector, distances: seq<real>, t: Taper): (r: Vector)
    requires |inv| == |distances|
    ensures |r| == |inv| && forall i :: 0 <= i < |inv| ==> r[i] == t.taper(inv[i], distances[i])
  {
    seq(|inv|, i requires 0 <= i < |inv| => t.taper(inv[i], distances[i]))
  }

  /** The batch for domain `d` whose query returned `indices` (non-empty) and
      `distances`. */
  function LocalBatch(m: Manager, d: int, indices: seq<nat>, distances: seq<real>): (r: Result<ObservationData>)
    requires Ready(m) && m.numDomains > 1 && |indices| > 0
    ensures r.Ok? ==> r.value.domain == d && |r.value.obs| == |indices|
    ensures r.Ok? ==> forall t :: 0 <= t < |indices| ==> indices[t] < |m.obs| && r.value.obs[t] == m.obs[indices[t]]
    ensures r.Ok? ==> r.value.H.Some? && Ops.Valid(r.value.H.value) && Ops.Nobs(r.value.H.value) == |indices|
    ensures r.Ok? ==> Ops.Subset(m.H, indices).Ok? && r.value.H == Ops.Subset(m.H, indices).value
    ensures r.Ok? ==> r.value.R.Some? && CovSize(r.value.R.value) == |indices|
    ensures r.Ok? && !TapersBatch(m, indices) ==> r.value.R == m.subsetR(m.R, indices)
    ensures r.Ok? && TapersBatch(m, indices) ==>
      && TaperedCov(m.subsetR(m.R, indices).value.c, distances, m.taper.value).Ok?
      && r.value.R == Some(TaperedCov(m.subsetR(m.R, indices).value.c, distances, m.taper.value).value)
    ensures TapersBatch(m, indices) && |distances| != |indices| ==> r.Fail?
  {
    var obsLocal :- SelectEntries(m.obs, indices);
    var Hlocal :- Ops.Subset(m.H, indices);
    var Rlocal := m.subsetR(m.R, indices);
    if Hlocal.None? then Fail(AssertionError("Hlocal"))
    else if Rlocal.None? then Fail(AssertionError("Rlocal"))
    else if Ops.Nobs(Hlocal.value) != |indices| then Fail(AssertionError("Hlocal->nobs() == obsIndices.size()"))
    else if CovSize(Rlocal.value) != |indices| then Fail(AssertionError("Rlocal->size() == obsIndices.size()"))
    else if DoCovTapering(m.taper.value) && Rlocal.value.DiagonalCov? then
      var tapered :- TaperedCov(Rlocal.value.c, distances, m.taper.value);
      Ok(ObservationData(d, obsLocal, Hlocal, Some(tapered)))
    else
      Ok(ObservationData(d, obsLocal, Hlocal, Rlocal))
  }

  /** The batch for `indices` has its covariance tapered: tapering is on
      and the covariance subset is diagonal. */
  predicate TapersBatch(m: Manager, indices: seq<nat>)
    requires m.taper.Some?
  {
    && DoCovTapering(m.taper.value)
    && m.subsetR(m.R, indices).Some?
    && m.subsetR(m.R, indices).value.DiagonalCov?
  }

  /** As written, the covariance of every tapered batch keeps no inverse
      diagonal, where the batch `LocalBatch` builds with the corrected
      constructor holds one tapered entry per selected observation. */
  lemma LocalBatchAsWrittenLosesTapering(m: Manager, d: int, indices: seq<nat>, distances: seq<real>)
    requires Ready(m) && m.numDomains > 1 && |indices| > 0
    requires LocalBatch(m, d, indices, distances).Ok? && TapersBatch(m, indices)
    ensures var c := m.subsetR(m.R, indices).value.c;
      && TaperedCovAsWritten(c, distances, m.taper.value).Ok?
      && TaperedCovAsWritten(c, distances, m.taper.value).value.invDiag == []
      && |LocalBatch(m, d, indices, distances).value.R.value.c.invDiag| == |indices|
  {
    var c := m.subsetR(m.R, indices).value.c;
    TaperedCovAsWrittenLosesTapering(c, distances, m.taper.value);
  }

  /** Domain `d`'s query at the taper's support range: the indices of the
      observations within range and their distances. */
  function QueryResult(m: Manager, d: int): (seq<nat>, seq<real>)
    requires m.taper.Some? && m.query.Some?
  {
    m.query.value(d, m.taper.value.supportRange)
  }

  /** The observation indices of domain `d`'s query. */
  function QueryAt(m: Manager, d: int): seq<nat>
    requires m.taper.Some? && m.query.Some?
  {
    QueryResult(m, d).0
  }

  const DistancesMessage := "obsDistances.size() == obsIndices.size()"

  /** With tapering on, the query of domain `d` returns a distance count
      other than its index count, which fails the loop's assertion. */
  predicate DistancesMismatch(m: Manager, d: int)
    requires m.taper.Some? && m.query.Some?
  {
    DoCovTapering(m.taper.value) && |QueryResult(m, d).1| != |QueryResult(m, d).0|
  }

  /** The loop passes over domain `d`: its query is empty and raises nothing. */
  predicate Skipped(m: Manager, d: int)
    requires m.taper.Some? && m.query.Some?
  {
    !DistancesMismatch(m, d) && |QueryAt(m, d)| == 0
  }

  /** The first domain from `d` on that the loop does not pass over, or
      `numDomains` when it passes over all of them. */
  function NextStop(m: Manager, d: int): (s: int)
    requires m.taper.Some? && m.query.Some? && d <= m.numDomains
    ensures d <= s <= m.numDomains
    ensures forall e :: d <= e < s ==> Skipped(m, e)
    ensures s < m.numDomains ==> !Skipped(m, s)
    decreases m.numDomains - d
  {
    if d == m.numDomains || !Skipped(m, d) then d else NextStop(m, d + 1)
  }

  /** Where the loop stops does not depend on the cursor. */
  lemma {:induction false} NextStopIgnoresCursor(m: Manager, k: int, d: int)
    requires m.taper.Some? && m.query.Some? && d <= m.numDomains
    ensures NextStop(m.(currentDomain := k), d) == NextStop(m, d)
    decreases m.numDomains - d
  {
    if d < m.numDomains {
      NextStopIgnoresCursor(m, k, d + 1);
    }
  }

  /** The local-mode loop of `fetchObservations`: skips domains whose query
      is empty and returns the batch of the first one that is not, leaving the
      cursor just past it; the empty batch once the cursor reaches the end. A
      failed distance assertion leaves the cursor at the domain that failed
      it, because the source asserts before it advances the cursor. */
  function FetchLocal(m: Manager): (r: (Manager, Result<ObservationData>))
    requires Ready(m) && m.numDomains > 1
    ensures FetchedLocal(m, r)
    decreases m.numDomains - m.currentDomain
  {
    if m.currentDomain == m.numDomains then (m, Ok(EmptyData()))
    else
      var (indices, distances) := m.query.value(m.currentDomain, m.taper.value.supportRange);
      var d := m.currentDomain;
      var m1 := m.(currentDomain := d + 1);
      if DoCovTapering(m.taper.value) && |distances| != |indices| then
        (m, Fail(AssertionError(DistancesMessage)))
      else if |indices| > 0 then
        (m1, LocalBatch(m, d, indices, distances))
      else
        var r1 := FetchLocal(m1);
        FetchLocalSkip(m, r1);
        r1
  }

  /** What `FetchLocal` promises, for the manager `m` and the result `r`. */
  ghost predicate FetchedLocal(m: Manager, r: (Manager, Result<ObservationData>))
    requires Ready(m) && m.numDomains > 1
  {
    && Ready(r.0) && r.0.numDomains == m.numDomains && r.0.currentDomain >= m.currentDomain
    && r.0 == m.(currentDomain := r.0.currentDomain)
    && var s := NextStop(m, m.currentDomain);
    && (s == m.numDomains ==> r == (m.(currentDomain := s), Ok(EmptyData())))
    && (s < m.numDomains && DistancesMismatch(m, s) ==>
          r == (m.(currentDomain := s), Fail(AssertionError(DistancesMessage))))
    && (s < m.numDomains && !DistancesMismatch(m, s) ==>
          |QueryAt(m, s)| > 0 &&
          r == (m.(currentDomain := s + 1), LocalBatch(m.(currentDomain := s), s, QueryAt(m, s), QueryResult(m, s).1)))
  }

  /** Passing over the cursor's domain: what the loop returns from the next
      domain on is what it returns from this one. */
  lemma FetchLocalSkip(m: Manager, r: (Manager, Result<ObservationData>))
    requires Ready(m) && m.numDomains > 1 && m.currentDomain < m.numDomains && Skipped(m, m.currentDomain)
    requires FetchedLocal(m.(currentDomain := m.currentDomain + 1), r)
    ensures FetchedLocal(m, r)
  {
    var d := m.currentDomain;
    var m1 := m.(currentDomain := d + 1);
    assert forall e :: QueryResult(m1, e) == QueryResult(m, e);
    NextStopIgnoresCursor(m, d + 1, d + 1);
    var s := NextStop(m, d + 1);
    assert m1.(currentDomain := s) == m.(currentDomain := s);
    assert m1.(currentDomain := s + 1) == m.(currentDomain := s + 1);
  }

  /** Where the loop stops, read off as what the batch says: a non-empty
      batch comes from the first domain with observations, the empty one
      from a walk over domains that all had none. */
  lemma FetchLocalStops(m: Manager)
    requires Ready(m) && m.numDomains > 1
    ensures var r := FetchLocal(m);
      && (r.1.Ok? && !IsEmpty(r.1.value) ==>
            && m.currentDomain <= r.1.value.domain < m.numDomains
            && r.0.currentDomain == r.1.value.domain + 1
            && |QueryAt(m, r.1.value.domain)| > 0
            && (forall d :: m.currentDomain <= d < r.1.value.domain ==> Skipped(m, d)))
      && (r.1.Ok? && IsEmpty(r.1.value) ==>
            && r.1.value == EmptyData()
            && r.0.currentDomain == m.numDomains
            && (forall d :: m.currentDomain <= d < m.numDomains ==> Skipped(m, d)))
  {
  }

  /** `fetchObservations()`. In global mode the observations are moved out
      with the operators, so the manager keeps an empty array. */
  function Fetch(m: Manager): (r: (Manager, Result<ObservationData>))
    requires Ready(m)
    ensures Ready(r.0) && r.0.numDomains == m.numDomains
    ensures m.numDomains == 1 ==> r == (m.(obs := []), Ok(ObservationData(GlobalAnalysisDomainId, m.obs, Some(m.H), Some(m.R))))
    ensures m.numDomains > 1 ==> r == FetchLocal(m)
  {
    if m.numDomains == 1 then
      (m.(obs := []), Ok(ObservationData(GlobalAnalysisDomainId, m.obs, Some(m.H), Some(m.R))))
    else FetchLocal(m)
  }

  // ---------------------------------------------------------------------------
  // Properties

  /** A second global fetch finds the observations already moved out. */
  lemma GlobalFetchMovesObservations(m: Manager)
    requires Ready(m) && m.numDomains == 1
    ensures Fetch(m).1.Ok? && Fetch(m).1.value.domain == GlobalAnalysisDomainId
    ensures Fetch(m).1.value.obs == m.obs
    ensures IsEmpty(Fetch(Fetch(m).0).1.value)
  {
  }

  /** Successive local fetches return strictly increasing domains. */
  lemma LocalDomainsIncrease(m: Manager)
    requires Ready(m) && m.numDomains > 1
    requires FetchLocal(m).1.Ok? && !IsEmpty(FetchLocal(m).1.value)
    requires var m1 := FetchLocal(m).0;
      FetchLocal(m1).1.Ok? && !IsEmpty(FetchLocal(m1).1.value)
    ensures FetchLocal(m).1.value.domain < FetchLocal(FetchLocal(m).0).1.value.domain
  {
  }

  /** Once the cursor is at the end, every further fetch is empty. */
  lemma ExhaustedStaysEmpty(m: Manager)
    requires Ready(m) && m.numDomains > 1 && m.currentDomain == m.numDomains
    ensures FetchLocal(m) == (m, Ok(EmptyData()))
  {
  }
}

=== FILE: observation_operators.dfy ===
/** Observation operators (src/DA/ObservationOperator.cpp) and the strided
    operator of the quasi-geostrophic example (`QGObservationOperator`,
    examples/QGExample.cpp).

    The class hierarchy becomes one datatype with a variant per class. An
    operator maps an ensemble `x` (one row per state variable) to the
    observation space; `outRows` is the row count of the caller's
    pre-allocated output. The callable of a `CustomObservationOperator` is a
    function-valued field.
 */
module ObservationOperators {
  import opened Wrappers
  import opened Matrices

  datatype ObsOperator =
    | MatrixOp(H: Matrix, cols: nat)
    | CustomOp(nobs: int, nstate: int, linear: bool, fn: (Matrix, nat) -> Result<Matrix>)
    | QGOp(stateSize: nat, m: nat, offset: int)

  /** What construction guarantees: the matrix is rectangular with `cols`
      columns, and the QG spacing is positive with the offset reduced by it. */
  predicate Valid(op: ObsOperator) {
    match op
    case MatrixOp(H, cols) => IsMatrix(H, |H|, cols)
    case CustomOp(_, _, _, _) => true
    case QGOp(_, m, offset) => m > 0 && -(m as int) < offset < m
  }

  /** `MatrixObservationOperator(H)`. */
  function MakeMatrixOp(H: Matrix): (op: ObsOperator)
    requires IsMatrix(H, |H|, Cols(H))
    ensures Valid(op) && op.MatrixOp? && op.H == H
  {
    MatrixOp(H, Cols(H))
  }

  /** C++ `a % m`: the remainder takes the sign of `a`. */
  function TruncMod(a: int, m: nat): (r: int)
    requires m > 0
    ensures -(m as int) < r < m
    ensures a >= 0 ==> 0 <= r && r == a % m
    ensures a < 0 ==> r <= 0
  {
    if a >= 0 then a % m else -((-a) % m)
  }

  /** `QGObservationOperator(domain, m, offset)` over a domain of `stateSize`
      variables. A zero spacing would divide by zero. */
  function MakeQG(stateSize: nat, m: nat, offset: int): (op: ObsOperator)
    requires m > 0
    ensures Valid(op) && op.QGOp? && op.stateSize == stateSize && op.m == m
    ensures 0 <= offset < m ==> op.offset == offset
  {
    assert 0 <= offset < m ==> offset % m == offset by {
      if 0 <= offset < m {
        ModOfSmall(offset, m);
      }
    }
    QGOp(stateSize, m, TruncMod(offset, m))
  }

  lemma ModOfSmall(a: int, m: nat)
    requires 0 <= a < m
    ensures a % m == a
  {
  }

  /** `ceil(a / m)` for a positive `m` (`CeilDivBounds` shows it is the
      ceiling). */
  function CeilDiv(a: int, m: nat): (c: nat)
    requires m > 0
    decreases a
  {
    if a <= 0 then 0 else 1 + CeilDiv(a - m, m)
  }

  /** `j, j + m, j + 2m, ...` while below `n`: the rows `apply` and `obsCoords`
      visit. */
  function Stride(j: int, m: nat, n: int): (s: seq<int>)
    requires m > 0
    decreases n - j
  {
    if j >= n then [] else [j] + Stride(j + m, m, n)
  }

  function Nobs(op: ObsOperator): int
    requires Valid(op)
  {
    match op
    case MatrixOp(H, _) => |H|
    case CustomOp(nobs, _, _, _) => nobs
    case QGOp(n, m, offset) => CeilDiv(n - offset, m)
  }

  function Nstate(op: ObsOperator): int {
    match op
    case MatrixOp(_, cols) => cols
    case CustomOp(_, nstate, _, _) => nstate
    case QGOp(n, _, _) => n
  }

  function IsLinear(op: ObsOperator): bool {
    match op
    case MatrixOp(_, _) => true
    case CustomOp(_, _, linear, _) => linear
    case QGOp(_, _, _) => true
  }

  /** Only the matrix operator reports `isMatrix()`; the base default is false. */
  function IsMatrixOp(op: ObsOperator): bool {
    op.MatrixOp?
  }

  /** `toDenseMatrix()`: the base raises not-supported. */
  function ToDenseMatrix(op: ObsOperator): (r: Result<Matrix>)
    ensures r.Ok? <==> IsMatrixOp(op)
    ensures r.Ok? ==> r.value == op.H
    ensures r.Fail? ==> r.error == NotSupportedError("Observation operator does not implement toDenseMatrix()")
  {
    if op.MatrixOp? then Ok(op.H)
    else Fail(NotSupportedError("Observation operator does not implement toDenseMatrix()"))
  }

  /** `x.row(j)` for every `j` in `rows`, in order; a row outside `x` trips
      Eigen's range assertion. */
  function Rows(x: Matrix, rows: seq<int>): (r: Result<Matrix>)
    ensures r.Ok? <==> forall t :: 0 <= t < |rows| ==> 0 <= rows[t] < |x|
    ensures r.Ok? ==> |r.value| == |rows| && forall t :: 0 <= t < |rows| ==> r.value[t] == x[rows[t]]
  {
    if forall t :: 0 <= t < |rows| ==> 0 <= rows[t] < |x| then
      Ok(seq(|rows|, t requires 0 <= t < |rows| => x[rows[t]]))
    else Fail(OutOfRange)
  }

  /** The callable built by `QGObservationOperator::subset(indices)`: output
      row `t` is state row `indices[t] * m + offset`. */
  function QGSubsetApply(indices: seq<nat>, m: nat, offset: int, x: Matrix, outRows: nat): (r: Result<Matrix>)
    ensures outRows != |indices| ==> r == Fail(AssertionError("out.rows() == nobs"))
  {
    if outRows != |indices| then Fail(AssertionError("out.rows() == nobs"))
    else Rows(x, seq(|indices|, t requires 0 <= t < |indices| => indices[t] * m + offset))
  }

  /** `apply(x, out)` for an ensemble `x` and an output of `outRows` rows. */
  function Apply(op: ObsOperator, x: Matrix, outRows: nat): (r: Result<Matrix>)
    requires Valid(op) && IsMatrix(x, |x|, Cols(x))
    ensures op.MatrixOp? ==> (r.Ok? <==> |x| == op.cols && outRows == |op.H|)
    ensures op.MatrixOp? && r.Ok? ==> r.value == Mul(op.H, x)
    ensures op.CustomOp? ==> r == op.fn(x, outRows)
    ensures op.QGOp? && |x| != op.stateSize ==> r == Fail(AssertionError("x.rows() == mStateSize"))
    ensures op.QGOp? && |x| == op.stateSize && outRows != Nobs(op) ==> r == Fail(AssertionError("out.rows() == nobs()"))
  {
    match op
    case MatrixOp(H, cols) =>
      if |x| != cols || outRows != |H| then Fail(OutOfRange) else Ok(Mul(H, x))
    case CustomOp(_, _, _, fn) => fn(x, outRows)
    case QGOp(n, m, offset) =>
      if |x| != n then Fail(AssertionError("x.rows() == mStateSize"))
      else if outRows != Nobs(op) then Fail(AssertionError("out.rows() == nobs()"))
      else Rows(x, Stride(offset, m, n))
  }

  /** `subset(indices)`: the operator restricted to the selected observations.
      A matrix operator keeps the selected rows of `H`; the QG operator builds
      a custom operator over its stride; any other operator gives `nullptr`
      (`None`). */
  function Subset(op: ObsOperator, indices: seq<nat>): (r: Result<Option<ObsOperator>>)
    requires Valid(op)
    ensures r.Ok? && r.value.Some? ==> Valid(r.value.value) && Nobs(r.value.value) == |indices| && Nstate(r.value.value) == Nstate(op)
    ensures r.Ok? && r.value.Some? ==> IsLinear(r.value.value)
    ensures op.CustomOp? ==> r == Ok(None)
    ensures op.MatrixOp? ==> (r.Ok? <==> forall t :: 0 <= t < |indices| ==> indices[t] < |op.H|)
    ensures op.MatrixOp? && r.Ok? ==> r.value.Some? && r.value.value.MatrixOp? && r.value.value.H == SelectRows(op.H, indices)
    ensures op.QGOp? ==> r.Ok? && r.value.Some? && r.value.value.CustomOp?
  {
    match op
    case QGOp(n, m, offset) =>
      Ok(Some(CustomOp(|indices|, n, true, (x: Matrix, outRows: nat) => QGSubsetApply(indices, m, offset, x, outRows))))
    case MatrixOp(H, cols) =>
      if forall t :: 0 <= t < |indices| ==> indices[t] < |H| then Ok(Some(MatrixOp(SelectRows(H, indices), cols)))
      else Fail(OutOfRange)
    case CustomOp(_, _, _, _) => Ok(None)
  }

  /** The observed state indices `obsCoords()` passes to `getCoords`. */
  function QGObservedIndices(op: ObsOperator): seq<int>
    requires op.QGOp? && Valid(op)
  {
    Stride(op.offset, op.m, op.stateSize)
  }

  // ---------------------------------------------------------------------------
  // Properties of the stride

  lemma MulSucc(a: int, m: nat)
    ensures (a + 1) * m == a * m + m
  {
  }

  /** `CeilDiv(a, m)` is the least `c` with `a <= c * m`. */
  lemma {:induction false} CeilDivBounds(a: int, m: nat)
    requires m > 0
    ensures a <= CeilDiv(a, m) * m
    ensures a > 0 ==> (CeilDiv(a, m) - 1) * m < a
    decreases a
  {
    if a > 0 {
      CeilDivBounds(a - m, m);
      MulSucc(CeilDiv(a - m, m), m);
    }
  }

  /** The stride from `j` has `ceil((n - j) / m)` entries. */
  lemma {:induction false} StrideLength(j: int, m: nat, n: int)
    requires m > 0
    ensures |Stride(j, m, n)| == CeilDiv(n - j, m)
    decreases n - j
  {
    if j < n {
      StrideLength(j + m, m, n);
    }
  }

  /** Entry `t` of the stride from `j` is `j + t * m`, and every entry is
      below `n` and at least `j`. */
  lemma {:induction false} StrideEntries(j: int, m: nat, n: int)
    requires m > 0
    ensures forall t :: 0 <= t < |Stride(j, m, n)| ==> Stride(j, m, n)[t] == j + t * m
    ensures forall t :: 0 <= t < |Stride(j, m, n)| ==> j <= Stride(j, m, n)[t] < n
    decreases n - j
  {
    if j < n {
      StrideEntries(j + m, m, n);
      var s := Stride(j, m, n);
      forall t | 1 <= t < |s|
        ensures s[t] == j + t * m
      {
        assert s[t] == Stride(j + m, m, n)[t - 1];
        assert j + m + (t - 1) * m == j + t * m;
      }
    }
  }

  /** `nobs()` counts exactly the rows `apply` visits, and they are the
      rows `offset + i * m`. */
  lemma QGNobsMatchesApply(op: ObsOperator)
    requires op.QGOp? && Valid(op)
    ensures Nobs(op) == |QGObservedIndices(op)|
    ensures forall t :: 0 <= t < Nobs(op) ==> QGObservedIndices(op)[t] == op.offset + t * op.m
  {
    StrideLength(op.offset, op.m, op.stateSize);
    StrideEntries(op.offset, op.m, op.stateSize);
  }

  /** With a non-negative offset `apply` succeeds on a correctly shaped call,
      and output row `i` is state row `offset + i * m`. */
  lemma QGApplyRows(op: ObsOperator, x: Matrix)
    requires op.QGOp? && Valid(op) && op.offset >= 0
    requires IsMatrix(x, op.stateSize, Cols(x))
    ensures Apply(op, x, Nobs(op)).Ok? && |Apply(op, x, Nobs(op)).value| == Nobs(op)
    ensures forall t :: 0 <= t < Nobs(op) ==>
      0 <= op.offset + t * op.m < op.stateSize && Apply(op, x, Nobs(op)).value[t] == x[op.offset + t * op.m]
  {
    QGNobsMatchesApply(op);
    StrideEntries(op.offset, op.m, op.stateSize);
    var st := Stride(op.offset, op.m, op.stateSize);
    assert Apply(op, x, Nobs(op)) == Rows(x, st);
    assert Rows(x, st).Ok?;
    var y := Rows(x, st).value;
    forall t | 0 <= t < Nobs(op)
      ensures 0 <= op.offset + t * op.m < op.stateSize && y[t] == x[op.offset + t * op.m]
    {
      assert st[t] == op.offset + t * op.m;
    }
  }

  /** The QG subset agrees with `apply`: row `t` of the subset's output is
      row `indices[t]` of the full output. */
  lemma QGSubsetAgreesWithApply(op: ObsOperator, indices: seq<nat>, x: Matrix)
    requires op.QGOp? && Valid(op) && op.offset >= 0
    requires IsMatrix(x, op.stateSize, Cols(x))
    requires forall t :: 0 <= t < |indices| ==> indices[t] < Nobs(op)
    ensures Apply(op, x, Nobs(op)).Ok? && |Apply(op, x, Nobs(op)).value| == Nobs(op)
    ensures Apply(Subset(op, indices).value.value, x, |indices|).Ok?
    ensures Apply(Subset(op, indices).value.value, x, |indices|).value == SelectRows(Apply(op, x, Nobs(op)).value, indices)
  {
    QGApplyRows(op, x);
    QGNobsMatchesApply(op);
    var full := Apply(op, x, Nobs(op)).value;
    var rows := seq(|indices|, t requires 0 <= t < |indices| => indices[t] * op.m + op.offset);
    forall t | 0 <= t < |indices|
      ensures 0 <= rows[t] < |x| && x[rows[t]] == full[indices[t]]
    {
      var i := indices[t];
      assert op.offset + i * op.m == QGObservedIndices(op)[i];
      StrideEntries(op.offset, op.m, op.stateSize);
    }
  }

  /** The matrix subset agrees with `apply` in the same way. */
  lemma MatrixSubsetAgreesWithApply(op: ObsOperator, indices: seq<nat>, x: Matrix)
    requires op.MatrixOp? && Valid(op)
    requires IsMatrix(x, op.cols, Cols(x))
    requires forall t :: 0 <= t < |indices| ==> indices[t] < |op.H|
    ensures Apply(Subset(op, indices).value.value, x, |indices|).Ok?
    ensures Apply(Subset(op, indices).value.value, x, |indices|).value == SelectRows(Apply(op, x, |op.H|).value, indices)
  {
  }
}

=== FILE: py_array_cache.dfy ===
/** The plain Python array cache (`ArrayCache` in python/endas/arraycache.py).

    Objects are stored in a dictionary under keys `1, 2, 3, ...`: the counter is
    incremented before it is used. Values are immutable here, so the deep copies
    the Python code makes are indistinguishable from the stored objects and
    `force_copy` has no observable effect in the model. The stored objects
    are the ensembles and covariances of the smoothers, so values are
    matrices.
 */
module PyArrayCache {
  import opened Wrappers
  import opened Matrices

  datatype ArrayCache = ArrayCache(store: map<int, Matrix>, keycounter: int)

  /** `ArrayCache()`: empty, counter 0. */
  function New(): (c: ArrayCache)
    ensures c.store == map[] && c.keycounter == 0
  {
    ArrayCache(map[], 0)
  }

  /** `put`: pre-increments the counter and stores `data` under the new value. */
  function Put(c: ArrayCache, data: Matrix): (r: (ArrayCache, int))
    ensures r.1 == c.keycounter + 1 == r.0.keycounter
    ensures r.0.store == c.store[r.1 := data]
  {
    var key := c.keycounter + 1;
    (ArrayCache(c.store[key := data], key), key)
  }

  /** `get`: the object stored under `handle`; an unknown handle raises KeyError. */
  function Get(c: ArrayCache, handle: int, forceCopy: bool): (r: Result<Matrix>)
    ensures r.Ok? <==> handle in c.store
    ensures r.Ok? ==> r.value == c.store[handle]
    ensures r.Fail? ==> r.error == KeyError
  {
    if handle in c.store then Ok(c.store[handle]) else Fail(KeyError)
  }

  /** `remove`: `del` of an unknown handle raises KeyError. */
  function Remove(c: ArrayCache, handle: int): (r: Result<ArrayCache>)
    ensures r.Ok? <==> handle in c.store
    ensures r.Ok? ==> r.value.store.Keys == c.store.Keys - {handle} && r.value.keycounter == c.keycounter
    ensures r.Ok? ==> forall h :: h in r.value.store ==> r.value.store[h] == c.store[h]
    ensures r.Fail? ==> r.error == KeyError
  {
    if handle in c.store then Ok(c.(store := c.store - {handle})) else Fail(KeyError)
  }

  /** `clear`: empties the store and restarts the counter. */
  function Clear(c: ArrayCache): (d: ArrayCache)
    ensures d.store == map[] && d.keycounter == 0
  {
    New()
  }

  /** Handles are positive and never reused while the counter only grows:
      a store whose keys are at most the counter gets a fresh key from `put`. */
  predicate Valid(c: ArrayCache) {
    c.keycounter >= 0 && forall h :: h in c.store ==> 1 <= h <= c.keycounter
  }

  lemma PutFreshKey(c: ArrayCache, data: Matrix)
    requires Valid(c)
    ensures Put(c, data).1 !in c.store && Put(c, data).1 >= 1
    ensures Valid(Put(c, data).0)
  {
  }

  /** The first handle after construction or `clear` is 1. */
  lemma FirstHandleIsOne(c: ArrayCache, data: Matrix)
    ensures Put(New(), data).1 == 1
    ensures Put(Clear(c), data).1 == 1
  {
  }

  /** `get` after `put` returns the stored object; `get` after `remove` raises. */
  lemma GetAfterPutAndRemove(c: ArrayCache, data: Matrix, forceCopy: bool)
    ensures var (d, h) := Put(c, data);
      Get(d, h, forceCopy) == Ok(data) &&
      Get(Remove(d, h).value, h, forceCopy) == Fail(KeyError)
  {
  }
}

=== FILE: region.dfy ===
/** `Region2d` (endas/localization/region.py): the rectangle
    `[x, xend) x [y, yend)` in the plane. The Python methods that mutate
    `self` and return it become functions returning the new value.
 */
module Region {

  datatype Region2d = Region2d(x: real, y: real, xend: real, yend: real)

  /** The point `(px, py)` lies in the half-open rectangle. */
  predicate Contains(r: Region2d, px: real, py: real) {
    r.x <= px < r.xend && r.y <= py < r.yend
  }

  /** `copy`: a new region with the same bounds. */
  function Copy(r: Region2d): (c: Region2d)
    ensures c == r
    ensures forall px, py :: Contains(c, px, py) <==> Contains(r, px, py)
  {
    Region2d(r.x, r.y, r.xend, r.yend)
  }

  /** `inflate(dx, dy)`: every side moves outwards by `dx` or `dy`. */
  function Inflate(r: Region2d, dx: real, dy: real): (s: Region2d)
    ensures Shape(s) == (Shape(r).0 + 2.0 * dy, Shape(r).1 + 2.0 * dx)
    ensures Centre(s) == Centre(r)
  {
    Region2d(r.x - dx, r.y - dy, r.xend + dx, r.yend + dy)
  }

  /** `clip(x, y, xend, yend)`: the intersection with the given bounds. */
  function Clip(r: Region2d, x: real, y: real, xend: real, yend: real): (s: Region2d)
    ensures s == Region2d(Max(r.x, x), Max(r.y, y), Min(r.xend, xend), Min(r.yend, yend))
    ensures s.x >= r.x && s.x >= x && s.y >= r.y && s.y >= y
    ensures s.xend <= r.xend && s.xend <= xend && s.yend <= r.yend && s.yend <= yend
    ensures forall px, py :: Contains(s, px, py) <==> Contains(r, px, py) && Contains(Region2d(x, y, xend, yend), px, py)
  {
    Region2d(Max(r.x, x), Max(r.y, y), Min(r.xend, xend), Min(r.yend, yend))
  }

  /** Python's `max` and `min` of two numbers. */
  function Max(a: real, b: real): (m: real)
    ensures m >= a && m >= b && (m == a || m == b)
  {
    if a >= b then a else b
  }

  function Min(a: real, b: real): (m: real)
    ensures m <= a && m <= b && (m == a || m == b)
  {
    if a <= b then a else b
  }

  /** `shape`: (rows, columns), that is (height, width). */
  function Shape(r: Region2d): (real, real) {
    (r.yend - r.y, r.xend - r.x)
  }

  /** `area()`: the product of the two extents (negative when exactly one of
      them is). */
  function Area(r: Region2d): (a: real)
    ensures a == Shape(r).0 * Shape(r).1
    ensures r.x <= r.xend && r.y <= r.yend ==> a >= 0.0
    ensures r.x == r.xend || r.y == r.yend ==> a == 0.0
  {
    var shp := Shape(r);
    shp.0 * shp.1
  }

  /** `centre`: the midpoint of each interval. */
  function Centre(r: Region2d): (real, real) {
    (r.x + (r.xend - r.x) / 2.0, r.y + (r.yend - r.y) / 2.0)
  }

  // ---------------------------------------------------------------------------
  // Properties

  /** Inflating by zero changes nothing, and two inflations add up. */
  lemma InflateCompose(r: Region2d, dx1: real, dy1: real, dx2: real, dy2: real)
    ensures Inflate(r, 0.0, 0.0) == r
    ensures Inflate(Inflate(r, dx1, dy1), dx2, dy2) == Inflate(r, dx1 + dx2, dy1 + dy2)
  {
  }

  /** Clipping twice to the same bounds is clipping once. */
  lemma ClipIdempotent(r: Region2d, x: real, y: real, xend: real, yend: real)
    ensures Clip(Clip(r, x, y, xend, yend), x, y, xend, yend) == Clip(r, x, y, xend, yend)
  {
  }

  /** A region clipped to its own bounds is unchanged. */
  lemma ClipToSelf(r: Region2d)
    ensures Clip(r, r.x, r.y, r.xend, r.yend) == r
  {
  }

  /** Clipping never lengthens a side of a non-empty region. */
  lemma ClipShrinks(r: Region2d, x: real, y: real, xend: real, yend: real)
    requires r.x <= r.xend && r.y <= r.yend
    ensures var s := Clip(r, x, y, xend, yend);
      s.xend - s.x <= r.xend - r.x && s.yend - s.y <= r.yend - r.y
  {
  }

  /** The area of an inflated region is the product of the grown extents. */
  lemma AreaOfInflate(r: Region2d, dx: real, dy: real)
    ensures Area(Inflate(r, dx, dy)) == (Shape(r).0 + 2.0 * dy) * (Shape(r).1 + 2.0 * dx)
  {
  }

  /** Clipping a region with non-reversed sides never increases its area,
      as long as the clipped region's sides are not reversed either; when
      exactly one of them is, the area is negative. */
  lemma ClipAreaShrinks(r: Region2d, x: real, y: real, xend: real, yend: real)
    requires r.x <= r.xend && r.y <= r.yend
    ensures var s := Clip(r, x, y, xend, yend);
      s.x <= s.xend && s.y <= s.yend ==> 0.0 <= Area(s) <= Area(r)
    ensures var s := Clip(r, x, y, xend, yend);
      (s.x <= s.xend) != (s.y <= s.yend) ==> Area(s) <= 0.0 <= Area(r)
  {
    var s := Clip(r, x, y, xend, yend);
    ClipShrinks(r, x, y, xend, yend);
    if s.x <= s.xend && s.y <= s.yend {
      ProductMono(Shape(s).0, Shape(r).0, Shape(s).1, Shape(r).1);
    } else if s.x <= s.xend {
      ProductSign(Shape(s).0, Shape(s).1);
    } else if s.y <= s.yend {
      ProductSign(Shape(s).1, Shape(s).0);
    }
  }

  /** `0 <= a <= b` and `0 <= c <= d` give `0 <= a·c <= b·d`. */
  lemma ProductMono(a: real, b: real, c: real, d: real)
    requires 0.0 <= a <= b && 0.0 <= c <= d
    ensures 0.0 <= a * c <= b * d
  {
    assert a * c <= b * c;
    assert b * c <= b * d;
  }

  /** A non-positive times a non-negative number is non-positive. */
  lemma ProductSign(a: real, b: real)
    requires a <= 0.0 <= b
    ensures a * b <= 0.0 && b * a <= 0.0
  {
  }
}

=== FILE: second_order_sampling.dfy ===
/** `SecondOrderExactSample` (src/Utils/SecondOrderSampling.cpp): the
    bookkeeping around the EOFs (left singular vectors and singular values) of
    an ensemble. The SVD, the QR decomposition and the random draws are not
    modelled; the singular values enter as a parameter shaped like Eigen's
    output.
 */
module SecondOrderSampling {
  import opened Wrappers
  import opened Matrices

  /** What `JacobiSVD` hands back: non-negative singular values in
      non-increasing order, the first `nonzero` of them positive. */
  predicate SvdOutput(S: seq<real>, nonzero: nat) {
    && nonzero <= |S|
    && (forall i :: 0 <= i < |S| ==> S[i] >= 0.0)
    && (forall i, j :: 0 <= i <= j < |S| ==> S[i] >= S[j])
    && (forall i :: 0 <= i < nonzero ==> S[i] > 0.0)
  }

  /** The number of leading singular values whose ratio to the largest one is
      above `cutoff`. */
  predicate CutoffSplit(S: seq<real>, nonzero: nat, a: nat, cutoff: real)
    requires nonzero <= |S| && |S| > 0 && S[0] > 0.0
  {
    && a <= nonzero
    && (forall i :: 0 <= i < a ==> S[i] / S[0] > cutoff)
    && (forall i :: a <= i < nonzero ==> S[i] / S[0] <= cutoff)
  }

  lemma RatioMonotone(x: real, y: real, m: real)
    requires m > 0.0 && x >= y
    ensures x / m >= y / m
  {
  }

  /** The number of EOFs `initFromStates` keeps: all non-zero singular values,
      or, with a positive `cutoff`, the binary search for the first one whose
      ratio to `S.maxCoeff()` is at most the cutoff. `maxCoeff` of an empty
      array fails Eigen's assertion. */
  method NumEOFsKept(S: seq<real>, nonzero: nat, cutoff: real) returns (r: Result<nat>)
    requires SvdOutput(S, nonzero)
    ensures cutoff <= 0.0 ==> r == Ok(nonzero)
    ensures cutoff > 0.0 && |S| == 0 ==> r.Fail?
    ensures cutoff > 0.0 && |S| > 0 ==> r.Ok? && r.value <= nonzero
    ensures cutoff > 0.0 && |S| > 0 && S[0] > 0.0 ==> CutoffSplit(S, nonzero, r.value, cutoff)
  {
    if cutoff <= 0.0 {
      return Ok(nonzero);
    }
    if |S| == 0 {
      return Fail(AssertionError("this->rows()>0 && this->cols()>0"));
    }
    var maxS := S[0];
    var a := 0;
    var b := nonzero;
    while a < b
      invariant 0 <= a <= b <= nonzero
      invariant maxS > 0.0 ==> forall i :: 0 <= i < a ==> S[i] / maxS > cutoff
      invariant maxS > 0.0 ==> forall i :: b <= i < nonzero ==> S[i] / maxS <= cutoff
      decreases b - a
    {
      var mid := (a + b) / 2;
      var s := S[mid] / maxS;
      if s > cutoff {
        forall i | 0 <= i <= mid
          ensures maxS > 0.0 ==> S[i] / maxS > cutoff
        {
          if maxS > 0.0 {
            RatioMonotone(S[i], S[mid], maxS);
          }
        }
        a := mid + 1;
      } else {
        forall i | mid <= i < nonzero
          ensures maxS > 0.0 ==> S[i] / maxS <= cutoff
        {
          if maxS > 0.0 {
            RatioMonotone(S[mid], S[i], maxS);
          }
        }
        b := mid;
      }
    }
    return Ok(a);
  }

  /** The sampler's state: the kept singular values and EOFs. */
  datatype Sampler = Sampler(S: seq<real>, U: Matrix)

  /** `initFromEOFs(S, U)`: one column of `U` per singular value. */
  function InitFromEOFs(S: seq<real>, U: Matrix): (r: Result<Sampler>)
    ensures r.Ok? <==> Cols(U) == |S|
    ensures r.Ok? ==> NumEOFs(r.value) == |S| && r.value.U == U
    ensures r.Fail? ==> r.error == AssertionError("U.cols() == S.size()")
  {
    if Cols(U) != |S| then Fail(AssertionError("U.cols() == S.size()")) else
    Ok(Sampler(S, U))
  }

  /** `numEOFs()`: the number of stored singular values. */
  function NumEOFs(s: Sampler): nat {
    |s.S|
  }

  /** The argument checks of `samplePerturbations(out)` for an `n x N`
      output: at most one member per EOF, one row per state variable. */
  function SamplePerturbationsChecks(s: Sampler, n: nat, N: nat): (r: Outcome)
    ensures r.Pass? <==> N <= NumEOFs(s) && n == |s.U|
    ensures N > NumEOFs(s) ==> r == Failure(InvalidArgument("N cannot be larger than the number of EOFs"))
    ensures N <= NumEOFs(s) && n != |s.U| ==> r == Failure(AssertionError("n == mU.rows()"))
  {
    if N > NumEOFs(s) then Failure(InvalidArgument("N cannot be larger than the number of EOFs"))
    else Check(n == |s.U|, "n == mU.rows()")
  }

  /** The check of `generateRandomOrthoMatrix(out)`: the output is square. */
  function RandomOrthoMatrixCheck(rows: nat, cols: nat): (r: Outcome)
    ensures r.Pass? <==> rows == cols
    ensures r.Failure? ==> r.error == AssertionError("out.rows() == out.cols()")
  {
    Check(rows == cols, "out.rows() == out.cols()")
  }

  /** The split point is unique, so `NumEOFsKept` determines the kept count
      whatever order the search probes in. */
  lemma CutoffSplitUnique(S: seq<real>, nonzero: nat, a1: nat, a2: nat, cutoff: real)
    requires nonzero <= |S| && |S| > 0 && S[0] > 0.0
    requires CutoffSplit(S, nonzero, a1, cutoff) && CutoffSplit(S, nonzero, a2, cutoff)
    ensures a1 == a2
  {
    // Both split points classify the smaller of the two the same way.
    var m := if a1 <= a2 then a1 else a2;
    assert m < nonzero ==> (m < a1 <==> S[m] / S[0] > cutoff) && (m < a2 <==> S[m] / S[0] > cutoff);
  }
}

=== FILE: smoother_layout.dfy ===
/** The index bookkeeping of the fixed-lag ensemble smoother
    (src/DA/Algorithm/EnsembleKalmanSmoother.cpp): where each local domain
    lives in the augmented ensemble built by `localize`, the walk
    `foreachNonemptyDomain`, the forgetting factor applied to a stored
    transform, and which cached steps one pass of `laggedSmoother` visits and
    hands to the result callback.
 */
module SmootherLayout {
  import opened Wrappers
  import opened Matrices

  // ---------------------------------------------------------------------------
  // Layout of the augmented ensemble

  /** The sum of a sequence of sizes. */
  function Sum(s: seq<int>): int {
    if |s| == 0 then 0 else Sum(s[..|s| - 1]) + s[|s| - 1]
  }

  /** The number of positive sizes. */
  function CountNonempty(s: seq<int>): nat {
    if |s| == 0 then 0 else CountNonempty(s[..|s| - 1]) + (if s[|s| - 1] > 0 then 1 else 0)
  }

  /** `locStateLimits` (start and size per domain), `locXLimits`,
      `locNumNonemptyDomains` and `locTotalStateSize`. */
  datatype Layout = Layout(starts: seq<int>, nlocs: seq<int>, xLimits: seq<int>, numNonempty: nat, total: int)

  /** The layout for the given local sizes and ensemble size `N`, in closed
      form: domain `d` starts after all smaller domains, and its transform
      slot follows one `N x N` block per earlier non-empty domain. */
  function LayoutOf(sizes: seq<int>, N: int): (L: Layout)
    ensures |L.starts| == |L.nlocs| == |L.xLimits| == |sizes|
  {
    Layout(seq(|sizes|, d requires 0 <= d < |sizes| => Sum(sizes[..d])),
           sizes,
           seq(|sizes|, d requires 0 <= d < |sizes| => CountNonempty(sizes[..d]) * N),
           CountNonempty(sizes),
           Sum(sizes))
  }

  lemma SnocPrefix(s: seq<int>, d: nat)
    requires d < |s|
    ensures s[..d + 1][..d] == s[..d] && s[..d + 1][d] == s[d]
  {
  }

  /** The loop of `localize` over all domains: it asserts that every local
      size is non-negative and otherwise computes exactly `LayoutOf`. */
  method ComputeLayout(sizes: seq<int>, N: int) returns (r: Result<Layout>)
    ensures r.Ok? <==> forall d :: 0 <= d < |sizes| ==> sizes[d] >= 0
    ensures r.Ok? ==> r.value == LayoutOf(sizes, N)
    ensures r.Fail? ==> r.error == AssertionError("nloc >= 0")
  {
    var starts: seq<int> := [];
    var xLimits: seq<int> := [];
    var nonempty: nat := 0;
    var total := 0;
    var d := 0;
    while d != |sizes|
      invariant 0 <= d <= |sizes|
      invariant forall e :: 0 <= e < d ==> sizes[e] >= 0
      invariant |starts| == d && |xLimits| == d
      invariant forall e :: 0 <= e < d ==> starts[e] == Sum(sizes[..e])
      invariant forall e :: 0 <= e < d ==> xLimits[e] == CountNonempty(sizes[..e]) * N
      invariant total == Sum(sizes[..d]) && nonempty == CountNonempty(sizes[..d])
    {
      var nloc := sizes[d];
      if nloc < 0 {
        return Fail(AssertionError("nloc >= 0"));
      }
      SnocPrefix(sizes, d);
      starts := starts + [total];
      total := total + nloc;
      xLimits := xLimits + [nonempty * N];
      if nloc > 0 {
        nonempty := nonempty + 1;
      }
      d := d + 1;
    }
    assert sizes[..d] == sizes;
    return Ok(Layout(starts, sizes, xLimits, nonempty, total));
  }

  /** Consecutive domains occupy consecutive, non-overlapping row blocks, and
      the last one ends at the total size. */
  lemma BlocksContiguous(sizes: seq<int>, N: int, d: nat)
    requires d < |sizes|
    ensures var L := LayoutOf(sizes, N);
      L.starts[d] + L.nlocs[d] == (if d + 1 < |sizes| then L.starts[d + 1] else L.total)
  {
    SnocPrefix(sizes, d);
    if d + 1 == |sizes| {
      assert sizes[..d + 1] == sizes;
    }
  }

  /** With non-negative sizes every block lies inside `[0, total)`. */
  lemma {:induction false} PrefixSumBounded(s: seq<int>, d: nat)
    requires d <= |s| && forall e :: 0 <= e < |s| ==> s[e] >= 0
    ensures 0 <= Sum(s[..d]) <= Sum(s)
    decreases |s|
  {
    if d == |s| {
      assert s[..d] == s;
      if |s| > 0 {
        PrefixSumBounded(s[..|s| - 1], |s| - 1);
        assert s[..|s| - 1][..|s| - 1] == s[..|s| - 1];
      }
    } else {
      var p := s[..|s| - 1];
      PrefixSumBounded(p, d);
      assert p[..d] == s[..d];
    }
  }

  // ---------------------------------------------------------------------------
  // foreachNonemptyDomain

  /** One call of the `foreachNonemptyDomain` callback: domain, running index,
      start row and local size. */
  datatype Visit = Visit(d: int, i: int, start: int, nloc: int)

  /** The calls from domain `d` on, with running index `i`; a domain of size
      zero is skipped. */
  function VisitsFrom(L: Layout, d: nat, i: int): seq<Visit>
    decreases |L.nlocs| - d
  {
    if d >= |L.nlocs| || d >= |L.starts| then []
    else if L.nlocs[d] == 0 then VisitsFrom(L, d + 1, i)
    else [Visit(d, i, L.starts[d], L.nlocs[d])] + VisitsFrom(L, d + 1, i + 1)
  }

  /** `foreachNonemptyDomain`. */
  function Visits(L: Layout): seq<Visit> {
    VisitsFrom(L, 0, 0)
  }

  /** The walk from domain `d` on, with any running index: each call names a
      non-empty domain at or after `d`, with its start and size, in strictly
      increasing domain order. */
  lemma {:induction false} VisitsFromShape(L: Layout, d: nat, i: int)
    requires |L.starts| == |L.nlocs| && forall e :: 0 <= e < |L.nlocs| ==> L.nlocs[e] >= 0
    ensures var V := VisitsFrom(L, d, i);
      && (forall k :: 0 <= k < |V| ==>
            && d <= V[k].d < |L.nlocs|
            && V[k].i == i + k
            && V[k].nloc == L.nlocs[V[k].d] > 0
            && V[k].start == L.starts[V[k].d])
      && (forall k1, k2 :: 0 <= k1 < k2 < |V| ==> V[k1].d < V[k2].d)
    decreases |L.nlocs| - d
  {
    if d < |L.nlocs| {
      if L.nlocs[d] == 0 {
        VisitsFromShape(L, d + 1, i);
        assert VisitsFrom(L, d, i) == VisitsFrom(L, d + 1, i);
      } else {
        VisitsFromShape(L, d + 1, i + 1);
        assert VisitsFrom(L, d, i) == [Visit(d, i, L.starts[d], L.nlocs[d])] + VisitsFrom(L, d + 1, i + 1);
      }
    }
  }

  /** Some call of the walk `V` names domain `e`. */
  predicate VisitsDomain(V: seq<Visit>, e: int) {
    exists k :: 0 <= k < |V| && V[k].d == e
  }

  /** Every non-empty domain at or after `d` is visited. */
  lemma {:induction false} VisitsFromComplete(L: Layout, d: nat, i: int, e: int)
    requires |L.starts| == |L.nlocs|
    requires d <= e < |L.nlocs| && L.nlocs[e] > 0
    ensures VisitsDomain(VisitsFrom(L, d, i), e)
    decreases |L.nlocs| - d
  {
    var V := VisitsFrom(L, d, i);
    if e == d {
      assert V[0].d == e;
    } else if L.nlocs[d] == 0 {
      VisitsFromComplete(L, d + 1, i, e);
      var W := VisitsFrom(L, d + 1, i);
      assert V == W;
    } else {
      VisitsFromComplete(L, d + 1, i + 1, e);
      var W := VisitsFrom(L, d + 1, i + 1);
      assert V == [Visit(d, i, L.starts[d], L.nlocs[d])] + W;
      var k :| 0 <= k < |W| && W[k].d == e;
      assert V[k + 1].d == e;
    }
  }

  /** Started with the count of non-empty domains before `d`, the running
      index of each call is the count of non-empty domains before the
      visited one, and the walk makes one call per remaining non-empty
      domain. */
  lemma {:induction false} VisitsFromCounts(sizes: seq<int>, N: int, d: nat)
    requires d <= |sizes| && forall e :: 0 <= e < |sizes| ==> sizes[e] >= 0
    ensures var V := VisitsFrom(LayoutOf(sizes, N), d, CountNonempty(sizes[..d]));
      && |V| == CountNonempty(sizes) - CountNonempty(sizes[..d])
      && forall k :: 0 <= k < |V| ==> 0 <= V[k].d < |sizes| && V[k].i == CountNonempty(sizes[..V[k].d])
    decreases |sizes| - d
  {
    var L := LayoutOf(sizes, N);
    if d == |sizes| {
      assert sizes[..d] == sizes;
    } else {
      SnocPrefix(sizes, d);
      VisitsFromCounts(sizes, N, d + 1);
      var c := CountNonempty(sizes[..d]);
      if sizes[d] == 0 {
        assert VisitsFrom(L, d, c) == VisitsFrom(L, d + 1, c);
      } else {
        assert VisitsFrom(L, d, c) == [Visit(d, c, L.starts[d], L.nlocs[d])] + VisitsFrom(L, d + 1, c + 1);
      }
    }
  }

  /** `foreachNonemptyDomain` visits exactly the non-empty domains, in
      increasing order, and the running index `i` of domain `d` satisfies
      `i * N == locXLimits(d)`: `assimilate` (which reads `locXLimits`) and
      `laggedSmoother` (which uses `i * N`) address the same transform. */
  lemma VisitsExact(sizes: seq<int>, N: int)
    requires forall e :: 0 <= e < |sizes| ==> sizes[e] >= 0
    ensures var L := LayoutOf(sizes, N);
      var V := Visits(L);
      && |V| == L.numNonempty
      && (forall k :: 0 <= k < |V| ==>
            && 0 <= V[k].d < |sizes|
            && V[k].i == k
            && V[k].nloc == sizes[V[k].d] > 0
            && V[k].start == L.starts[V[k].d]
            && V[k].i * N == L.xLimits[V[k].d])
      && (forall k1, k2 :: 0 <= k1 < k2 < |V| ==> V[k1].d < V[k2].d)
      && (forall e :: 0 <= e < |sizes| && sizes[e] > 0 ==> VisitsDomain(V, e))
  {
    var L := LayoutOf(sizes, N);
    assert sizes[..0] == [];
    VisitsFromShape(L, 0, 0);
    forall e | 0 <= e < |sizes| && sizes[e] > 0
      ensures VisitsDomain(Visits(L), e)
    {
      VisitsFromComplete(L, 0, 0, e);
    }
    VisitsFromCounts(sizes, N, 0);
  }

  /** The calls `vs` address row blocks, and transform slots of `N` rows,
      that follow each other without overlap. */
  predicate Ordered(vs: seq<Visit>) {
    && (forall k :: 0 <= k < |vs| ==> 0 <= vs[k].start && 0 <= vs[k].nloc && 0 <= vs[k].i)
    && (forall k1, k2 :: 0 <= k1 < k2 < |vs| ==> vs[k1].start + vs[k1].nloc <= vs[k2].start && vs[k1].i < vs[k2].i)
  }

  /** The calls after the first are in order too. */
  lemma OrderedTail(vs: seq<Visit>)
    requires Ordered(vs) && |vs| > 0
    ensures Ordered(vs[1..])
  {
    var rest := vs[1..];
    forall k1, k2 | 0 <= k1 < k2 < |rest|
      ensures rest[k1].start + rest[k1].nloc <= rest[k2].start && rest[k1].i < rest[k2].i
    {
      assert rest[k1] == vs[k1 + 1] && rest[k2] == vs[k2 + 1];
    }
  }

  /** Slot `i1` of `N` rows ends where a later slot `i2` may start. */
  lemma SlotBefore(i1: int, i2: int, N: nat)
    requires 0 <= i1 < i2
    ensures 0 <= i1 * N && i1 * N + N <= i2 * N
  {
    assert (i2 - i1 - 1) * N >= 0;
    assert i2 * N == (i2 - i1 - 1) * N + i1 * N + N;
  }

  /** Prefix sums of non-negative sizes grow with the prefix. */
  lemma {:induction false} PrefixSumMono(s: seq<int>, a: nat, b: nat)
    requires a <= b <= |s| && forall e :: 0 <= e < |s| ==> s[e] >= 0
    ensures Sum(s[..a]) <= Sum(s[..b])
    decreases b
  {
    if a < b {
      PrefixSumMono(s, a, b - 1);
      SnocPrefix(s, b - 1);
    }
  }

  /** The walk over the layout `localize` builds addresses blocks and slots
      in order and without overlap. */
  lemma LayoutVisitsOrdered(sizes: seq<int>, N: int)
    requires forall e :: 0 <= e < |sizes| ==> sizes[e] >= 0
    ensures Ordered(Visits(LayoutOf(sizes, N)))
  {
    VisitsExact(sizes, N);
    var L := LayoutOf(sizes, N);
    var V := Visits(L);
    forall k | 0 <= k < |V|
      ensures 0 <= V[k].start
    {
      PrefixSumBounded(sizes, V[k].d);
    }
    forall k1, k2 | 0 <= k1 < k2 < |V|
      ensures V[k1].start + V[k1].nloc <= V[k2].start
    {
      var d1 := V[k1].d;
      SnocPrefix(sizes, d1);
      PrefixSumMono(sizes, d1 + 1, V[k2].d);
    }
  }

  // ---------------------------------------------------------------------------
  // Forgetting factor

  /** The identity matrix's entry `(i, j)`. */
  function Delta(i: int, j: int): real {
    if i == j then 1.0 else 0.0
  }

  /** `smootherApplyForgetFactor(X, f)`: `X := (X - I) * f + I`, computed
      entry by entry; `f == 1` returns at once. */
  function ApplyForget(X: Matrix, f: real): (Y: Matrix)
    ensures |Y| == |X| && forall i :: 0 <= i < |X| ==> |Y[i]| == |X[i]|
    ensures forall i, j :: 0 <= i < |X| && 0 <= j < |X[i]| ==> Y[i][j] - Delta(i, j) == f * (X[i][j] - Delta(i, j))
  {
    if f == 1.0 then X
    else
      seq(|X|, i requires 0 <= i < |X| =>
        seq(|X[i]|, j requires 0 <= j < |X[i]| =>
          if i == j then (X[i][j] - 1.0) * f + 1.0 else X[i][j] * f))
  }

  /** `f` to the power `t`. */
  function Pow(f: real, t: nat): real {
    if t == 0 then 1.0 else f * Pow(f, t - 1)
  }

  /** The transform after `t` in-place applications of the factor. */
  function ForgetPow(X: Matrix, f: real, t: nat): (Y: Matrix)
    ensures |Y| == |X| && forall i :: 0 <= i < |X| ==> |Y[i]| == |X[i]|
  {
    if t == 0 then X else ApplyForget(ForgetPow(X, f, t - 1), f)
  }

  /** A factor of one leaves a transform unchanged. */
  lemma ForgetOneIsIdentity(X: Matrix)
    ensures ApplyForget(X, 1.0) == X
  {
  }

  /** `c` multiplied by `f`, `t` times. */
  function Damp(c: real, f: real, t: nat): real {
    if t == 0 then c else f * Damp(c, f, t - 1)
  }

  lemma {:induction false} DampIsPow(c: real, f: real, t: nat)
    ensures Damp(c, f, t) == Pow(f, t) * c
  {
    if t > 0 {
      DampIsPow(c, f, t - 1);
      assert f * (Pow(f, t - 1) * c) == (f * Pow(f, t - 1)) * c;
    }
  }

  /** Applying the factor `t` times in place damps `X - I` by `f^t`, so
      older records see compounded damping. */
  lemma {:induction false} ForgetCompound(X: Matrix, f: real, t: nat, i: nat, j: nat)
    requires i < |X| && j < |X[i]|
    ensures ForgetPow(X, f, t)[i][j] - Delta(i, j) == Pow(f, t) * (X[i][j] - Delta(i, j))
  {
    ForgetDamps(X, f, t, i, j);
    DampIsPow(X[i][j] - Delta(i, j), f, t);
  }

  lemma {:induction false} ForgetDamps(X: Matrix, f: real, t: nat, i: nat, j: nat)
    requires i < |X| && j < |X[i]|
    ensures ForgetPow(X, f, t)[i][j] - Delta(i, j) == Damp(X[i][j] - Delta(i, j), f, t)
  {
    if t > 0 {
      ForgetDamps(X, f, t - 1, i, j);
    }
  }

  // ---------------------------------------------------------------------------
  // The lagged-smoother window

  /** The loop `for (j = start; j != stop; j--) { if (j < 0) break; ... }`. */
  function VisitFrom(j: int, stop: int): (js: seq<int>)
    ensures forall t :: 0 <= t < |js| ==> 0 <= js[t] <= j
    decreases j + 1
  {
    if j == stop || j < 0 then [] else [j] + VisitFrom(j - 1, stop)
  }

  /** The steps one pass of `laggedSmoother` visits among `kend` records. */
  function Visited(kend: int, lag: int): seq<int> {
    VisitFrom(kend - 1, kend - 1 - lag)
  }

  /** `jIsResult`: the record that has now seen `lag` later transforms, or
      every visited record when finishing. */
  predicate IsResult(j: int, kend: int, lag: int, finishing: bool) {
    j == kend - lag || finishing
  }

  /** The visited steps whose result is handed out, in visiting order. */
  function Emitted(js: seq<int>, kend: int, lag: int, finishing: bool): (es: seq<int>)
    ensures forall t :: 0 <= t < |es| ==> es[t] in js && IsResult(es[t], kend, lag, finishing)
  {
    if |js| == 0 then []
    else (if IsResult(js[0], kend, lag, finishing) then [js[0]] else []) + Emitted(js[1..], kend, lag, finishing)
  }

  function Min(a: int, b: int): (m: int)
    ensures m <= a && m <= b && (m == a || m == b)
  {
    if a <= b then a else b
  }

  function Max(a: int, b: int): (m: int)
    ensures m >= a && m >= b && (m == a || m == b)
  {
    if a >= b then a else b
  }

  lemma {:induction false} VisitFromDown(j: int, stop: int)
    requires -1 <= j && stop <= j
    ensures var js := VisitFrom(j, stop);
      && |js| == Min(j + 1, j - stop)
      && forall t :: 0 <= t < |js| ==> js[t] == j - t
    decreases j + 1
  {
    if j != stop && j >= 0 {
      VisitFromDown(j - 1, stop);
    }
  }

  /** A pass over `kend` records visits `kend - 1` down to
      `max(0, kend - lag)`, newest first; record `j` is visited exactly when
      `kend - lag <= j < kend`. */
  lemma VisitedRange(kend: int, lag: int)
    requires kend >= 0 && lag >= 0
    ensures var js := Visited(kend, lag);
      && |js| == Min(kend, lag)
      && (forall t :: 0 <= t < |js| ==> js[t] == kend - 1 - t)
      && (forall j :: j in js <==> 0 <= j && kend - lag <= j < kend)
  {
    VisitFromDown(kend - 1, kend - 1 - lag);
    var js := Visited(kend, lag);
    forall j | 0 <= j && kend - lag <= j < kend
      ensures j in js
    {
      assert js[kend - 1 - j] == j;
    }
  }

  lemma {:induction false} EmittedAll(js: seq<int>, kend: int, lag: int)
    ensures Emitted(js, kend, lag, true) == js
  {
    if |js| > 0 {
      EmittedAll(js[1..], kend, lag);
    }
  }

  lemma {:induction false} EmittedOnly(js: seq<int>, kend: int, lag: int)
    requires forall t :: 0 <= t < |js| ==> js[t] != kend - lag
    ensures Emitted(js, kend, lag, false) == []
  {
    if |js| > 0 {
      EmittedOnly(js[1..], kend, lag);
    }
  }

  /** Without finishing, a pass hands out only step `kend - lag`, and only
      once at least `lag >= 1` later steps exist; with `lag == 0` nothing is
      visited at all. */
  lemma NonFinishingEmitsOne(kend: int, lag: int)
    requires kend >= 0 && lag >= 0
    ensures Emitted(Visited(kend, lag), kend, lag, false) ==
      (if lag >= 1 && kend - lag >= 0 then [kend - lag] else [])
  {
    VisitedRange(kend, lag);
    var js := Visited(kend, lag);
    if lag >= 1 && kend - lag >= 0 {
      var last := |js| - 1;
      assert js[last] == kend - lag;
      assert js == js[..last] + [kend - lag];
      EmittedOnly(js[..last], kend, lag);
      EmittedAppend(js[..last], [kend - lag], kend, lag, false);
    } else {
      EmittedOnly(js, kend, lag);
    }
  }

  lemma {:induction false} EmittedAppend(a: seq<int>, b: seq<int>, kend: int, lag: int, finishing: bool)
    ensures Emitted(a + b, kend, lag, finishing) == Emitted(a, kend, lag, finishing) + Emitted(b, kend, lag, finishing)
  {
    if |a| > 0 {
      assert (a + b)[1..] == a[1..] + b;
      EmittedAppend(a[1..], b, kend, lag, finishing);
    } else {
      assert a + b == b;
    }
  }

  /** With finishing set, every visited record is handed out, newest first. */
  lemma FinishingEmitsWindow(kend: int, lag: int)
    requires kend >= 0 && lag >= 0
    ensures var es := Emitted(Visited(kend, lag), kend, lag, true);
      && |es| == Min(kend, lag)
      && forall t :: 0 <= t < |es| ==> es[t] == kend - 1 - t
  {
    EmittedAll(Visited(kend, lag), kend, lag);
    VisitedRange(kend, lag);
  }

  /** The steps `lo, lo + 1, ..., hi - 1`. */
  function Ascending(lo: int, hi: int): (s: seq<int>)
    ensures |s| == Max(hi - lo, 0)
    ensures forall t :: 0 <= t < |s| ==> s[t] == lo + t
  {
    if hi <= lo then [] else seq(hi - lo, t requires 0 <= t < hi - lo => lo + t)
  }

  /** What the analyses `1..T` hand out, the step count before analysis `t`
      being `t` (the initial record plus one per earlier analysis). */
  function AnalysesEmit(T: nat, lag: int): seq<int> {
    if T == 0 then [] else AnalysesEmit(T - 1, lag) + Emitted(Visited(T, lag), T, lag, false)
  }

  /** `beginSmoother`, `T` analyses and `endSmoother`, as step indices. */
  function RunEmits(T: nat, lag: int): seq<int> {
    AnalysesEmit(T, lag) + Emitted(Visited(T + 1, lag), T + 1, lag, true)
  }

  lemma {:induction false} AnalysesEmitAscending(T: nat, lag: int)
    requires lag >= 1
    ensures AnalysesEmit(T, lag) == Ascending(0, T - lag + 1)
  {
    if T > 0 {
      AnalysesEmitStep(T, lag);
      AnalysesEmitAscending(T - 1, lag);
      if T - lag >= 0 {
        AscendingSnoc(0, T - lag);
      } else {
        assert Ascending(0, T - lag) == [] == Ascending(0, T - lag + 1);
      }
    }
  }

  /** Analysis `T` adds record `T - lag` to what the earlier ones handed
      out, once it exists. */
  lemma AnalysesEmitStep(T: nat, lag: int)
    requires T > 0 && lag >= 1
    ensures AnalysesEmit(T, lag) == AnalysesEmit(T - 1, lag) + (if T - lag >= 0 then [T - lag] else [])
  {
    NonFinishingEmitsOne(T, lag);
  }


  lemma AscendingSnoc(lo: int, hi: int)
    requires lo <= hi
    ensures Ascending(lo, hi + 1) == Ascending(lo, hi) + [hi]
  {
  }

  /** Over a whole run with `lag >= 1` and `T` analyses, every step
      `0..T` is handed out exactly once: the analyses emit `0..T-lag` in
      order and `endSmoother` the rest, newest first. */
  lemma RunEmitsEachOnce(T: nat, lag: int)
    requires lag >= 1
    ensures var R := RunEmits(T, lag);
      && |R| == T + 1
      && (forall t :: 0 <= t < |R| ==> 0 <= R[t] <= T)
      && (forall a, b :: 0 <= a < b < |R| ==> R[a] != R[b])
      && (forall j :: 0 <= j <= T ==> j in R)
  {
    AnalysesEmitAscending(T, lag);
    FinishingEmitsWindow(T + 1, lag);
    var A := AnalysesEmit(T, lag);
    var F := Emitted(Visited(T + 1, lag), T + 1, lag, true);
    var R := RunEmits(T, lag);
    assert R == A + F;
    assert |A| + |F| == T + 1;
    forall j | 0 <= j <= T
      ensures j in R
    {
      if j < |A| {
        assert R[j] == j;
      } else {
        assert R[|A| + (T - j)] == j;
      }
    }
  }

  /** Record `j` is multiplied by the transform of analysis `t` exactly when
      `j < t <= j + lag`: it receives the transforms of at most `lag` later
      steps before it is handed out. */
  lemma TransformsReceived(j: int, t: int, lag: int)
    requires 0 <= j && t >= 0 && lag >= 0
    ensures j in Visited(t, lag) <==> j < t <= j + lag
  {
    VisitedRange(t, lag);
  }
}

=== FILE: wrappers.dfy ===
/** Failure-compatible wrappers shared by every module of the model.

    The library signals contract violations by throwing: `ENDAS_ASSERT` throws an
    `AssertionError`, `ENDAS_NOT_IMPLEMENTED` a `NotImplementedError`,
    `ENDAS_NOT_SUPPORTED` a `NotSupportedError`, `ENDAS_CHECK_ARGUMENT` and
    `ENDAS_REQUIRE` a `std::invalid_argument`. The Python half raises `KeyError`,
    `TypeError`, `ValueError` and `AssertionError`. Each of those becomes a `Fail` value here,
    and so does an index or size mismatch that only Eigen's own assertions catch.
 */
module Wrappers {

  /** Why an operation did not complete. */
  datatype Error =
    | AssertionError(expr: string)   // ENDAS_ASSERT / Python assert
    | NotImplementedError            // ENDAS_NOT_IMPLEMENTED
    | NotSupportedError(why: string) // ENDAS_NOT_SUPPORTED
    | InvalidArgument(msg: string)   // std::invalid_argument
    | KeyError                       // Python KeyError for an unknown key
    | TypeError                      // Python TypeError
    | ValueError(msg: string)        // Python / numpy ValueError
    | NullDereference                // use of an empty pointer (undefined behaviour in C++)
    | OutOfRange                     // an index or size Eigen's own debug assertions reject

  datatype Option<+T> = None | Some(value: T) {
    predicate IsFailure() { None? }

    function PropagateFailure<U>(): Option<U>
      requires None?
    {
      None
    }

    function Extract(): T
      requires Some?
    {
      value
    }
  }

  datatype Result<+T> = Ok(value: T) | Fail(error: Error) {
    predicate IsFailure() { Fail? }

    function PropagateFailure<U>(): Result<U>
      requires Fail?
    {
      Fail(error)
    }

    function Extract(): T
      requires Ok?
    {
      value
    }
  }

  /** A check with no value: it passes or fails with an error. */
  datatype Outcome = Pass | Failure(error: Error) {
    predicate IsFailure() { Failure? }

    function PropagateFailure<U>(): Result<U>
      requires Failure?
    {
      Fail(error)
    }
  }

  /** Pass when `cond` holds, fail with `e` otherwise. */
  function Need(cond: bool, e: Error): (r: Outcome)
    ensures r.Pass? <==> cond
    ensures r.Failure? ==> r.error == e
  {
    if cond then Pass else Failure(e)
  }

  /** The model of `ENDAS_ASSERT(cond)`. */
  function Check(cond: bool, expr: string): (r: Outcome)
    ensures r.Pass? <==> cond
    ensures r.Failure? ==> r.error == AssertionError(expr)
  {
    Need(cond, AssertionError(expr))
  }
}
